=== FILE: README.md ===
# Clef core, modelled in Dafny

Clef is a small language for writing music as text. A score holds staves; a staff holds
voices and measures. A measure holds notes, chords, rests, tuplets, slurs and markings:
dynamics, hairpins, pedals, meter, tempo and instrument changes. The core is a pipeline.

- The parser's transformer builds the syntax tree from the parse tree.
- The semantic analyzer checks that tree: measure lengths against the meter, tie
  resolution, tuplet headers, pedal order, dynamics, instruments and voice
  synchronisation. In strict mode it raises on the first error.
- The event compiler turns the tree into a time-ordered event graph. Times are measured in
  whole notes.
- Two back ends consume the graph. The FluidSynth back end converts event times into
  seconds through the tempo map. The MIDI back end turns every event into a MIDIUtil call
  on its staff's track.
- The transcription side runs the other way. It reads recognised music (from an optical
  music recogniser or MusicXML) and writes Clef text back out.

This project models each of those stages as pure Dafny functions over immutable datatypes,
with one module per source file:

| module | models |
|---|---|
| `Nodes` | the syntax-tree types and their conversions |
| `Transformer` | the parse-tree builders |
| `Analyzer` | the semantic analyzer |
| `Events` | events and the event graph |
| `Compiler` | the event compiler |
| `Playback` | seconds conversion in the FluidSynth back end |
| `MidiExport` | the MIDI back end |
| `Omr` | the music21 helpers of the recogniser |
| `Generator` | the Clef generator |

Four modules hold shared reasoning:

- `Agreement` relates the analyzer's duration arithmetic to the compiler's.
- `Measures` holds the voice-block bookkeeping that the parser, analyzer and compiler share.
- `Instruments` holds the General MIDI program table and the analyzer's instrument list.
- `Rational` holds normalised fractions.

The rest (`Text`, `Sorting`, `Dicts`, `Wrappers`) models the Python built-ins the code leans
on: string methods, `int()`, `sorted`, dictionaries, and `Optional`/exceptions. Fractions
are modelled as exact `real` values. Python's `Fraction` is exact, so this loses nothing.
A raised exception becomes the `Failure` side of a `Result`. The analyzer's mutable
context becomes a value that each validation step returns.

## Model

| member | source | states |
|---|---|---|
| Nodes.AccidentalFromStr | clef/ast/nodes.py:49-57 | any string outside the five symbols reads as a natural |
| Nodes.SemitoneOffset | clef/ast/nodes.py:59-67 | every accidental moves the pitch by between -2 and +2 semitones |
| Nodes.AccidentalRoundTrip | clef/ast/nodes.py:49-57 | reading back the symbol a pitch prints for an accidental gives that accidental (`from_str` inverts the print table of `__str__`) |
| Nodes.SymbolSpellsOffset | clef/ast/nodes.py:59-67 | the number of `#` minus the number of `b` in an accidental's symbol is its semitone offset |
| Nodes.OffsetInjective | clef/ast/nodes.py:59-67 | two accidentals with the same semitone offset are the same accidental |
| Nodes.StepBase | clef/ast/nodes.py:90-91 | each note letter's base is a pitch class below 12 |
| Nodes.StepFromChar | clef/parser/parser.py:101-102 | a recognised letter is the upper-case form of the input character |
| Nodes.StepRoundTrip | clef/parser/parser.py:101-102 | both the upper- and lower-case letter of a step read back as that step |
| Nodes.MidiNumber | clef/ast/nodes.py:88-96 | with the accidental's offset removed, the MIDI number has pitch class = the letter's base and quotient by 12 = octave + 1 |
| Nodes.MidiSamples | clef/ast/nodes.py:88-96 | C4 = 60 (middle C), D4 = 62, E4 = 64, F4 = 65, A4 = 69, C#4 = 61 |
| Nodes.MidiOctaveShift | clef/ast/nodes.py:88-96 | raising the octave by one raises the MIDI number by 12 |
| Nodes.EnharmonicEquivalence | clef/ast/nodes.py:111-113 | enharmonic equality is reflexive, symmetric and transitive; C#4 equals Db4 and B#3 equals C4, but C4 differs from C5 |
| Nodes.PitchToString | clef/ast/nodes.py:98-109 | the printed pitch starts with the note letter and has at least two characters |
| Nodes.PitchRoundTrip | clef/ast/nodes.py:98-109 | parsing the printed form of any pitch gives the pitch back |
| Nodes.Half | clef/ast/nodes.py:154-161 | the k-th halving of a whole lies in (0, 1] |
| Nodes.HalfTable | clef/ast/nodes.py:135-143 | the halvings are 1, 1/2, 1/4 … 1/64, the table's values |
| Nodes.NameValue | clef/ast/nodes.py:135-143 | a name has a value exactly when it is one of w h q e s t x; the k-th name is worth 1/2^k of a whole |
| Nodes.NameTablesInverse | clef/ast/nodes.py:163-173 | the printing table of `__str__` is the exact inverse of the `from_name` table |
| Nodes.DurationFromName | clef/ast/nodes.py:133-146 | succeeds exactly for the seven names and then keeps the requested dots; an unknown name is an error |
| Nodes.AddDotsClosed | clef/ast/nodes.py:154-161 | the dotting loop adds dot·(1 − 1/2^n) in total |
| Nodes.TotalValue | clef/ast/nodes.py:154-161 | a duration with n dots lasts base·(2 − 1/2^n) |
| Nodes.TotalValueBounds | clef/ast/nodes.py:154-161 | dots never double a note: base ≤ total < 2·base, and no dots means the base value |
| Nodes.DottedSamples | clef/ast/nodes.py:154-161 | a dotted quarter is 3/8 and a double-dotted half is 7/8 |
| Nodes.DurationToString | clef/ast/nodes.py:163-174 | the printed duration carries at least one `.` per dot |
| Nodes.DurationNameRoundTrip | clef/ast/nodes.py:133-174 | printing `from_name(n, d)` gives `n` followed by `d` dots |
| Nodes.DurationFractionFallback | clef/ast/nodes.py:172-173 | a base value outside the table prints as a fraction with `/` |
| Nodes.Ratio | clef/ast/nodes.py:342-344 | a tuplet ratio exists exactly when `actual` ≠ 0 (otherwise `Fraction` raises), and ratio·actual = normal |
| Nodes.TupletScale | clef/engine/compiler.py:600-609 | an enclosing ratio scaled by normal/actual, defined exactly when `actual` ≠ 0 |
| Nodes.BeatsPerMeasure | clef/ast/nodes.py:460-462 | a measure length exists exactly when the denominator is non-zero, and length·denominator = numerator |
| Nodes.MeterSamples | clef/ast/nodes.py:460-462 | 4/4 lasts a whole note, 3/4 and 6/8 last 3/4, a triplet ratio is 2/3 |
| Nodes.Velocity | clef/ast/nodes.py:371-386 | every marking maps into MIDI velocity 16..127, and an unknown marking maps to 80 (mf) |
| Nodes.VelocityMonotone | clef/ast/nodes.py:373-381 | along ppp … fff the velocity strictly increases, from 16 up to 127 |
| Nodes.HairpinFromStr | clef/ast/nodes.py:396-402 | a hairpin kind is recognised exactly when its lower-cased name is cresc, decresc or dim, and the kind found is the one that key stands for |
| Nodes.HairpinRoundTrip | clef/ast/nodes.py:396-402 | cresc reads as crescendo, decresc as decrescendo and dim as diminuendo |
| Nodes.PedalFromStr | clef/ast/nodes.py:429-435 | a pedal kind is recognised exactly when its lower-cased name is ped, ped_up or ped_change, and the kind found is the one that key stands for |
| Nodes.PedalRoundTrip | clef/ast/nodes.py:429-435 | ped reads as down, ped_up as up and ped_change as change |
| Nodes.ArticulationFromStr | clef/ast/nodes.py:192-202 | a recognised articulation is the one whose name is the lower-cased input |
| Nodes.ArticulationRoundTrip | clef/ast/nodes.py:192-202 | every articulation's own name reads back as that articulation |
| Nodes.OrnamentFromStr | clef/ast/nodes.py:224-232 | an ornament kind is recognised exactly when its lower-cased name is one of the five, and the kind found is the one that key stands for |
| Nodes.OrnamentRoundTrip | clef/ast/nodes.py:224-232 | mordent, turn, inverted_turn, shake and trill each read as their own kind |
| Events.EffectiveDuration | clef/engine/events.py:75-85 | the sounding length of a note never exceeds its written length and is never negative |
| Events.EffectiveDurationPrecedence | clef/engine/events.py:75-85 | staccato halves a note; a note sounds its full length exactly when it has tenuto or legato and neither staccato nor staccatissimo; staccatissimo without staccato quarters it; a note with none of the four length flags (whatever else it carries) sounds 90% |
| Events.SecondsPerWholeNote | clef/engine/events.py:110-118 | defined exactly when bpm and beat unit are non-zero, and then seconds·bpm·unit = 60 |
| Events.QuarterBeatSeconds | clef/engine/events.py:110-118 | with a quarter-note beat a whole note lasts 240/bpm seconds |
| Events.PedalValues | clef/engine/events.py:154-172 | pedal down sends controller value 127 and pedal up sends 0; the channel argument is ignored (a pedal event carries no channel) |
| Events.Priority | clef/engine/events.py:233-249 | each event's priority lies in 0..20 |
| Events.PriorityChain | clef/engine/events.py:233-249 | at equal times, tempo < meter < program < dynamic < pedal < note < rest or control |
| Events.EventLeIsPreorder | clef/engine/events.py:229-231 | the (start, priority) sort key is total and transitive |
| Events.SortEventsCorrect | clef/engine/events.py:229-231 | sorting is a permutation, ordered by start and then priority, and stable: events with equal keys keep their order |
| Events.GetDuration | clef/engine/events.py:251-263 | the duration is the latest end of any note or rest, and 0 when there are none |
| Events.EventsInRange | clef/engine/events.py:265-267 | keeps exactly the events whose start lies in [lo, hi) |
| Events.EventsInRangeOrder | clef/engine/events.py:265-267 | the range filter preserves order (it distributes over concatenation), and an empty window keeps nothing |
| Events.NoteEvents | clef/engine/events.py:269-271 | keeps exactly the note events |
| Events.NoteEventsOrder | clef/engine/events.py:269-271 | the note filter preserves order |
| Compiler.AllocateChannel | clef/engine/compiler.py:303-316 | the staff ends up mapped to the returned channel; the next free channel never goes down; channel validity is preserved |
| Compiler.AllocateChannelCorrect | clef/engine/compiler.py:303-316 | the returned channel is never 9 (drums); it is distinct from every other staff's channel; earlier assignments are kept; asking again returns the same channel |
| Compiler.ChannelNineSkipped | clef/engine/compiler.py:308-312 | when channel 9 is next, a new staff gets channel 10 and the counter moves to 11 |
| Compiler.Without | clef/engine/compiler.py:501 | removing the tied-from note keeps every other event |
| Compiler.Strike | clef/engine/compiler.py:480-523 | a struck note leaves a pending tie on its key exactly when the note is tied; every other key's pending tie is untouched |
| Compiler.StrikeExtends | clef/engine/compiler.py:484-502 | a note continuing a tie replaces the earlier note by one that starts where the earlier note started and lasts the sum of both |
| Compiler.StrikeFresh | clef/engine/compiler.py:506-520 | a note without a pending tie appends exactly one new note event |
| Compiler.OrnamentPitches | clef/engine/compiler.py:731-803 | each ornament expands to 0, 2, 4 or 8 notes |
| Compiler.OrnamentSpan | clef/engine/compiler.py:731-803 | an ornament's notes together fit in the written note's length |
| Compiler.OrnamentSlot | clef/engine/compiler.py:731-803 | each ornament note has positive length and lies within [start, start + duration] |
| Compiler.OrnamentEarlyAsWritten | clef/engine/compiler.py:526-529 | as written, with the cursor still at the note's onset, every ornament note ends by that onset, and so sounds before the note it decorates |
| Compiler.TrillAtStartAsWritten | clef/engine/compiler.py:738-745 | as written, a quarter C4 trill at time 0 starts at −1/4 |
| Compiler.OrnamentWithinNote | clef/engine/compiler.py:728-803 | starting at the note's own onset, every ornament note lies within the note |
| Compiler.GraceTime | clef/engine/compiler.py:461-473 | grace offsets are non-negative |
| Compiler.GraceEvents | clef/engine/compiler.py:461-473 | the k-th grace note sounds at onset + k·(duration/8) for duration/8 |
| Compiler.PlayNote | clef/engine/compiler.py:454-530 | a note advances the cursor by exactly its duration, and the staff, channel and voice are unchanged |
| Compiler.NoteWithoutOrnaments | clef/engine/compiler.py:459-529 | an unornamented note is its grace notes followed by one strike of the remaining length |
| Compiler.GraceLayout | clef/engine/compiler.py:459-523 | grace notes abut from the onset; the main note starts after them and ends at onset + duration; earlier events are kept |
| Compiler.GraceLayoutEvents | clef/engine/compiler.py:459-520 | the events appended are exactly the grace notes and then the shortened main note |
| Compiler.PlainNoteStrikes | clef/engine/compiler.py:454-530 | a note with no graces or ornaments is a single strike of its full length |
| Compiler.TieMerges | clef/engine/compiler.py:480-505 | two tied notes of the same pitch compile to one note lasting d1 + d2, with no pending tie left |
| Compiler.StrikeAll | clef/engine/compiler.py:541-581 | striking a chord leaves time, staff and voice unchanged |
| Compiler.ChordEvents | clef/engine/compiler.py:541-581 | an untied chord emits one note per pitch, in order, all at the chord's onset and length |
| Compiler.CompileChord | clef/engine/compiler.py:532-584 | a chord advances the cursor by exactly its duration |
| Compiler.CompileRest | clef/engine/compiler.py:586-598 | a rest appends one rest event and advances the cursor by its duration |
| Compiler.CompileDynamic | clef/engine/compiler.py:622-634 | the current velocity becomes the marking's velocity (within 16..127), one dynamic event with that marking and velocity is emitted at the cursor, and the cursor, ties and programs are untouched |
| Compiler.DynamicSetsNoteVelocity | clef/engine/compiler.py:622-634 | the next plain note after a dynamic is struck at the marking's velocity, whatever velocity was in force before |
| Compiler.HairpinTarget | clef/engine/compiler.py:636-642 | a crescendo aims at min(127, v + 30); a diminuendo aims at max(20, v − 30) |
| Compiler.CompileHairpin | clef/engine/compiler.py:636-655 | a hairpin appends exactly one dynamic event at the cursor, marked as a hairpin with its kind's name, the current velocity, its length and its target; the cursor, frame, current velocity, ties and programs are untouched |
| Compiler.HairpinTargetBounds | clef/engine/compiler.py:636-642 | from a valid velocity the target stays in 20..127; a crescendo never gets softer; a diminuendo never gets louder unless it starts below 20 |
| Compiler.CompilePedal | clef/engine/compiler.py:657-684 | a pedal down appends exactly one press, a pedal up exactly one release, and a change a release followed by a press, all at the cursor; earlier events are kept and the cursor does not move |
| Compiler.CompileInstrument | clef/engine/compiler.py:713-726 | the current channel's program becomes the General MIDI program of the lower-cased name (0 when unknown), other channels keep theirs, and one program-change event is emitted at the cursor |
| Compiler.InstrumentChangeAgreesWithStaff | clef/engine/compiler.py:713-726 | a mid-staff instrument change sets the same program as a staff declared with that instrument |
| Compiler.MaxOf | clef/engine/compiler.py:445 | the maximum is an element no smaller than any other |
| Compiler.MaxOfShift | clef/engine/compiler.py:419-447 | the latest end of the voice blocks is the start plus the longest voice |
| Compiler.CompileSimple | clef/engine/compiler.py:365-396 | a leaf item advances the cursor by its own scaled length |
| Compiler.CompileMarking | clef/engine/compiler.py:622-726 | markings take no time |
| Compiler.CompileItem | clef/engine/compiler.py:365-396 | compiling an item succeeds exactly when its span is defined (no zero-`actual` tuplet inside), and the cursor advances by that span |
| Compiler.CompileSeq | clef/engine/compiler.py:600-620 | a sequence advances the cursor by the sum of its items' spans |
| Compiler.CompileMeasure | clef/engine/compiler.py:398-452 | a measure advances the cursor by its span (the longest voice block or the plain contents) |
| Compiler.CompileBlocks | clef/engine/compiler.py:426-434 | each voice block of a measure starts at the measure's start and ends at start + its span |
| Compiler.CompileVoiceBlock | clef/engine/compiler.py:431-432 | one voice's items advance the cursor by that voice's span |
| Compiler.CompileMarked | clef/engine/compiler.py:406-413 | a voice-tagged item compiles to the item's own span when it is in the voice, and to nothing otherwise |
| Compiler.CompileOthers | clef/engine/compiler.py:439-442 | the non-voice contents of a voice-block measure advance by their span |
| Compiler.CompileVoices | clef/engine/compiler.py:346-363 | a staff's voices compile exactly when none holds a zero-`actual` tuplet |
| Compiler.StaffProgram | clef/engine/compiler.py:324-334 | a staff's instrument sets its channel's program from the lower-cased name |
| Compiler.CompileStaff | clef/engine/compiler.py:318-355 | a staff compiles exactly when its contents do; it ends on its own allocated channel and keeps channel validity |
| Compiler.StaffContents | clef/engine/compiler.py:336-355 | a staff's contents compile exactly when its voices and other items do |
| Compiler.CompileStaves | clef/engine/compiler.py:295-296 | every staff gets a channel; no earlier staff loses its channel; channel validity is preserved |
| Compiler.ScoreStart | clef/engine/compiler.py:266-292 | the compiler starts with no channels assigned |
| Compiler.Compile | clef/engine/compiler.py:256-301 | the graph holds exactly the events the staves compiled to, as a multiset, sorted by (start, priority); tempo defaults to 120 and meter to 4/4 |
| Compiler.TripletTakesQuarter | clef/engine/compiler.py:600-609 | three eighths in a 3:2 tuplet last a quarter note |
| Agreement.SpanAgrees | clef/semantic/analyzer.py:368-389 | for any item without a nested measure, the compiler's time advance (compiler.py:365-396) equals the analyzer's duration |
| Agreement.SeqSpanAgrees | clef/semantic/analyzer.py:368-389 | the same agreement for a sequence of items |
| Measures.MarkedVoices | clef/semantic/analyzer.py:265-274 | lists exactly the voice numbers tagged in a measure |
| Measures.VoiceNumbers | clef/engine/compiler.py:426 | every tagged voice number appears once, in increasing order, as `sorted(voice_blocks.keys())` gives them |
| Analyzer.Fresh | clef/semantic/analyzer.py:62-78 | a new context has no errors, warnings or pending ties, and the pedal is up |
| Analyzer.AddError | clef/semantic/analyzer.py:187-193 | strict mode raises exactly this error; lenient mode records it and changes nothing else |
| Analyzer.AddWarning | clef/semantic/analyzer.py:195-197 | a warning is appended and nothing else changes |
| Analyzer.ItemsDurationCons | clef/semantic/analyzer.py:368-389 | the duration of a sequence is defined exactly when its head's and tail's are, and then it is their sum |
| Analyzer.ResolveTie | clef/semantic/analyzer.py:399-408 | a pending tie on the key is consumed; a consistent tie table never produces a tie error |
| Analyzer.TieBookkeepingSound | clef/semantic/analyzer.py:391-412 | consuming and re-opening a tie keeps every pending tie keyed by its own pitch's MIDI number |
| Analyzer.ValidatePitch | clef/semantic/analyzer.py:395-412 | one pitch changes only the tie table; with a consistent table it never errs |
| Analyzer.PitchPending | clef/semantic/analyzer.py:395-412 | after a pitch, its key is pending exactly when the note is tied; other keys are untouched |
| Analyzer.TieLifecycle | clef/semantic/analyzer.py:391-412 | a tied note followed by the same MIDI pitch resolves the tie without error |
| Analyzer.ValidatePitches | clef/semantic/analyzer.py:393-412 | a chord's pitches touch only the tie table and keep it consistent |
| Analyzer.ValidateNoteOrChord | clef/semantic/analyzer.py:391-412 | a note or chord never produces a non-tie error, and none at all under consistent ties |
| Analyzer.TupletHeader | clef/semantic/analyzer.py:416-433 | lenient mode records exactly the header errors (actual ≤ 0, normal ≤ 0, empty); strict mode raises the first of them |
| Analyzer.ValidateTuplet | clef/semantic/analyzer.py:414-441 | a tuplet's header errors come before its contents' errors; strict mode raises the first header error |
| Analyzer.ValidateContents | clef/semantic/analyzer.py:436-442 | nested contents produce only item-level errors |
| Analyzer.ValidateNested | clef/semantic/analyzer.py:436-452 | one nested item produces only item-level errors |
| Analyzer.ValidateSlur | clef/semantic/analyzer.py:443-452 | an empty slur adds exactly one warning |
| Analyzer.ValidateMusic | clef/semantic/analyzer.py:289-296 | a note, chord, tuplet or slur produces only item-level errors |
| Analyzer.ValidatePedal | clef/semantic/analyzer.py:454-470 | an error exactly for pedal-up while up; a warning exactly for pedal-down while down; afterwards the pedal is down unless the mark was up |
| Analyzer.ValidateDynamic | clef/semantic/analyzer.py:472-480 | an error exactly for a marking outside the known dynamics |
| Analyzer.ValidateInstrument | clef/semantic/analyzer.py:482-489 | a warning exactly when the lower-cased name is not a known instrument |
| Analyzer.PlainItem | clef/semantic/analyzer.py:337-356 | a mid-measure meter replaces the current one; lenient mode fails only on a zero denominator |
| Analyzer.PlainItems | clef/semantic/analyzer.py:336-356 | the accumulated total is the sum of the item durations |
| Analyzer.ValidatePlain | clef/semantic/analyzer.py:334-366 | a plain measure gets a length error exactly when its duration differs from the meter in force at its end |
| Analyzer.BlockItems | clef/semantic/analyzer.py:286-298 | a voice block's total is the sum of that voice's item durations |
| Analyzer.BlockVoices | clef/semantic/analyzer.py:282-298 | the totals are computed per voice, in sorted voice order |
| Analyzer.SyncErrors | clef/semantic/analyzer.py:300-312 | adds only synchronisation errors, and none exactly when every voice lasts as long as the first |
| Analyzer.OtherItems | clef/semantic/analyzer.py:326-332 | the non-voice contents of a voice-block measure update the meter they carry |
| Analyzer.SyncVerdict | clef/semantic/analyzer.py:300-312 | a new measure error appears exactly when some voice's length differs from the first |
| Analyzer.LengthErrors | clef/semantic/analyzer.py:300-322 | a measure error appears exactly when some voice's length differs from the expected length |
| Analyzer.BlockLengths | clef/semantic/analyzer.py:276-324 | a voice-block measure gets a measure error exactly when some voice does not fill the meter |
| Analyzer.ValidateBlocks | clef/semantic/analyzer.py:276-333 | the same verdict, with the measure's trailing meter change applied |
| Analyzer.ValidateMeasure | clef/semantic/analyzer.py:257-366 | a measure error appears exactly when the measure does not fit its meter; a strict run that passes proves the measure fits |
| Analyzer.ValidateMeasures | clef/semantic/analyzer.py:250-255 | a run of measures errs exactly when some measure does not fit |
| Analyzer.VoiceSettings | clef/semantic/analyzer.py:244-251 | a voice's own meter items set the meter and change nothing else |
| Analyzer.ValidateVoice | clef/semantic/analyzer.py:240-255 | a voice errs exactly when one of its measures does not fit |
| Analyzer.ValidateVoices | clef/semantic/analyzer.py:225-227 | a staff's voices err exactly when one of their measures does not fit |
| Analyzer.VoiceTotals | clef/semantic/analyzer.py:495-502 | there is one total per voice number, and the only failure is a zero-denominator meter |
| Analyzer.ValidateAlignment | clef/semantic/analyzer.py:491-511 | at most one warning, given exactly when two voices' totals differ; never an error |
| Analyzer.StaffSettings | clef/semantic/analyzer.py:211-223 | a staff's direct meter items set the meter; only instrument warnings are added |
| Analyzer.StaffOpening | clef/semantic/analyzer.py:199-223 | opening a staff records its name and adds no error |
| Analyzer.DirectMeasures | clef/semantic/analyzer.py:229-234 | the staff's direct measures err exactly when one does not fit |
| Analyzer.AlignVoices | clef/semantic/analyzer.py:236-238 | the alignment check adds no measure error |
| Analyzer.ValidateStaff | clef/semantic/analyzer.py:199-238 | a staff errs exactly when one of its measures does not fit |
| Analyzer.ValidateStaves | clef/semantic/analyzer.py:170-171 | the staves err exactly when some measure of the score does not fit |
| Analyzer.ReportTies | clef/semantic/analyzer.py:174-180 | lenient mode adds one unresolved-tie error per pending tie, in order; strict mode raises on the first |
| Analyzer.RaiseFirst | clef/semantic/analyzer.py:182-183 | a strict run with errors raises the first error recorded |
| Analyzer.Conclude | clef/semantic/analyzer.py:173-185 | strict success means no errors and no pending ties; lenient mode reports every pending tie |
| Analyzer.Start | clef/semantic/analyzer.py:159-167 | analysis starts from the score's meter (4/4 by default) with nothing recorded |
| Analyzer.KeepsMeasureErrors | clef/semantic/analyzer.py:257-366 | later steps that add no measure error leave the verdict unchanged |
| Analyzer.CheckStaves | clef/semantic/analyzer.py:159-180 | the result holds a measure error exactly when the score does not fit; no tie error is ever spurious |
| Analyzer.Analyze | clef/semantic/analyzer.py:146-185 | strict success means the score fits, with no errors and no pending ties; lenient success reports a measure error exactly when it does not fit; lenient mode fails only on a zero-denominator meter |
| Instruments.GmProgram | clef/engine/compiler.py:326 | every lookup gives a program in 0..127, and unknown names give 0 (piano) |
| Instruments.KnownCoversPrograms | clef/semantic/analyzer.py:81-117 | every General MIDI table name is a known instrument; the only known name without a program is "voice" |
| Instruments.LowerCaseLookup | clef/engine/compiler.py:326 | the lookup is by lower-cased name: "Flute" gives 73 |
| Instruments.AliasPrograms | clef/engine/compiler.py:56-212 | aliases share programs: organ = church_organ = 19, woodwinds = flute = 73 |
| Instruments.HarpPrograms | clef/engine/compiler.py:56-212 | "harp" has no program and is not known, while "orchestral_harp" is 46 |
| Transformer.PitchNameToken | clef/parser/parser.py:101-102 | a recognised pitch name is the upper-cased token |
| Transformer.PitchNameCase | clef/parser/parser.py:101-102 | both cases of each letter are recognised |
| Transformer.FractionToken | clef/parser/parser.py:113-115 | a fraction token's value is the quotient of its two integer parts; a zero denominator is an error |
| Transformer.SignedDigits | clef/parser/parser.py:113-115 | a printed integer holds only digits and a sign |
| Transformer.FractionRoundTrip | clef/parser/parser.py:113-115 | printing n/d and reading it back gives the normalised fraction; d = 0 raises |
| Transformer.PitchStep | clef/parser/parser.py:140-144 | the last octave and the last accidental win |
| Transformer.PitchBuilder | clef/parser/parser.py:137-145 | the pitch takes its letter, the last octave given (4 by default) and the last accidental given |
| Transformer.PitchDefaults | clef/parser/parser.py:137-145 | with neither an octave nor an accidental the pitch is in octave 4 with no accidental |
| Transformer.NoteStep | clef/parser/parser.py:169-177 | grace notes accumulate, the last pitch and duration win, dots add up |
| Transformer.NoteBuilder | clef/parser/parser.py:163-190 | a note is built exactly when a pitch and a duration are present; it takes the last of each, the summed dots, and all grace notes in order |
| Transformer.NoteDotTokens | clef/parser/parser.py:183-184 | k dot tokens give the duration exactly k dots |
| Transformer.ChordStep | clef/parser/parser.py:197-203 | pitches accumulate, the last duration wins, dots add up |
| Transformer.ChordBuilder | clef/parser/parser.py:192-212 | a chord is built exactly when it has a pitch and a duration; it keeps every pitch in order |
| Transformer.DecorationStep | clef/parser/parser.py:220-228 | articulations and ornaments accumulate; a `tie` marks the note tied |
| Transformer.DecorationsOfArgs | clef/parser/parser.py:214-251 | the last note or chord is decorated with all articulations and ornaments in order, and is tied exactly when a tie appears |
| Transformer.NoteOrChord | clef/parser/parser.py:214-251 | fails exactly when no note or chord is present; otherwise decorates the last one |
| Transformer.Ones | clef/parser/parser.py:259 | counts the dot tokens equal to 1 |
| Transformer.RestBuilder | clef/parser/parser.py:258-262 | a rest keeps its base value and takes the number of dot tokens when there is one |
| Transformer.HairpinBuilder | clef/parser/parser.py:295-301 | the hairpin length is beats divided by the optional denominator (1 by default); a zero denominator raises |
| Transformer.KeyStep | clef/parser/parser.py:320-324 | the last accidental and the last mode win |
| Transformer.KeyBuilder | clef/parser/parser.py:316-325 | a key takes its root, the last accidental, and the last mode ("major" by default) |
| Transformer.MeasureBuilder | clef/parser/parser.py:344-363 | the measure number is the first integer; voice groups are flattened into tagged items in order |
| Transformer.MeasureVoices | clef/parser/parser.py:344-363 | the items of voice n that the analyzer reads back from a built measure are exactly voice n's group contents |
| Transformer.PlainMeasureUnmarked | clef/parser/parser.py:344-363 | a measure without voice groups has no voice-tagged items |
| Transformer.StaffStep | clef/parser/parser.py:381-385 | a string sets the instrument; anything else is content |
| Transformer.StaffBuilder | clef/parser/parser.py:378-386 | the staff's instrument is the last string given, and its contents are every other argument in order |
| Transformer.ScoreStep | clef/parser/parser.py:399-407 | staves accumulate; the last tempo, meter and key win |
| Transformer.ScoreBuilder | clef/parser/parser.py:393-414 | the score keeps every staff in order and the last tempo, meter and key given |
| Transformer.GetContext | clef/parser/parser.py:477-482 | the context is a single line, and empty unless the line number is in range |
| Transformer.ContextOfLines | clef/parser/parser.py:477-482 | for in-range n the context is the source's n-th line; out of range it is empty |
| Transformer.FormatMessage | clef/parser/parser.py:58-66 | the message comes first, followed by " at line N" when a line is known and then ", column M" when a column is too; the location adds no line break; a context adds exactly one |
| Transformer.ContextLastLine | clef/parser/parser.py:58-66 | a one-line context is the last line of the formatted message |
| Generator.Emit | clef/transcribe/generator.py:71-76 | writing a line keeps the indentation level and keeps the output well nested |
| Generator.Open | clef/transcribe/generator.py:51-52 | opening a block raises the level by one and keeps the output well nested |
| Generator.Close | clef/transcribe/generator.py:62-63 | closing a block lowers the level by one and keeps the output well nested |
| Generator.RenderLine | clef/transcribe/generator.py:71-76 | every rendered line ends with a newline |
| Generator.RenderLineUnindents | clef/transcribe/generator.py:71-76 | stripping the indentation from a rendered line gives back the text and its newline |
| Generator.NameChars | clef/transcribe/generator.py:250-254 | only letters, digits and `_` survive |
| Generator.SanitizeName | clef/transcribe/generator.py:243-260 | the result is a lower-case identifier starting with a letter; an empty name becomes "staff1" |
| Generator.SanitizeNameIdempotent | clef/transcribe/generator.py:243-260 | sanitising a sanitised name changes nothing |
| Generator.SanitizeInstrumentAsWritten | clef/transcribe/generator.py:262-300 | as written, the result is "piano" or one of the table's targets |
| Generator.HarpAsWritten | clef/transcribe/generator.py:292 | as written, "Harp" maps to "harp", which has no General MIDI program and is not a known instrument |
| Generator.SanitizeInstrument | clef/transcribe/generator.py:262-300 | corrected, every result is a General MIDI instrument name, and unknown input gives "piano" |
| Generator.SanitizeInstrumentAgrees | clef/transcribe/generator.py:268-300 | the corrected and as-written mappings agree on everything except harp |
| Generator.SanitizeInstrumentCase | clef/transcribe/generator.py:299-300 | the mapping ignores letter case |
| Generator.SanitizeInstrumentPadded | clef/transcribe/generator.py:299-300 | whitespace before or after a name does not change the instrument written, as written and corrected |
| Generator.NoEmptyKey | clef/transcribe/generator.py:268-297 | no table key is empty |
| Generator.ConvertDynamic | clef/transcribe/generator.py:302-318 | a dynamic is kept exactly when its stripped, lower-cased form is a known marking, and it is kept in that form |
| Generator.ConvertDynamicIdempotent | clef/transcribe/generator.py:302-318 | converting a converted dynamic gives the same dynamic |
| Generator.ContentVoices | clef/transcribe/generator.py:208-212 | lists exactly the voices that the measure's items use |
| Generator.MeasureVoices | clef/transcribe/generator.py:208-215 | a measure's voices in increasing order, never empty (voice 1 when none is given) |
| Generator.OfVoice | clef/transcribe/generator.py:232-233 | keeps exactly the items of the given voice |
| Generator.OfVoiceConcat | clef/transcribe/generator.py:232-233 | the filter keeps the items' order: filtering a concatenation is concatenating the filtered parts |
| Generator.SplitMeasure | clef/transcribe/generator.py:224-239 | one part per voice, each holding only its own voice's items, all with the measure's number; the first part carries the dynamics |
| Generator.GroupByVoice | clef/transcribe/generator.py:203-241 | the grouping is never empty and holds each voice once |
| Generator.GroupByVoiceSpec | clef/transcribe/generator.py:203-241 | each voice collects its parts from every measure in order; no measures gives voice 1 with none |
| Generator.PartsOfOwnVoice | clef/transcribe/generator.py:230-233 | every item grouped under a voice belongs to that voice |
| Generator.SortedVoices | clef/transcribe/generator.py:122 | the voices are a permutation of the grouping, in increasing voice order |
| Generator.NoteLine | clef/transcribe/generator.py:170-182 | a note's line splits back into its pitch, duration, articulations and optional `tie` |
| Generator.WriteHeader | clef/transcribe/generator.py:78-86 | the header keeps the output well nested at the same level |
| Generator.WriteScoreProperties | clef/transcribe/generator.py:88-103 | the score properties keep the output well nested at the same level |
| Generator.WriteContent | clef/transcribe/generator.py:161-168 | one item keeps the output well nested at the same level |
| Generator.WriteContents | clef/transcribe/generator.py:155-156 | a measure's items keep the output well nested at the same level |
| Generator.WriteDynamics | clef/transcribe/generator.py:148-152 | a measure's dynamics keep the output well nested at the same level |
| Generator.WriteMeasure | clef/transcribe/generator.py:138-159 | each `measure { … }` block is closed and returns to its level |
| Generator.WriteMeasures | clef/transcribe/generator.py:133-136 | the measures keep the output well nested at the same level |
| Generator.WriteVoices | clef/transcribe/generator.py:121-127 | each `voice { … }` block is closed and returns to its level |
| Generator.WriteStaff | clef/transcribe/generator.py:105-131 | each `staff { … }` block is closed and returns to its level |
| Generator.WriteStaves | clef/transcribe/generator.py:58-59 | the staves keep the output well nested at the same level |
| Generator.GenerateLines | clef/transcribe/generator.py:34-65 | the generated text is well nested, ends at level 0, and has as many closing as opening lines |
| Omr.DurationLetter | clef/transcribe/omr.py:91-102 | each music21 type maps to its letter; unknown types give `q` |
| Omr.DurationToClef | clef/transcribe/omr.py:89-106 | the letter followed by one `.` per positive dot |
| Omr.DurationToClefReadable | clef/transcribe/omr.py:89-106 | every duration except a breve reads back through `Duration.from_name` and prints the same |
| Omr.BreveUnreadable | clef/transcribe/omr.py:99 | a breve is written `d`, which no Clef duration name accepts |
| Omr.UnknownTypeIsQuarter | clef/transcribe/omr.py:102 | an unknown type is written as a quarter |
| Omr.GetDots | clef/transcribe/omr.py:109-121 | a list of dots counts its length, an integer counts itself, anything else counts 0 |
| Omr.DotsSpelt | clef/transcribe/omr.py:104-121 | the number of dots written equals the positive dot count read |
| Omr.PitchToClef | clef/transcribe/omr.py:124-134 | every `-` of the name becomes `b`, everything else is kept, and the octave follows |
| Omr.PitchToClefReadable | clef/transcribe/omr.py:124-134 | a recognised pitch written out parses back to the same Clef pitch |
| Omr.GetVoiceNumber | clef/transcribe/omr.py:383-393 | a non-zero integer voice or a numeric string is used as is; anything else gives voice 1 |
| Omr.VoiceNumberText | clef/transcribe/omr.py:383-393 | a printed integer reads back as itself, and voice 0 becomes 1 |
| Omr.ArticulationWord | clef/transcribe/omr.py:402-410 | a class name maps to a known articulation exactly when its lower-cased form mentions staccato, accent, tenuto or marcato; the first of these, in that order, decides the word |
| Omr.GetArticulations | clef/transcribe/omr.py:396-412 | at most one articulation per class, all known ones |
| Omr.GetArticulationsConcat | clef/transcribe/omr.py:396-412 | the articulations are collected in order |
| Omr.KnownArticulationsParse | clef/ast/nodes.py:192-202 | every articulation word the recogniser emits is one the parser accepts |
| Omr.ArticulationsParse | clef/transcribe/omr.py:396-412 | every collected articulation is one the parser accepts |
| Playback.ChangeLeIsPreorder | clef/backends/fluidsynth_backend.py:236 | the tuple order of (time, bpm) is total and transitive |
| Playback.TempoEventsOf | clef/backends/fluidsynth_backend.py:231-235 | at most one change per event |
| Playback.TempoEventsOfSpec | clef/backends/fluidsynth_backend.py:231-235 | the collected changes are exactly the tempo events' (time, bpm) pairs |
| Playback.TempoChangesSorted | clef/backends/fluidsynth_backend.py:236 | the sorted changes are a permutation of the collected ones, in time order |
| Playback.TempoChangesPositive | clef/backends/fluidsynth_backend.py:231-236 | positive tempo events give positive tempo changes |
| Playback.LastTempo | clef/backends/fluidsynth_backend.py:238-246 | the reference meaning: the tempo of the last change due at or before the time, or the initial tempo when none is due |
| Playback.TempoAt | clef/backends/fluidsynth_backend.py:238-246 | the tempo in force is the initial tempo or one of the changes; on time-sorted changes it is the tempo of the last change at or before the time (`LastTempo`) |
| Playback.TempoAtValue | clef/backends/fluidsynth_backend.py:238-246 | the loop with its early `break`, from any starting tempo, agrees with `LastTempo` on time-sorted changes |
| Playback.SecondsFrom | clef/backends/fluidsynth_backend.py:248-269 | the conversion fails exactly when a zero tempo is reached (`Fraction(240, 0)`) |
| Playback.SpanAgrees | clef/backends/fluidsynth_backend.py:248-269 | without zero tempi the loop equals the piecewise-linear span |
| Playback.SecondsBeforeChanges | clef/backends/fluidsynth_backend.py:264-267 | before the first change a time t lasts t·240/initial seconds |
| Playback.SecondsAtZero | clef/backends/fluidsynth_backend.py:248-269 | time 0 is 0 seconds |
| Playback.SecondsIgnoreLater | clef/backends/fluidsynth_backend.py:254-256 | changes at or after t do not affect its conversion |
| Playback.SpanNonNegative | clef/backends/fluidsynth_backend.py:248-269 | with positive tempi, elapsed seconds are never negative |
| Playback.SpanMonotone | clef/backends/fluidsynth_backend.py:248-269 | with positive tempi, a later time is never earlier in seconds |
| Playback.TimeToSecondsMonotone | clef/backends/fluidsynth_backend.py:248-269 | the whole conversion is defined and order-preserving under positive tempi |
| Playback.SecondsSegment | clef/backends/fluidsynth_backend.py:254-267 | between changes, seconds grow linearly at 240/tempo per whole note |
| Playback.EventEntries | clef/backends/fluidsynth_backend.py:272-284 | a note gives a note-on at its start and a note-off at start + effective duration; any other event gives one entry |
| Playback.Entries | clef/backends/fluidsynth_backend.py:272-284 | the entries are defined whenever no tempo is zero |
| Playback.EntriesConcat | clef/backends/fluidsynth_backend.py:272-284 | the entries follow event order |
| Playback.NoteOffAfterOn | clef/backends/fluidsynth_backend.py:275-282 | a note's note-off never precedes its note-on |
| Playback.TimedLeIsPreorder | clef/backends/fluidsynth_backend.py:286-287 | the order on seconds is total and transitive |
| Playback.ConvertToSecondsSorted | clef/backends/fluidsynth_backend.py:286-287 | the result is a permutation of the entries, sorted by seconds, and the sort is stable |
| Playback.ConvertToSecondsDefined | clef/backends/fluidsynth_backend.py:224-289 | the conversion succeeds whenever the initial tempo and every tempo event are non-zero |
| Playback.ZeroInitialTempoFails | clef/backends/fluidsynth_backend.py:259 | an initial tempo of 0 makes the conversion raise |
| MidiExport.StaffIdList | clef/backends/midi_backend.py:81-84 | the staff ids are exactly the non-global staffs of the events |
| MidiExport.StrLessIsStrict | clef/backends/midi_backend.py:98 | string order is a strict total order |
| MidiExport.SortedStaffIdsSpec | clef/backends/midi_backend.py:81-98 | the ids are distinct, sorted, and one fewer than the number of tracks |
| MidiExport.TrackMapSpec | clef/backends/midi_backend.py:97-99 | track 0 is the global track and the k-th sorted staff is track k; keys are unique |
| MidiExport.TrackMapInRange | clef/backends/midi_backend.py:97-99 | every mapped track lies below the track count |
| MidiExport.TrackOfSpec | clef/backends/midi_backend.py:121 | every staff's track lies in range; global is track 0; the k-th sorted staff is track k + 1 |
| MidiExport.DenomPowerLog | clef/backends/midi_backend.py:108 | a power-of-two denominator up to 32 gives its exponent; anything else gives 2 |
| MidiExport.DenomPowerRoundTrip | clef/backends/midi_backend.py:141-143 | the exponent of 2^k is k |
| MidiExport.Clamp | clef/backends/midi_backend.py:209 | the result is a MIDI value, and in-range values are kept |
| MidiExport.Trunc | clef/backends/midi_backend.py:202 | `int()` truncates toward zero: the result is the integer part, never further from zero than the input |
| MidiExport.Steps | clef/backends/midi_backend.py:202 | the larger of 8 and the truncated four-per-whole-note count |
| MidiExport.Hairpin | clef/backends/midi_backend.py:193-217 | steps + 1 expression-controller (11) commands on the track and channel, all in 0..127 |
| MidiExport.HairpinEnds | clef/backends/midi_backend.py:202-209 | the ramp starts at the start velocity and ends at the end velocity, at start + duration |
| MidiExport.HairpinRising | clef/backends/midi_backend.py:204-209 | a crescendo ramp never falls |
| MidiExport.HairpinFalling | clef/backends/midi_backend.py:204-209 | a diminuendo ramp never rises |
| MidiExport.HairpinTimes | clef/backends/midi_backend.py:203-207 | the ramp's times never go back |
| MidiExport.EventCommands | clef/backends/midi_backend.py:120-184 | a pedal is controller 64 on channel 0; tempo and meter go to track 0; rests emit nothing; a dynamic emits a ramp exactly when it is a hairpin with length and target |
| MidiExport.EventCommandsInRange | clef/backends/midi_backend.py:120-184 | one event's commands use tracks in range |
| MidiExport.EventsCommandsInRange | clef/backends/midi_backend.py:120-184 | every event's commands use tracks in range |
| MidiExport.TrackNames | clef/backends/midi_backend.py:112-114 | track names are given only to mapped non-global staffs |
| MidiExport.ExportTracksInRange | clef/backends/midi_backend.py:72-185 | every command of the export addresses an existing track |
| Text.Lower | clef/transcribe/generator.py:250 | lower-casing keeps the length, maps each letter, and leaves no upper-case letter |
| Text.LowerIdempotent | clef/transcribe/generator.py:250 | lower-casing twice is lower-casing once |
| Text.Upper | clef/parser/parser.py:102 | upper-casing keeps the length and leaves no lower-case letter |
| Text.TrimLeft | clef/transcribe/generator.py:299 | removes exactly the leading whitespace |
| Text.TrimRight | clef/transcribe/generator.py:299 | removes exactly the trailing whitespace |
| Text.Strip | clef/transcribe/generator.py:299 | the result is a slice of the input with no whitespace at either end |
| Text.StripDecompose | clef/transcribe/generator.py:299 | only whitespace is removed: the input is the result with whitespace alone before and after it |
| Text.StripExact | clef/transcribe/generator.py:299 | a text with no whitespace at either end, wrapped in any whitespace, strips back to itself, so the decomposition is unique |
| Text.StripPadded | clef/transcribe/generator.py:299 | whitespace added at either end does not change the result |
| Text.PaddedKey | clef/transcribe/generator.py:299 | the lookup key `s.lower().strip()` ignores whitespace added at either end |
| Text.StripIdempotent | clef/transcribe/generator.py:318 | stripping twice is stripping once |
| Text.ReplaceChar | clef/transcribe/omr.py:131-132 | no occurrence of the replaced character is left, and no character appears that was not in the text or the replacement |
| Text.ReplaceCharUndo | clef/transcribe/omr.py:131-132 | replacing by a character the text does not hold is undone by the reverse replacement |
| Text.Split | clef/parser/parser.py:114 | splitting always yields at least one part |
| Text.SplitJoin | clef/parser/parser.py:114 | splitting a join on a separator that no part contains gives the parts back |
| Text.SplitLinesTerminated | clef/parser/parser.py:479 | `splitlines` of newline-terminated lines gives the lines back |
| Text.SplitLinesNoBreaks | clef/parser/parser.py:479 | no line that `splitlines` returns contains a line break |
| Text.IntToString | clef/transcribe/omr.py:388 | a printed integer is non-empty and starts with `-` exactly when it is negative |
| Text.ParseIntToString | clef/transcribe/omr.py:388 | `int(str(i)) == i` |
| Text.ParseOfStripped | clef/parser/parser.py:115 | on a text without surrounding whitespace, `int()` is the sign-and-digits reading |
| Text.ParsePadded | clef/parser/parser.py:115 | `int()` ignores whitespace added at either end |
| Text.ParseNatToString | clef/parser/parser.py:115 | the digits of a natural number read back as that number |
| Text.StrLessTotal | clef/backends/midi_backend.py:98 | any two distinct strings are ordered one way or the other |
| Text.StrLessTransitive | clef/backends/midi_backend.py:98 | string order is transitive |
| Sorting.Sort | clef/engine/events.py:229-231 | sorting yields a permutation of its input |
| Sorting.SortSorted | clef/engine/events.py:229-231 | under a total preorder the result is sorted |
| Sorting.SortStable | clef/engine/events.py:229-231 | elements with equal keys keep their relative order, as Python's `sort` promises |
| Sorting.InsertSorted | clef/engine/events.py:229-231 | inserting into a sorted list keeps it sorted |
| Sorting.SortOfSorted | clef/engine/events.py:229-231 | sorting a sorted list changes nothing |
| Sorting.SortUnique | clef/backends/midi_backend.py:98 | `sorted(set(…))` keeps exactly the elements of its input |
| Sorting.SortUniqueSorted | clef/backends/midi_backend.py:98 | `sorted(set(…))` is strictly increasing, so it has no duplicates |
| Sorting.Filter | clef/engine/events.py:265-271 | a filter keeps exactly the elements that satisfy the predicate |
| Sorting.FilterConcat | clef/engine/events.py:265-271 | a filter preserves order |
| Dicts.Get | clef/semantic/analyzer.py:400-401 | a lookup finds a value exactly when the key is present |
| Dicts.Put | clef/semantic/analyzer.py:411-412 | an insert overwrites in place or appends at the end, like a Python dict |
| Dicts.Del | clef/semantic/analyzer.py:408 | a delete drops exactly the key's entry |
| Dicts.PutGet | clef/semantic/analyzer.py:411-412 | after an insert the key maps to the new value and other keys are untouched |
| Dicts.DelGet | clef/semantic/analyzer.py:408 | after a delete the key is absent and other keys are untouched |
| Dicts.PutUnique | clef/semantic/analyzer.py:411-412 | inserts keep keys unique |
| Dicts.DelUnique | clef/semantic/analyzer.py:408 | deletes keep keys unique |
| Rational.ReduceCorrect | clef/ast/nodes.py:149-152 | a reduced fraction has a positive denominator, coprime parts, and the same value |
| Rational.MakeFrac | clef/parser/parser.py:113-115 | `Fraction(n, d)` has the value n/d for any non-zero d, negative d included |
| Rational.Unit | clef/ast/nodes.py:135-143 | 1/d is already normalised and is worth 1/d |

## Left out

- The Lark grammar and `ClefParser.parse` (parser.py:420-475) are not modelled. The builders are modelled on the argument lists Lark would pass them. Lexing and LALR parsing belong to a library outside this code.
- `Transformer.PitchNameToken` accepts only the single letters A–G and a–g. The grammar's token set is not part of this model, so whatever else the `PITCH_NAME` terminal might admit is not covered.
- `Text.Lower`, `Text.Upper`, `Text.IsAlnum`, `Text.IsAlpha` and `Text.Strip` are ASCII only. Python's `str.lower`, `isalnum` and `strip` are Unicode-aware (generator.py:250-257, 299, 318). For example, `_sanitize_name("Flûte")` keeps `û` in Python but drops it here.
- `Text.ParseInt` accepts an optional sign and ASCII digits within whitespace. Python's `int()` also accepts underscores between digits and non-ASCII decimal digits (omr.py:388, parser.py:115); those inputs fail here.
- `MidiExport.Hairpin`, `MidiExport.Steps` and `MidiExport.EventCommands` compute in exact reals, with `MidiExport.Trunc` standing for `int()` truncation. The source converts `Fraction`s to `float` (midi_backend.py:124, 181, 202-209), so a rounding difference in the last place of a float is not modelled.
- `Instruments.GmProgram` and `Instruments.KnownCoversPrograms` use a representative subset of `GM_INSTRUMENTS` (compiler.py:56-212) and of `known_instruments` (analyzer.py:81-117). The subset holds every name the generator can produce, plus the aliases and "voice"; the rest of the 128-program table is not copied.
- Iteration order of Python sets and dicts is modelled as the order the code produces where it is defined (insertion order for dicts). `_group_by_voice` iterates a set of voice numbers, so its order is modelled as sorted order. The analyzer reports unresolved ties in the order they were opened, which is `pending_ties.items()` order.
- `Omr.GetDots` models the three shapes `_get_dots` handles. A non-integer `dots` value that is neither a list nor an int is counted as 0, which is what the `except` branch yields.
- Python's `bool` being a subclass of `int` is not modelled. The builders' `isinstance(arg, int)` tests would also accept `True`, but Lark never passes one.
- music21 and oemer objects are abstracted to the datatypes `Omr` reads: duration types, dot attributes, pitch names, voice attributes and articulation class names. `recognize_with_oemer`, `recognize_from_musicxml`, `recognize_from_midi` and `_music21_to_recognized` are not modelled. They wrap those libraries and the file system.
- `Generator.Generate` carries no contract of its own. Its structure is stated on `Generator.GenerateLines`, and the rendering of one line on `Generator.RenderLine`.
- The generator's chord line (generator.py:188-201) and rest line are written but not parsed back; only `Generator.NoteLine` states a round trip.
- FluidSynth's synthesiser calls, threads, `time.sleep` and soundfont search (fluidsynth_backend.py:46-222, 291-404) are not modelled. They are I/O; only the conversion to seconds is modelled.
- MIDIUtil's internals and file writing are not modelled. `MidiExport` yields the sequence of MIDIUtil calls instead.
- `get_tempo_at` (fluidsynth_backend.py:238-246) is modelled as `Playback.TempoAt` even though nothing in the source calls it.
- `Playback.SecondsSegment` is stated for an arbitrary loop state `(prevTime, prevTempo)`; the top-level instance is `Playback.TimeToSeconds`.
- The command-line interface, the transcriber driver and the PDF reader are not part of this model (clef/cli.py, clef/transcribe/transcriber.py, clef/transcribe/pdf_reader.py). They orchestrate the modelled stages over files and processes.
- Source locations (`Location`) and the wording of error messages are not modelled. Errors are datatype values that carry the data the messages interpolate.

## Findings

| source | as written | input that shows it | evidently intended | confidence | as-written member | corrected member |
|---|---|---|---|---|---|---|
| clef/engine/compiler.py:739 (also 761, 792) | the ornament expanders start at `current_time - duration` ("go back to start"), but `_apply_ornament` runs at compiler.py:526-527, before the cursor is advanced at :529, so `current_time` is still the note's onset and the ornament starts one note length too early: every ornament note ends by the onset of the note it decorates | a quarter-note C4 trill at time 0 emits its first note at −1/4 | ornament notes start at the decorated note's own onset and lie within it | not executed | Compiler.OrnamentEarlyAsWritten, Compiler.TrillAtStartAsWritten | Compiler.OrnamentWithinNote (with Compiler.OrnamentStart) |
| clef/transcribe/generator.py:292 | `_sanitize_instrument` maps "harp" to "harp", a name that is neither in the analyzer's `known_instruments` (analyzer.py:81-117) nor in `GM_INSTRUMENTS`, so the generated score draws an unknown-instrument warning and plays program 0 (piano) | recognised instrument "Harp" | map it to "orchestral_harp" (General MIDI program 46), like the other targets, which are all table names | not executed | Generator.HarpAsWritten, Generator.SanitizeInstrumentAsWritten | Generator.SanitizeInstrument, Generator.SanitizeInstrumentAgrees |

`Compiler.PlayNote` and `Generator.WriteStaff` follow the code as written: they use `Compiler.OrnamentStartAsWritten` and `Generator.SanitizeInstrumentAsWritten`. The corrected definitions stand beside them with the intended property proved.

=== FILE: agreement.dfy ===
/** The compiler and the analyzer measure time independently: the compiler by
    advancing its cursor, the analyzer by summing `_get_item_duration`. For every
    item with no measure inside it the two agree exactly, so a measure the
    analyzer accepts is one the compiler lays out with the same length. */
module Agreement {
  import opened Wrappers
  import opened Nodes
  import Compiler
  import Analyzer

  /** No measure occurs inside the item: the analyzer counts a nested measure as
      0, while the compiler lays it out. */
  predicate NoMeasureIn(item: Item)
    decreases item, 0
  {
    match item
    case MeasureItem(_, _) => false
    case TupletItem(_, _, cs) => NoMeasureInAll(cs)
    case SlurItem(cs) => NoMeasureInAll(cs)
    case _ => true
  }

  predicate NoMeasureInAll(cs: seq<Item>)
    decreases cs, 1
  {
    forall i :: 0 <= i < |cs| ==> NoMeasureIn(cs[i])
  }

  /** The compiler's span of an item is the analyzer's duration of it, at every
      tuplet ratio, division by zero included. */
  lemma {:induction false} SpanAgrees(item: Item, ratio: real)
    requires NoMeasureIn(item)
    ensures Compiler.Span(item, ratio) == Analyzer.ItemDuration(item, ratio)
    decreases item, 0
  {
    match item
    case TupletItem(a, nn, cs) =>
      if a != 0 { SeqSpanAgrees(cs, TupletScale(a, nn, ratio).value); }
    case SlurItem(cs) => SeqSpanAgrees(cs, ratio);
    case _ =>
  }

  lemma {:induction false} SeqSpanAgrees(cs: seq<Item>, ratio: real)
    requires NoMeasureInAll(cs)
    ensures Compiler.SeqSpan(cs, ratio) == Analyzer.ItemsDuration(cs, ratio)
    decreases cs, 1
  {
    if cs != [] {
      SpanAgrees(cs[0], ratio);
      assert NoMeasureInAll(cs[1..]) by {
        forall i | 0 <= i < |cs[1..]| ensures NoMeasureIn(cs[1..][i]) {
          assert cs[1..][i] == cs[i + 1];
        }
      }
      SeqSpanAgrees(cs[1..], ratio);
    }
  }
}

=== FILE: analyzer.dfy ===
/** The semantic analyzer: a validator that walks a score with a small state
    record (the time signature in force, the current staff, voice and measure,
    the ties waiting for their continuation, the pedal) and reports errors and
    warnings. In strict mode the first error is raised at once; otherwise every
    error is collected. Python's `ZeroDivisionError`, which a tuplet with a zero
    `actual` count or a time signature with a zero denominator raises while
    durations are summed, escapes in both modes. */
module Analyzer {
  import opened Wrappers
  import opened Text
  import opened Nodes
  import opened Instruments
  import opened Measures
  import opened Dicts
  import Sorting

  // ===================================================================== state

  /** The errors the analyzer reports, with the data its messages print. */
  datatype SemanticError =
    | MeasureLength(staff: Option<string>, voice: Option<int>, measure: Option<int>, actual: real, expected: real)
    | VoicesUnsynchronized(staff: Option<string>, measure: Option<int>, voiceNo: int, duration: real,
                           firstVoice: int, firstDuration: real)
    | BlockLength(staff: Option<string>, measure: Option<int>, actual: real, expected: real)
    | TieFailed(wanted: Pitch, got: Pitch)
    | TupletActual(count: int)
    | TupletNormal(count: int)
    | EmptyTuplet
    | PedalNotDown
    | UnknownDynamic(marking: string)
    | UnresolvedTie(pitch: Pitch, staff: Option<string>, voice: Option<int>)

  datatype Warning =
    | PedalAlreadyDown
    | EmptySlur
    | UnknownInstrument(name: string)
    | VoiceLengths(staff: Option<string>, durations: seq<(int, real)>)

  /** Why an analysis stops: a raised `SemanticError`, or a division by zero. */
  datatype Fault = Raised(error: SemanticError) | ZeroDivision

  /** `(staff_name, voice_number, midi_number)`, the key of a pending tie. */
  datatype TieKey = TieKey(staff: Option<string>, voice: Option<int>, midi: int)

  /** `ValidationContext`. */
  datatype VCtx = VCtx(timeSig: TimeSignature, tempo: Option<TempoMark>, key: Option<KeySignature>,
                       staff: Option<string>, voice: Option<int>, measure: Option<int>,
                       pending: seq<(TieKey, Pitch)>, pedalDown: bool,
                       errors: seq<SemanticError>, warnings: seq<Warning>)

  type Outcome = Result<VCtx, Fault>

  /** A fresh context: 4/4, nothing pending, pedal up. */
  function Fresh(): (c: VCtx)
    ensures c.errors == [] && c.warnings == [] && c.pending == [] && !c.pedalDown
  {
    VCtx(TimeSignature(4, 4), None, None, None, None, None, [], false, [], [])
  }

  /** Every pending tie is filed under the MIDI number of its pitch, once. */
  predicate TiesConsistent(c: VCtx) {
    UniqueKeys(c.pending) &&
    forall i :: 0 <= i < |c.pending| ==> c.pending[i].0.midi == MidiNumber(c.pending[i].1)
  }

  predicate NoTieFailure(errors: seq<SemanticError>) {
    forall i :: 0 <= i < |errors| ==> !errors[i].TieFailed?
  }

  /** The state the analyzer keeps from the start: ties consistent and no failed
      tie resolution reported. */
  predicate Sound(c: VCtx) {
    TiesConsistent(c) && NoTieFailure(c.errors)
  }

  /** What every validation step promises about its outcome: errors and warnings
      are only ever appended, a strict step that returns has added no error, a
      raised error means the mode is strict (so a lenient step can only fail by
      dividing by zero), and a sound state stays sound. */
  predicate Step(strict: bool, c: VCtx, r: Outcome) {
    match r
    case Success(d) =>
      c.errors <= d.errors && c.warnings <= d.warnings
      && (strict ==> d.errors == c.errors)
      && (Sound(c) ==> Sound(d))
    case Failure(f) => f.Raised? ==> strict
  }

  lemma StepThen(strict: bool, c: VCtx, d: VCtx, r: Outcome)
    requires Step(strict, c, Success(d)) && Step(strict, d, r)
    ensures Step(strict, c, r)
  {
    if r.Success? {
      var e := r.value;
      assert c.errors <= e.errors by {
        assert c.errors == d.errors[..|c.errors|] && d.errors == e.errors[..|d.errors|];
        assert e.errors[..|c.errors|] == d.errors[..|c.errors|];
      }
      assert c.warnings <= e.warnings by {
        assert c.warnings == d.warnings[..|c.warnings|] && d.warnings == e.warnings[..|d.warnings|];
        assert e.warnings[..|c.warnings|] == d.warnings[..|c.warnings|];
      }
    }
  }

  /** The errors a single item can cause, as opposed to the ones about measure
      lengths and about ties left open at the end. */
  predicate ItemError(e: SemanticError) {
    e.TieFailed? || e.TupletActual? || e.TupletNormal? || e.EmptyTuplet? || e.PedalNotDown? || e.UnknownDynamic?
  }

  /** Every error a successful step added is an item error. */
  predicate OnlyItemErrors(c: VCtx, r: Outcome) {
    r.Success? ==> forall i :: |c.errors| <= i < |r.value.errors| ==> ItemError(r.value.errors[i])
  }

  lemma ItemThen(strict: bool, c: VCtx, d: VCtx, r: Outcome)
    requires Step(strict, c, Success(d)) && Step(strict, d, r)
    requires OnlyItemErrors(c, Success(d)) && OnlyItemErrors(d, r)
    ensures Step(strict, c, r) && OnlyItemErrors(c, r)
  {
    StepThen(strict, c, d, r);
    if r.Success? {
      forall i | |c.errors| <= i < |r.value.errors| ensures ItemError(r.value.errors[i]) {
        if i < |d.errors| {
          assert r.value.errors[..|d.errors|] == d.errors;
          assert r.value.errors[i] == d.errors[i];
        }
      }
    }
  }

  /** The position in the score is left as it was. */
  predicate SamePlace(c: VCtx, d: VCtx) {
    d.staff == c.staff && d.voice == c.voice && d.measure == c.measure
  }

  /** The position in the score and the meter are left as they were. */
  predicate SameFrame(c: VCtx, d: VCtx) {
    SamePlace(c, d) && d.timeSig == c.timeSig
  }

  /** `_add_error`: strict mode raises the error, lenient mode records it. */
  function AddError(strict: bool, c: VCtx, e: SemanticError): (r: Outcome)
    ensures strict <==> r.Failure?
    ensures r.Failure? ==> r.error == Raised(e)
    ensures r.Success? ==> r.value == c.(errors := c.errors + [e])
  {
    if strict then Failure(Raised(e)) else Success(c.(errors := c.errors + [e]))
  }

  /** `_add_warning`: warnings never stop the analysis. */
  function AddWarning(c: VCtx, w: Warning): (d: VCtx)
    ensures d.warnings == c.warnings + [w] && d.(warnings := c.warnings) == c
  {
    c.(warnings := c.warnings + [w])
  }

  // =============================================================== durations

  /** `_get_item_duration`: the length of an item in whole notes at a tuplet ratio;
      `None` is the `ZeroDivisionError` of a tuplet with `actual` 0 inside it. */
  function ItemDuration(item: Item, ratio: real): Option<real>
    decreases item
  {
    match item
    case NoteItem(n) => Some(TotalValue(n.duration) * ratio)
    case ChordItem(ch) => Some(TotalValue(ch.duration) * ratio)
    case RestItem(d) => Some(TotalValue(d) * ratio)
    case TupletItem(a, nn, cs) =>
      (match TupletScale(a, nn, ratio)
       case None => None
       case Some(x) => ItemsDuration(cs, x))
    case SlurItem(cs) => ItemsDuration(cs, ratio)
    case _ => Some(0.0)
  }

  /** The sum of `ItemDuration` over a list, failing if any item fails. */
  function ItemsDuration(cs: seq<Item>, ratio: real): Option<real>
    decreases cs
  {
    if cs == [] then Some(0.0)
    else
      match ItemDuration(cs[0], ratio)
      case None => None
      case Some(d) =>
        match ItemsDuration(cs[1..], ratio)
        case None => None
        case Some(e) => Some(d + e)
  }

  /** The items last exactly `x` whole notes. */
  predicate Lasts(cs: seq<Item>, x: real) {
    ItemsDuration(cs, 1.0).Some? && ItemsDuration(cs, 1.0).value == x
  }

  /** The items last exactly one measure of `ts`. */
  predicate LastsMeter(cs: seq<Item>, ts: TimeSignature) {
    BeatsPerMeasure(ts).Some? && Lasts(cs, BeatsPerMeasure(ts).value)
  }

  /** The first step of `ItemsDuration`, stated without an equation between
      optional reals. */
  lemma ItemsDurationCons(cs: seq<Item>, ratio: real)
    requires cs != []
    ensures ItemsDuration(cs, ratio).Some? <==> ItemDuration(cs[0], ratio).Some? && ItemsDuration(cs[1..], ratio).Some?
    ensures ItemsDuration(cs, ratio).Some? ==>
      ItemsDuration(cs, ratio).value == ItemDuration(cs[0], ratio).value + ItemsDuration(cs[1..], ratio).value
  {
  }

  // ======================================================== notes and chords

  /** Resolving a pending tie on `key`: the expected pitch is checked against the
      new one, and the entry is removed. */
  function ResolveTie(strict: bool, c: VCtx, p: Pitch, key: TieKey): (r: Outcome)
    requires key.midi == MidiNumber(p)
    ensures r.Success? ==> r.value.(errors := c.errors) == c.(pending := if HasKey(c.pending, key) then Del(c.pending, key) else c.pending)
    ensures r.Success? ==> c.errors <= r.value.errors
    ensures r.Failure? ==> strict && r.error.Raised? && r.error.error.TieFailed?
    ensures OnlyItemErrors(c, r)
    ensures TiesConsistent(c) ==> r.Success? && r.value.errors == c.errors
    ensures !strict ==> r.Success?
    ensures r.Success? ==> SameFrame(c, r.value)
  {
    match Get(c.pending, key)
    case None => Success(c)
    case Some(expected) =>
      assert (key, expected) in c.pending;
      if EnharmonicEqual(p, expected) then Success(c.(pending := Del(c.pending, key)))
      else
        var c0 :- AddError(strict, c, TieFailed(expected, p));
        Success(c0.(pending := Del(c0.pending, key)))
  }

  /** The tie bookkeeping keeps every pending tie filed once under its own MIDI
      number. */
  lemma TieBookkeepingSound(c: VCtx, p: Pitch, key: TieKey, tied: bool)
    requires key.midi == MidiNumber(p)
    ensures TiesConsistent(c) ==>
      var c1 := c.(pending := if HasKey(c.pending, key) then Del(c.pending, key) else c.pending);
      TiesConsistent(c1) && TiesConsistent(if tied then c1.(pending := Put(c1.pending, key, p)) else c1)
  {
    if TiesConsistent(c) {
      var d := if HasKey(c.pending, key) then Del(c.pending, key) else c.pending;
      if HasKey(c.pending, key) {
        DelUnique(c.pending, key);
      }
      PutUnique(d, key, p);
    }
  }

  /** The tie bookkeeping for one pitch of a note or chord: a pending tie on the
      same key is resolved, and a tied note opens a new one. */
  function ValidatePitch(strict: bool, c: VCtx, p: Pitch, tied: bool): (r: Outcome)
    ensures Step(strict, c, r) && OnlyItemErrors(c, r)
    ensures TiesConsistent(c) ==> r.Success? && r.value.errors == c.errors && TiesConsistent(r.value)
    ensures r.Success? ==> r.value.(pending := c.pending, errors := c.errors) == c
    ensures !strict ==> r.Success?
    ensures r.Success? ==> SameFrame(c, r.value)
  {
    var key := TieKey(c.staff, c.voice, MidiNumber(p));
    TieBookkeepingSound(c, p, key, tied);
    var c1 :- ResolveTie(strict, c, p, key);
    Success(if tied then c1.(pending := Put(c1.pending, key, p)) else c1)
  }

  /** What one pitch does to the pending ties: a tie on its key (staff, voice,
      MIDI number) is closed, and a tied pitch opens a new one; the ties on every
      other key are left alone. */
  lemma PitchPending(strict: bool, c: VCtx, p: Pitch, tied: bool, k2: TieKey)
    requires TiesConsistent(c)
    ensures ValidatePitch(strict, c, p, tied).Success?
    ensures var key := TieKey(c.staff, c.voice, MidiNumber(p));
      var d := ValidatePitch(strict, c, p, tied).value;
      Get(d.pending, key) == (if tied then Some(p) else None) &&
      (k2 != key ==> Get(d.pending, k2) == Get(c.pending, k2))
  {
    var key := TieKey(c.staff, c.voice, MidiNumber(p));
    var d0 := if HasKey(c.pending, key) then Del(c.pending, key) else c.pending;
    var d := ValidatePitch(strict, c, p, tied).value;
    assert d.pending == if tied then Put(d0, key, p) else d0;
    DelGet(c.pending, key, k2);
    assert Get(d0, key) == None;
    assert k2 != key ==> Get(d0, k2) == Get(c.pending, k2);
    PutGet(d0, key, p, k2);
  }

  /** A tie's life: a tied pitch opens a tie, the next pitch with the same MIDI
      number on the same staff and voice closes it without an error (and opens a
      new one if it is tied in turn), and no other tie is touched. */
  lemma TieLifecycle(strict: bool, c: VCtx, p: Pitch, q: Pitch, tied: bool, k2: TieKey)
    requires TiesConsistent(c)
    requires MidiNumber(q) == MidiNumber(p)
    ensures ValidatePitch(strict, c, p, true).Success?
    ensures var key := TieKey(c.staff, c.voice, MidiNumber(p));
      var d := ValidatePitch(strict, c, p, true).value;
      Get(d.pending, key) == Some(p) &&
      ValidatePitch(strict, d, q, tied).Success? &&
      var e := ValidatePitch(strict, d, q, tied).value;
      e.errors == c.errors &&
      Get(e.pending, key) == (if tied then Some(q) else None) &&
      (k2 != key ==> Get(e.pending, k2) == Get(c.pending, k2))
  {
    PitchPending(strict, c, p, true, k2);
    var d := ValidatePitch(strict, c, p, true).value;
    PitchPending(strict, d, q, tied, k2);
  }

  /** The pitches of a note or chord, in order. */
  function ValidatePitches(strict: bool, c: VCtx, ps: seq<Pitch>, tied: bool): (r: Outcome)
    ensures Step(strict, c, r) && OnlyItemErrors(c, r)
    ensures TiesConsistent(c) ==> r.Success? && r.value.errors == c.errors && TiesConsistent(r.value)
    ensures r.Success? ==> r.value.(pending := c.pending, errors := c.errors) == c
    ensures !strict ==> r.Success?
    ensures r.Success? ==> SameFrame(c, r.value)
    decreases ps
  {
    if ps == [] then Success(c)
    else
      var c1 :- ValidatePitch(strict, c, ps[0], tied);
      var r := ValidatePitches(strict, c1, ps[1..], tied);
      ItemThen(strict, c, c1, r);
      r
  }

  /** `_validate_note_or_chord`. */
  function ValidateNoteOrChord(strict: bool, c: VCtx, item: Item): (r: Outcome)
    requires item.NoteItem? || item.ChordItem?
    ensures Step(strict, c, r) && OnlyItemErrors(c, r)
    ensures TiesConsistent(c) ==> r.Success? && r.value.errors == c.errors
    ensures !strict ==> r.Success?
    ensures r.Success? ==> SameFrame(c, r.value)
  {
    match item
    case NoteItem(n) => ValidatePitches(strict, c, [n.pitch], n.tied)
    case ChordItem(ch) => ValidatePitches(strict, c, ch.pitches, ch.tied)
  }

  // ================================================================== tuplets

  /** The checks `_validate_tuplet` makes before it looks inside, in order. */
  function TupletHeaderErrors(actual: int, normal: int, cs: seq<Item>): seq<SemanticError>
  {
    (if actual <= 0 then [TupletActual(actual)] else [])
    + (if normal <= 0 then [TupletNormal(normal)] else [])
    + (if cs == [] then [EmptyTuplet] else [])
  }

  /** The header checks of `_validate_tuplet`, each reported as it is found. */
  function TupletHeader(strict: bool, c: VCtx, actual: int, normal: int, cs: seq<Item>): (r: Outcome)
    ensures Step(strict, c, r) && OnlyItemErrors(c, r)
    ensures r.Success? ==> r.value.(errors := c.errors) == c
    ensures !strict ==> r.Success? && r.value.errors == c.errors + TupletHeaderErrors(actual, normal, cs)
    ensures strict ==> (r.Success? <==> TupletHeaderErrors(actual, normal, cs) == [])
    ensures strict && r.Failure? ==> r.error == Raised(TupletHeaderErrors(actual, normal, cs)[0])
  {
    var c1 :- if actual <= 0 then AddError(strict, c, TupletActual(actual)) else Success(c);
    var c2 :- if normal <= 0 then AddError(strict, c1, TupletNormal(normal)) else Success(c1);
    if cs == [] then AddError(strict, c2, EmptyTuplet) else Success(c2)
  }

  /** `_validate_tuplet`: a non-positive count or an empty tuplet is an error,
      reported before the contents, which are validated in order. Validation does
      not compute durations, so it never divides by zero. */
  function ValidateTuplet(strict: bool, c: VCtx, actual: int, normal: int, cs: seq<Item>): (r: Outcome)
    ensures Step(strict, c, r) && OnlyItemErrors(c, r)
    ensures !strict ==> r.Success? && c.errors + TupletHeaderErrors(actual, normal, cs) <= r.value.errors
    ensures strict && TupletHeaderErrors(actual, normal, cs) != [] ==>
      r == Failure(Raised(TupletHeaderErrors(actual, normal, cs)[0]))
    ensures r.Success? ==> SameFrame(c, r.value)
    decreases cs, 1
  {
    var c3 :- TupletHeader(strict, c, actual, normal, cs);
    var r := ValidateContents(strict, c3, cs);
    ItemThen(strict, c, c3, r);
    r
  }

  /** The loop shared by `_validate_tuplet` and `_validate_slur`: notes and chords
      are checked for ties, nested tuplets are validated, anything else is skipped. */
  function ValidateContents(strict: bool, c: VCtx, cs: seq<Item>): (r: Outcome)
    ensures Step(strict, c, r) && OnlyItemErrors(c, r)
    ensures !strict ==> r.Success?
    ensures r.Success? ==> SameFrame(c, r.value)
    decreases cs, 0
  {
    if cs == [] then Success(c)
    else
      var c1 :- ValidateNested(strict, c, cs[0]);
      var r := ValidateContents(strict, c1, cs[1..]);
      ItemThen(strict, c, c1, r);
      r
  }

  function ValidateNested(strict: bool, c: VCtx, item: Item): (r: Outcome)
    ensures Step(strict, c, r) && OnlyItemErrors(c, r)
    ensures !strict ==> r.Success?
    ensures r.Success? ==> SameFrame(c, r.value)
    decreases item, 2
  {
    match item
    case NoteItem(_) => ValidateNoteOrChord(strict, c, item)
    case ChordItem(_) => ValidateNoteOrChord(strict, c, item)
    case TupletItem(a, nn, cs) => ValidateTuplet(strict, c, a, nn, cs)
    case _ => Success(c)
  }

  /** `_validate_slur`: an empty slur only draws a warning. */
  function ValidateSlur(strict: bool, c: VCtx, cs: seq<Item>): (r: Outcome)
    ensures Step(strict, c, r) && OnlyItemErrors(c, r)
    ensures !strict ==> r.Success?
    ensures r.Success? && cs == [] ==> r.value == AddWarning(c, EmptySlur)
    ensures r.Success? ==> SameFrame(c, r.value)
  {
    ValidateContents(strict, if cs == [] then AddWarning(c, EmptySlur) else c, cs)
  }

  /** The validation a note, chord, tuplet or slur gets wherever it stands in a
      measure; other items are left alone. */
  function ValidateMusic(strict: bool, c: VCtx, item: Item): (r: Outcome)
    ensures Step(strict, c, r) && OnlyItemErrors(c, r)
    ensures !strict ==> r.Success?
    ensures r.Success? ==> SameFrame(c, r.value)
  {
    match item
    case NoteItem(_) => ValidateNoteOrChord(strict, c, item)
    case ChordItem(_) => ValidateNoteOrChord(strict, c, item)
    case TupletItem(a, nn, cs) => ValidateTuplet(strict, c, a, nn, cs)
    case SlurItem(cs) => ValidateSlur(strict, c, cs)
    case _ => Success(c)
  }

  // ============================================================ other markings

  /** `_validate_pedal`: a release while the pedal is up is an error, a press while
      it is down only a warning; afterwards the pedal is down unless it was
      released. */
  function ValidatePedal(strict: bool, c: VCtx, p: PedalType): (r: Outcome)
    ensures Step(strict, c, r) && OnlyItemErrors(c, r)
    ensures r.Failure? <==> strict && p == Up && !c.pedalDown
    ensures r.Success? ==> (r.value.pedalDown <==> p != Up)
    ensures r.Success? ==> (|r.value.errors| > |c.errors| <==> p == Up && !c.pedalDown)
    ensures r.Success? ==> (|r.value.warnings| > |c.warnings| <==> p == Down && c.pedalDown)
    ensures r.Success? ==> SameFrame(c, r.value)
  {
    match p
    case Down => Success((if c.pedalDown then AddWarning(c, PedalAlreadyDown) else c).(pedalDown := true))
    case Up =>
      var c1 :- if c.pedalDown then Success(c) else AddError(strict, c, PedalNotDown);
      Success(c1.(pedalDown := false))
    case Change => Success(c.(pedalDown := true))
  }

  /** `_validate_dynamic`: exactly the eleven known markings pass. */
  function ValidateDynamic(strict: bool, c: VCtx, marking: string): (r: Outcome)
    ensures Step(strict, c, r) && OnlyItemErrors(c, r)
    ensures strict ==> (r.Failure? <==> marking !in KnownDynamics)
    ensures !strict ==> r.Success? && (|r.value.errors| > |c.errors| <==> marking !in KnownDynamics)
    ensures r.Success? ==> r.value.(errors := c.errors) == c
  {
    if marking in KnownDynamics then Success(c) else AddError(strict, c, UnknownDynamic(marking))
  }

  /** `_validate_instrument`: a name unknown after lower-casing draws a warning and
      nothing else. */
  function ValidateInstrument(c: VCtx, name: string): (d: VCtx)
    ensures d.(warnings := c.warnings) == c
    ensures d.warnings == c.warnings + (if Lower(name) in KnownInstruments then [] else [UnknownInstrument(name)])
  {
    if Lower(name) !in KnownInstruments then AddWarning(c, UnknownInstrument(name)) else c
  }

  // ================================================================= measures

  /** `measure.number or ctx.current_measure`. */
  function MeasureLabel(number: Option<int>, c: VCtx): Option<int>
  {
    if number.Some? && number.value != 0 then number else c.measure
  }

  /** The time signature in force after a list of items: the last one it holds,
      else `ts`. Voice-block items are never time signatures themselves. */
  function MeterAfter(cs: seq<Item>, ts: TimeSignature): TimeSignature
    decreases |cs|
  {
    if cs == [] then ts else MeterAfter(cs[1..], if cs[0].TimeSigItem? then cs[0].sig else ts)
  }

  /** Every time signature in the list has a non-zero denominator. */
  predicate MetersDefined(cs: seq<Item>) {
    forall i :: 0 <= i < |cs| ==> cs[i].TimeSigItem? ==> cs[i].sig.denominator != 0
  }

  lemma MetersDefinedCons(cs: seq<Item>)
    requires cs != []
    ensures MetersDefined(cs) <==> (cs[0].TimeSigItem? ==> cs[0].sig.denominator != 0) && MetersDefined(cs[1..])
  {
    assert forall i :: 1 <= i < |cs| ==> cs[i] == cs[1..][i - 1];
  }

  /** `voice_blocks[v]`: the items of the in-measure voice `v`, in order. */
  function VoiceItems(cs: seq<Item>, v: int): seq<Item>
    decreases cs
  {
    if cs == [] then []
    else (if cs[0].Marked? && cs[0].voice == v then [cs[0].inner] else []) + VoiceItems(cs[1..], v)
  }

  /** The reference for a measure of the right length. Without voice blocks the
      durations of all items add up to the length the time signature in force at
      the end of the measure gives; with voice blocks every voice adds up to the
      length of the time signature in force when the measure starts. */
  predicate MeasureFits(ts: TimeSignature, cs: seq<Item>) {
    var nums := VoiceNumbers(cs);
    if nums == [] then LastsMeter(cs, MeterAfter(cs, ts))
    else forall k :: 0 <= k < |nums| ==> LastsMeter(VoiceItems(cs, nums[k]), ts)
  }

  /** The durations a measure needs can all be computed without dividing by zero. */
  predicate MeasureComputable(ts: TimeSignature, cs: seq<Item>) {
    var nums := VoiceNumbers(cs);
    BeatsPerMeasure(ts).Some? &&
    if nums == [] then ItemsDuration(cs, 1.0).Some? && MetersDefined(cs)
    else forall k :: 0 <= k < |nums| ==> ItemsDuration(VoiceItems(cs, nums[k]), 1.0).Some?
  }

  predicate MeasureError(e: SemanticError) {
    e.MeasureLength? || e.VoicesUnsynchronized? || e.BlockLength?
  }

  /** Between `c` and `d` an error about a measure's length was added. */
  predicate NewMeasureError(c: VCtx, d: VCtx) {
    exists i :: |c.errors| <= i < |d.errors| && MeasureError(d.errors[i])
  }

  lemma NoMeasureErrors(c: VCtx, d: VCtx)
    requires c.errors <= d.errors && OnlyItemErrors(c, Success(d))
    ensures !NewMeasureError(c, d)
  {
  }

  lemma MeasureErrorsSplit(c: VCtx, d: VCtx, e: VCtx)
    requires c.errors <= d.errors && d.errors <= e.errors
    ensures NewMeasureError(c, e) <==> NewMeasureError(c, d) || NewMeasureError(d, e)
  {
    assert e.errors[..|d.errors|] == d.errors;
    if NewMeasureError(c, d) {
      var i :| |c.errors| <= i < |d.errors| && MeasureError(d.errors[i]);
      assert e.errors[i] == d.errors[i];
    }
    if NewMeasureError(c, e) && !NewMeasureError(d, e) {
      var i :| |c.errors| <= i < |e.errors| && MeasureError(e.errors[i]);
      assert e.errors[i] == d.errors[i];
    }
  }

  datatype Acc<X> = Acc(ctx: VCtx, extra: X)

  function CtxOf<X>(r: Result<Acc<X>, Fault>): (o: Outcome)
    ensures o.Success? <==> r.Success?
    ensures r.Success? ==> o.value == r.value.ctx
    ensures r.Failure? ==> o.error == r.error
  {
    match r
    case Success(a) => Success(a.ctx)
    case Failure(f) => Failure(f)
  }

  /** One item of a measure without voice blocks, once its duration is counted:
      a time signature takes effect at once and must have a non-zero denominator. */
  function PlainItem(strict: bool, c: VCtx, item: Item): (r: Outcome)
    ensures Step(strict, c, r) && OnlyItemErrors(c, r)
    ensures !strict ==> (r.Success? <==> !(item.TimeSigItem? && item.sig.denominator == 0))
    ensures r.Success? && item.TimeSigItem? ==> item.sig.denominator != 0
    ensures r.Success? ==> SamePlace(c, r.value) && r.value.timeSig == (if item.TimeSigItem? then item.sig else c.timeSig)
  {
    if item.PedalItem? then ValidatePedal(strict, c, item.pedal)
    else if item.DynamicItem? then ValidateDynamic(strict, c, item.marking)
    else if item.TimeSigItem? then
      if item.sig.denominator == 0 then Failure(ZeroDivision) else Success(c.(timeSig := item.sig))
    else ValidateMusic(strict, c, item)
  }

  /** The meter a list leaves in force has a non-zero denominator when the one
      before it did and every time signature in the list does. */
  lemma {:induction false} MeterAfterDefined(cs: seq<Item>, ts: TimeSignature)
    requires MetersDefined(cs) && ts.denominator != 0
    ensures MeterAfter(cs, ts).denominator != 0
    decreases cs
  {
    if cs != [] {
      MetersDefinedCons(cs);
      MeterAfterDefined(cs[1..], if cs[0].TimeSigItem? then cs[0].sig else ts);
    }
  }

  /** The loop over a measure without voice blocks: each item's duration is added
      to the running total `extra` before the item is validated, so the total
      ends as the sum of the items' durations. */
  function PlainItems(strict: bool, c: VCtx, cs: seq<Item>, total: real): (r: Result<Acc<real>, Fault>)
    ensures Step(strict, c, CtxOf(r)) && OnlyItemErrors(c, CtxOf(r))
    ensures r.Success? ==> Lasts(cs, r.value.extra - total)
    ensures r.Success? ==> MetersDefined(cs)
    ensures r.Success? ==> SamePlace(c, r.value.ctx) && r.value.ctx.timeSig == MeterAfter(cs, c.timeSig)
    decreases cs
  {
    if cs == [] then Success(Acc(c, total))
    else
      var d := ItemDuration(cs[0], 1.0);
      var c1 := PlainItem(strict, c, cs[0]);
      if d.None? then Failure(ZeroDivision)
      else if c1.Failure? then Failure(c1.error)
      else
        var r := PlainItems(strict, c1.value, cs[1..], total + d.value);
        ItemThen(strict, c, c1.value, CtxOf(r));
        MetersDefinedCons(cs);
        ItemsDurationCons(cs, 1.0);
        r
  }

  /** A lenient run fails only when a duration or a time signature divides by zero. */
  lemma {:induction false} PlainItemsLenient(c: VCtx, cs: seq<Item>, total: real)
    ensures PlainItems(false, c, cs, total).Success? <==> ItemsDuration(cs, 1.0).Some? && MetersDefined(cs)
    decreases cs
  {
    if cs != [] {
      MetersDefinedCons(cs);
      ItemsDurationCons(cs, 1.0);
      var d := ItemDuration(cs[0], 1.0);
      var c1 := PlainItem(false, c, cs[0]);
      var r := PlainItems(false, c, cs, total);
      if d.None? {
        assert r.Failure?;
      } else if c1.Failure? {
        assert r.Failure?;
      } else {
        PlainItemsLenient(c1.value, cs[1..], total + d.value);
        assert r.Success? <==> PlainItems(false, c1.value, cs[1..], total + d.value).Success?;
      }
    }
  }

  /** A measure without voice blocks: its items' durations must add up to the
      length of the time signature in force, which a time signature inside the
      measure replaces. */
  function ValidatePlain(strict: bool, c: VCtx, cs: seq<Item>, number: Option<int>): (r: Outcome)
    ensures Step(strict, c, r)
    ensures !strict ==> (r.Success? <==> BeatsPerMeasure(c.timeSig).Some? && ItemsDuration(cs, 1.0).Some? && MetersDefined(cs))
    ensures r.Success? ==> SamePlace(c, r.value) && r.value.timeSig == MeterAfter(cs, c.timeSig)
    ensures r.Success? ==> ItemsDuration(cs, 1.0).Some? && BeatsPerMeasure(MeterAfter(cs, c.timeSig)).Some?
    ensures r.Success? ==> (NewMeasureError(c, r.value) <==> !LastsMeter(cs, MeterAfter(cs, c.timeSig)))
  {
    if c.timeSig.denominator == 0 then Failure(ZeroDivision)
    else
      PlainItemsLenient(c, cs, 0.0);
      var t :- PlainItems(strict, c, cs, 0.0);
      var c1 := t.ctx;
      var total := t.extra;
      MeterAfterDefined(cs, c.timeSig);
      var expected := BeatsPerMeasure(c1.timeSig).value;
      NoMeasureErrors(c, c1);
      if total != expected then
        var r := AddError(strict, c1, MeasureLength(c1.staff, c1.voice, MeasureLabel(number, c1), total, expected));
        StepThen(strict, c, c1, r);
        if r.Success? then
          assert MeasureError(r.value.errors[|c1.errors|]);
          MeasureErrorsSplit(c, c1, r.value);
          r
        else r
      else
        Success(c1)
  }

  // ========================================================== voice blocks

  lemma VoiceItemsCons(cs: seq<Item>, v: int)
    requires cs != [] && cs[0].Marked? && cs[0].voice == v
    ensures VoiceItems(cs, v) != [] && VoiceItems(cs, v)[0] == cs[0].inner
    ensures VoiceItems(cs, v)[1..] == VoiceItems(cs[1..], v)
  {
    assert ([cs[0].inner] + VoiceItems(cs[1..], v))[1..] == VoiceItems(cs[1..], v);
  }

  /** The items of the in-measure voice `v`, with their durations summed onto
      `total` and each validated in turn. */
  function BlockItems(strict: bool, c: VCtx, cs: seq<Item>, v: int, total: real): (r: Result<Acc<real>, Fault>)
    ensures Step(strict, c, CtxOf(r)) && OnlyItemErrors(c, CtxOf(r))
    ensures r.Success? ==> Lasts(VoiceItems(cs, v), r.value.extra - total)
    ensures !strict ==> (r.Success? <==> ItemsDuration(VoiceItems(cs, v), 1.0).Some?)
    ensures r.Success? ==> SameFrame(c, r.value.ctx)
    decreases cs
  {
    if cs == [] then Success(Acc(c, total))
    else if cs[0].Marked? && cs[0].voice == v then
      var d := ItemDuration(cs[0].inner, 1.0);
      var c1 := ValidateMusic(strict, c, cs[0].inner);
      if d.None? then Failure(ZeroDivision)
      else if c1.Failure? then Failure(c1.error)
      else
        var r := BlockItems(strict, c1.value, cs[1..], v, total + d.value);
        ItemThen(strict, c, c1.value, CtxOf(r));
        VoiceItemsCons(cs, v);
        ItemsDurationCons(VoiceItems(cs, v), 1.0);
        r
    else
      assert VoiceItems(cs, v) == VoiceItems(cs[1..], v);
      BlockItems(strict, c, cs[1..], v, total)
  }

  /** The voices of a voice-block measure in the order given, each validated with
      the current voice set to it; `extra` holds their totals in that order. */
  function BlockVoices(strict: bool, c: VCtx, cs: seq<Item>, nums: seq<int>): (r: Result<Acc<seq<real>>, Fault>)
    ensures Step(strict, c, CtxOf(r)) && OnlyItemErrors(c, CtxOf(r))
    ensures r.Success? ==> |r.value.extra| == |nums|
    ensures r.Success? ==> forall k :: 0 <= k < |nums| ==> Lasts(VoiceItems(cs, nums[k]), r.value.extra[k])
    ensures r.Success? ==> r.value.ctx.staff == c.staff && r.value.ctx.measure == c.measure && r.value.ctx.timeSig == c.timeSig
    decreases nums
  {
    if nums == [] then Success(Acc(c, []))
    else
      var c0 := c.(voice := Some(nums[0]));
      var b :- BlockItems(strict, c0, cs, nums[0], 0.0);
      var rest := BlockVoices(strict, b.ctx, cs, nums[1..]);
      ItemThen(strict, c, b.ctx, CtxOf(rest));
      var tail :- rest;
      var durs := [b.extra] + tail.extra;
      assert forall k :: 0 <= k < |nums| ==> Lasts(VoiceItems(cs, nums[k]), durs[k]) by {
        forall k | 0 <= k < |nums| ensures Lasts(VoiceItems(cs, nums[k]), durs[k]) {
          if k > 0 {
            assert nums[k] == nums[1..][k - 1] && durs[k] == tail.extra[k - 1];
          }
        }
      }
      Success(Acc(tail.ctx, durs))
  }

  /** A lenient run over the voices fails only when one of their durations
      divides by zero. */
  lemma {:induction false} BlockVoicesLenient(c: VCtx, cs: seq<Item>, nums: seq<int>)
    ensures BlockVoices(false, c, cs, nums).Success? <==>
      forall k :: 0 <= k < |nums| ==> ItemsDuration(VoiceItems(cs, nums[k]), 1.0).Some?
    decreases nums
  {
    if nums != [] {
      var r := BlockVoices(false, c, cs, nums);
      var c0 := c.(voice := Some(nums[0]));
      var b := BlockItems(false, c0, cs, nums[0], 0.0);
      assert forall k :: 1 <= k < |nums| ==> nums[k] == nums[1..][k - 1];
      if b.Success? {
        BlockVoicesLenient(b.value.ctx, cs, nums[1..]);
        assert r.Success? <==> BlockVoices(false, b.value.ctx, cs, nums[1..]).Success?;
      } else {
        assert r.Failure?;
      }
    }
  }

  /** The first check of a voice-block measure: every voice against the first. */
  function SyncErrors(strict: bool, c: VCtx, nums: seq<int>, durs: seq<real>, firstVoice: int, first: real,
                      at: Option<int>): (r: Outcome)
    requires |nums| == |durs|
    ensures Step(strict, c, r)
    ensures r.Success? ==> r.value.(errors := c.errors) == c
    ensures !strict ==> r.Success?
    ensures r.Success? ==> forall i :: |c.errors| <= i < |r.value.errors| ==> r.value.errors[i].VoicesUnsynchronized?
    ensures r.Success? ==> (r.value.errors == c.errors <==> forall k :: 0 <= k < |durs| ==> durs[k] == first)
    decreases nums
  {
    if nums == [] then Success(c)
    else
      assert forall k :: 1 <= k < |durs| ==> durs[k] == durs[1..][k - 1];
      var c1 :- if durs[0] != first
                then AddError(strict, c, VoicesUnsynchronized(c.staff, at, nums[0], durs[0], firstVoice, first))
                else Success(c);
      var r := SyncErrors(strict, c1, nums[1..], durs[1..], firstVoice, first, at);
      StepThen(strict, c, c1, r);
      if r.Success? then
        assert r.value.errors[..|c1.errors|] == c1.errors;
        r
      else r
  }

  /** The items of a voice-block measure outside the voice blocks: only pedals,
      dynamics and time signatures are looked at. */
  function OtherItems(strict: bool, c: VCtx, cs: seq<Item>): (r: Outcome)
    ensures Step(strict, c, r) && OnlyItemErrors(c, r)
    ensures !strict ==> r.Success?
    ensures r.Success? ==> SamePlace(c, r.value) && r.value.timeSig == MeterAfter(cs, c.timeSig)
    decreases cs
  {
    if cs == [] then Success(c)
    else
      var item := cs[0];
      var c1 :- if item.PedalItem? then ValidatePedal(strict, c, item.pedal)
                else if item.DynamicItem? then ValidateDynamic(strict, c, item.marking)
                else if item.TimeSigItem? then Success(c.(timeSig := item.sig))
                else Success(c);
      var r := OtherItems(strict, c1, cs[1..]);
      ItemThen(strict, c, c1, r);
      r
  }

  lemma SyncVerdict(d: VCtx, e: VCtx, durs: seq<real>, first: real)
    requires d.errors <= e.errors
    requires forall i :: |d.errors| <= i < |e.errors| ==> e.errors[i].VoicesUnsynchronized?
    requires e.errors == d.errors <==> forall k :: 0 <= k < |durs| ==> durs[k] == first
    ensures NewMeasureError(d, e) <==> exists k :: 0 <= k < |durs| && durs[k] != first
  {
    if e.errors != d.errors {
      assert MeasureError(e.errors[|d.errors|]);
    }
  }

  /** The length checks of a voice-block measure, once the voices' totals are
      known: a measure error for each voice that differs from the first, and one
      if the first differs from the meter's length. */
  function LengthErrors(strict: bool, c: VCtx, nums: seq<int>, durs: seq<real>, expected: real, at: Option<int>)
    : (r: Outcome)
    requires |nums| == |durs| && durs != []
    ensures Step(strict, c, r)
    ensures r.Success? ==> r.value.(errors := c.errors) == c
    ensures !strict ==> r.Success?
    ensures r.Success? ==> (NewMeasureError(c, r.value) <==> exists k :: 0 <= k < |durs| && durs[k] != expected)
  {
    var c1 :- SyncErrors(strict, c, nums, durs, nums[0], durs[0], at);
    var r := if durs[0] != expected then AddError(strict, c1, BlockLength(c1.staff, at, durs[0], expected))
             else Success(c1);
    StepThen(strict, c, c1, r);
    if r.Success? then
      SyncVerdict(c, c1, durs, durs[0]);
      assert NewMeasureError(c1, r.value) <==> durs[0] != expected by {
        if durs[0] != expected {
          assert MeasureError(r.value.errors[|c1.errors|]);
        }
      }
      MeasureErrorsSplit(c, c1, r.value);
      r
    else r
  }

  /** The voice blocks of a measure: the voices are validated in increasing
      order, each must last as long as the first, and the first must last as long
      as the time signature says. */
  function BlockLengths(strict: bool, c: VCtx, cs: seq<Item>, number: Option<int>): (r: Outcome)
    requires VoiceNumbers(cs) != [] && c.timeSig.denominator != 0
    ensures Step(strict, c, r)
    ensures r.Success? ==> r.value.staff == c.staff && r.value.measure == c.measure && r.value.timeSig == c.timeSig
    ensures !strict ==> (r.Success? <==> MeasureComputable(c.timeSig, cs))
    ensures r.Success? ==> (NewMeasureError(c, r.value) <==> !MeasureFits(c.timeSig, cs))
  {
    var expected := BeatsPerMeasure(c.timeSig).value;
    var nums := VoiceNumbers(cs);
    BlockVoicesLenient(c, cs, nums);
    var b :- BlockVoices(strict, c, cs, nums);
    var r := LengthErrors(strict, b.ctx, nums, b.extra, expected, MeasureLabel(number, b.ctx));
    StepThen(strict, c, b.ctx, r);
    if r.Success? then
      NoMeasureErrors(c, b.ctx);
      MeasureErrorsSplit(c, b.ctx, r.value);
      r
    else r
  }

  /** A measure with voice blocks: the voice blocks are checked, then the pedals,
      dynamics and time signatures outside them are handled with the current
      voice restored. */
  function ValidateBlocks(strict: bool, c: VCtx, cs: seq<Item>, number: Option<int>): (r: Outcome)
    requires VoiceNumbers(cs) != []
    ensures Step(strict, c, r)
    ensures r.Success? ==> SamePlace(c, r.value) && r.value.timeSig == MeterAfter(cs, c.timeSig)
    ensures !strict ==> (r.Success? <==> MeasureComputable(c.timeSig, cs))
    ensures r.Success? ==> (NewMeasureError(c, r.value) <==> !MeasureFits(c.timeSig, cs))
  {
    if c.timeSig.denominator == 0 then Failure(ZeroDivision)
    else
      var c2 :- BlockLengths(strict, c, cs, number);
      var c3 := c2.(voice := c.voice);
      var r := OtherItems(strict, c3, cs);
      StepThen(strict, c, c3, r);
      if r.Success? then
        NoMeasureErrors(c3, r.value);
        MeasureErrorsSplit(c, c3, r.value);
        r
      else r
  }

  /** `_validate_measure`. A strict run that returns found the measure of the
      right length; a lenient run reports a measure error exactly when the length
      is wrong, and fails only when a duration cannot be computed. */
  function ValidateMeasure(strict: bool, c: VCtx, cs: seq<Item>, number: Option<int>): (r: Outcome)
    ensures Step(strict, c, r)
    ensures r.Success? ==> SamePlace(c, r.value) && r.value.timeSig == MeterAfter(cs, c.timeSig)
    ensures !strict ==> (r.Success? <==> MeasureComputable(c.timeSig, cs))
    ensures r.Success? ==> (NewMeasureError(c, r.value) <==> !MeasureFits(c.timeSig, cs))
    ensures strict && r.Success? ==> MeasureFits(c.timeSig, cs)
  {
    if VoiceNumbers(cs) == [] then ValidatePlain(strict, c, cs, number)
    else ValidateBlocks(strict, c, cs, number)
  }

  // ======================================================== the meter's walk

  /** The reference walk over the measures of a list, everything else skipped:
      whether each measure fits the meter in force when it starts, and the meter
      in force afterwards. */
  function MeasuresWalk(ts: TimeSignature, cs: seq<Item>): (bool, TimeSignature)
    decreases cs
  {
    if cs == [] then (true, ts)
    else if cs[0].MeasureItem? then
      var w := MeasuresWalk(MeterAfter(cs[0].contents, ts), cs[1..]);
      (MeasureFits(ts, cs[0].contents) && w.0, w.1)
    else MeasuresWalk(ts, cs[1..])
  }

  /** The walk over the voices of a staff: each voice first reads the time
      signatures it holds outside its measures, then walks its measures. */
  function VoicesWalk(ts: TimeSignature, cs: seq<Item>): (bool, TimeSignature)
    decreases cs
  {
    if cs == [] then (true, ts)
    else if cs[0].VoiceItem? then
      var m := MeasuresWalk(MeterAfter(cs[0].contents, ts), cs[0].contents);
      var w := VoicesWalk(m.1, cs[1..]);
      (m.0 && w.0, w.1)
    else VoicesWalk(ts, cs[1..])
  }

  /** The walk over a staff: its own time signatures, its voices, then the
      measures written directly in it. */
  function StaffWalk(ts: TimeSignature, st: Staff): (bool, TimeSignature)
  {
    var v := VoicesWalk(MeterAfter(st.contents, ts), st.contents);
    var m := MeasuresWalk(v.1, st.contents);
    (v.0 && m.0, m.1)
  }

  function StavesWalk(ts: TimeSignature, staves: seq<Staff>): (bool, TimeSignature)
    decreases staves
  {
    if staves == [] then (true, ts)
    else
      var s := StaffWalk(ts, staves[0]);
      var w := StavesWalk(s.1, staves[1..]);
      (s.0 && w.0, w.1)
  }

  /** The meter a score starts in: its own time signature, else 4/4. */
  function StartMeter(score: Score): TimeSignature
  {
    if score.timeSignature.Some? then score.timeSignature.value else TimeSignature(4, 4)
  }

  /** Every measure of the score has the length its time signature gives. */
  predicate ScoreFits(score: Score) {
    StavesWalk(StartMeter(score), score.staves).0
  }

  /** A step that added no measure error, chained with a walk. */
  lemma WalkThen(c: VCtx, d: VCtx, e: VCtx, a: bool, b: bool)
    requires c.errors <= d.errors && d.errors <= e.errors
    requires NewMeasureError(c, d) <==> !a
    requires NewMeasureError(d, e) <==> !b
    ensures NewMeasureError(c, e) <==> !(a && b)
  {
    MeasureErrorsSplit(c, d, e);
  }

  // ======================================================= voices and staves

  /** The measures of a list in order, numbered from `i + 1` among themselves; a
      voice lets a measure's own non-zero number take precedence. */
  function ValidateMeasures(strict: bool, c: VCtx, cs: seq<Item>, i: int, numbered: bool): (r: Outcome)
    ensures Step(strict, c, r)
    ensures r.Success? ==> r.value.staff == c.staff && r.value.voice == c.voice
    ensures r.Success? ==> r.value.timeSig == MeasuresWalk(c.timeSig, cs).1
    ensures r.Success? ==> (NewMeasureError(c, r.value) <==> !MeasuresWalk(c.timeSig, cs).0)
    decreases cs
  {
    if cs == [] then Success(c)
    else
      if cs[0].MeasureItem? then
        var mc := cs[0].contents;
        var no := cs[0].measureNo;
        var at := if numbered then NumberOr(no, i + 1) else i + 1;
        var c0 := c.(measure := Some(at));
        var c1 :- ValidateMeasure(strict, c0, mc, no);
        var r := ValidateMeasures(strict, c1, cs[1..], i + 1, numbered);
        StepThen(strict, c, c1, r);
        if r.Success? then
          WalkThen(c, c1, r.value, MeasureFits(c.timeSig, mc), MeasuresWalk(c1.timeSig, cs[1..]).0);
          r
        else r
      else ValidateMeasures(strict, c, cs[1..], i, numbered)
  }

  /** The time signatures and tempo marks a voice holds outside its measures, read
      before any of its measures is validated. */
  function VoiceSettings(c: VCtx, cs: seq<Item>): (d: VCtx)
    ensures d.(timeSig := c.timeSig, tempo := c.tempo) == c
    ensures d.timeSig == MeterAfter(cs, c.timeSig)
    decreases cs
  {
    if cs == [] then c
    else
      var item := cs[0];
      var c1 := if item.TimeSigItem? then c.(timeSig := item.sig)
                else if item.TempoItem? then c.(tempo := Some(item.tempo))
                else c;
      VoiceSettings(c1, cs[1..])
  }

  /** `_validate_voice`. */
  function ValidateVoice(strict: bool, c: VCtx, number: int, cs: seq<Item>): (r: Outcome)
    ensures Step(strict, c, r)
    ensures r.Success? ==> r.value.staff == c.staff && r.value.voice == Some(number)
    ensures r.Success? ==> r.value.timeSig == MeasuresWalk(MeterAfter(cs, c.timeSig), cs).1
    ensures r.Success? ==> (NewMeasureError(c, r.value) <==> !MeasuresWalk(MeterAfter(cs, c.timeSig), cs).0)
  {
    ValidateMeasures(strict, VoiceSettings(c.(voice := Some(number)), cs), cs, 0, true)
  }

  /** The voices of a staff, in order. */
  function ValidateVoices(strict: bool, c: VCtx, cs: seq<Item>): (r: Outcome)
    ensures Step(strict, c, r)
    ensures r.Success? ==> r.value.staff == c.staff
    ensures r.Success? ==> r.value.timeSig == VoicesWalk(c.timeSig, cs).1
    ensures r.Success? ==> (NewMeasureError(c, r.value) <==> !VoicesWalk(c.timeSig, cs).0)
    decreases cs
  {
    if cs == [] then Success(c)
    else
      if cs[0].VoiceItem? then
        var vc := cs[0].contents;
        var c1 :- ValidateVoice(strict, c, cs[0].number, vc);
        var r := ValidateVoices(strict, c1, cs[1..]);
        StepThen(strict, c, c1, r);
        if r.Success? then
          WalkThen(c, c1, r.value, MeasuresWalk(MeterAfter(vc, c.timeSig), vc).0, VoicesWalk(c1.timeSig, cs[1..]).0);
          r
        else r
      else ValidateVoices(strict, c, cs[1..])
  }

  /** The sum of `_get_item_duration` over the contents of the measures of a voice. */
  function MeasuresDuration(cs: seq<Item>): Option<real>
    decreases cs
  {
    if cs == [] then Some(0.0)
    else
      var head := if cs[0].MeasureItem? then ItemsDuration(cs[0].contents, 1.0) else Some(0.0);
      match head
      case None => None
      case Some(d) =>
        match MeasuresDuration(cs[1..])
        case None => None
        case Some(e) => Some(d + e)
  }

  /** `voice_durations`: the voices' totals by voice number, a repeated number
      keeping its first place and its last total. The current voice follows the
      loop. */
  function VoiceTotals(c: VCtx, cs: seq<Item>, totals: seq<(int, real)>): (r: Result<Acc<seq<(int, real)>>, Fault>)
    ensures r.Success? ==> r.value.ctx.(voice := c.voice) == c
    ensures r.Success? && UniqueKeys(totals) ==> UniqueKeys(r.value.extra)
    ensures r.Failure? ==> r.error.ZeroDivision?
    decreases cs
  {
    if cs == [] then Success(Acc(c, totals))
    else if cs[0].VoiceItem? then
      var t :- MeasuresDuration(cs[0].contents).ToResult(ZeroDivision);
      PutUnique(totals, cs[0].number, t);
      VoiceTotals(c.(voice := Some(cs[0].number)), cs[1..], Put(totals, cs[0].number, t))
    else VoiceTotals(c, cs[1..], totals)
  }

  /** `_validate_voice_alignment`: voices whose totals differ draw one warning,
      never an error. */
  function ValidateAlignment(c: VCtx, cs: seq<Item>): (r: Outcome)
    ensures Step(true, c, r) && Step(false, c, r)
    ensures r.Failure? ==> r.error.ZeroDivision?
    ensures r.Success? ==> r.value.errors == c.errors && r.value.pending == c.pending
    ensures r.Success? ==> r.value.staff == c.staff && r.value.timeSig == c.timeSig
    ensures r.Success? ==> (VoiceTotals(c, cs, []).Success? &&
      var totals := VoiceTotals(c, cs, []).value.extra;
      UniqueKeys(totals) &&
      (|r.value.warnings| > |c.warnings| <==> exists i, j :: 0 <= i < j < |totals| && totals[i].1 != totals[j].1))
    ensures r.Success? ==> |r.value.warnings| <= |c.warnings| + 1
  {
    var t :- VoiceTotals(c, cs, []);
    assert t.ctx.pending == c.pending && t.ctx.errors == c.errors && t.ctx.warnings == c.warnings;
    assert Sound(c) ==> Sound(t.ctx);
    var ds := Values(t.extra);
    if |ds| > 0 && exists i :: 0 <= i < |ds| && ds[i] != ds[0] then
      Success(AddWarning(t.ctx, VoiceLengths(t.ctx.staff, t.extra)))
    else
      assert forall i, j :: 0 <= i < j < |ds| ==> ds[i] == ds[0] == ds[j];
      Success(t.ctx)
  }

  /** The items of a staff read before its voices: time signatures, tempo marks
      and key signatures take effect and instrument changes are checked. */
  function StaffSettings(c: VCtx, cs: seq<Item>): (d: VCtx)
    ensures d.timeSig == MeterAfter(cs, c.timeSig)
    ensures d.errors == c.errors && d.pending == c.pending && SamePlace(c, d) && c.warnings <= d.warnings
    decreases cs
  {
    if cs == [] then c
    else
      var item := cs[0];
      var c1 := if item.TimeSigItem? then c.(timeSig := item.sig)
                else if item.TempoItem? then c.(tempo := Some(item.tempo))
                else if item.KeySigItem? then c.(key := Some(item.key))
                else if item.InstrumentItem? then ValidateInstrument(c, item.instrument)
                else c;
      var d := StaffSettings(c1, cs[1..]);
      assert d.warnings[..|c1.warnings|] == c1.warnings;
      assert c1.warnings[..|c.warnings|] == c.warnings;
      assert d.warnings[..|c.warnings|] == c.warnings;
      d
  }

  predicate HasMeasure(cs: seq<Item>) {
    exists i :: 0 <= i < |cs| && cs[i].MeasureItem?
  }

  /** With no measure in the list the walk changes nothing. */
  lemma {:induction false} NoMeasuresWalk(ts: TimeSignature, cs: seq<Item>)
    ensures !HasMeasure(cs) ==> MeasuresWalk(ts, cs) == (true, ts)
    decreases cs
  {
    if cs != [] && !HasMeasure(cs) {
      assert !cs[0].MeasureItem?;
      assert forall i :: 0 <= i < |cs[1..]| ==> cs[1..][i] == cs[i + 1];
      NoMeasuresWalk(ts, cs[1..]);
    }
  }

  /** What `_validate_staff` does before the voices: the staff becomes current,
      its instrument is checked, its settings are read. */
  function StaffOpening(c: VCtx, st: Staff): (d: VCtx)
    ensures d.errors == c.errors && d.pending == c.pending && c.warnings <= d.warnings
    ensures d.staff == Some(st.name) && d.timeSig == MeterAfter(st.contents, c.timeSig)
  {
    var c1 := c.(staff := Some(st.name));
    var c2 := if st.instrument.Some? && st.instrument.value != "" then ValidateInstrument(c1, st.instrument.value) else c1;
    var d := StaffSettings(c2, st.contents);
    assert d.warnings[..|c2.warnings|] == c2.warnings;
    assert c2.warnings[..|c.warnings|] == c.warnings;
    assert d.warnings[..|c.warnings|] == c.warnings;
    d
  }

  /** The measures written directly in a staff, checked as voice 1 and numbered
      by position; a staff without any is left as it is. */
  function DirectMeasures(strict: bool, c: VCtx, cs: seq<Item>): (r: Outcome)
    ensures Step(strict, c, r)
    ensures r.Success? ==> r.value.staff == c.staff
    ensures r.Success? ==> r.value.timeSig == MeasuresWalk(c.timeSig, cs).1
    ensures r.Success? ==> (NewMeasureError(c, r.value) <==> !MeasuresWalk(c.timeSig, cs).0)
  {
    NoMeasuresWalk(c.timeSig, cs);
    if HasMeasure(cs) then
      var c1 := c.(voice := Some(1));
      assert Sound(c) ==> Sound(c1);
      var r := ValidateMeasures(strict, c1, cs, 0, false);
      StepThen(strict, c, c1, r);
      r
    else Success(c)
  }

  predicate IsVoice(item: Item) { item.VoiceItem? }

  /** The alignment check, run only when the staff has more than one voice. */
  function AlignVoices(strict: bool, c: VCtx, cs: seq<Item>): (r: Outcome)
    ensures Step(strict, c, r)
    ensures r.Success? ==> r.value.staff == c.staff && r.value.timeSig == c.timeSig
    ensures r.Success? ==> !NewMeasureError(c, r.value)
  {
    if |Sorting.Filter(cs, IsVoice)| > 1 then ValidateAlignment(c, cs) else Success(c)
  }

  /** `_validate_staff`: the staff's instrument, its settings, its voices, the
      measures written directly in it, and the alignment of its voices. */
  function ValidateStaff(strict: bool, c: VCtx, st: Staff): (r: Outcome)
    ensures Step(strict, c, r)
    ensures r.Success? ==> r.value.staff == Some(st.name)
    ensures r.Success? ==> r.value.timeSig == StaffWalk(c.timeSig, st).1
    ensures r.Success? ==> (NewMeasureError(c, r.value) <==> !StaffWalk(c.timeSig, st).0)
  {
    var c3 := StaffOpening(c, st);
    assert Step(strict, c, Success(c3));
    var c4 :- ValidateVoices(strict, c3, st.contents);
    StepThen(strict, c, c3, Success(c4));
    var c5 :- DirectMeasures(strict, c4, st.contents);
    StepThen(strict, c, c4, Success(c5));
    WalkThen(c3, c4, c5, VoicesWalk(c3.timeSig, st.contents).0, MeasuresWalk(c4.timeSig, st.contents).0);
    MeasureErrorsSplit(c, c3, c5);
    var r := AlignVoices(strict, c5, st.contents);
    StepThen(strict, c, c5, r);
    if r.Success? then MeasureErrorsSplit(c, c5, r.value); r else r
  }

  function ValidateStaves(strict: bool, c: VCtx, staves: seq<Staff>): (r: Outcome)
    ensures Step(strict, c, r)
    ensures r.Success? ==> r.value.timeSig == StavesWalk(c.timeSig, staves).1
    ensures r.Success? ==> (NewMeasureError(c, r.value) <==> !StavesWalk(c.timeSig, staves).0)
    decreases staves
  {
    if staves == [] then Success(c)
    else
      var c1 :- ValidateStaff(strict, c, staves[0]);
      var r := ValidateStaves(strict, c1, staves[1..]);
      StepThen(strict, c, c1, r);
      if r.Success? then
        WalkThen(c, c1, r.value, StaffWalk(c.timeSig, staves[0]).0, StavesWalk(c1.timeSig, staves[1..]).0);
        r
      else r
  }

  // ================================================================= analyze

  /** One error per tie still pending, in the order the ties were opened. */
  function ReportTies(strict: bool, c: VCtx, ps: seq<(TieKey, Pitch)>): (r: Outcome)
    ensures r.Success? ==> r.value.(errors := c.errors) == c
    ensures strict ==> (r.Success? <==> ps == []) && (r.Success? ==> r.value == c)
    ensures r.Success? ==> c.errors <= r.value.errors && !NewMeasureError(c, r.value)
    ensures r.Success? && NoTieFailure(c.errors) ==> NoTieFailure(r.value.errors)
    ensures strict && ps != [] ==> r == Failure(Raised(UnresolvedTie(ps[0].1, ps[0].0.staff, ps[0].0.voice)))
    ensures !strict ==> r.Success? && |r.value.errors| == |c.errors| + |ps|
    ensures !strict ==> (c.errors <= r.value.errors &&
      forall i :: 0 <= i < |ps| ==> r.value.errors[|c.errors| + i] == UnresolvedTie(ps[i].1, ps[i].0.staff, ps[i].0.voice))
    decreases ps
  {
    if ps == [] then Success(c)
    else
      var c1 :- AddError(strict, c, UnresolvedTie(ps[0].1, ps[0].0.staff, ps[0].0.voice));
      var r := ReportTies(strict, c1, ps[1..]);
      if r.Success? then
        assert r.value.errors[..|c1.errors|] == c1.errors;
        assert forall i :: 1 <= i < |ps| ==> ps[i] == ps[1..][i - 1];
        MeasureErrorsSplit(c, c1, r.value);
        r
      else r
  }

  /** `if self.strict and ctx.errors: raise ctx.errors[0]`. */
  function RaiseFirst(strict: bool, c: VCtx): (r: Outcome)
    ensures r.Success? <==> !strict || c.errors == []
    ensures r.Success? ==> r.value == c
    ensures r.Failure? ==> c.errors != [] && r.error == Raised(c.errors[0])
  {
    if strict && c.errors != [] then Failure(Raised(c.errors[0])) else Success(c)
  }

  /** What `analyze` does once the staves are checked: every tie still open is
      reported, then a strict run raises the first error found. */
  function Conclude(strict: bool, c: VCtx): (r: Outcome)
    ensures !strict ==> r.Success? && c.errors <= r.value.errors && !NewMeasureError(c, r.value)
    ensures !strict ==> |r.value.errors| == |c.errors| + |c.pending|
    ensures r.Success? && NoTieFailure(c.errors) ==> NoTieFailure(r.value.errors)
    ensures strict && r.Success? ==> r.value == c && c.errors == [] && c.pending == []
    ensures strict && r.Failure? ==> r.error.Raised?
  {
    var c2 :- ReportTies(strict, c, c.pending);
    RaiseFirst(strict, c2)
  }

  /** The context `analyze` starts from: the score's time signature, tempo and key. */
  function Start(score: Score): (c: VCtx)
    ensures c.errors == [] && c.pending == [] && c.timeSig == StartMeter(score)
  {
    Fresh().(timeSig := StartMeter(score), tempo := score.tempo, key := score.keySignature)
  }

  /** Some reported error is a measure error. */
  predicate HasMeasureError(errors: seq<SemanticError>) {
    exists i :: 0 <= i < |errors| && MeasureError(errors[i])
  }

  /** A step that added no measure error leaves the question whether one was
      reported unchanged. */
  lemma KeepsMeasureErrors(c: VCtx, d: VCtx)
    requires c.errors <= d.errors && !NewMeasureError(c, d)
    ensures HasMeasureError(d.errors) <==> HasMeasureError(c.errors)
  {
    if HasMeasureError(c.errors) {
      var i :| 0 <= i < |c.errors| && MeasureError(c.errors[i]);
      assert d.errors[i] == c.errors[i];
    }
  }

  /** The staves checked from the score's starting context. */
  function CheckStaves(strict: bool, score: Score): (r: Outcome)
    ensures r.Failure? && r.error.Raised? ==> strict
    ensures r.Success? ==> NoTieFailure(r.value.errors) && TiesConsistent(r.value)
    ensures strict && r.Success? ==> r.value.errors == []
    ensures r.Success? ==> (HasMeasureError(r.value.errors) <==> !ScoreFits(score))
  {
    var c0 := Start(score);
    assert Sound(c0);
    ValidateStaves(strict, c0, score.staves)
  }

  /** `analyze`. A lenient run fails only by dividing by zero; a strict run that
      returns found no error at all, no tie left open and every measure of the
      right length; a lenient run reports a measure error exactly when some
      measure has the wrong length; and a failed tie resolution is never
      reported, because a tie's key already fixes its MIDI number. */
  function Analyze(strict: bool, score: Score): (r: Outcome)
    ensures !strict && r.Failure? ==> r.error.ZeroDivision?
    ensures r.Success? ==> NoTieFailure(r.value.errors)
    ensures strict && r.Success? ==> r.value.errors == [] && r.value.pending == [] && ScoreFits(score)
    ensures !strict && r.Success? ==> (HasMeasureError(r.value.errors) <==> !ScoreFits(score))
  {
    var s := CheckStaves(strict, score);
    if s.Failure? then Failure(s.error)
    else
      var r := Conclude(strict, s.value);
      if r.Success? && !strict then
        KeepsMeasureErrors(s.value, r.value);
        r
      else r
  }
}

=== FILE: compiler.dfy ===
/** The event compiler: a walk over the syntax tree with a time cursor that emits
    time-stamped events. The compiler's mutable context is threaded through as an
    immutable record, and every step returns the new context together with the
    time it consumed. `None` stands for the `ZeroDivisionError` a tuplet with a
    zero `actual` count raises, the only way compilation can fail. */
module Compiler {
  import opened Wrappers
  import opened Text
  import opened Nodes
  import opened Events
  import opened Instruments
  import opened Rational
  import opened Measures
  import Sorting

  /** The events the pending-tie table can hold. */
  type NoteEvent = e: Event | e.body.NoteBody?
    witness Event(0.0, "", 0, NoteBody(0, 0.0, 0, {}, false, false, 0))

  /** `(staff, voice, midi)`: the key under which a tied note waits. */
  datatype TieKey = TieKey(staff: string, voice: int, midi: int)

  /** `CompilerContext` together with the event list being built. */
  datatype Ctx = Ctx(time: real, staff: string, voice: int, channel: int, tempo: int,
                     timeSig: (int, int), velocity: int, pendingTies: map<TieKey, NoteEvent>,
                     nextChannel: int, staffChannels: map<string, int>,
                     channelPrograms: map<int, int>, events: seq<Event>)

  /** The context a fresh compiler starts from. */
  const Initial: Ctx := Ctx(0.0, "", 1, 0, 120, (4, 4), 80, map[], 0, map[], map[], [])

  /** A step's new context and the time it consumed. */
  datatype Out = Out(ctx: Ctx, dur: real)

  /** The parts of the context that compiling one item never changes. */
  predicate SameFrame(a: Ctx, b: Ctx) {
    a.staff == b.staff && a.channel == b.channel &&
    a.nextChannel == b.nextChannel && a.staffChannels == b.staffChannels
  }

  // ======================================================= channel allocation

  /** `_allocate_channel`: a staff keeps the channel it was given; a new staff
      gets the next free channel, skipping the percussion channel 9. */
  function AllocateChannel(ctx: Ctx, id: string): (r: (Ctx, int))
    ensures id in r.0.staffChannels && r.0.staffChannels[id] == r.1 && r.0.nextChannel >= ctx.nextChannel
    ensures r.0 == ctx.(staffChannels := r.0.staffChannels, nextChannel := r.0.nextChannel)
    ensures ChannelsValid(ctx) ==> ChannelsValid(r.0)
  {
    if id in ctx.staffChannels then (ctx, ctx.staffChannels[id])
    else
      var ch := if ctx.nextChannel == 9 then 10 else ctx.nextChannel;
      (ctx.(staffChannels := ctx.staffChannels[id := ch], nextChannel := ch + 1), ch)
  }

  /** Allocated channels lie below the next free one, are never 9, and differ
      between staves. */
  predicate ChannelsValid(ctx: Ctx) {
    ctx.nextChannel >= 0 &&
    (forall s :: s in ctx.staffChannels ==>
       0 <= ctx.staffChannels[s] < ctx.nextChannel && ctx.staffChannels[s] != 9) &&
    (forall s, t :: s in ctx.staffChannels && t in ctx.staffChannels && s != t ==>
       ctx.staffChannels[s] != ctx.staffChannels[t])
  }

  /** Allocation keeps the channel table valid, never hands out 9, gives a new
      staff a channel no other staff has, keeps every earlier assignment, and
      asking again for the same staff changes nothing. */
  lemma AllocateChannelCorrect(ctx: Ctx, id: string)
    requires ChannelsValid(ctx)
    ensures var (c, ch) := AllocateChannel(ctx, id);
      ChannelsValid(c) && 0 <= ch && ch != 9 &&
      id in c.staffChannels && c.staffChannels[id] == ch &&
      (forall s :: s in ctx.staffChannels ==> s in c.staffChannels && c.staffChannels[s] == ctx.staffChannels[s]) &&
      (id !in ctx.staffChannels ==> forall s :: s in ctx.staffChannels ==> ctx.staffChannels[s] != ch) &&
      AllocateChannel(c, id) == (c, ch)
  {
  }

  /** The first nine staves get channels 0 to 8 and the tenth gets 10. */
  lemma ChannelNineSkipped(ctx: Ctx, id: string)
    requires ctx.nextChannel == 9 && id !in ctx.staffChannels
    ensures AllocateChannel(ctx, id).1 == 10 && AllocateChannel(ctx, id).0.nextChannel == 11
  {
  }

  // ============================================================ tied notes

  /** A note event at the cursor's staff, voice, velocity and channel, without
      articulations or ties: the shape of grace and ornament events. */
  function PlainNote(ctx: Ctx, start: real, midi: int, dur: real): NoteEvent
  {
    Event(start, ctx.staff, ctx.voice, NoteBody(midi, dur, ctx.velocity, {}, false, false, ctx.channel))
  }

  /** The articulation flags of a note: the set of its articulation kinds. */
  function ArticulationSet(arts: seq<ArticulationType>): set<ArticulationType>
  {
    set a | a in arts
  }

  /** `[e for e in events if e != x]`. */
  function Without(s: seq<Event>, x: Event): (r: seq<Event>)
    ensures forall e :: e in r <==> e in s && e != x
  {
    if s == [] then [] else (if s[0] == x then [] else [s[0]]) + Without(s[1..], x)
  }

  /** Removing an event that is not there changes nothing. */
  lemma {:induction false} WithoutAbsent(s: seq<Event>, x: Event)
    requires x !in s
    ensures Without(s, x) == s
  {
    if s != [] {
      WithoutAbsent(s[1..], x);
      assert [s[0]] + s[1..] == s;
    }
  }

  lemma {:induction false} WithoutConcat(a: seq<Event>, b: seq<Event>, x: Event)
    ensures Without(a + b, x) == Without(a, x) + Without(b, x)
  {
    if a == [] {
      assert a + b == b;
    } else {
      assert (a + b)[1..] == a[1..] + b;
      WithoutConcat(a[1..], b, x);
    }
  }

  /** One pitch of a note or chord. If a tie waits under its key, the waiting
      event is replaced by a copy lengthened by `full`; otherwise a new event of
      `length` starts at `start`. A tied pitch then waits under its key. */
  function Strike(ctx: Ctx, midi: int, start: real, length: real, full: real,
                  flags: set<ArticulationType>, tied: bool): (r: Ctx)
    ensures SameFrame(ctx, r) && r.time == ctx.time && r.voice == ctx.voice
    ensures tied <==> TieKey(ctx.staff, ctx.voice, midi) in r.pendingTies
    ensures forall k :: k != TieKey(ctx.staff, ctx.voice, midi) ==>
      (k in r.pendingTies <==> k in ctx.pendingTies) &&
      (k in r.pendingTies ==> r.pendingTies[k] == ctx.pendingTies[k])
  {
    var key := TieKey(ctx.staff, ctx.voice, midi);
    if key in ctx.pendingTies then
      var prev := ctx.pendingTies[key];
      var extended: NoteEvent := prev.(body := prev.body.(duration := prev.body.duration + full, tiedTo := tied));
      var rest := ctx.pendingTies - {key};
      ctx.(events := Without(ctx.events, prev) + [extended],
           pendingTies := if tied then rest[key := extended] else rest)
    else
      var ev: NoteEvent := Event(start, ctx.staff, ctx.voice,
                                 NoteBody(midi, length, ctx.velocity, flags, false, tied, ctx.channel));
      ctx.(events := ctx.events + [ev],
           pendingTies := if tied then ctx.pendingTies[key := ev] else ctx.pendingTies)
  }

  /** Resolving a tie removes the waiting event from the list and appends one event
      that starts where it started and lasts the two lengths together; nothing
      else is removed, and the events before it keep their order. */
  lemma StrikeExtends(ctx: Ctx, midi: int, start: real, length: real, full: real,
                      flags: set<ArticulationType>, tied: bool)
    requires TieKey(ctx.staff, ctx.voice, midi) in ctx.pendingTies
    ensures var prev := ctx.pendingTies[TieKey(ctx.staff, ctx.voice, midi)];
      var r := Strike(ctx, midi, start, length, full, flags, tied);
      |r.events| > 0 && prev !in r.events[..|r.events| - 1] &&
      var last := r.events[|r.events| - 1];
      last.start == prev.start && last.body.NoteBody? && last.body.midi == prev.body.midi &&
      last.body.duration == prev.body.duration + full && last.body.tiedTo == tied &&
      (forall e :: e in ctx.events && e != prev ==> e in r.events)
  {
  }

  // ============================================================== ornaments

  /** The pitches an ornament plays: a trill alternates the note with the pitch
      above (a whole step, or the trill's auxiliary pitch) eight times, a mordent
      plays the note then the step above, a turn plays above, on, below, on, and
      the other kinds add nothing. */
  function OrnamentPitches(o: Ornament, main: int): (ps: seq<int>)
    ensures |ps| in {0, 2, 4, 8}
  {
    if o.Trill? || o.kind == TrillType then
      var aux := if o.Trill? && o.auxiliary.Some? then MidiNumber(o.auxiliary.value) else main + 2;
      [main, aux, main, aux, main, aux, main, aux]
    else if o.kind == Mordent then [main, main + 2]
    else if o.kind == Turn then [main + 2, main, main - 2, main]
    else []
  }

  /** The length of one ornament note: an eighth of the note for trills and
      mordents, a quarter of it for turns. */
  function OrnamentUnit(o: Ornament, dur: real): real
  {
    if o.Trill? || o.kind == TrillType || o.kind == Mordent then dur / 8.0 else dur / 4.0
  }

  /** The events of one ornament whose first note starts at `start`. */
  function OrnamentEvents(ctx: Ctx, start: real, o: Ornament, main: int, dur: real): seq<Event>
  {
    var ps := OrnamentPitches(o, main);
    var u := OrnamentUnit(o, dur);
    seq(|ps|, i requires 0 <= i < |ps| => PlainNote(ctx, start + i as real * u, ps[i], u))
  }

  /** The events of all of a note's ornaments, in order. */
  function AllOrnamentEvents(ctx: Ctx, start: real, os: seq<Ornament>, main: int, dur: real): seq<Event>
  {
    if os == [] then [] else OrnamentEvents(ctx, start, os[0], main, dur) + AllOrnamentEvents(ctx, start, os[1..], main, dur)
  }

  /** Where `_apply_ornament` starts an ornament: `current_time - duration`,
      evaluated before the note has moved the cursor. */
  function OrnamentStartAsWritten(ctx: Ctx, dur: real): real
  {
    ctx.time - dur
  }

  /** Where an ornament is meant to start: with the note it decorates. */
  function OrnamentStart(ctx: Ctx, dur: real): real
  {
    ctx.time
  }

  lemma OrnamentSpan(o: Ornament, main: int, dur: real)
    requires dur > 0.0
    ensures OrnamentUnit(o, dur) > 0.0
    ensures |OrnamentPitches(o, main)| as real * OrnamentUnit(o, dur) <= dur
  {
  }

  /** The `i`-th note of an ornament starting at `start` has positive length and
      lies within `dur` of `start`. */
  lemma OrnamentSlot(ctx: Ctx, start: real, o: Ornament, main: int, dur: real, i: int)
    requires dur > 0.0
    requires 0 <= i < |OrnamentPitches(o, main)|
    ensures var e := OrnamentEvents(ctx, start, o, main, dur)[i];
      e.body.NoteBody? && e.body.duration > 0.0 && start <= e.start && e.start + e.body.duration <= start + dur
  {
    OrnamentSpan(o, main, dur);
    var u := OrnamentUnit(o, dur);
    ScaleMonotone(0.0, i as real, u);
    ScaleMonotone((i + 1) as real, |OrnamentPitches(o, main)| as real, u);
  }

  lemma ScaleMonotone(a: real, b: real, k: real)
    requires a <= b && k >= 0.0
    ensures a * k <= b * k
  {
  }

  /** As written, every event of an ornament on a note of positive length ends no
      later than the note begins: the ornament sounds during the previous note. */
  lemma {:induction false} OrnamentEarlyAsWritten(ctx: Ctx, o: Ornament, main: int, dur: real)
    requires dur > 0.0
    ensures forall e :: e in OrnamentEvents(ctx, OrnamentStartAsWritten(ctx, dur), o, main, dur) ==>
      e.body.NoteBody? && e.start + e.body.duration <= ctx.time && e.start < ctx.time
  {
    var evs := OrnamentEvents(ctx, OrnamentStartAsWritten(ctx, dur), o, main, dur);
    forall e | e in evs
      ensures e.body.NoteBody? && e.start + e.body.duration <= ctx.time && e.start < ctx.time
    {
      var i :| 0 <= i < |evs| && evs[i] == e;
      OrnamentSlot(ctx, OrnamentStartAsWritten(ctx, dur), o, main, dur, i);
    }
  }

  /** A concrete case: a quarter-note C4 with a trill at the very start of the
      piece gets its first trill note at time -1/4. */
  lemma TrillAtStartAsWritten()
    ensures var ctx := Initial;
      var c4 := Pitch(C, 4, None);
      OrnamentEvents(ctx, OrnamentStartAsWritten(ctx, 0.25), Trill(TrillType, None), MidiNumber(c4), 0.25)[0].start == -0.25
  {
  }

  /** With the intended start every ornament event lies inside its note. */
  lemma {:induction false} OrnamentWithinNote(ctx: Ctx, o: Ornament, main: int, dur: real)
    requires dur > 0.0
    ensures forall e :: e in OrnamentEvents(ctx, OrnamentStart(ctx, dur), o, main, dur) ==>
      e.body.NoteBody? && ctx.time <= e.start && e.start + e.body.duration <= ctx.time + dur &&
      e.body.duration > 0.0
  {
    var evs := OrnamentEvents(ctx, OrnamentStart(ctx, dur), o, main, dur);
    forall e | e in evs
      ensures e.body.NoteBody? && ctx.time <= e.start && e.start + e.body.duration <= ctx.time + dur &&
        e.body.duration > 0.0
    {
      var i :| 0 <= i < |evs| && evs[i] == e;
      OrnamentSlot(ctx, OrnamentStart(ctx, dur), o, main, dur, i);
    }
  }

  // ================================================== notes, chords, rests

  /** Where the `k`-th grace note starts, relative to the note: `k` units in. */
  function GraceTime(k: nat, unit: real): (t: real)
    ensures unit >= 0.0 ==> t >= 0.0
  {
    k as real * unit
  }

  /** The grace notes of a note, each `unit` long, one after another from the cursor. */
  function GraceEvents(ctx: Ctx, graces: seq<GraceNote>, unit: real): (r: seq<Event>)
    ensures |r| == |graces|
    ensures forall k :: 0 <= k < |graces| ==>
      r[k] == PlainNote(ctx, ctx.time + GraceTime(k, unit), MidiNumber(graces[k].pitch), unit)
  {
    seq(|graces|, k requires 0 <= k < |graces| => PlainNote(ctx, ctx.time + GraceTime(k, unit), MidiNumber(graces[k].pitch), unit))
  }

  /** `_compile_note` for a note lasting `dur` once the tuplet ratio is applied:
      grace notes first, each an eighth of the note; then the note itself (or the
      extension of a tie), shifted past the grace notes; then its ornaments,
      started where `_apply_ornament` starts them (one note length before the
      cursor, see `OrnamentEarlyAsWritten`); the cursor moves by the note's length. */
  function PlayNote(ctx: Ctx, n: Note, dur: real): (r: Ctx)
    ensures SameFrame(ctx, r) && r.voice == ctx.voice
    ensures r.time == ctx.time + dur
  {
    var midi := MidiNumber(n.pitch);
    var unit := dur / 8.0;
    var graceDur := GraceTime(|n.graceNotes|, unit);
    var c1 := ctx.(events := ctx.events + GraceEvents(ctx, n.graceNotes, unit));
    var c2 := Strike(c1, midi, ctx.time + graceDur, dur - graceDur, dur, ArticulationSet(n.articulations), n.tied);
    var c3 := c2.(events := c2.events + AllOrnamentEvents(c2, OrnamentStartAsWritten(ctx, dur), n.ornaments, midi, dur));
    c3.(time := ctx.time + dur)
  }

  /** A note without ornaments: its grace notes, then one strike. */
  lemma NoteWithoutOrnaments(ctx: Ctx, n: Note, dur: real)
    requires n.ornaments == []
    ensures var unit := dur / 8.0;
      var g := GraceTime(|n.graceNotes|, unit);
      PlayNote(ctx, n, dur) ==
        Strike(ctx.(events := ctx.events + GraceEvents(ctx, n.graceNotes, unit)), MidiNumber(n.pitch),
               ctx.time + g, dur - g, dur, ArticulationSet(n.articulations), n.tied).(time := ctx.time + dur)
  {
    var unit := dur / 8.0;
    var g := GraceTime(|n.graceNotes|, unit);
    var c2 := Strike(ctx.(events := ctx.events + GraceEvents(ctx, n.graceNotes, unit)), MidiNumber(n.pitch),
                     ctx.time + g, dur - g, dur, ArticulationSet(n.articulations), n.tied);
    assert AllOrnamentEvents(c2, OrnamentStartAsWritten(ctx, dur), n.ornaments, MidiNumber(n.pitch), dur) == [];
    assert c2.(events := c2.events + []) == c2;
  }

  /** Grace notes abut one another from the cursor, each an eighth of the note;
      a note that is not resolving a tie starts where they end and is shortened by
      their total, so it still ends where the note ends. */
  lemma GraceLayout(ctx: Ctx, n: Note, dur: real)
    requires TieKey(ctx.staff, ctx.voice, MidiNumber(n.pitch)) !in ctx.pendingTies
    requires n.ornaments == []
    ensures var r := PlayNote(ctx, n, dur).events;
      r[..|ctx.events|] == ctx.events && |r| == |ctx.events| + |n.graceNotes| + 1
    ensures var r := PlayNote(ctx, n, dur).events;
      |ctx.events| + |n.graceNotes| <= |r| &&
      GracesAbut(r[|ctx.events|..|ctx.events| + |n.graceNotes|], ctx.time, n.graceNotes, dur / 8.0)
    ensures var main := PlayNote(ctx, n, dur).events[|ctx.events| + |n.graceNotes|];
      main.body.NoteBody? && main.body.midi == MidiNumber(n.pitch) &&
      main.start == ctx.time + |n.graceNotes| as real * (dur / 8.0)
    ensures var main := PlayNote(ctx, n, dur).events[|ctx.events| + |n.graceNotes|];
      main.start + main.body.duration == ctx.time + dur
  {
    var unit := dur / 8.0;
    var g := |n.graceNotes|;
    var graces := GraceEvents(ctx, n.graceNotes, unit);
    var main := Event(ctx.time + GraceTime(g, unit), ctx.staff, ctx.voice,
                      NoteBody(MidiNumber(n.pitch), dur - GraceTime(g, unit), ctx.velocity,
                               ArticulationSet(n.articulations), false, n.tied, ctx.channel));
    GraceLayoutEvents(ctx, n, dur);
    var r := PlayNote(ctx, n, dur).events;
    Layout(r, ctx.events, graces, main);
    GraceSlots(ctx, n.graceNotes, unit);
  }

  /** One note per grace note, each `unit` long and each starting where the
      previous one ends, the first at `start`. */
  predicate GracesAbut(evs: seq<Event>, start: real, graces: seq<GraceNote>, unit: real)
  {
    |evs| == |graces| &&
    forall k :: 0 <= k < |graces| ==>
      evs[k].start == start + k as real * unit &&
      evs[k].body.NoteBody? && evs[k].body.duration == unit &&
      evs[k].body.midi == MidiNumber(graces[k].pitch)
  }

  lemma GraceSlots(ctx: Ctx, graces: seq<GraceNote>, unit: real)
    ensures GracesAbut(GraceEvents(ctx, graces, unit), ctx.time, graces, unit)
  {
  }

  /** The events of a fresh note without ornaments: the grace notes, then the note. */
  lemma GraceLayoutEvents(ctx: Ctx, n: Note, dur: real)
    requires TieKey(ctx.staff, ctx.voice, MidiNumber(n.pitch)) !in ctx.pendingTies
    requires n.ornaments == []
    ensures var unit := dur / 8.0;
      var g := |n.graceNotes|;
      PlayNote(ctx, n, dur).events ==
        ctx.events + GraceEvents(ctx, n.graceNotes, unit) +
        [Event(ctx.time + GraceTime(g, unit), ctx.staff, ctx.voice,
               NoteBody(MidiNumber(n.pitch), dur - GraceTime(g, unit), ctx.velocity,
                        ArticulationSet(n.articulations), false, n.tied, ctx.channel))]
  {
    var unit := dur / 8.0;
    var g := |n.graceNotes|;
    NoteWithoutOrnaments(ctx, n, dur);
    var c1 := ctx.(events := ctx.events + GraceEvents(ctx, n.graceNotes, unit));
    StrikeFresh(c1, MidiNumber(n.pitch), ctx.time + GraceTime(g, unit), dur - GraceTime(g, unit), dur,
                ArticulationSet(n.articulations), n.tied);
  }

  /** Where the parts of `pre + mid + [last]` sit. */
  lemma Layout<T>(s: seq<T>, pre: seq<T>, mid: seq<T>, last: T)
    requires s == pre + mid + [last]
    ensures |s| == |pre| + |mid| + 1 && s[..|pre|] == pre && s[|pre| + |mid|] == last
    ensures s[|pre|..|pre| + |mid|] == mid
  {
  }

  /** A strike with no tie waiting on its key appends one new event. */
  lemma StrikeFresh(ctx: Ctx, midi: int, start: real, length: real, full: real,
                    flags: set<ArticulationType>, tied: bool)
    requires TieKey(ctx.staff, ctx.voice, midi) !in ctx.pendingTies
    ensures Strike(ctx, midi, start, length, full, flags, tied).events ==
      ctx.events + [Event(start, ctx.staff, ctx.voice, NoteBody(midi, length, ctx.velocity, flags, false, tied, ctx.channel))]
  {
  }

  /** `_compile_chord`: every pitch is struck at the cursor for the chord's full
      length (or extends its pending tie); the cursor moves by that length. */
  function StrikeAll(ctx: Ctx, pitches: seq<Pitch>, dur: real, flags: set<ArticulationType>, tied: bool): (r: Ctx)
    ensures SameFrame(ctx, r) && r.time == ctx.time && r.voice == ctx.voice
    decreases pitches
  {
    if pitches == [] then ctx
    else StrikeAll(Strike(ctx, MidiNumber(pitches[0]), ctx.time, dur, dur, flags, tied), pitches[1..], dur, flags, tied)
  }

  /** `_compile_chord` for a chord lasting `dur`: one strike per pitch, all at
      the cursor. */
  function CompileChord(ctx: Ctx, c: Chord, dur: real): (r: Ctx)
    ensures SameFrame(ctx, r) && r.voice == ctx.voice
    ensures r.time == ctx.time + dur
  {
    var c1 := StrikeAll(ctx, c.pitches, dur, ArticulationSet(c.articulations), c.tied);
    c1.(time := ctx.time + dur)
  }

  /** With no ties waiting and distinct MIDI numbers, a chord appends one event per
      pitch, in order, all starting at the cursor and lasting the chord's length. */
  lemma {:induction false} ChordEvents(ctx: Ctx, pitches: seq<Pitch>, dur: real, flags: set<ArticulationType>)
    requires forall i :: 0 <= i < |pitches| ==> TieKey(ctx.staff, ctx.voice, MidiNumber(pitches[i])) !in ctx.pendingTies
    ensures var r := StrikeAll(ctx, pitches, dur, flags, false);
      |r.events| == |ctx.events| + |pitches| && r.events[..|ctx.events|] == ctx.events &&
      r.pendingTies == ctx.pendingTies &&
      forall i :: 0 <= i < |pitches| ==>
        r.events[|ctx.events| + i] == Event(ctx.time, ctx.staff, ctx.voice,
          NoteBody(MidiNumber(pitches[i]), dur, ctx.velocity, flags, false, false, ctx.channel))
    decreases pitches
  {
    if pitches != [] {
      var c1 := Strike(ctx, MidiNumber(pitches[0]), ctx.time, dur, dur, flags, false);
      ChordEvents(c1, pitches[1..], dur, flags);
      var r := StrikeAll(c1, pitches[1..], dur, flags, false);
      assert r.events[..|c1.events|] == c1.events;
      forall i | 0 <= i < |pitches|
        ensures r.events[|ctx.events| + i] == Event(ctx.time, ctx.staff, ctx.voice,
          NoteBody(MidiNumber(pitches[i]), dur, ctx.velocity, flags, false, false, ctx.channel))
      {
        if i > 0 {
          assert pitches[1..][i - 1] == pitches[i];
        } else {
          assert r.events[|ctx.events|] == c1.events[|ctx.events|];
        }
      }
      assert r.events[..|ctx.events|] == c1.events[..|ctx.events|];
    }
  }

  /** `_compile_rest` for a rest lasting `dur`. */
  function CompileRest(ctx: Ctx, dur: real): (r: Ctx)
    ensures SameFrame(ctx, r) && r.voice == ctx.voice
    ensures r.time == ctx.time + dur
    ensures r.events == ctx.events + [Event(ctx.time, ctx.staff, ctx.voice, RestBody(dur))]
  {
    ctx.(events := ctx.events + [Event(ctx.time, ctx.staff, ctx.voice, RestBody(dur))], time := ctx.time + dur)
  }

  // ========================================================= timeless items

  function Emit(ctx: Ctx, b: Body): Ctx
  {
    ctx.(events := ctx.events + [Event(ctx.time, ctx.staff, ctx.voice, b)])
  }

  /** `_compile_dynamic`: later notes take the marking's velocity. */
  function CompileDynamic(ctx: Ctx, marking: string): (r: Ctx)
    ensures 16 <= r.velocity <= 127
    ensures r.velocity == Velocity(marking)
    ensures SameFrame(ctx, r) && r.time == ctx.time && r.voice == ctx.voice
    ensures r.pendingTies == ctx.pendingTies && r.channelPrograms == ctx.channelPrograms
    ensures r.events == ctx.events +
      [Event(ctx.time, ctx.staff, ctx.voice, DynamicBody(marking, Velocity(marking), false, None, None))]
  {
    Emit(ctx, DynamicBody(marking, Velocity(marking), false, None, None)).(velocity := Velocity(marking))
  }

  /** After a dynamic marking, the next plain note is struck at the marking's
      velocity, whatever velocity was in force before. */
  lemma DynamicSetsNoteVelocity(ctx: Ctx, marking: string, n: Note, dur: real)
    requires n.graceNotes == [] && n.ornaments == []
    requires TieKey(ctx.staff, ctx.voice, MidiNumber(n.pitch)) !in ctx.pendingTies
    ensures var r := PlayNote(CompileDynamic(ctx, marking), n, dur);
      |r.events| == |ctx.events| + 2 &&
      r.events[|ctx.events| + 1].body.NoteBody? &&
      r.events[|ctx.events| + 1].body.velocity == Velocity(marking)
  {
    var c := CompileDynamic(ctx, marking);
    PlainNoteStrikes(c, n, dur);
    StrikeFresh(c, MidiNumber(n.pitch), c.time, dur, dur, ArticulationSet(n.articulations), n.tied);
  }

  /** `_compile_hairpin`: the target swells by 30 up to 127, or fades by 30 down
      to 20. The current velocity itself is left unchanged. */
  function HairpinTarget(t: HairpinType, v: int): (target: int)
    ensures t == Crescendo ==> target <= 127 && target <= v + 30 && (target == 127 || target == v + 30)
    ensures t != Crescendo ==> target >= 20 && target >= v - 30 && (target == 20 || target == v - 30)
  {
    if t == Crescendo then (if 127 < v + 30 then 127 else v + 30)
    else (if 20 > v - 30 then 20 else v - 30)
  }

  lemma HairpinTargetBounds(t: HairpinType, v: int)
    requires 16 <= v <= 127
    ensures 20 <= HairpinTarget(t, v) <= 127
    ensures t == Crescendo ==> HairpinTarget(t, v) >= v
    ensures t != Crescendo ==> HairpinTarget(t, v) <= v || v < 20
  {
  }

  /** `_compile_hairpin`: one dynamic event at the cursor, marked as a hairpin
      of the given length, from the current velocity to its target. */
  function CompileHairpin(ctx: Ctx, t: HairpinType, length: real): (r: Ctx)
    ensures SameFrame(ctx, r) && r.time == ctx.time && r.voice == ctx.voice && r.velocity == ctx.velocity
    ensures r.pendingTies == ctx.pendingTies && r.channelPrograms == ctx.channelPrograms
    ensures r.events == ctx.events + [Event(ctx.time, ctx.staff, ctx.voice,
      DynamicBody(HairpinName(t), ctx.velocity, true, Some(length), Some(HairpinTarget(t, ctx.velocity))))]
  {
    Emit(ctx, DynamicBody(HairpinName(t), ctx.velocity, true, Some(length), Some(HairpinTarget(t, ctx.velocity))))
  }

  /** `_compile_pedal`: a change is a release followed by a press at the same time. */
  function CompilePedal(ctx: Ctx, p: PedalType): (r: Ctx)
    ensures r.time == ctx.time && |r.events| == |ctx.events| + (if p == Change then 2 else 1)
    ensures p == Change ==>
      r.events[|ctx.events|] == PedalUp(ctx.time, ctx.staff, ctx.voice, ctx.channel) &&
      r.events[|ctx.events| + 1] == PedalDown(ctx.time, ctx.staff, ctx.voice, ctx.channel)
    ensures p == Down ==> r.events == ctx.events + [PedalDown(ctx.time, ctx.staff, ctx.voice, ctx.channel)]
    ensures p == Up ==> r.events == ctx.events + [PedalUp(ctx.time, ctx.staff, ctx.voice, ctx.channel)]
    ensures p == Change ==> r.events[..|ctx.events|] == ctx.events
  {
    match p
    case Down => ctx.(events := ctx.events + [PedalDown(ctx.time, ctx.staff, ctx.voice, ctx.channel)])
    case Up => ctx.(events := ctx.events + [PedalUp(ctx.time, ctx.staff, ctx.voice, ctx.channel)])
    case Change => ctx.(events := ctx.events + [PedalUp(ctx.time, ctx.staff, ctx.voice, ctx.channel),
                                                 PedalDown(ctx.time, ctx.staff, ctx.voice, ctx.channel)])
  }

  /** `_compile_instrument_change`: the program of the lower-cased name on the
      staff's channel. */
  function CompileInstrument(ctx: Ctx, name: string): (r: Ctx)
    ensures ctx.channel in r.channelPrograms && 0 <= r.channelPrograms[ctx.channel] <= 127
    ensures r.channelPrograms[ctx.channel] == GmProgram(Lower(name))
    ensures forall ch :: ch != ctx.channel ==>
      (ch in r.channelPrograms <==> ch in ctx.channelPrograms) &&
      (ch in r.channelPrograms ==> r.channelPrograms[ch] == ctx.channelPrograms[ch])
    ensures SameFrame(ctx, r) && r.time == ctx.time && r.velocity == ctx.velocity
    ensures r.events == ctx.events +
      [Event(ctx.time, ctx.staff, ctx.voice, ProgramBody(GmProgram(Lower(name)), ctx.channel))]
  {
    var p := GmProgram(Lower(name));
    Emit(ctx, ProgramBody(p, ctx.channel)).(channelPrograms := ctx.channelPrograms[ctx.channel := p])
  }

  // ========================================================== durations

  /** The time an item takes when compiled at `ratio`, which depends on the item
      alone: `None` when a tuplet inside it has a zero `actual` count. Notes,
      chords and rests last their dotted value times the ratio; tuplets and slurs
      the sum of their contents, a tuplet scaling the ratio by its own; a measure
      the sum of its contents, or with voice blocks the longest voice; anything
      else takes no time. */
  function Span(item: Item, ratio: real): Option<real>
    decreases item, 0
  {
    match item
    case TupletItem(a, nn, cs) =>
      (match TupletScale(a, nn, ratio)
       case None => None
       case Some(x) => SeqSpan(cs, x))
    case SlurItem(cs) => SeqSpan(cs, ratio)
    case MeasureItem(cs, _) => MeasureSpan(cs)
    case _ => Some(LeafSpan(item, ratio))
  }

  /** The length of an item that holds no other items. */
  function LeafSpan(item: Item, ratio: real): real
  {
    match item
    case NoteItem(n) => TotalValue(n.duration) * ratio
    case ChordItem(c) => TotalValue(c.duration) * ratio
    case RestItem(d) => TotalValue(d) * ratio
    case _ => 0.0
  }

  function SeqSpan(cs: seq<Item>, ratio: real): Option<real>
    decreases cs, 0
  {
    if cs == [] then Some(0.0)
    else
      match Span(cs[0], ratio)
      case None => None
      case Some(d) =>
        match SeqSpan(cs[1..], ratio)
        case None => None
        case Some(e) => Some(d + e)
  }

  /** The items of the in-measure voice `v`, summed at ratio 1. */
  function VoiceSpan(cs: seq<Item>, v: int): Option<real>
    decreases cs, 0
  {
    if cs == [] then Some(0.0)
    else
      match MarkedSpan(cs[0], v)
      case None => None
      case Some(d) =>
        match VoiceSpan(cs[1..], v)
        case None => None
        case Some(e) => Some(d + e)
  }

  /** The length of a voice-block item of voice `v`; every other item counts 0. */
  function MarkedSpan(m: Item, v: int): Option<real>
    decreases m, 1
  {
    match m
    case Marked(w, inner) => if w == v then Span(inner, 1.0) else Some(0.0)
    case _ => Some(0.0)
  }

  /** The items outside the voice blocks, summed at ratio 1. */
  function OthersSpan(cs: seq<Item>): Option<real>
    decreases cs, 0
  {
    if cs == [] then Some(0.0)
    else
      var head := if cs[0].Marked? then Some(0.0) else Span(cs[0], 1.0);
      match head
      case None => None
      case Some(d) =>
        match OthersSpan(cs[1..])
        case None => None
        case Some(e) => Some(d + e)
  }

  function VoiceSpans(cs: seq<Item>, nums: seq<int>): (r: Option<seq<real>>)
    ensures r.Some? ==> |r.value| == |nums|
    decreases cs, 1, |nums|
  {
    if nums == [] then Some([])
    else
      match VoiceSpan(cs, nums[0])
      case None => None
      case Some(d) =>
        match VoiceSpans(cs, nums[1..])
        case None => None
        case Some(ds) => Some([d] + ds)
  }

  function MeasureSpan(cs: seq<Item>): Option<real>
    decreases cs, 2
  {
    var nums := VoiceNumbers(cs);
    if nums == [] then SeqSpan(cs, 1.0)
    else
      match VoiceSpans(cs, nums)
      case None => None
      case Some(ds) =>
        match OthersSpan(cs)
        case None => None
        case Some(_) => Some(MaxOf(ds))
  }

  /** The largest value of a non-empty list. */
  function MaxOf(s: seq<real>): (m: real)
    requires |s| > 0
    ensures m in s && forall i :: 0 <= i < |s| ==> s[i] <= m
  {
    if |s| == 1 then s[0]
    else
      var t := MaxOf(s[1..]);
      assert forall i :: 1 <= i < |s| ==> s[i] == s[1..][i - 1];
      if s[0] >= t then s[0] else t
  }

  /** Shifting every value shifts the maximum. */
  lemma MaxOfShift(ends: seq<real>, spans: seq<real>, start: real)
    requires |ends| == |spans| > 0
    requires forall i :: 0 <= i < |ends| ==> ends[i] == start + spans[i]
    ensures MaxOf(ends) == start + MaxOf(spans)
  {
    var m := MaxOf(spans);
    var i :| 0 <= i < |spans| && spans[i] == m;
    assert ends[i] == start + m;
    var k :| 0 <= k < |ends| && ends[k] == MaxOf(ends);
    assert spans[k] <= m;
  }

  // ========================================================= the walk

  /** The items that contain no other items: notes, chords and rests take their
      length; markings take no time. */
  function CompileSimple(ctx: Ctx, item: Item, ratio: real): (r: Out)
    requires !item.MeasureItem? && !item.TupletItem? && !item.SlurItem?
    ensures r.dur == LeafSpan(item, ratio)
    ensures r.ctx.time == ctx.time + r.dur
    ensures SameFrame(ctx, r.ctx) && r.ctx.voice == ctx.voice
  {
    var dur := LeafSpan(item, ratio);
    match item
    case NoteItem(n) => Out(PlayNote(ctx, n, dur), dur)
    case ChordItem(c) => Out(CompileChord(ctx, c, dur), dur)
    case RestItem(_) => Out(CompileRest(ctx, dur), dur)
    case _ => Out(CompileMarking(ctx, item), dur)
  }

  /** Dynamics, hairpins, pedals, tempo and meter changes and instrument changes
      record their event at the cursor; any other item is ignored. */
  function CompileMarking(ctx: Ctx, item: Item): (r: Ctx)
    ensures r.time == ctx.time
    ensures SameFrame(ctx, r) && r.voice == ctx.voice
  {
    match item
    case DynamicItem(m) => CompileDynamic(ctx, m)
    case HairpinItem(t, len) => CompileHairpin(ctx, t, len)
    case PedalItem(p) => CompilePedal(ctx, p)
    case TempoItem(t) => Emit(ctx, TempoBody(t.bpm, 0.25)).(tempo := t.bpm)
    case TimeSigItem(s) =>
      Emit(ctx, TimeSigBody(s.numerator, s.denominator)).(timeSig := (s.numerator, s.denominator))
    case InstrumentItem(name) => CompileInstrument(ctx, name)
    case _ => ctx
  }

  /** The end of each in-measure voice, and the context after all of them. */
  datatype Blocks = Blocks(ctx: Ctx, ends: seq<real>)

  /** `_compile_content`: dispatches on the kind of item. A measure is compiled
      with ratio 1 whatever the enclosing ratio; a tuplet multiplies the ratio by
      its own. */
  function CompileItem(ctx: Ctx, item: Item, ratio: real): (r: Option<Out>)
    ensures r.Some? <==> Span(item, ratio).Some?
    ensures r.Some? ==> r.value.dur == Span(item, ratio).value
    ensures r.Some? ==> r.value.ctx.time == ctx.time + r.value.dur
    ensures r.Some? ==> SameFrame(ctx, r.value.ctx) && r.value.ctx.voice == ctx.voice
    decreases item, 0, 0
  {
    match item
    case MeasureItem(cs, _) => CompileMeasure(ctx, cs)
    case TupletItem(a, nn, cs) =>
      (match TupletScale(a, nn, ratio)
       case None => None
       case Some(x) => CompileSeq(ctx, cs, x))
    case SlurItem(cs) => CompileSeq(ctx, cs, ratio)
    case _ => Some(CompileSimple(ctx, item, ratio))
  }

  /** The items one after another; the time consumed is the sum of theirs. */
  function CompileSeq(ctx: Ctx, cs: seq<Item>, ratio: real): (r: Option<Out>)
    ensures r.Some? <==> SeqSpan(cs, ratio).Some?
    ensures r.Some? ==> r.value.dur == SeqSpan(cs, ratio).value
    ensures r.Some? ==> r.value.ctx.time == ctx.time + r.value.dur
    ensures r.Some? ==> SameFrame(ctx, r.value.ctx) && r.value.ctx.voice == ctx.voice
    decreases cs, 0, 0
  {
    if cs == [] then Some(Out(ctx, 0.0))
    else
      match CompileItem(ctx, cs[0], ratio)
      case None => None
      case Some(o) =>
        match CompileSeq(o.ctx, cs[1..], ratio)
        case None => None
        case Some(o2) => Some(Out(o2.ctx, o.dur + o2.dur))
  }

  /** `_compile_measure`. Without voice blocks the contents run in order. With
      them, each voice in increasing order starts at the measure start; then the
      remaining items run from the measure start in the enclosing voice; the
      cursor ends at the latest voice end. */
  function CompileMeasure(ctx: Ctx, cs: seq<Item>): (r: Option<Out>)
    ensures r.Some? <==> MeasureSpan(cs).Some?
    ensures r.Some? ==> r.value.dur == MeasureSpan(cs).value
    ensures r.Some? ==> r.value.ctx.time == ctx.time + r.value.dur
    ensures r.Some? ==> SameFrame(ctx, r.value.ctx) && r.value.ctx.voice == ctx.voice
    decreases cs, 2, 0
  {
    var nums := VoiceNumbers(cs);
    if nums == [] then
      match CompileSeq(ctx, cs, 1.0)
      case None => None
      case Some(o) => Some(Out(o.ctx, o.ctx.time - ctx.time))
    else
      match CompileBlocks(ctx, cs, nums, ctx.time)
      case None => None
      case Some(b) =>
        match CompileOthers(b.ctx.(voice := ctx.voice, time := ctx.time), cs)
        case None => None
        case Some(o) =>
          var ds := VoiceSpans(cs, nums).value;
          MaxOfShift(b.ends, ds, ctx.time);
          var maxEnd := MaxOf(b.ends);
          Some(Out(o.ctx.(time := maxEnd), maxEnd - ctx.time))
  }

  /** Each listed voice compiled from `start`; `ends[i]` is where voice `nums[i]`
      stopped, which is `start` plus that voice's length. */
  function CompileBlocks(ctx: Ctx, cs: seq<Item>, nums: seq<int>, start: real): (r: Option<Blocks>)
    ensures r.Some? <==> VoiceSpans(cs, nums).Some?
    ensures r.Some? ==> |r.value.ends| == |nums|
    ensures r.Some? ==> forall i :: 0 <= i < |nums| ==> r.value.ends[i] == start + VoiceSpans(cs, nums).value[i]
    ensures r.Some? ==> SameFrame(ctx, r.value.ctx)
    decreases cs, 1, |nums|
  {
    if nums == [] then Some(Blocks(ctx, []))
    else
      match CompileVoiceBlock(ctx.(voice := nums[0], time := start), cs, nums[0])
      case None => None
      case Some(o) =>
        match CompileBlocks(o.ctx, cs, nums[1..], start)
        case None => None
        case Some(b) => Some(Blocks(b.ctx, [o.ctx.time] + b.ends))
  }

  /** The items of voice block `v`, in the order they appear in the measure. */
  function CompileVoiceBlock(ctx: Ctx, cs: seq<Item>, v: int): (r: Option<Out>)
    ensures r.Some? <==> VoiceSpan(cs, v).Some?
    ensures r.Some? ==> r.value.dur == VoiceSpan(cs, v).value
    ensures r.Some? ==> r.value.ctx.time == ctx.time + r.value.dur
    ensures r.Some? ==> SameFrame(ctx, r.value.ctx) && r.value.ctx.voice == ctx.voice
    decreases cs, 0, 0
  {
    if cs == [] then Some(Out(ctx, 0.0))
    else
      match CompileMarked(ctx, cs[0], v)
      case None => None
      case Some(o) =>
        match CompileVoiceBlock(o.ctx, cs[1..], v)
        case None => None
        case Some(o2) => Some(Out(o2.ctx, o.dur + o2.dur))
  }

  /** A voice-block item of voice `v` compiled at ratio 1; any other item is skipped. */
  function CompileMarked(ctx: Ctx, m: Item, v: int): (r: Option<Out>)
    ensures r.Some? <==> MarkedSpan(m, v).Some?
    ensures r.Some? ==> r.value.dur == MarkedSpan(m, v).value
    ensures r.Some? ==> r.value.ctx.time == ctx.time + r.value.dur
    ensures r.Some? ==> SameFrame(ctx, r.value.ctx) && r.value.ctx.voice == ctx.voice
    decreases m, 1, 0
  {
    match m
    case Marked(w, inner) => if w == v then CompileItem(ctx, inner, 1.0) else Some(Out(ctx, 0.0))
    case _ => Some(Out(ctx, 0.0))
  }

  /** The items of a voice-block measure that belong to no voice block. */
  function CompileOthers(ctx: Ctx, cs: seq<Item>): (r: Option<Out>)
    ensures r.Some? <==> OthersSpan(cs).Some?
    ensures r.Some? ==> r.value.dur == OthersSpan(cs).value
    ensures r.Some? ==> r.value.ctx.time == ctx.time + r.value.dur
    ensures r.Some? ==> SameFrame(ctx, r.value.ctx) && r.value.ctx.voice == ctx.voice
    decreases cs, 0, 0
  {
    if cs == [] then Some(Out(ctx, 0.0))
    else
      var head := if cs[0].Marked? then Some(Out(ctx, 0.0)) else CompileItem(ctx, cs[0], 1.0);
      match head
      case None => None
      case Some(o) =>
        match CompileOthers(o.ctx, cs[1..])
        case None => None
        case Some(o2) => Some(Out(o2.ctx, o.dur + o2.dur))
  }

  // ================================================== staves and the score

  predicate IsVoice(item: Item) { item.VoiceItem? }
  predicate NotVoice(item: Item) { !item.VoiceItem? }

  /** Every voice of a staff can be compiled: none contains a zero-`actual` tuplet. */
  predicate VoicesCompile(cs: seq<Item>) {
    forall i :: 0 <= i < |cs| && cs[i].VoiceItem? ==> SeqSpan(cs[i].contents, 1.0).Some?
  }

  /** Every voice of a staff, and its content outside voices, can be compiled. */
  predicate StaffCompiles(st: Staff) {
    VoicesCompile(st.contents) && SeqSpan(Sorting.Filter(st.contents, NotVoice), 1.0).Some?
  }

  /** `_compile_voice` for each voice of a staff, in order: the voice's items run
      from time 0 at ratio 1 under the voice's number. */
  function CompileVoices(ctx: Ctx, cs: seq<Item>): (r: Option<Ctx>)
    ensures r.Some? <==> VoicesCompile(cs)
    ensures r.Some? ==> SameFrame(ctx, r.value)
    decreases cs
  {
    if cs == [] then Some(ctx)
    else
      assert forall i :: 1 <= i < |cs| ==> cs[i] == cs[1..][i - 1];
      match cs[0]
      case VoiceItem(number, contents) =>
        (match CompileSeq(ctx.(voice := number, time := 0.0), contents, 1.0)
         case None => None
         case Some(o) => CompileVoices(o.ctx, cs[1..]))
      case _ => CompileVoices(ctx, cs[1..])
  }

  /** The staff's program change at time 0, when it names an instrument. */
  function StaffProgram(ctx: Ctx, st: Staff): (r: Ctx)
    ensures SameFrame(ctx, r) && r.time == ctx.time && r.voice == ctx.voice
    ensures st.instrument.Some? && st.instrument.value != "" ==>
      r.channelPrograms == ctx.channelPrograms[ctx.channel := GmProgram(Lower(st.instrument.value))]
  {
    if st.instrument.Some? && st.instrument.value != "" then
      var p := GmProgram(Lower(st.instrument.value));
      ctx.(channelPrograms := ctx.channelPrograms[ctx.channel := p],
           events := ctx.events + [Event(0.0, st.name, 0, ProgramBody(p, ctx.channel))])
    else ctx
  }

  /** A mid-staff instrument change sets its channel to the same program as a
      staff declared with that instrument. */
  lemma InstrumentChangeAgreesWithStaff(ctx: Ctx, st: Staff, name: string)
    requires st.instrument == Some(name) && name != ""
    ensures CompileInstrument(ctx, name).channelPrograms == StaffProgram(ctx, st).channelPrograms
  {
  }

  /** `_compile_staff`: the staff gets its channel and its program, its voices are
      compiled, and then everything outside the voices runs as voice 1 from time 0. */
  function CompileStaff(ctx: Ctx, st: Staff): (r: Option<Ctx>)
    ensures r.Some? <==> StaffCompiles(st)
    ensures r.Some? ==> r.value.staff == st.name && r.value.nextChannel >= ctx.nextChannel
    ensures r.Some? ==> st.name in r.value.staffChannels && r.value.staffChannels[st.name] == r.value.channel
    ensures r.Some? ==> r.value.staffChannels == AllocateChannel(ctx, st.name).0.staffChannels
    ensures r.Some? && ChannelsValid(ctx) ==> ChannelsValid(r.value)
  {
    var (c1, ch) := AllocateChannel(ctx.(staff := st.name), st.name);
    assert c1.staffChannels == AllocateChannel(ctx, st.name).0.staffChannels;
    var c2 := StaffProgram(c1.(channel := ch, time := 0.0), st);
    StaffContents(c2, st)
  }

  /** The voices of a staff, then everything outside them as voice 1 from time 0. */
  function StaffContents(ctx: Ctx, st: Staff): (r: Option<Ctx>)
    ensures r.Some? <==> StaffCompiles(st)
    ensures r.Some? ==> SameFrame(ctx, r.value)
  {
    match CompileVoices(ctx, st.contents)
    case None => None
    case Some(c3) =>
      var direct := Sorting.Filter(st.contents, NotVoice);
      if direct == [] then Some(c3)
      else
        match CompileSeq(c3.(voice := 1, time := 0.0), direct, 1.0)
        case None => None
        case Some(o) => Some(o.ctx)
  }

  predicate StavesCompile(staves: seq<Staff>) {
    forall i :: 0 <= i < |staves| ==> StaffCompiles(staves[i])
  }

  /** The staves in order; each keeps the channel it was given, and different
      staves get different channels, none of them 9. */
  function CompileStaves(ctx: Ctx, staves: seq<Staff>): (r: Option<Ctx>)
    ensures r.Some? <==> StavesCompile(staves)
    ensures r.Some? && ChannelsValid(ctx) ==> ChannelsValid(r.value)
    ensures r.Some? ==> forall i :: 0 <= i < |staves| ==> staves[i].name in r.value.staffChannels
    ensures r.Some? ==> ctx.staffChannels.Keys <= r.value.staffChannels.Keys
    decreases staves
  {
    if staves == [] then Some(ctx)
    else
      assert forall i :: 1 <= i < |staves| ==> staves[i] == staves[1..][i - 1];
      match CompileStaff(ctx, staves[0])
      case None => None
      case Some(c) => CompileStaves(c, staves[1..])
  }

  /** `EventGraph` as the compiler returns it. */
  datatype Graph = Graph(events: seq<Event>, initialTempo: int, initialTimeSig: (int, int))

  /** The global tempo and meter events at time 0 and the starting context. */
  function ScoreStart(score: Score): (c: Ctx)
    ensures ChannelsValid(c) && c.staffChannels == map[]
  {
    var c1 := if score.tempo.Some? then
        Initial.(tempo := score.tempo.value.bpm,
                 events := [Event(0.0, "__global__", 0, TempoBody(score.tempo.value.bpm, 0.25))])
      else Initial;
    if score.timeSignature.Some? then
      var ts := score.timeSignature.value;
      c1.(timeSig := (ts.numerator, ts.denominator),
          events := c1.events + [Event(0.0, "__global__", 0, TimeSigBody(ts.numerator, ts.denominator))])
    else c1
  }

  /** `EventCompiler.compile`: global tempo and meter, every staff, then the stable
      sort by time and kind. `None` is the `ZeroDivisionError` of a zero-`actual`
      tuplet anywhere in the score. */
  function Compile(score: Score): (r: Option<Graph>)
    ensures r.Some? <==> StavesCompile(score.staves)
    ensures r.Some? ==> Sorting.SortedBy(r.value.events, EventLe)
    ensures r.Some? ==> r.value.initialTempo == (if score.tempo.Some? then score.tempo.value.bpm else 120)
    ensures r.Some? && score.timeSignature.Some? ==>
      r.value.initialTimeSig == (score.timeSignature.value.numerator, score.timeSignature.value.denominator)
    ensures r.Some? && score.timeSignature.None? ==> r.value.initialTimeSig == (4, 4)
    ensures r.Some? ==>
      multiset(r.value.events) == multiset(CompileStaves(ScoreStart(score), score.staves).value.events)
  {
    var c0 := ScoreStart(score);
    match CompileStaves(c0, score.staves)
    case None => None
    case Some(c) =>
      SortEventsCorrect(c.events, Event(0.0, "", 0, RestBody(0.0)));
      Some(Graph(SortEvents(c.events), c0.tempo, c0.timeSig))
  }

  // ================================================================= samples

  /** A tie joins two notes of the same pitch into one event: the first note's
      event, lengthened by the second note, with no tie left waiting. */
  lemma TieMerges(ctx: Ctx, n1: Note, n2: Note, d1: real, d2: real)
    requires MidiNumber(n1.pitch) == MidiNumber(n2.pitch)
    requires n1.tied && !n2.tied
    requires n1.graceNotes == [] && n2.graceNotes == [] && n1.ornaments == [] && n2.ornaments == []
    requires TieKey(ctx.staff, ctx.voice, MidiNumber(n1.pitch)) !in ctx.pendingTies
    requires forall i :: 0 <= i < |ctx.events| ==> ctx.events[i].start != ctx.time
    ensures var r := PlayNote(PlayNote(ctx, n1, d1), n2, d2);
      r.time == ctx.time + d1 + d2 && r.pendingTies == ctx.pendingTies &&
      r.events == ctx.events + [Event(ctx.time, ctx.staff, ctx.voice,
        NoteBody(MidiNumber(n1.pitch), d1 + d2, ctx.velocity, ArticulationSet(n1.articulations), false, false, ctx.channel))]
  {
    var midi := MidiNumber(n1.pitch);
    var key := TieKey(ctx.staff, ctx.voice, midi);
    var flags := ArticulationSet(n1.articulations);
    PlainNoteStrikes(ctx, n1, d1);
    var s1 := Strike(ctx, midi, ctx.time, d1, d1, flags, true);
    var prev: NoteEvent := Event(ctx.time, ctx.staff, ctx.voice, NoteBody(midi, d1, ctx.velocity, flags, false, true, ctx.channel));
    assert s1.events == ctx.events + [prev] && s1.pendingTies == ctx.pendingTies[key := prev];
    var c1 := s1.(time := ctx.time + d1);
    PlainNoteStrikes(c1, n2, d2);
    WithoutAbsent(ctx.events, prev);
    WithoutConcat(ctx.events, [prev], prev);
    assert ctx.pendingTies[key := prev] - {key} == ctx.pendingTies;
  }

  /** A note without grace notes or ornaments is one strike at the cursor. */
  lemma PlainNoteStrikes(ctx: Ctx, n: Note, dur: real)
    requires n.graceNotes == [] && n.ornaments == []
    ensures PlayNote(ctx, n, dur) ==
      Strike(ctx, MidiNumber(n.pitch), ctx.time, dur, dur, ArticulationSet(n.articulations), n.tied).(time := ctx.time + dur)
  {
    NoteWithoutOrnaments(ctx, n, dur);
    assert GraceTime(0, dur / 8.0) == 0.0;
    assert GraceEvents(ctx, [], dur / 8.0) == [];
    assert ctx.(events := ctx.events + []) == ctx;
  }

  /** Three eighth notes under a 3:2 tuplet take the time of a quarter note. */
  lemma TripletTakesQuarter()
    ensures var e := NoteItem(Note(Pitch(C, 4, None), Duration(Frac(1, 8), 0), [], [], false, []));
      Span(TupletItem(3, 2, [e, e, e]), 1.0) == Some(0.25)
  {
    var e := NoteItem(Note(Pitch(C, 4, None), Duration(Frac(1, 8), 0), [], [], false, []));
    var x := TupletScale(3, 2, 1.0).value;
    assert x == 2.0 / 3.0;
    assert Span(e, x) == Some(1.0 / 12.0);
    assert SeqSpan([e], x) == Some(1.0 / 12.0) by { assert [e][1..] == []; }
    assert SeqSpan([e, e], x) == Some(2.0 / 12.0) by { assert [e, e][1..] == [e]; }
    assert SeqSpan([e, e, e], x) == Some(0.25) by { assert [e, e, e][1..] == [e, e]; }
  }
}

=== FILE: dicts.dfy ===
/** Python's `dict`, which remembers insertion order: a list of key/value entries.
    Assigning to a key already present keeps its place, a new key goes at the end,
    and `del` takes the entry out. */
module Dicts {
  import opened Wrappers

  /** No key occurs twice. */
  predicate UniqueKeys<K(==), V>(d: seq<(K, V)>) {
    forall i, j :: 0 <= i < j < |d| ==> d[i].0 != d[j].0
  }

  predicate HasKey<K(==), V>(d: seq<(K, V)>, k: K) {
    exists i :: 0 <= i < |d| && d[i].0 == k
  }

  /** `d.get(k)`. */
  function Get<K(==), V>(d: seq<(K, V)>, k: K): (r: Option<V>)
    ensures r.Some? <==> HasKey(d, k)
    ensures r.Some? ==> (k, r.value) in d
    ensures UniqueKeys(d) ==> forall i :: 0 <= i < |d| && d[i].0 == k ==> r == Some(d[i].1)
  {
    if d == [] then None
    else if d[0].0 == k then Some(d[0].1)
    else
      var r := Get(d[1..], k);
      assert forall i :: 1 <= i < |d| ==> d[i] == d[1..][i - 1];
      assert HasKey(d, k) ==> HasKey(d[1..], k) by {
        if HasKey(d, k) {
          var i :| 0 <= i < |d| && d[i].0 == k;
          assert d[1..][i - 1].0 == k;
        }
      }
      r
  }

  /** `d[k] = v`. */
  function Put<K(==), V>(d: seq<(K, V)>, k: K, v: V): (r: seq<(K, V)>)
    ensures |r| == if HasKey(d, k) then |d| else |d| + 1
    ensures !HasKey(d, k) ==> r == d + [(k, v)]
    ensures HasKey(d, k) ==> forall i :: 0 <= i < |d| ==> r[i].0 == d[i].0
    ensures forall i :: 0 <= i < |r| ==> r[i] == (k, v) || r[i] in d
  {
    if d == [] then [(k, v)]
    else if d[0].0 == k then [(k, v)] + d[1..]
    else
      HasKeyTail(d, k);
      var rest := Put(d[1..], k, v);
      ConsKeys(d, rest);
      [d[0]] + rest
  }

  /** A key other than the first one's is in `d` exactly when it is in the rest. */
  lemma HasKeyTail<K, V>(d: seq<(K, V)>, k: K)
    requires d != [] && d[0].0 != k
    ensures HasKey(d, k) <==> HasKey(d[1..], k)
  {
    if HasKey(d, k) {
      var i :| 0 <= i < |d| && d[i].0 == k;
      assert d[1..][i - 1].0 == k;
    }
    if HasKey(d[1..], k) {
      var i :| 0 <= i < |d[1..]| && d[1..][i].0 == k;
      assert d[i + 1].0 == k;
    }
  }

  /** Putting the first entry of `d` back in front of a sequence built from the
      rest of `d`. */
  lemma ConsKeys<K, V>(d: seq<(K, V)>, rest: seq<(K, V)>)
    requires d != []
    ensures forall i :: 1 <= i < |rest| + 1 ==> ([d[0]] + rest)[i] == rest[i - 1]
    ensures forall i :: 1 <= i < |d| ==> d[i] == d[1..][i - 1]
    ensures forall x :: x in d[1..] ==> x in d
  {
  }

  /** `del d[k]`. */
  function Del<K(==), V>(d: seq<(K, V)>, k: K): (r: seq<(K, V)>)
    ensures forall i :: 0 <= i < |r| ==> r[i] in d && r[i].0 != k
    ensures forall i :: 0 <= i < |d| && d[i].0 != k ==> d[i] in r
    ensures |r| <= |d|
  {
    if d == [] then []
    else
      assert d == [d[0]] + d[1..];
      (if d[0].0 == k then [] else [d[0]]) + Del(d[1..], k)
  }

  /** The keys, in order. */
  function Keys<K, V>(d: seq<(K, V)>): (r: seq<K>)
    ensures |r| == |d| && forall i :: 0 <= i < |d| ==> r[i] == d[i].0
  {
    seq(|d|, i requires 0 <= i < |d| => d[i].0)
  }

  /** The values, in order. */
  function Values<K, V>(d: seq<(K, V)>): (r: seq<V>)
    ensures |r| == |d| && forall i :: 0 <= i < |d| ==> r[i] == d[i].1
  {
    seq(|d|, i requires 0 <= i < |d| => d[i].1)
  }

  /** `d[k] = v` introduces no key other than `k`. */
  lemma {:induction false} PutKeys<K, V>(d: seq<(K, V)>, k: K, v: V)
    ensures forall i :: 0 <= i < |Put(d, k, v)| ==> Put(d, k, v)[i].0 == k || HasKey(d, Put(d, k, v)[i].0)
  {
    if d != [] && d[0].0 != k {
      PutKeys(d[1..], k, v);
      var t := Put(d[1..], k, v);
      var r := Put(d, k, v);
      assert r == [d[0]] + t;
      forall i | 0 <= i < |r| && r[i].0 != k ensures HasKey(d, r[i].0) {
        if i > 0 {
          assert r[i] == t[i - 1];
          var m :| 0 <= m < |d[1..]| && d[1..][m].0 == t[i - 1].0;
          assert d[m + 1].0 == r[i].0;
        }
      }
    }
  }

  lemma {:induction false} TailUnique<K, V>(d: seq<(K, V)>)
    requires d != [] && UniqueKeys(d)
    ensures UniqueKeys(d[1..])
  {
    forall i, j | 0 <= i < j < |d[1..]| ensures d[1..][i].0 != d[1..][j].0 {
      assert d[1..][i] == d[i + 1] && d[1..][j] == d[j + 1];
    }
  }

  /** Prepending an entry whose key is new keeps keys unique. */
  lemma ConsUnique<K, V>(e: (K, V), t: seq<(K, V)>)
    requires UniqueKeys(t)
    requires forall j :: 0 <= j < |t| ==> t[j].0 != e.0
    ensures UniqueKeys([e] + t)
  {
    var r := [e] + t;
    forall i, j | 0 <= i < j < |r| ensures r[i].0 != r[j].0 {
      assert r[j] == t[j - 1];
      if i > 0 { assert r[i] == t[i - 1]; }
    }
  }

  /** `d[k] = v` keeps keys unique. */
  lemma {:induction false} PutUnique<K, V>(d: seq<(K, V)>, k: K, v: V)
    ensures UniqueKeys(d) ==> UniqueKeys(Put(d, k, v))
  {
    if d != [] && UniqueKeys(d) {
      TailUnique(d);
      if d[0].0 == k {
        forall j | 0 <= j < |d[1..]| ensures d[1..][j].0 != k {
          assert d[1..][j] == d[j + 1];
        }
        ConsUnique((k, v), d[1..]);
      } else {
        PutUnique(d[1..], k, v);
        PutKeys(d[1..], k, v);
        var t := Put(d[1..], k, v);
        forall j | 0 <= j < |t| ensures t[j].0 != d[0].0 {
          if t[j].0 != k {
            var m :| 0 <= m < |d[1..]| && d[1..][m].0 == t[j].0;
            assert d[m + 1].0 == t[j].0;
          }
        }
        ConsUnique(d[0], t);
      }
    }
  }

  /** After `d[k] = v` the key maps to `v` and every other key keeps its value. */
  lemma {:induction false} PutGet<K, V>(d: seq<(K, V)>, k: K, v: V, k2: K)
    ensures Get(Put(d, k, v), k) == Some(v)
    ensures k2 != k ==> Get(Put(d, k, v), k2) == Get(d, k2)
  {
    if d == [] {
    } else if d[0].0 == k {
      var r := Put(d, k, v);
      assert r == [(k, v)] + d[1..];
      assert r[1..] == d[1..];
    } else {
      PutGet(d[1..], k, v, k2);
      var t := Put(d[1..], k, v);
      var r := [d[0]] + t;
      assert r == Put(d, k, v);
      assert r[1..] == t;
    }
  }

  /** `del d[k]` keeps keys unique. */
  lemma {:induction false} DelUnique<K, V>(d: seq<(K, V)>, k: K)
    requires UniqueKeys(d)
    ensures UniqueKeys(Del(d, k))
  {
    if d != [] {
      TailUnique(d);
      DelUnique(d[1..], k);
      var t := Del(d[1..], k);
      if d[0].0 != k {
        forall j | 0 <= j < |t| ensures t[j].0 != d[0].0 {
          var m :| 0 <= m < |d[1..]| && d[1..][m] == t[j];
          assert d[m + 1] == t[j];
        }
        ConsUnique(d[0], t);
      }
    }
  }

  /** After `del d[k]` the key is gone and every other key keeps its value. */
  lemma {:induction false} DelGet<K, V>(d: seq<(K, V)>, k: K, k2: K)
    ensures Get(Del(d, k), k) == None
    ensures k2 != k ==> Get(Del(d, k), k2) == Get(d, k2)
  {
    assert !HasKey(Del(d, k), k);
    if d != [] && k2 != k {
      var t := Del(d[1..], k);
      var r := Del(d, k);
      DelGet(d[1..], k, k2);
      if d[0].0 == k {
        assert r == t;
        assert Get(d, k2) == Get(d[1..], k2);
      } else {
        assert r == [d[0]] + t;
        assert r[0] == d[0] && r[1..] == t;
        if d[0].0 != k2 {
          assert Get(r, k2) == Get(t, k2);
        }
      }
    }
  }
}

=== FILE: events.dfy ===
/** Time-stamped events, the intermediate form between the syntax tree and the
    playback and export back ends, and the `EventGraph` queries over them. All
    times are in whole notes. */
module Events {
  import opened Wrappers
  import opened Nodes
  import Sorting

  /** The event kinds with the fields each one carries. */
  datatype Body =
    | NoteBody(midi: int, duration: real, velocity: int, articulations: set<ArticulationType>,
               tiedFrom: bool, tiedTo: bool, channel: int)
    | RestBody(duration: real)
    | TempoBody(bpm: int, beatUnit: real)
    | TimeSigBody(numerator: int, denominator: int)
    | DynamicBody(marking: string, velocity: int, isHairpin: bool,
                  hairpinLength: Option<real>, target: Option<int>)
    | PedalBody(value: int)
    | ProgramBody(program: int, channel: int)
    | ControlBody(controller: int, value: int, channel: int)

  datatype Event = Event(start: real, staff: string, voice: int, body: Body)

  /** Notes and rests are the events that last. */
  predicate HasEnd(e: Event) {
    e.body.NoteBody? || e.body.RestBody?
  }

  /** `NoteEvent.end_time` and `RestEvent.end_time`. */
  function EndTime(e: Event): real
    requires HasEnd(e)
  {
    e.start + e.body.duration
  }

  /** `NoteEvent.effective_duration`: staccato halves, staccatissimo quarters,
      tenuto or legato keep the full length, anything else plays nine tenths. */
  function EffectiveDuration(b: Body): (r: real)
    requires b.NoteBody?
    ensures b.duration >= 0.0 ==> 0.0 <= r <= b.duration
  {
    if Staccato in b.articulations then b.duration * (1.0 / 2.0)
    else if Staccatissimo in b.articulations then b.duration * (1.0 / 4.0)
    else if Tenuto in b.articulations || Legato in b.articulations then b.duration
    else b.duration * (9.0 / 10.0)
  }

  /** Staccato wins over every other flag and staccatissimo over the rest; only
      tenuto or legato without a shortening flag play the whole written length,
      and any other set of flags plays nine tenths of it. */
  lemma EffectiveDurationPrecedence(b: Body)
    requires b.NoteBody? && b.duration > 0.0
    ensures Staccato in b.articulations ==> EffectiveDuration(b) == b.duration / 2.0
    ensures EffectiveDuration(b) == b.duration <==>
      Staccato !in b.articulations && Staccatissimo !in b.articulations
      && (Tenuto in b.articulations || Legato in b.articulations)
    ensures b.articulations == {} ==> EffectiveDuration(b) == b.duration * 0.9
    ensures Staccato !in b.articulations && Staccatissimo in b.articulations ==>
      EffectiveDuration(b) == b.duration / 4.0
    ensures (Staccato !in b.articulations && Staccatissimo !in b.articulations &&
             Tenuto !in b.articulations && Legato !in b.articulations) ==>
      EffectiveDuration(b) == b.duration * 0.9
  {
  }

  /** `TempoEvent.seconds_per_whole_note`; `None` is the `ZeroDivisionError` a zero
      beat unit or zero tempo raises. */
  function SecondsPerWholeNote(bpm: int, beatUnit: real): (r: Option<real>)
    ensures r.Some? <==> bpm != 0 && beatUnit != 0.0
    ensures r.Some? ==> r.value * bpm as real * beatUnit == 60.0
  {
    if beatUnit == 0.0 || bpm == 0 then None
    else Some((1.0 / beatUnit) * (60.0 / bpm as real))
  }

  /** With the default quarter-note beat a whole note lasts 240/bpm seconds. */
  lemma QuarterBeatSeconds(bpm: int)
    requires bpm != 0
    ensures SecondsPerWholeNote(bpm, 0.25) == Some(240.0 / bpm as real)
  {
    var b := bpm as real;
    assert 1.0 / 0.25 == 4.0;
    assert 4.0 * (60.0 / b) == 240.0 / b;
  }

  /** `PedalEvent.down`; the channel argument is accepted and ignored. */
  function PedalDown(start: real, staff: string, voice: int, channel: int): Event
  {
    Event(start, staff, voice, PedalBody(127))
  }

  /** `PedalEvent.up`; the channel argument is accepted and ignored. */
  function PedalUp(start: real, staff: string, voice: int, channel: int): Event
  {
    Event(start, staff, voice, PedalBody(0))
  }

  /** Down presses fully, up releases fully, both at the given place and time,
      and the channel argument makes no difference. */
  lemma PedalValues(start: real, staff: string, voice: int, c1: int, c2: int)
    ensures PedalDown(start, staff, voice, c1).body == PedalBody(127)
    ensures PedalUp(start, staff, voice, c1).body == PedalBody(0)
    ensures PedalDown(start, staff, voice, c1) == PedalDown(start, staff, voice, c2)
    ensures PedalUp(start, staff, voice, c1) == PedalUp(start, staff, voice, c2)
    ensures PedalUp(start, staff, voice, c1).(body := PedalBody(127)) == PedalDown(start, staff, voice, c1)
  {
  }

  // ================================================================= ordering

  /** `EventGraph._event_priority`: the order of kinds at one instant. */
  function Priority(e: Event): (r: int)
    ensures 0 <= r <= 20
  {
    match e.body
    case TempoBody(_, _) => 0
    case TimeSigBody(_, _) => 1
    case ProgramBody(_, _) => 2
    case DynamicBody(_, _, _, _, _) => 3
    case PedalBody(_) => 4
    case NoteBody(_, _, _, _, _, _, _) => 10
    case _ => 20
  }

  /** At one instant tempo comes before meter, meter before programs, programs
      before dynamics, dynamics before pedals, pedals before notes, and notes
      before everything else. */
  lemma PriorityChain(t: Event, s: Event, p: Event, d: Event, q: Event, n: Event, o: Event)
    requires t.body.TempoBody? && s.body.TimeSigBody? && p.body.ProgramBody?
    requires d.body.DynamicBody? && q.body.PedalBody? && n.body.NoteBody?
    requires o.body.RestBody? || o.body.ControlBody?
    ensures Priority(t) < Priority(s) < Priority(p) < Priority(d) < Priority(q) < Priority(n) < Priority(o)
  {
  }

  /** The sort key `(start_time, priority)` compared lexicographically. */
  predicate EventLe(a: Event, b: Event) {
    a.start < b.start || (a.start == b.start && Priority(a) <= Priority(b))
  }

  lemma EventLeIsPreorder()
    ensures Sorting.TotalPreorder(EventLe)
  {
  }

  /** `EventGraph.sort`. */
  function SortEvents(events: seq<Event>): seq<Event>
  {
    Sorting.Sort(events, EventLe)
  }

  /** The sorted events are the same events, ordered by start time and then by
      priority, and events with equal keys keep their order. */
  lemma SortEventsCorrect(events: seq<Event>, k: Event)
    ensures multiset(SortEvents(events)) == multiset(events)
    ensures forall i, j :: 0 <= i < j < |SortEvents(events)| ==>
      var a, b := SortEvents(events)[i], SortEvents(events)[j];
      a.start < b.start || (a.start == b.start && Priority(a) <= Priority(b))
    ensures Sorting.Equivalents(SortEvents(events), k, EventLe) == Sorting.Equivalents(events, k, EventLe)
  {
    EventLeIsPreorder();
    Sorting.SortSorted(events, EventLe);
    Sorting.SortStable(events, k, EventLe);
  }

  // ================================================================== queries

  /** `EventGraph.get_duration`: the latest end of a note or rest, and 0 when no
      note or rest ends later than 0. */
  method GetDuration(events: seq<Event>) returns (maxEnd: real)
    ensures maxEnd >= 0.0
    ensures forall i :: 0 <= i < |events| && HasEnd(events[i]) ==> EndTime(events[i]) <= maxEnd
    ensures maxEnd == 0.0 || exists i :: 0 <= i < |events| && HasEnd(events[i]) && EndTime(events[i]) == maxEnd
  {
    maxEnd := 0.0;
    var n := 0;
    while n < |events|
      invariant 0 <= n <= |events|
      invariant maxEnd >= 0.0
      invariant forall i :: 0 <= i < n && HasEnd(events[i]) ==> EndTime(events[i]) <= maxEnd
      invariant maxEnd == 0.0 || exists i :: 0 <= i < n && HasEnd(events[i]) && EndTime(events[i]) == maxEnd
    {
      var e := events[n];
      if e.body.NoteBody? {
        var end := EndTime(e);
        if end > maxEnd {
          maxEnd := end;
        }
      } else if e.body.RestBody? {
        var end := EndTime(e);
        if end > maxEnd {
          maxEnd := end;
        }
      }
      n := n + 1;
    }
  }

  predicate StartsIn(e: Event, lo: real, hi: real) {
    lo <= e.start < hi
  }

  /** `EventGraph.get_events_in_range`: the events starting in `[lo, hi)`. */
  function EventsInRange(events: seq<Event>, lo: real, hi: real): (r: seq<Event>)
    ensures forall i :: 0 <= i < |r| ==> r[i] in events && lo <= r[i].start < hi
    ensures forall i :: 0 <= i < |events| && lo <= events[i].start < hi ==> events[i] in r
  {
    Sorting.Filter(events, e => StartsIn(e, lo, hi))
  }

  /** Taking a range of a concatenation takes it of each part, so the result keeps
      the original order; a half-open range that is empty selects nothing. */
  lemma EventsInRangeOrder(a: seq<Event>, b: seq<Event>, lo: real, hi: real)
    ensures EventsInRange(a + b, lo, hi) == EventsInRange(a, lo, hi) + EventsInRange(b, lo, hi)
    ensures hi <= lo ==> EventsInRange(a, lo, hi) == []
  {
    Sorting.FilterConcat(a, b, e => StartsIn(e, lo, hi));
    var r := EventsInRange(a, lo, hi);
    assert |r| == 0 || lo <= r[0].start < hi;
  }

  predicate IsNote(e: Event) { e.body.NoteBody? }

  /** `EventGraph.get_note_events`. */
  function NoteEvents(events: seq<Event>): (r: seq<Event>)
    ensures forall i :: 0 <= i < |r| ==> r[i] in events && r[i].body.NoteBody?
    ensures forall i :: 0 <= i < |events| && events[i].body.NoteBody? ==> events[i] in r
  {
    Sorting.Filter(events, IsNote)
  }

  lemma NoteEventsOrder(a: seq<Event>, b: seq<Event>)
    ensures NoteEvents(a + b) == NoteEvents(a) + NoteEvents(b)
  {
    Sorting.FilterConcat(a, b, IsNote);
  }
}

=== FILE: generator.dfy ===
/** The code generator that writes Clef source for a recognised score. The output
    is kept as the list of lines `_writeln` produced, each with the indent level in
    force and whether it opens a block, closes one, or neither; the text is
    rendered from that list. */
module Generator {
  import opened Wrappers
  import opened Text
  import Dicts
  import Sorting
  import Nodes
  import Instruments
  import opened Omr

  // ================================================================== writer

  /** What a line does to the block structure. */
  datatype Kind = Plain | Opening | Closing

  /** One `_writeln` call: the indent level in force, the text, and its kind. */
  datatype Line = Line(level: int, text: string, kind: Kind)

  /** The generator's state: what it has written and `_indent_level`. */
  datatype Writer = Writer(lines: seq<Line>, level: int)

  /** The number of lines of kind `k`. */
  function CountKind(lines: seq<Line>, k: Kind): nat
  {
    if lines == [] then 0
    else CountKind(lines[..|lines| - 1], k) + (if lines[|lines| - 1].kind == k then 1 else 0)
  }

  /** Blocks opened and not yet closed. */
  function Depth(lines: seq<Line>): int
  {
    CountKind(lines, Opening) - CountKind(lines, Closing)
  }

  /** Line `i` sits at the number of blocks around it (a closing line one level
      out, with the block it ends), never left of the margin; an opening line ends
      with `{` and a closing line is exactly `}`. */
  predicate Fits(lines: seq<Line>, i: nat)
    requires i < |lines|
  {
    var l := lines[i];
    && 0 <= l.level
    && l.level == Depth(lines[..i]) - (if l.kind == Closing then 1 else 0)
    && (l.kind == Opening ==> l.text != [] && l.text[|l.text| - 1] == '{')
    && (l.kind == Closing ==> l.text == "}")
  }

  /** The writer's level counts the blocks still open, and every line fits. */
  predicate Nested(w: Writer) {
    && w.level == Depth(w.lines)
    && forall i :: 0 <= i < |w.lines| ==> Fits(w.lines, i)
  }

  lemma NestedLevel(w: Writer)
    requires Nested(w)
    ensures w.level >= 0
  {
    if w.lines != [] {
      var n := |w.lines| - 1;
      assert Fits(w.lines, n);
      assert w.lines[..n] == w.lines[..|w.lines| - 1];
    }
  }

  /** Appending a line that fits keeps every earlier line fitting. */
  lemma AppendFits(w: Writer, l: Line)
    requires Nested(w)
    requires Fits(w.lines + [l], |w.lines|)
    ensures forall i :: 0 <= i < |w.lines + [l]| ==> Fits(w.lines + [l], i)
    ensures Depth(w.lines + [l]) == w.level + (if l.kind == Opening then 1 else if l.kind == Closing then -1 else 0)
  {
    var ls := w.lines + [l];
    assert ls[..|ls| - 1] == w.lines;
    forall i | 0 <= i < |w.lines| ensures Fits(ls, i) {
      assert ls[..i] == w.lines[..i];
      assert Fits(w.lines, i);
    }
  }

  /** `_writeln(text)` for a line that neither opens nor closes a block. */
  function Emit(w: Writer, text: string): (r: Writer)
    ensures r.level == w.level && |r.lines| == |w.lines| + 1
    ensures r.lines[|w.lines|].text == text
    ensures Nested(w) ==> Nested(r)
  {
    var l := Line(w.level, text, Plain);
    var r := Writer(w.lines + [l], w.level);
    assert Nested(w) ==> Nested(r) by {
      if Nested(w) {
        NestedLevel(w);
        assert (w.lines + [l])[..|w.lines|] == w.lines;
        AppendFits(w, l);
      }
    }
    r
  }

  /** `_writeln(header + " {")` followed by `_indent_level += 1`. */
  function Open(w: Writer, header: string): (r: Writer)
    ensures r.level == w.level + 1
    ensures Nested(w) ==> Nested(r)
  {
    var l := Line(w.level, header + " {", Opening);
    var r := Writer(w.lines + [l], w.level + 1);
    assert Nested(w) ==> Nested(r) by {
      if Nested(w) {
        NestedLevel(w);
        assert (w.lines + [l])[..|w.lines|] == w.lines;
        AppendFits(w, l);
      }
    }
    r
  }

  /** `_indent_level -= 1` followed by `_writeln("}")`. */
  function Close(w: Writer): (r: Writer)
    ensures r.level == w.level - 1
    ensures Nested(w) && w.level >= 1 ==> Nested(r)
  {
    var l := Line(w.level - 1, "}", Closing);
    var r := Writer(w.lines + [l], w.level - 1);
    assert Nested(w) && w.level >= 1 ==> Nested(r) by {
      if Nested(w) && w.level >= 1 {
        assert (w.lines + [l])[..|w.lines|] == w.lines;
        AppendFits(w, l);
      }
    }
    r
  }

  // ================================================================= rendering

  /** `indent * n`: empty for a level of zero or less. */
  function Indent(indent: string, n: int): string
    decreases if n > 0 then n else 0
  {
    if n <= 0 then "" else indent + Indent(indent, n - 1)
  }

  /** The text one `_writeln` call adds: a bare newline for an empty line. */
  function RenderLine(indent: string, l: Line): (r: string)
    ensures r != [] && r[|r| - 1] == '\n'
  {
    if l.text == "" then "\n" else Indent(indent, l.level) + l.text + "\n"
  }

  function Render(indent: string, lines: seq<Line>): string
  {
    if lines == [] then "" else RenderLine(indent, lines[0]) + Render(indent, lines[1..])
  }

  predicate AllSpaces(s: string) {
    forall i :: 0 <= i < |s| ==> s[i] == ' '
  }

  lemma {:induction false} TrimSpaces(spaces: string, rest: string)
    requires AllSpaces(spaces)
    requires rest != [] && !IsSpace(rest[0])
    ensures TrimLeft(spaces + rest) == rest
    decreases |spaces|
  {
    var s := spaces + rest;
    if spaces == [] {
      assert s == rest;
    } else {
      assert s[0] == ' ' && IsSpace(s[0]);
      assert s[1..] == spaces[1..] + rest;
      assert TrimLeft(s) == TrimLeft(s[1..]);
      TrimSpaces(spaces[1..], rest);
    }
  }

  lemma {:induction false} IndentSpaces(indent: string, n: int)
    requires AllSpaces(indent)
    ensures AllSpaces(Indent(indent, n))
    decreases if n > 0 then n else 0
  {
    if n > 0 {
      IndentSpaces(indent, n - 1);
      var t := Indent(indent, n - 1);
      assert forall i :: |indent| <= i < |indent + t| ==> (indent + t)[i] == t[i - |indent|];
    }
  }

  /** With an indent of spaces, stripping a rendered line's leading whitespace gives
      back exactly the text that was written. */
  lemma RenderLineUnindents(indent: string, l: Line)
    requires AllSpaces(indent)
    requires l.text != [] && !IsSpace(l.text[0])
    ensures TrimLeft(RenderLine(indent, l)) == l.text + "\n"
  {
    IndentSpaces(indent, l.level);
    assert Indent(indent, l.level) + l.text + "\n" == Indent(indent, l.level) + (l.text + "\n");
    TrimSpaces(Indent(indent, l.level), l.text + "\n");
  }

  // =============================================================== names

  /** A character `_sanitize_name` can leave in a name. */
  predicate IdentChar(c: char) {
    IsLower(c) || IsDigit(c) || c == '_'
  }

  /** The loop of `_sanitize_name` over the lower-cased name: letters, digits and
      `_` are kept, a space or `-` becomes `_`, anything else is dropped. */
  function NameChars(s: string): (r: string)
    ensures forall i :: 0 <= i < |r| ==> IsAlnum(r[i]) || r[i] == '_'
  {
    if s == [] then []
    else
      var c := s[0];
      (if IsAlnum(c) || c == '_' then [c] else if c == ' ' || c == '-' then ['_'] else []) + NameChars(s[1..])
  }

  /** `_sanitize_name`: a non-empty identifier of lower-case letters, digits and `_`
      that starts with a letter. */
  function SanitizeName(name: string): (r: string)
    ensures r != [] && IsLower(r[0])
    ensures forall i :: 0 <= i < |r| ==> IdentChar(r[i])
    ensures name == "" ==> r == "staff1"
  {
    if name == "" then "staff1"
    else
      var l := Lower(name);
      var t := NameChars(l);
      assert forall i :: 0 <= i < |t| ==> IdentChar(t[i]) by {
        NameCharsFrom(l);
        forall i | 0 <= i < |t| ensures IdentChar(t[i]) {
          if t[i] != '_' {
            var k :| 0 <= k < |l| && l[k] == t[i];
          }
        }
      }
      var u := if t != [] && !IsAlpha(t[0]) then "s_" + t else t;
      if u == "" then "staff1" else u
  }

  lemma {:induction false} NameCharsFrom(s: string)
    ensures forall i :: 0 <= i < |NameChars(s)| ==> NameChars(s)[i] in s || NameChars(s)[i] == '_'
  {
    if s != [] {
      NameCharsFrom(s[1..]);
      var h := if IsAlnum(s[0]) || s[0] == '_' then [s[0]] else if s[0] == ' ' || s[0] == '-' then ['_'] else [];
      assert NameChars(s) == h + NameChars(s[1..]);
      forall i | 0 <= i < |NameChars(s)| ensures NameChars(s)[i] in s || NameChars(s)[i] == '_' {
        if i >= |h| {
          assert NameChars(s)[i] == NameChars(s[1..])[i - |h|];
          assert NameChars(s[1..])[i - |h|] in s[1..] || NameChars(s[1..])[i - |h|] == '_';
        }
      }
    }
  }

  lemma {:induction false} NameCharsIdent(s: string)
    requires forall i :: 0 <= i < |s| ==> IdentChar(s[i])
    ensures NameChars(s) == s
  {
    if s != [] {
      NameCharsIdent(s[1..]);
      assert s == [s[0]] + s[1..];
    }
  }

  /** Sanitising a sanitised name changes nothing. */
  lemma SanitizeNameIdempotent(name: string)
    ensures SanitizeName(SanitizeName(name)) == SanitizeName(name)
  {
    var r := SanitizeName(name);
    assert Lower(r) == r;
    NameCharsIdent(r);
  }

  // ============================================================ instruments

  /** The generator's instrument map, with `harp` sent to the General MIDI name
      `orchestral_harp` (see `InstrumentMapAsWritten`). */
  const InstrumentMap: map<string, string> := map[
    "piano" := "piano", "acoustic grand piano" := "piano", "grand piano" := "piano",
    "violin" := "violin", "viola" := "viola", "cello" := "cello", "violoncello" := "cello",
    "flute" := "flute", "clarinet" := "clarinet", "oboe" := "oboe", "bassoon" := "bassoon",
    "trumpet" := "trumpet", "horn" := "french_horn", "french horn" := "french_horn",
    "trombone" := "trombone", "tuba" := "tuba",
    "guitar" := "acoustic_guitar_nylon", "acoustic guitar" := "acoustic_guitar_nylon",
    "electric guitar" := "electric_guitar_clean", "bass" := "acoustic_bass",
    "electric bass" := "electric_bass_finger", "organ" := "church_organ",
    "harpsichord" := "harpsichord", "harp" := "orchestral_harp", "timpani" := "timpani",
    "xylophone" := "xylophone", "vibraphone" := "vibraphone", "marimba" := "marimba"
  ]

  /** The map as the generator writes it: `harp` is sent to `harp`. */
  const InstrumentMapAsWritten: map<string, string> := InstrumentMap["harp" := "harp"]

  /** `_sanitize_instrument` over a given map: piano for an empty name, else the
      entry for the lower-cased, stripped name, piano when there is none. */
  function SanitizeWith(table: map<string, string>, instrument: string): string
  {
    if instrument == "" then "piano"
    else
      var key := Strip(Lower(instrument));
      if key in table then table[key] else "piano"
  }

  /** `_sanitize_instrument` as written. */
  function SanitizeInstrumentAsWritten(instrument: string): (r: string)
    ensures r == "piano" || r in InstrumentMapAsWritten.Values
  {
    SanitizeWith(InstrumentMapAsWritten, instrument)
  }

  /** Any spelling of `harp` is written as `harp`, which the instrument table
      does not hold: the staff is flagged as an unknown instrument and plays as
      a piano. */
  lemma HarpAsWritten(instrument: string)
    requires instrument != "" && Strip(Lower(instrument)) == "harp"
    ensures SanitizeInstrumentAsWritten(instrument) == "harp"
    ensures "harp" !in Instruments.KnownInstruments && Instruments.GmProgram("harp") == 0
  {
    assert InstrumentMapAsWritten["harp"] == "harp";
    SanitizeWithKey(InstrumentMapAsWritten, instrument, "harp");
    Instruments.HarpPrograms();
  }

  /** `Harp`, as a score would spell it, is one such spelling. */
  lemma HarpKey()
    ensures Strip(Lower("Harp")) == "harp"
  {
    assert Lower("Harp") == "harp";
    StripNoSpaces("harp");
  }

  lemma SanitizeWithKey(table: map<string, string>, instrument: string, key: string)
    requires instrument != "" && Strip(Lower(instrument)) == key && key in table
    ensures SanitizeWith(table, instrument) == table[key]
  {
  }

  /** `_sanitize_instrument` with the corrected map: every name it writes is one
      the instrument table holds, piano for an empty or unknown name. */
  function SanitizeInstrument(instrument: string): (r: string)
    ensures r in Instruments.GmPrograms
    ensures Strip(Lower(instrument)) !in InstrumentMap ==> r == "piano"
    ensures r == "piano" || r in InstrumentMap.Values
  {
    SanitizeWith(InstrumentMap, instrument)
  }

  /** The corrected map differs from the written one only for `harp`. */
  lemma SanitizeInstrumentAgrees(instrument: string)
    requires instrument == "" || Strip(Lower(instrument)) != "harp"
    ensures SanitizeInstrument(instrument) == SanitizeInstrumentAsWritten(instrument)
  {
  }

  /** Two names with the same lookup key are sanitised alike (an empty name is
      looked up as the empty key would be, when the map has no such key). */
  lemma SameKey(table: map<string, string>, a: string, b: string)
    requires "" !in table || (a == "") == (b == "")
    requires Strip(Lower(a)) == Strip(Lower(b))
    ensures SanitizeWith(table, a) == SanitizeWith(table, b)
  {
  }

  /** Names are matched regardless of case. */
  lemma SanitizeInstrumentCase(instrument: string)
    ensures SanitizeInstrumentAsWritten(Lower(instrument)) == SanitizeInstrumentAsWritten(instrument)
    ensures SanitizeInstrument(Lower(instrument)) == SanitizeInstrument(instrument)
  {
    LowerIdempotent(instrument);
    SameKey(InstrumentMapAsWritten, Lower(instrument), instrument);
    SameKey(InstrumentMap, Lower(instrument), instrument);
  }

  /** Whitespace around a name does not change the match, since the name is
      stripped before the lookup. */
  lemma {:induction false} SanitizeInstrumentPadded(a: string, instrument: string, b: string)
    requires AllSpace(a) && AllSpace(b)
    ensures SanitizeInstrumentAsWritten(a + instrument + b) == SanitizeInstrumentAsWritten(instrument)
    ensures SanitizeInstrument(a + instrument + b) == SanitizeInstrument(instrument)
  {
    PaddedKey(a, instrument, b);
    NoEmptyKey();
    SameKey(InstrumentMapAsWritten, a + instrument + b, instrument);
    SameKey(InstrumentMap, a + instrument + b, instrument);
  }

  lemma NoEmptyKey()
    ensures "" !in InstrumentMap && "" !in InstrumentMapAsWritten
  {
  }

  // ================================================================ dynamics

  /** `_convert_dynamic`: the lower-cased, stripped marking when it is one of the
      eleven the language knows, else nothing. */
  function ConvertDynamic(dynamic: string): (r: Option<string>)
    ensures r.Some? <==> Strip(Lower(dynamic)) in Nodes.KnownDynamics
    ensures r.Some? ==> r.value == Strip(Lower(dynamic)) && r.value != ""
  {
    var key := Strip(Lower(dynamic));
    if key in Nodes.KnownDynamics then Some(key) else None
  }

  /** Converting a converted marking gives it back unchanged. */
  lemma ConvertDynamicIdempotent(dynamic: string)
    requires ConvertDynamic(dynamic).Some?
    ensures ConvertDynamic(ConvertDynamic(dynamic).value) == ConvertDynamic(dynamic)
  {
    var k := Strip(Lower(dynamic));
    assert forall c :: c in k ==> c in Lower(dynamic);
    LowerNoUpper(k);
    StripIdempotent(Lower(dynamic));
  }

  // ================================================================== voices

  function Less(a: int, b: int): bool { a < b }

  lemma LessIsStrict()
    ensures Sorting.StrictTotalOrder(Less)
  {
  }

  /** The voices of the voiced items, in order of appearance. */
  function ContentVoices(cs: seq<Content>): (r: seq<int>)
    ensures forall c :: c in cs && HasVoice(c) ==> VoiceOf(c) in r
    ensures forall v :: v in r ==> exists c :: c in cs && HasVoice(c) && VoiceOf(c) == v
  {
    if cs == [] then []
    else
      var r := (if HasVoice(cs[0]) then [VoiceOf(cs[0])] else []) + ContentVoices(cs[1..]);
      assert forall c :: c in cs ==> c == cs[0] || c in cs[1..];
      r
  }

  /** `measure_voices` in increasing order: the distinct voices of the measure's
      items, or voice 1 when none has a voice. */
  function MeasureVoices(m: RecognizedMeasure): (vs: seq<int>)
    ensures vs != []
    ensures Sorting.StrictlySorted(vs, Less)
    ensures forall v :: v in vs <==> v in ContentVoices(m.contents) || (ContentVoices(m.contents) == [] && v == 1)
  {
    var u := Sorting.SortUnique(ContentVoices(m.contents), Less);
    LessIsStrict();
    Sorting.SortUniqueSorted(ContentVoices(m.contents), Less);
    if u == [] then [1] else u
  }

  /** The items of voice `v`, in order. */
  function OfVoice(cs: seq<Content>, v: int): (r: seq<Content>)
    ensures forall c :: c in r <==> c in cs && HasVoice(c) && VoiceOf(c) == v
  {
    if cs == [] then []
    else
      assert forall c :: c in cs ==> c == cs[0] || c in cs[1..];
      (if HasVoice(cs[0]) && VoiceOf(cs[0]) == v then [cs[0]] else []) + OfVoice(cs[1..], v)
  }

  /** Filtering by voice keeps the order of the items: filtering a whole is
      filtering its parts and joining the results. */
  lemma {:induction false} OfVoiceConcat(a: seq<Content>, b: seq<Content>, v: int)
    ensures OfVoice(a + b, v) == OfVoice(a, v) + OfVoice(b, v)
    decreases |a|
  {
    if a == [] {
      assert a + b == b;
    } else {
      assert (a + b)[0] == a[0] && (a + b)[1..] == a[1..] + b;
      OfVoiceConcat(a[1..], b, v);
    }
  }

  /** The measure as written for each of its voices, lowest voice first. A measure
      with one voice is kept whole; otherwise each copy keeps that voice's items
      only, and the measure's dynamics go with the lowest voice alone. */
  function SplitMeasure(m: RecognizedMeasure): (parts: seq<(int, RecognizedMeasure)>)
    ensures |parts| == |MeasureVoices(m)|
    ensures forall i :: 0 <= i < |parts| ==> parts[i].0 == MeasureVoices(m)[i]
    ensures forall p, c :: p in parts && c in p.1.contents && HasVoice(c) ==> VoiceOf(c) == p.0
    ensures forall i :: 0 <= i < |parts| ==> parts[i].1.number == m.number
    ensures parts[0].1.dynamics == m.dynamics
    ensures forall i :: 0 < i < |parts| ==> parts[i].1.dynamics == []
  {
    var vs := MeasureVoices(m);
    if |vs| == 1 then
      assert forall c :: c in m.contents && HasVoice(c) ==> VoiceOf(c) == vs[0] by {
        forall c | c in m.contents && HasVoice(c) ensures VoiceOf(c) == vs[0] {
          assert VoiceOf(c) in vs;
        }
      }
      [(vs[0], m)]
    else
      var parts := seq(|vs|, i requires 0 <= i < |vs| =>
        (vs[i], m.(contents := OfVoice(m.contents, vs[i]), dynamics := if vs[i] == vs[0] then m.dynamics else [])));
      assert forall i :: 0 < i < |vs| ==> vs[i] != vs[0] by {
        forall i | 0 < i < |vs| ensures vs[i] != vs[0] {
          assert Less(vs[0], vs[i]);
        }
      }
      parts
  }

  /** The copies of measures written under voice `v`, in measure order. */
  function PartsAt(parts: seq<(int, RecognizedMeasure)>, v: int): (r: seq<RecognizedMeasure>)
    ensures forall x :: x in r ==> (v, x) in parts
  {
    if parts == [] then []
    else
      assert forall p :: p in parts[1..] ==> p in parts;
      (if parts[0].0 == v then [parts[0].1] else []) + PartsAt(parts[1..], v)
  }

  /** Every measure `_group_by_voice` files under voice `v`, in order: an
      independent statement of its result, voice by voice. */
  function PartsOf(measures: seq<RecognizedMeasure>, v: int): seq<RecognizedMeasure>
  {
    if measures == [] then [] else PartsAt(SplitMeasure(measures[0]), v) + PartsOf(measures[1..], v)
  }

  /** A dictionary of lists: the voice's list so far, extended by `xs` (a voice
      gets an entry with its first measure). */
  function Extend(o: Option<seq<RecognizedMeasure>>, xs: seq<RecognizedMeasure>): Option<seq<RecognizedMeasure>>
  {
    if xs == [] then o else Some(o.GetOr([]) + xs)
  }

  lemma ExtendTwice(o: Option<seq<RecognizedMeasure>>, a: seq<RecognizedMeasure>, b: seq<RecognizedMeasure>)
    ensures Extend(Extend(o, a), b) == Extend(o, a + b)
  {
    if a == [] {
      assert a + b == b;
    } else if b != [] {
      assert o.GetOr([]) + a + b == o.GetOr([]) + (a + b);
    } else {
      assert a + b == a;
    }
  }

  type Voices = seq<(int, seq<RecognizedMeasure>)>

  /** Files one measure's copies: `voices[v].append(part)`, creating the list first. */
  function AddParts(d: Voices, parts: seq<(int, RecognizedMeasure)>): Voices
    decreases |parts|
  {
    if parts == [] then d
    else
      var (v, part) := parts[0];
      AddParts(Dicts.Put(d, v, Dicts.Get(d, v).GetOr([]) + [part]), parts[1..])
  }

  function GroupFold(d: Voices, measures: seq<RecognizedMeasure>): Voices
    decreases |measures|
  {
    if measures == [] then d else GroupFold(AddParts(d, SplitMeasure(measures[0])), measures[1..])
  }

  /** `_group_by_voice`: a voice number to measures map that is never empty. */
  function GroupByVoice(measures: seq<RecognizedMeasure>): (r: Voices)
    ensures r != []
    ensures Dicts.UniqueKeys(r)
  {
    var d := GroupFold([], measures);
    GroupFoldUnique([], measures);
    if d == [] then [(1, measures)] else d
  }

  lemma {:induction false} AddPartsUnique(d: Voices, parts: seq<(int, RecognizedMeasure)>)
    requires Dicts.UniqueKeys(d)
    ensures Dicts.UniqueKeys(AddParts(d, parts))
    decreases |parts|
  {
    if parts != [] {
      var (v, part) := parts[0];
      Dicts.PutUnique(d, v, Dicts.Get(d, v).GetOr([]) + [part]);
      AddPartsUnique(Dicts.Put(d, v, Dicts.Get(d, v).GetOr([]) + [part]), parts[1..]);
    }
  }

  lemma {:induction false} GroupFoldUnique(d: Voices, measures: seq<RecognizedMeasure>)
    requires Dicts.UniqueKeys(d)
    ensures Dicts.UniqueKeys(GroupFold(d, measures))
    decreases |measures|
  {
    if measures != [] {
      AddPartsUnique(d, SplitMeasure(measures[0]));
      GroupFoldUnique(AddParts(d, SplitMeasure(measures[0])), measures[1..]);
    }
  }

  lemma {:induction false} AddPartsGet(d: Voices, parts: seq<(int, RecognizedMeasure)>, v: int)
    ensures Dicts.Get(AddParts(d, parts), v) == Extend(Dicts.Get(d, v), PartsAt(parts, v))
    decreases |parts|
  {
    if parts != [] {
      var (w, part) := parts[0];
      var d2 := Dicts.Put(d, w, Dicts.Get(d, w).GetOr([]) + [part]);
      AddPartsGet(d2, parts[1..], v);
      Dicts.PutGet(d, w, Dicts.Get(d, w).GetOr([]) + [part], v);
      var h := if w == v then [part] else [];
      assert PartsAt(parts, v) == h + PartsAt(parts[1..], v);
      assert Dicts.Get(d2, v) == Extend(Dicts.Get(d, v), h);
      ExtendTwice(Dicts.Get(d, v), h, PartsAt(parts[1..], v));
    }
  }

  lemma {:induction false} GroupFoldGet(d: Voices, measures: seq<RecognizedMeasure>, v: int)
    ensures Dicts.Get(GroupFold(d, measures), v) == Extend(Dicts.Get(d, v), PartsOf(measures, v))
    decreases |measures|
  {
    if measures == [] {
      assert Extend(Dicts.Get(d, v), []) == Dicts.Get(d, v);
    } else {
      var parts := SplitMeasure(measures[0]);
      AddPartsGet(d, parts, v);
      GroupFoldGet(AddParts(d, parts), measures[1..], v);
      ExtendTwice(Dicts.Get(d, v), PartsAt(parts, v), PartsOf(measures[1..], v));
    }
  }

  /** The lowest voice of a measure always receives a copy of it. */
  lemma FirstVoiceHasPart(m: RecognizedMeasure)
    ensures PartsAt(SplitMeasure(m), SplitMeasure(m)[0].0) != []
  {
  }

  /** Voice by voice, `_group_by_voice` files exactly the copies `PartsOf` lists:
      a voice has an entry iff some measure has a copy for it, and then the entry
      is those copies in measure order. With no measures at all the result is
      voice 1 with nothing in it. */
  lemma GroupByVoiceSpec(measures: seq<RecognizedMeasure>, v: int)
    ensures measures != [] ==> Dicts.Get(GroupByVoice(measures), v) == Extend(None, PartsOf(measures, v))
    ensures measures == [] ==> GroupByVoice(measures) == [(1, [])]
  {
    GroupFoldGet([], measures, v);
    if measures != [] {
      var u := SplitMeasure(measures[0])[0].0;
      GroupFoldGet([], measures, u);
      FirstVoiceHasPart(measures[0]);
      assert PartsOf(measures, u) != [];
    }
  }

  /** Every copy filed under voice `v` holds only items of voice `v`. */
  lemma {:induction false} PartsOfOwnVoice(measures: seq<RecognizedMeasure>, v: int)
    ensures forall x, c :: x in PartsOf(measures, v) && c in x.contents && HasVoice(c) ==> VoiceOf(c) == v
  {
    if measures != [] {
      PartsOfOwnVoice(measures[1..], v);
      var parts := SplitMeasure(measures[0]);
      forall x, c | x in PartsOf(measures, v) && c in x.contents && HasVoice(c) ensures VoiceOf(c) == v {
        if x in PartsAt(parts, v) {
          assert (v, x) in parts;
        }
      }
    }
  }

  /** `sorted(voices.items())`: the entries in increasing voice order. */
  function SortedVoices(voices: Voices): (r: Voices)
    ensures multiset(r) == multiset(voices)
    ensures Sorting.SortedBy(r, (a: (int, seq<RecognizedMeasure>), b: (int, seq<RecognizedMeasure>)) => a.0 <= b.0)
  {
    var le := (a: (int, seq<RecognizedMeasure>), b: (int, seq<RecognizedMeasure>)) => a.0 <= b.0;
    Sorting.SortSorted(voices, le);
    Sorting.Sort(voices, le)
  }

  // ================================================================= writing

  /** Python truthiness of an optional string. */
  predicate Present(s: Option<string>) {
    s.Some? && s.value != ""
  }

  /** `f"{num}/{denom}"`. */
  function MeterText(ts: (int, int)): string
  {
    IntToString(ts.0) + "/" + IntToString(ts.1)
  }

  function WriteHeader(w: Writer, score: RecognizedScore): (r: Writer)
    ensures r.level == w.level
    ensures Nested(w) ==> Nested(r)
  {
    var w1 := Emit(w, "// Clef Score");
    var w2 := if Present(score.title) then Emit(w1, "// Title: " + score.title.value) else w1;
    var w3 := if Present(score.composer) then Emit(w2, "// Composer: " + score.composer.value) else w2;
    Emit(Emit(w3, "// Transcribed from PDF using Clef OMR"), "")
  }

  /** Tempo (only when non-zero, as `if score.tempo` tests), time and key. */
  function WriteScoreProperties(w: Writer, score: RecognizedScore): (r: Writer)
    ensures r.level == w.level
    ensures Nested(w) ==> Nested(r)
  {
    var w1 := if score.tempo.Some? && score.tempo.value != 0 then Emit(w, "tempo " + IntToString(score.tempo.value)) else w;
    var w2 := if score.timeSignature.Some? then Emit(w1, "time " + MeterText(score.timeSignature.value)) else w1;
    var w3 := if Present(score.keySignature) then Emit(w2, "key " + score.keySignature.value) else w2;
    Emit(w3, "")
  }

  /** The words `_write_note` joins: pitch, duration, articulations, then `tie`. */
  function NoteWords(n: RecognizedNote): seq<string>
  {
    [n.pitch, n.duration] + n.articulations + (if n.tied then ["tie"] else [])
  }

  function ChordWords(c: RecognizedChord): seq<string>
  {
    ["[" + Join(c.pitches, " ") + "]", c.duration] + c.articulations + (if c.tied then ["tie"] else [])
  }

  /** The line `_write_note` writes splits back into pitch, duration, the
      articulations in order and a final `tie` exactly when the note is tied. */
  lemma NoteLine(n: RecognizedNote)
    requires forall k :: 0 <= k < |NoteWords(n)| ==> ' ' !in NoteWords(n)[k]
    requires "tie" !in [n.pitch, n.duration] + n.articulations
    ensures Split(Join(NoteWords(n), " "), ' ') == NoteWords(n)
    ensures var ws := NoteWords(n);
      && ws[..2] == [n.pitch, n.duration]
      && ws[2..2 + |n.articulations|] == n.articulations
      && (ws[|ws| - 1] == "tie" <==> n.tied)
  {
    SplitJoin(NoteWords(n), ' ');
    var ws := NoteWords(n);
    if !n.tied {
      assert ws == [n.pitch, n.duration] + n.articulations;
      assert ws[|ws| - 1] in [n.pitch, n.duration] + n.articulations;
    }
  }

  function WriteContent(w: Writer, c: Content): (r: Writer)
    ensures r.level == w.level
    ensures Nested(w) ==> Nested(r)
  {
    match c
    case NoteContent(n) => Emit(w, Join(NoteWords(n), " "))
    case RestContent(rest) => Emit(w, "rest " + rest.duration)
    case ChordContent(ch) => Emit(w, Join(ChordWords(ch), " "))
    case OtherContent => w
  }

  function WriteContents(w: Writer, cs: seq<Content>): (r: Writer)
    ensures r.level == w.level
    ensures Nested(w) ==> Nested(r)
    decreases |cs|
  {
    if cs == [] then w else WriteContents(WriteContent(w, cs[0]), cs[1..])
  }

  /** The measure's dynamics that convert, one line each. */
  function WriteDynamics(w: Writer, dynamics: seq<string>): (r: Writer)
    ensures r.level == w.level
    ensures Nested(w) ==> Nested(r)
    decreases |dynamics|
  {
    if dynamics == [] then w
    else
      var mark := ConvertDynamic(dynamics[0]);
      WriteDynamics(if mark.Some? then Emit(w, mark.value) else w, dynamics[1..])
  }

  function WriteMeasure(w: Writer, m: RecognizedMeasure): (r: Writer)
    ensures r.level == w.level
    ensures Nested(w) ==> Nested(r)
  {
    var w1 := Open(w, "measure " + IntToString(m.number));
    var w2 := if m.timeSignature.Some? then Emit(w1, "time " + MeterText(m.timeSignature.value)) else w1;
    var w3 := WriteContents(WriteDynamics(w2, m.dynamics), m.contents);
    assert Nested(w) ==> w3.level >= 1 by {
      if Nested(w) {
        NestedLevel(w);
      }
    }
    Close(w3)
  }

  function WriteMeasures(w: Writer, measures: seq<RecognizedMeasure>): (r: Writer)
    ensures r.level == w.level
    ensures Nested(w) ==> Nested(r)
    decreases |measures|
  {
    if measures == [] then w else WriteMeasures(WriteMeasure(w, measures[0]), measures[1..])
  }

  /** One `voice n { ... }` block per entry. */
  function WriteVoices(w: Writer, voices: Voices): (r: Writer)
    ensures r.level == w.level
    ensures Nested(w) ==> Nested(r)
    decreases |voices|
  {
    if voices == [] then w
    else
      var w1 := WriteMeasures(Open(w, "voice " + IntToString(voices[0].0)), voices[0].1);
      assert Nested(w) ==> w1.level >= 1 by {
        if Nested(w) {
          NestedLevel(w);
        }
      }
      WriteVoices(Close(w1), voices[1..])
  }

  /** `_write_staff`: the measures as they are when grouping finds one voice, else a
      voice block per voice in increasing order. */
  function WriteStaff(w: Writer, staff: RecognizedStaff): (r: Writer)
    ensures r.level == w.level
    ensures Nested(w) ==> Nested(r)
  {
    var header := "staff " + SanitizeName(staff.name) + " : " + SanitizeInstrumentAsWritten(staff.instrument);
    var w1 := Open(w, header);
    var voices := GroupByVoice(staff.measures);
    var w2 := if |voices| == 1 then WriteMeasures(w1, staff.measures) else WriteVoices(w1, SortedVoices(voices));
    assert Nested(w) ==> w2.level >= 1 by {
      if Nested(w) {
        NestedLevel(w);
      }
    }
    Emit(Close(w2), "")
  }

  function WriteStaves(w: Writer, staves: seq<RecognizedStaff>): (r: Writer)
    ensures r.level == w.level
    ensures Nested(w) ==> Nested(r)
    decreases |staves|
  {
    if staves == [] then w else WriteStaves(WriteStaff(w, staves[0]), staves[1..])
  }

  /** `generate`: the lines written for a score. Every line sits at the depth of the
      blocks around it, the level is back at 0, and there are as many closing `}`
      lines as lines opening a block. */
  function GenerateLines(score: RecognizedScore): (r: Writer)
    ensures Nested(r)
    ensures r.level == 0
    ensures CountKind(r.lines, Opening) == CountKind(r.lines, Closing)
  {
    var w0 := Writer([], 0);
    assert Nested(w0);
    var w1 := WriteHeader(w0, score);
    var w2 := Open(w1, "score");
    var w3 := WriteScoreProperties(w2, score);
    var w4 := WriteStaves(w3, score.staves);
    assert Nested(w4) && w4.level == 1;
    Close(w4)
  }

  /** `generate` with a given indent string. */
  function Generate(score: RecognizedScore, indent: string): string
  {
    Render(indent, GenerateLines(score).lines)
  }
}

=== FILE: instruments.dfy ===
/** The instrument tables the compiler and the analyzer consult. The General MIDI
    program table and the set of known instrument names are kept as finite tables
    holding the entries the rest of the model relies on: every name the code
    generator can emit (apart from the one it gets wrong), the short aliases, and
    a few ordinary General MIDI names. */
module Instruments {
  import opened Text

  /** `GM_INSTRUMENTS`: instrument name to General MIDI program number. */
  const GmPrograms: map<string, int> := map[
    "piano" := 0, "acoustic_grand_piano" := 0, "harpsichord" := 6,
    "vibraphone" := 11, "marimba" := 12, "xylophone" := 13,
    "church_organ" := 19, "organ" := 19,
    "acoustic_guitar_nylon" := 24, "guitar" := 25, "electric_guitar_clean" := 27,
    "acoustic_bass" := 32, "electric_bass_finger" := 33, "bass" := 33,
    "violin" := 40, "viola" := 41, "cello" := 42, "contrabass" := 43,
    "orchestral_harp" := 46, "timpani" := 47, "percussion" := 47,
    "strings" := 48, "choir" := 52,
    "trumpet" := 56, "trombone" := 57, "tuba" := 58, "french_horn" := 60, "brass" := 61,
    "oboe" := 68, "bassoon" := 70, "clarinet" := 71, "flute" := 73, "woodwinds" := 73,
    "synth" := 81, "drums" := 118, "gunshot" := 127
  ]

  /** The analyzer's `known_instruments`: the table's names plus `voice`. */
  const KnownInstruments: set<string> := GmPrograms.Keys + {"voice"}

  /** `GM_INSTRUMENTS.get(name, 0)`: the program for a name, piano for any other. */
  function GmProgram(name: string): (p: int)
    ensures 0 <= p <= 127
    ensures name !in GmPrograms ==> p == 0
  {
    if name in GmPrograms then GmPrograms[name] else 0
  }

  /** Every name with a program is a known instrument, and the only known name
      without a program of its own is `voice`, which plays as piano. */
  lemma KnownCoversPrograms(name: string)
    ensures name in GmPrograms ==> name in KnownInstruments
    ensures name in KnownInstruments && name !in GmPrograms ==> name == "voice" && GmProgram(name) == 0
  {
  }

  /** Names are matched after lower-casing. */
  lemma LowerCaseLookup()
    ensures GmProgram(Lower("Flute")) == 73
  {
    assert Lower("Flute") == "flute";
  }

  /** Aliases share the program of the instrument they name. */
  lemma AliasPrograms()
    ensures GmProgram("organ") == GmProgram("church_organ") == 19
    ensures GmProgram("woodwinds") == GmProgram("flute") == 73
  {
  }

  /** `harp` is not a table name, so it falls back to piano; the harp's table
      name is `orchestral_harp`. */
  lemma HarpPrograms()
    ensures GmProgram("harp") == 0 && "harp" !in KnownInstruments
    ensures GmProgram("orchestral_harp") == 46
  {
  }
}

=== FILE: measures.dfy ===
/** The voice blocks of a measure. The parser turns a `voice N { ... }` group inside
    a measure into one `Marked(N, item)` entry per item; the compiler and the
    analyzer both regroup them by voice number and visit the voices in
    increasing order. */
module Measures {
  import opened Nodes
  import Sorting

  /** The voice numbers of a measure's voice blocks, as written. */
  function MarkedVoices(cs: seq<Item>): (r: seq<int>)
    ensures forall v :: v in r <==> exists i :: 0 <= i < |cs| && cs[i].Marked? && cs[i].voice == v
  {
    if cs == [] then []
    else
      assert forall i :: 1 <= i < |cs| ==> cs[i] == cs[1..][i - 1];
      (if cs[0].Marked? then [cs[0].voice] else []) + MarkedVoices(cs[1..])
  }

  predicate IntLt(a: int, b: int) { a < b }

  /** `sorted(voice_blocks.keys())`: every voice number once, in increasing order. */
  function VoiceNumbers(cs: seq<Item>): (r: seq<int>)
    ensures forall v :: v in r <==> exists i :: 0 <= i < |cs| && cs[i].Marked? && cs[i].voice == v
    ensures forall i, j :: 0 <= i < j < |r| ==> r[i] < r[j]
  {
    assert Sorting.StrictTotalOrder(IntLt);
    Sorting.SortUniqueSorted(MarkedVoices(cs), IntLt);
    Sorting.SortUnique(MarkedVoices(cs), IntLt)
  }
}

=== FILE: midi_export.dfy ===
/** The MIDI-file back end's `export_midi`: the track layout (one track for the
    global tempo and meter events, one per staff, in sorted order of staff id),
    the time-signature denominator as a power of two, and the MIDI calls each
    event becomes, including the expression ramp `_add_hairpin` writes for a
    hairpin. The calls are collected as a list of `Command`s instead of being
    made on a `MIDIFile` object. */
module MidiExport {
  import opened Wrappers
  import opened Text
  import opened Nodes
  import opened Events
  import Sorting
  import Dicts

  const GlobalStaff: string := "__global__"

  // ================================================================ tracks

  /** The staff ids of the events, the global one left out, in event order
      (with repeats). */
  function StaffIdList(events: seq<Event>): (r: seq<string>)
    ensures forall s :: s in r <==> exists e :: e in events && e.staff == s && s != GlobalStaff
  {
    if events == [] then []
    else
      var rest := StaffIdList(events[1..]);
      assert forall e :: e in events <==> e == events[0] || e in events[1..];
      (if events[0].staff != GlobalStaff then [events[0].staff] else []) + rest
  }

  /** `staff_ids`: the set of non-global staff ids. */
  function StaffIds(events: seq<Event>): set<string>
  {
    set e | e in events && e.staff != GlobalStaff :: e.staff
  }

  /** `num_tracks`. */
  function NumTracks(events: seq<Event>): nat
  {
    |StaffIds(events)| + 1
  }

  lemma StrLessIsStrict()
    ensures Sorting.StrictTotalOrder(StrLess)
  {
    forall a ensures !StrLess(a, a) {
      StrLessIrreflexive(a);
    }
    forall a, b ensures a == b || StrLess(a, b) || StrLess(b, a) {
      StrLessTotal(a, b);
    }
    forall a, b, c | StrLess(a, b) && StrLess(b, c) ensures StrLess(a, c) {
      StrLessTransitive(a, b, c);
    }
  }

  /** `sorted(staff_ids)`. */
  function SortedStaffIds(events: seq<Event>): (r: seq<string>)
  {
    Sorting.SortUnique(StaffIdList(events), StrLess)
  }

  /** No element occurs twice. */
  predicate Distinct<T(==)>(s: seq<T>) {
    forall i, j :: 0 <= i < j < |s| ==> s[i] != s[j]
  }

  /** A list without repeats has as many elements as its set. */
  lemma {:induction false} DistinctCard<T>(s: seq<T>)
    requires Distinct(s)
    ensures |set x | x in s| == |s|
  {
    if s != [] {
      assert Distinct(s[1..]) by {
        forall i, j | 0 <= i < j < |s[1..]| ensures s[1..][i] != s[1..][j] {
          assert s[1..][i] == s[i + 1] && s[1..][j] == s[j + 1];
        }
      }
      DistinctCard(s[1..]);
      assert s[0] !in s[1..];
      assert (set x | x in s) == {s[0]} + (set x | x in s[1..]);
    }
  }

  /** The sorted ids are the staff ids, each once, in increasing order, and
      there are `num_tracks - 1` of them. */
  lemma SortedStaffIdsSpec(events: seq<Event>)
    ensures forall s :: s in SortedStaffIds(events) <==> s in StaffIds(events)
    ensures Sorting.StrictlySorted(SortedStaffIds(events), StrLess)
    ensures Distinct(SortedStaffIds(events))
    ensures |SortedStaffIds(events)| == NumTracks(events) - 1
  {
    var ids := SortedStaffIds(events);
    StrLessIsStrict();
    Sorting.SortUniqueSorted(StaffIdList(events), StrLess);
    forall i, j | 0 <= i < j < |ids| ensures ids[i] != ids[j] {
      assert StrLess(ids[i], ids[j]);
      StrLessIrreflexive(ids[i]);
    }
    forall s ensures s in ids <==> s in StaffIds(events) {
      if s in StaffIds(events) {
        var e :| e in events && e.staff != GlobalStaff && e.staff == s;
        assert s in StaffIdList(events);
      }
    }
    DistinctCard(ids);
    assert (set x | x in ids) == StaffIds(events);
  }

  /** The loop `for i, staff_id in enumerate(ids, start=i): track_map[staff_id] = i`. */
  function Enumerate(trackMap: seq<(string, int)>, ids: seq<string>, i: int): seq<(string, int)>
    decreases |ids|
  {
    if ids == [] then trackMap
    else Enumerate(Dicts.Put(trackMap, ids[0], i), ids[1..], i + 1)
  }

  /** `track_map`. */
  function TrackMap(events: seq<Event>): seq<(string, int)>
  {
    Enumerate([(GlobalStaff, 0)], SortedStaffIds(events), 1)
  }

  /** `ids[j]` numbered from `i`. */
  function Numbered(ids: seq<string>, i: int): (r: seq<(string, int)>)
    ensures |r| == |ids| && forall j :: 0 <= j < |ids| ==> r[j] == (ids[j], i + j)
  {
    seq(|ids|, j requires 0 <= j < |ids| => (ids[j], i + j))
  }

  /** When no id is already a key, the loop appends one entry per id. */
  lemma {:induction false} EnumerateAppends(trackMap: seq<(string, int)>, ids: seq<string>, i: int)
    requires Distinct(ids)
    requires forall k, j :: 0 <= k < |trackMap| && 0 <= j < |ids| ==> trackMap[k].0 != ids[j]
    ensures Enumerate(trackMap, ids, i) == trackMap + Numbered(ids, i)
    decreases |ids|
  {
    if ids != [] {
      var next := Dicts.Put(trackMap, ids[0], i);
      EnumerateStep(trackMap, ids, i);
      EnumerateAppends(next, ids[1..], i + 1);
      NumberedCons(ids, i);
      Associative(trackMap, [(ids[0], i)], Numbered(ids[1..], i + 1));
    }
  }

  /** After one step the remaining ids are still distinct and still new. */
  lemma EnumerateStep(trackMap: seq<(string, int)>, ids: seq<string>, i: int)
    requires ids != [] && Distinct(ids)
    requires forall k, j :: 0 <= k < |trackMap| && 0 <= j < |ids| ==> trackMap[k].0 != ids[j]
    ensures Dicts.Put(trackMap, ids[0], i) == trackMap + [(ids[0], i)]
    ensures Distinct(ids[1..])
    ensures var next := trackMap + [(ids[0], i)];
      forall k, j :: 0 <= k < |next| && 0 <= j < |ids[1..]| ==> next[k].0 != ids[1..][j]
  {
    assert !Dicts.HasKey(trackMap, ids[0]);
    assert forall j :: 0 <= j < |ids[1..]| ==> ids[1..][j] == ids[j + 1];
  }

  lemma NumberedCons(ids: seq<string>, i: int)
    requires ids != []
    ensures Numbered(ids, i) == [(ids[0], i)] + Numbered(ids[1..], i + 1)
  {
    assert forall j :: 0 <= j < |ids[1..]| ==> ids[1..][j] == ids[j + 1];
  }

  /** The track map sends the global staff to track 0 and the `k`-th staff id
      in sorted order to track `k + 1`; its keys are distinct, so this is a
      one-to-one numbering of the tracks `0 .. num_tracks - 1`. */
  lemma TrackMapSpec(events: seq<Event>)
    ensures var m, ids := TrackMap(events), SortedStaffIds(events);
      |m| == |ids| + 1 == NumTracks(events)
      && m[0] == (GlobalStaff, 0)
      && (forall k :: 1 <= k <= |ids| ==> m[k] == (ids[k - 1], k))
      && Dicts.UniqueKeys(m)
  {
    var ids := SortedStaffIds(events);
    SortedStaffIdsSpec(events);
    NoGlobalId(events);
    EnumerateAppends([(GlobalStaff, 0)], ids, 1);
    NumberedUnique(ids);
  }

  lemma NoGlobalId(events: seq<Event>)
    ensures forall j :: 0 <= j < |SortedStaffIds(events)| ==> SortedStaffIds(events)[j] != GlobalStaff
  {
    var ids := SortedStaffIds(events);
    SortedStaffIdsSpec(events);
    forall j | 0 <= j < |ids| ensures ids[j] != GlobalStaff {
      assert ids[j] in StaffIds(events);
    }
  }

  /** The global entry followed by distinct ids numbered from 1 has distinct
      keys. */
  lemma NumberedUnique(ids: seq<string>)
    requires Distinct(ids) && forall j :: 0 <= j < |ids| ==> ids[j] != GlobalStaff
    ensures Dicts.UniqueKeys([(GlobalStaff, 0)] + Numbered(ids, 1))
  {
    var m := [(GlobalStaff, 0)] + Numbered(ids, 1);
    forall a, b | 0 <= a < b < |m| ensures m[a].0 != m[b].0 {
      assert m[b].0 == ids[b - 1];
      if a > 0 {
        assert m[a].0 == ids[a - 1];
      }
    }
  }

  /** Every track number in the map is a track the file has. */
  lemma TrackMapInRange(events: seq<Event>)
    ensures forall k :: 0 <= k < |TrackMap(events)| ==> 0 <= TrackMap(events)[k].1 < NumTracks(events)
  {
    TrackMapSpec(events);
    var m := TrackMap(events);
    forall k | 0 <= k < |m| ensures 0 <= m[k].1 < NumTracks(events) {
      if k > 0 {
        assert m[k].1 == k;
      }
    }
  }

  /** `track_map.get(staff_id, 0)`. */
  function TrackOf(trackMap: seq<(string, int)>, staff: string): int
  {
    match Dicts.Get(trackMap, staff)
    case Some(t) => t
    case None => 0
  }

  /** Each staff id gets its own track, and every event gets a track that
      exists. */
  lemma TrackOfSpec(events: seq<Event>, staff: string)
    ensures 0 <= TrackOf(TrackMap(events), staff) < NumTracks(events)
    ensures TrackOf(TrackMap(events), GlobalStaff) == 0
    ensures forall k :: 0 <= k < |SortedStaffIds(events)| ==>
      TrackOf(TrackMap(events), SortedStaffIds(events)[k]) == k + 1
  {
    var m := TrackMap(events);
    TrackMapSpec(events);
    TrackMapInRange(events);
    assert Dicts.Get(m, GlobalStaff) == Some(0);
    forall k | 0 <= k < |SortedStaffIds(events)|
      ensures TrackOf(m, SortedStaffIds(events)[k]) == k + 1
    {
      assert m[k + 1] == (SortedStaffIds(events)[k], k + 1);
      assert Dicts.Get(m, m[k + 1].0) == Some(m[k + 1].1);
    }
    if Dicts.Get(m, staff).Some? {
      var t := Dicts.Get(m, staff).value;
      assert (staff, t) in m;
    }
  }

  // ====================================================== time signatures

  function Pow2(k: nat): nat
  {
    if k == 0 then 1 else 2 * Pow2(k - 1)
  }

  /** `{1: 0, 2: 1, 4: 2, 8: 3, 16: 4, 32: 5}.get(denom, 2)`. */
  function DenomPower(denominator: int): int
  {
    if denominator == 1 then 0
    else if denominator == 2 then 1
    else if denominator == 4 then 2
    else if denominator == 8 then 3
    else if denominator == 16 then 4
    else if denominator == 32 then 5
    else 2
  }

  /** The exponent is the base-2 logarithm for the denominators 1 to 32 and the
      quarter note's 2 for every other denominator. */
  lemma DenomPowerLog(denominator: int)
    ensures 0 <= DenomPower(denominator) <= 5
    ensures (exists k: nat :: k <= 5 && Pow2(k) == denominator) ==> Pow2(DenomPower(denominator)) == denominator
    ensures !(exists k: nat :: k <= 5 && Pow2(k) == denominator) ==> DenomPower(denominator) == 2
  {
    assert Pow2(0) == 1 && Pow2(1) == 2 && Pow2(2) == 4;
    assert Pow2(3) == 8 && Pow2(4) == 16 && Pow2(5) == 32;
  }

  /** Writing `2^k` and reading the exponent back gives `k`, for `k` up to 5. */
  lemma DenomPowerRoundTrip(k: nat)
    requires k <= 5
    ensures DenomPower(Pow2(k)) == k
  {
    assert Pow2(0) == 1 && Pow2(1) == 2 && Pow2(2) == 4;
    assert Pow2(3) == 8 && Pow2(4) == 16 && Pow2(5) == 32;
  }

  // ============================================================== commands

  /** The `MIDIFile` calls, times in beats (quarter notes). */
  datatype Command =
    | AddTempo(track: int, time: real, bpm: int)
    | AddTimeSignature(track: int, time: real, numerator: int, power: int, clocks: int, notated32nds: int)
    | AddTrackName(track: int, time: real, name: string)
    | AddNote(track: int, channel: int, pitch: int, time: real, duration: real, volume: int)
    | AddProgramChange(track: int, channel: int, time: real, program: int)
    | AddController(track: int, channel: int, time: real, controller: int, value: int)

  /** Python's `int()` of a float: truncation toward zero. */
  function Trunc(x: real): (r: int)
    ensures x >= 0.0 ==> 0 <= r && r as real <= x < r as real + 1.0
    ensures x < 0.0 ==> r <= 0 && r as real - 1.0 < x <= r as real
  {
    if x >= 0.0 then x.Floor else -((-x).Floor)
  }

  lemma TruncMonotone(x: real, y: real)
    requires x <= y
    ensures Trunc(x) <= Trunc(y)
  {
  }

  /** `max(0, min(127, value))`. */
  function Clamp(value: int): (r: int)
    ensures 0 <= r <= 127
    ensures 0 <= value <= 127 ==> r == value
  {
    if value > 127 then 127 else if value < 0 then 0 else value
  }

  /** `steps = max(8, int(duration * 4))`. */
  function Steps(duration: real): (r: int)
    ensures r >= 8 && r >= Trunc(duration * 4.0)
    ensures r == 8 || r == Trunc(duration * 4.0)
  {
    if Trunc(duration * 4.0) > 8 then Trunc(duration * 4.0) else 8
  }

  /** The time of step `i` of a ramp. */
  function RampTime(start: real, duration: real, i: nat): real
  {
    start + i as real * (duration / Steps(duration) as real)
  }

  /** The value of step `i` of a ramp, before clamping. */
  function RampLevel(duration: real, startVelocity: int, endVelocity: int, i: nat): real
  {
    startVelocity as real + i as real * ((endVelocity - startVelocity) as real / Steps(duration) as real)
  }

  /** `_add_hairpin`: `steps + 1` expression (controller 11) events spread
      evenly over the hairpin, their values moving from the start velocity to
      the target and clamped to the MIDI range. */
  function Hairpin(track: int, channel: int, start: real, duration: real,
                   startVelocity: int, endVelocity: int): (r: seq<Command>)
    ensures |r| == Steps(duration) + 1 && |r| >= 9
    ensures forall i :: 0 <= i < |r| ==>
      r[i].AddController? && r[i].track == track && r[i].channel == channel && r[i].controller == 11
      && 0 <= r[i].value <= 127
  {
    seq(Steps(duration) + 1, i requires 0 <= i <= Steps(duration) =>
      AddController(track, channel, RampTime(start, duration, i), 11,
                    Clamp(Trunc(RampLevel(duration, startVelocity, endVelocity, i)))))
  }

  lemma ScaleLe(a: real, b: real, k: real)
    requires a <= b && k >= 0.0
    ensures a * k <= b * k
  {
  }

  /** The ramp starts at the start time with the start velocity and ends at
      the end of the hairpin with the target velocity (both clamped). */
  lemma HairpinEnds(track: int, channel: int, start: real, duration: real, startVelocity: int, endVelocity: int)
    ensures var r := Hairpin(track, channel, start, duration, startVelocity, endVelocity);
      r[0].time == start && r[0].value == Clamp(startVelocity)
      && r[|r| - 1].time == start + duration && r[|r| - 1].value == Clamp(endVelocity)
  {
    var n := Steps(duration) as real;
    assert n * (duration / n) == duration;
    var d := (endVelocity - startVelocity) as real;
    assert n * (d / n) == d;
    assert RampLevel(duration, startVelocity, endVelocity, Steps(duration)) == endVelocity as real;
  }

  /** A crescendo never lowers the expression value from one step to the
      next. */
  lemma HairpinRising(track: int, channel: int, start: real, duration: real,
                      startVelocity: int, endVelocity: int, i: nat, j: nat)
    requires i <= j <= Steps(duration) && startVelocity <= endVelocity
    ensures var r := Hairpin(track, channel, start, duration, startVelocity, endVelocity);
      r[i].value <= r[j].value
  {
    RampRises(duration, startVelocity, endVelocity, i, j);
    TruncMonotone(RampLevel(duration, startVelocity, endVelocity, i),
                  RampLevel(duration, startVelocity, endVelocity, j));
  }

  lemma RampRises(duration: real, startVelocity: int, endVelocity: int, i: nat, j: nat)
    requires i <= j && startVelocity <= endVelocity
    ensures RampLevel(duration, startVelocity, endVelocity, i) <= RampLevel(duration, startVelocity, endVelocity, j)
  {
    var step := (endVelocity - startVelocity) as real / Steps(duration) as real;
    ScaleLe(i as real, j as real, step);
  }

  /** A diminuendo never raises it. */
  lemma HairpinFalling(track: int, channel: int, start: real, duration: real,
                       startVelocity: int, endVelocity: int, i: nat, j: nat)
    requires i <= j <= Steps(duration) && endVelocity <= startVelocity
    ensures var r := Hairpin(track, channel, start, duration, startVelocity, endVelocity);
      r[i].value >= r[j].value
  {
    RampFalls(duration, startVelocity, endVelocity, i, j);
    TruncMonotone(RampLevel(duration, startVelocity, endVelocity, j),
                  RampLevel(duration, startVelocity, endVelocity, i));
  }

  lemma RampFalls(duration: real, startVelocity: int, endVelocity: int, i: nat, j: nat)
    requires i <= j && endVelocity <= startVelocity
    ensures RampLevel(duration, startVelocity, endVelocity, j) <= RampLevel(duration, startVelocity, endVelocity, i)
  {
    var step := (startVelocity - endVelocity) as real / Steps(duration) as real;
    ScaleLe(i as real, j as real, step);
    assert (endVelocity - startVelocity) as real / Steps(duration) as real == -step;
  }

  /** The steps are in time order for a non-negative duration. */
  lemma HairpinTimes(track: int, channel: int, start: real, duration: real,
                     startVelocity: int, endVelocity: int, i: nat, j: nat)
    requires i <= j <= Steps(duration) && duration >= 0.0
    ensures var r := Hairpin(track, channel, start, duration, startVelocity, endVelocity);
      r[i].time <= r[j].time
  {
    var n := Steps(duration) as real;
    DivNonNegative(duration, n);
    ScaleLe(i as real, j as real, duration / n);
    assert RampTime(start, duration, i) <= RampTime(start, duration, j);
  }

  lemma DivNonNegative(a: real, b: real)
    requires a >= 0.0 && b > 0.0
    ensures a / b >= 0.0
  {
  }

  /** Python truthiness of an optional length and an optional velocity. */
  predicate LengthSet(x: Option<real>) { x.Some? && x.value != 0.0 }
  predicate VelocitySet(x: Option<int>) { x.Some? && x.value != 0 }

  /** The calls one event becomes, on the track its staff maps to, at its start
      time in beats. */
  function EventCommands(trackMap: seq<(string, int)>, e: Event): (r: seq<Command>)
    ensures e.body.PedalBody? ==>
      r == [AddController(TrackOf(trackMap, e.staff), 0, e.start * 4.0, 64, e.body.value)]
    ensures e.body.TempoBody? || e.body.TimeSigBody? ==> |r| == 1 && r[0].track == 0
    ensures e.body.RestBody? ==> r == []
    ensures e.body.DynamicBody? ==>
      (r != [] <==> e.body.isHairpin && LengthSet(e.body.hairpinLength) && VelocitySet(e.body.target))
  {
    var track := TrackOf(trackMap, e.staff);
    var time := e.start * 4.0;
    match e.body
    case NoteBody(midi, _, velocity, _, _, _, channel) =>
      [AddNote(track, channel, midi, time, EffectiveDuration(e.body) * 4.0, velocity)]
    case TempoBody(bpm, _) => [AddTempo(0, time, bpm)]
    case TimeSigBody(numerator, denominator) =>
      [AddTimeSignature(0, time, numerator, DenomPower(denominator), 24, 8)]
    case ProgramBody(program, channel) => [AddProgramChange(track, channel, time, program)]
    case PedalBody(value) => [AddController(track, 0, time, 64, value)]
    case ControlBody(controller, value, channel) => [AddController(track, channel, time, controller, value)]
    case DynamicBody(_, velocity, isHairpin, length, target) =>
      if isHairpin && LengthSet(length) && VelocitySet(target) then
        Hairpin(track, 0, time, length.value * 4.0, velocity, target.value)
      else []
    case RestBody(_) => []
  }

  /** The track of a command (every kind has one). */
  function TrackOfCommand(c: Command): int
  {
    c.track
  }

  /** Every command goes to a track the file has, when the track map's
      numbers do. */
  lemma EventCommandsInRange(trackMap: seq<(string, int)>, e: Event, n: int)
    requires n >= 1
    requires forall k :: 0 <= k < |trackMap| ==> 0 <= trackMap[k].1 < n
    ensures forall c :: c in EventCommands(trackMap, e) ==> 0 <= TrackOfCommand(c) < n
  {
    var t := TrackOf(trackMap, e.staff);
    if Dicts.Get(trackMap, e.staff).Some? {
      assert (e.staff, t) in trackMap;
    }
    assert 0 <= t < n;
  }

  /** The calls for a run of events, in order. */
  function EventsCommands(trackMap: seq<(string, int)>, events: seq<Event>): seq<Command>
  {
    if events == [] then [] else EventCommands(trackMap, events[0]) + EventsCommands(trackMap, events[1..])
  }

  lemma {:induction false} EventsCommandsInRange(trackMap: seq<(string, int)>, events: seq<Event>, n: int)
    requires n >= 1
    requires forall k :: 0 <= k < |trackMap| ==> 0 <= trackMap[k].1 < n
    ensures forall c :: c in EventsCommands(trackMap, events) ==> 0 <= TrackOfCommand(c) < n
  {
    if events != [] {
      EventCommandsInRange(trackMap, events[0], n);
      EventsCommandsInRange(trackMap, events[1..], n);
    }
  }

  /** `addTrackName` for every staff in the map, in map order. */
  function TrackNames(trackMap: seq<(string, int)>): (r: seq<Command>)
    ensures |r| <= |trackMap|
    ensures forall c :: c in r ==> c.AddTrackName? && (c.name, c.track) in trackMap && c.name != GlobalStaff
  {
    if trackMap == [] then []
    else
      var rest := TrackNames(trackMap[1..]);
      assert forall x :: x in trackMap[1..] ==> x in trackMap;
      (if trackMap[0].0 != GlobalStaff then [AddTrackName(trackMap[0].1, 0.0, trackMap[0].0)] else []) + rest
  }

  /** `export_midi(graph)` up to writing the file: the initial tempo and time
      signature on track 0, the track names, then each event of the sorted
      graph in turn. */
  function ExportMidi(events: seq<Event>, initialTempo: int, numerator: int, denominator: int): seq<Command>
  {
    var trackMap := TrackMap(events);
    [AddTempo(0, 0.0, initialTempo), AddTimeSignature(0, 0.0, numerator, DenomPower(denominator), 24, 8)]
    + TrackNames(trackMap)
    + EventsCommands(trackMap, SortEvents(events))
  }

  /** Every call the export makes names a track below `num_tracks`. */
  lemma ExportTracksInRange(events: seq<Event>, initialTempo: int, numerator: int, denominator: int)
    ensures forall c :: c in ExportMidi(events, initialTempo, numerator, denominator) ==>
      0 <= TrackOfCommand(c) < NumTracks(events)
  {
    var m := TrackMap(events);
    TrackMapInRange(events);
    EventsCommandsInRange(m, SortEvents(events), NumTracks(events));
    forall c | c in TrackNames(m) ensures 0 <= TrackOfCommand(c) < NumTracks(events) {
      var k :| 0 <= k < |m| && m[k] == (c.name, c.track);
    }
  }
}

=== FILE: nodes.dfy ===
/** The Clef abstract syntax tree and the value semantics its nodes carry:
    accidentals and pitches with their MIDI numbers, rational durations with
    dots, tuplet ratios, measure lengths and the dynamic-to-velocity table. */
module Nodes {
  import opened Wrappers
  import opened Text
  import opened Rational

  // ================================================================ accidentals

  datatype Accidental = Natural | Sharp | DoubleSharp | Flat | DoubleFlat

  /** `Accidental.from_str`: the five symbols, and natural for anything else. */
  function AccidentalFromStr(s: string): (a: Accidental)
    ensures s !in {"n", "#", "##", "b", "bb"} ==> a == Natural
  {
    if s == "#" then Sharp
    else if s == "##" then DoubleSharp
    else if s == "b" then Flat
    else if s == "bb" then DoubleFlat
    else Natural
  }

  /** Semitones added to the written pitch. */
  function SemitoneOffset(a: Accidental): (r: int)
    ensures -2 <= r <= 2
  {
    match a
    case DoubleFlat => -2
    case Flat => -1
    case Natural => 0
    case Sharp => 1
    case DoubleSharp => 2
  }

  /** The symbol `Pitch.__str__` prints for an accidental. */
  function AccidentalSymbol(a: Accidental): (r: string)
    ensures 1 <= |r| <= 2
  {
    match a
    case Sharp => "#"
    case DoubleSharp => "##"
    case Flat => "b"
    case DoubleFlat => "bb"
    case Natural => "n"
  }

  /** Reading back the printed symbol gives the accidental that was printed. */
  lemma AccidentalRoundTrip(a: Accidental)
    ensures AccidentalFromStr(AccidentalSymbol(a)) == a
  {
  }

  /** The symbol spells out the offset: sharps minus flats. */
  lemma SymbolSpellsOffset(a: Accidental)
    ensures Count(AccidentalSymbol(a), '#') - Count(AccidentalSymbol(a), 'b') == SemitoneOffset(a)
  {
    assert "#"[1..] == [] && "b"[1..] == [] && "n"[1..] == [];
    assert "##"[1..] == "#" && "bb"[1..] == "b";
  }

  /** Different accidentals shift the pitch by different amounts. */
  lemma OffsetInjective(a: Accidental, b: Accidental)
    requires SemitoneOffset(a) == SemitoneOffset(b)
    ensures a == b
  {
  }

  // ===================================================================== pitch

  /** The seven note names. */
  datatype Step = C | D | E | F | G | A | B

  function StepChar(s: Step): char
  {
    match s
    case C => 'C' case D => 'D' case E => 'E' case F => 'F'
    case G => 'G' case A => 'A' case B => 'B'
  }

  /** The `base_notes` table: semitones above C. */
  function StepBase(s: Step): (r: nat)
    ensures r < 12
  {
    match s
    case C => 0 case D => 2 case E => 4 case F => 5
    case G => 7 case A => 9 case B => 11
  }

  /** A note-name character, upper-cased as `name.upper()` does; `None` is the
      `KeyError` an unknown name raises. */
  function StepFromChar(c: char): (r: Option<Step>)
    ensures r.Some? ==> StepChar(r.value) == UpperChar(c)
  {
    var u := UpperChar(c);
    if u == 'C' then Some(C) else if u == 'D' then Some(D) else if u == 'E' then Some(E)
    else if u == 'F' then Some(F) else if u == 'G' then Some(G) else if u == 'A' then Some(A)
    else if u == 'B' then Some(B) else None
  }

  /** Both spellings of a note name are read back as that name. */
  lemma StepRoundTrip(s: Step)
    ensures StepFromChar(StepChar(s)) == Some(s)
    ensures StepFromChar(LowerChar(StepChar(s))) == Some(s)
  {
  }

  datatype Pitch = Pitch(name: Step, octave: int, accidental: Option<Accidental>)

  /** The accidental's offset, 0 when there is none. */
  function PitchOffset(p: Pitch): (r: int)
    ensures -2 <= r <= 2
  {
    if p.accidental.Some? then SemitoneOffset(p.accidental.value) else 0
  }

  /** `Pitch.midi_number`: C4 is 60. Removing the accidental leaves a number whose
      pitch class is the note name and whose twelve-semitone block is `octave + 1`. */
  function MidiNumber(p: Pitch): (m: int)
    ensures (m - PitchOffset(p)) % 12 == StepBase(p.name)
    ensures (m - PitchOffset(p)) / 12 == p.octave + 1
  {
    (p.octave + 1) * 12 + StepBase(p.name) + PitchOffset(p)
  }

  /** The values the source's tests pin down. */
  lemma MidiSamples()
    ensures MidiNumber(Pitch(C, 4, None)) == 60
    ensures MidiNumber(Pitch(D, 4, None)) == 62
    ensures MidiNumber(Pitch(E, 4, None)) == 64
    ensures MidiNumber(Pitch(F, 4, None)) == 65
    ensures MidiNumber(Pitch(A, 4, None)) == 69
    ensures MidiNumber(Pitch(C, 4, Some(Sharp))) == 61
  {
  }

  /** One octave up is exactly twelve semitones up. */
  lemma MidiOctaveShift(p: Pitch)
    ensures MidiNumber(p.(octave := p.octave + 1)) == MidiNumber(p) + 12
  {
  }

  /** `Pitch.enharmonic_equal`. */
  predicate EnharmonicEqual(p: Pitch, q: Pitch) {
    MidiNumber(p) == MidiNumber(q)
  }

  /** Enharmonic equality is an equivalence that identifies differently spelled
      pitches, also across an octave boundary. */
  lemma EnharmonicEquivalence(p: Pitch, q: Pitch, r: Pitch)
    ensures EnharmonicEqual(p, p)
    ensures EnharmonicEqual(p, q) ==> EnharmonicEqual(q, p)
    ensures EnharmonicEqual(p, q) && EnharmonicEqual(q, r) ==> EnharmonicEqual(p, r)
    ensures EnharmonicEqual(Pitch(C, 4, Some(Sharp)), Pitch(D, 4, Some(Flat)))
    ensures EnharmonicEqual(Pitch(B, 3, Some(Sharp)), Pitch(C, 4, None))
    ensures !EnharmonicEqual(Pitch(C, 4, None), Pitch(C, 5, None))
  {
  }

  /** `Pitch.__str__`: name, accidental symbol, octave. */
  function PitchToString(p: Pitch): (r: string)
    ensures |r| >= 2 && r[0] == StepChar(p.name)
  {
    [StepChar(p.name)]
    + (if p.accidental.Some? then AccidentalSymbol(p.accidental.value) else "")
    + IntToString(p.octave)
  }

  predicate IsAccidentalChar(c: char) { c == '#' || c == 'b' || c == 'n' }

  /** The length of the run of accidental characters that starts `s`. */
  function AccidentalRun(s: string): (n: nat)
    ensures n <= |s|
    ensures forall i :: 0 <= i < n ==> IsAccidentalChar(s[i])
    ensures n < |s| ==> !IsAccidentalChar(s[n])
  {
    if s != [] && IsAccidentalChar(s[0]) then 1 + AccidentalRun(s[1..]) else 0
  }

  /** Reads the text `PitchToString` writes: a note name, an optional accidental
      symbol and an integer octave. */
  function ParsePitch(s: string): Option<Pitch>
  {
    if s == [] then None
    else
      var name :- StepFromChar(s[0]);
      ParseAfterName(name, s[1..])
  }

  /** The accidental and octave that follow a note name. */
  function ParseAfterName(name: Step, t: string): Option<Pitch>
  {
    var n := AccidentalRun(t);
    var octave :- ParseInt(t[n..]);
    Some(Pitch(name, octave, if n == 0 then None else Some(AccidentalFromStr(t[..n]))))
  }

  lemma AccidentalRunSymbol(sym: string, rest: string)
    requires forall i :: 0 <= i < |sym| ==> IsAccidentalChar(sym[i])
    requires rest != [] && !IsAccidentalChar(rest[0])
    ensures AccidentalRun(sym + rest) == |sym|
  {
    if sym != [] {
      assert (sym + rest)[1..] == sym[1..] + rest;
      AccidentalRunSymbol(sym[1..], rest);
    } else {
      assert sym + rest == rest;
    }
  }

  lemma AfterNameRoundTrip(name: Step, acc: Option<Accidental>, octave: int)
    ensures var sym := if acc.Some? then AccidentalSymbol(acc.value) else "";
      ParseAfterName(name, sym + IntToString(octave)) == Some(Pitch(name, octave, acc))
  {
    var sym := if acc.Some? then AccidentalSymbol(acc.value) else "";
    var oct := IntToString(octave);
    var t := sym + oct;
    assert oct[0] == '-' || IsDigit(oct[0]);
    AccidentalRunSymbol(sym, oct);
    assert t[|sym|..] == oct;
    ParseIntToString(octave);
    if acc.Some? {
      assert t[..|sym|] == sym;
      AccidentalRoundTrip(acc.value);
    }
  }

  /** Printing a pitch and reading it back gives the same pitch. */
  lemma PitchRoundTrip(p: Pitch)
    ensures ParsePitch(PitchToString(p)) == Some(p)
  {
    var sym := if p.accidental.Some? then AccidentalSymbol(p.accidental.value) else "";
    var s := PitchToString(p);
    assert s[1..] == sym + IntToString(p.octave);
    StepRoundTrip(p.name);
    AfterNameRoundTrip(p.name, p.accidental, p.octave);
  }

  // ================================================================== duration

  datatype Duration = Duration(base: Fraction, dots: nat)

  /** 2 to the power `-n`. */
  function Half(n: nat): (r: real)
    ensures 0.0 < r <= 1.0
  {
    if n == 0 then 1.0 else Half(n - 1) / 2.0
  }

  lemma HalfTable()
    ensures Half(0) == 1.0 && Half(1) == 0.5 && Half(2) == 0.25 && Half(3) == 0.125
    ensures Half(4) == 0.0625 && Half(5) == 0.03125 && Half(6) == 0.015625
  {
  }

  const DurationNames: seq<string> := ["w", "h", "q", "e", "s", "t", "x"]

  /** The `from_name` table; `None` for a name it does not hold. */
  function NameValue(name: string): (r: Option<Fraction>)
    ensures r.Some? <==> name in DurationNames
    ensures forall k :: 0 <= k < |DurationNames| && DurationNames[k] == name ==> r.Some? && Value(r.value) == Half(k)
  {
    HalfTable();
    if name == "w" then Some(Unit(1))
    else if name == "h" then Some(Unit(2))
    else if name == "q" then Some(Unit(4))
    else if name == "e" then Some(Unit(8))
    else if name == "s" then Some(Unit(16))
    else if name == "t" then Some(Unit(32))
    else if name == "x" then Some(Unit(64))
    else None
  }

  /** The `__str__` table: the name of a base value, if it has one. */
  function ValueName(f: Fraction): Option<string>
  {
    if f == Frac(1, 1) then Some("w")
    else if f == Frac(1, 2) then Some("h")
    else if f == Frac(1, 4) then Some("q")
    else if f == Frac(1, 8) then Some("e")
    else if f == Frac(1, 16) then Some("s")
    else if f == Frac(1, 32) then Some("t")
    else if f == Frac(1, 64) then Some("x")
    else None
  }

  /** The two tables are inverse to each other. */
  lemma NameTablesInverse(name: string, f: Fraction)
    ensures NameValue(name) == Some(f) <==> ValueName(f) == Some(name)
  {
  }

  /** `Duration.from_name`: the error case is the `ValueError` for an unknown name. */
  function DurationFromName(name: string, dots: nat): (r: Result<Duration, string>)
    ensures r.Success? <==> name in DurationNames
    ensures r.Success? ==> r.value.dots == dots && NameValue(name) == Some(r.value.base)
  {
    match NameValue(name)
    case Some(v) => Success(Duration(v, dots))
    case None => Failure("Unknown duration name: " + name)
  }

  /** The loop of `total_value`: each of the `n` dots halves the previous addition. */
  function AddDots(value: real, dot: real, n: nat): real
    decreases n
  {
    if n == 0 then value else AddDots(value + dot / 2.0, dot / 2.0, n - 1)
  }

  lemma {:induction false} AddDotsClosed(value: real, dot: real, n: nat)
    ensures AddDots(value, dot, n) == value + dot * (1.0 - Half(n))
    decreases n
  {
    if n > 0 {
      AddDotsClosed(value + dot / 2.0, dot / 2.0, n - 1);
      assert Half(n) == Half(n - 1) / 2.0;
      assert dot / 2.0 * (1.0 - Half(n - 1)) == dot / 2.0 - dot * Half(n);
    }
  }

  /** `Duration.total_value`, in closed form: base × (2 − 2^−dots). */
  function TotalValue(d: Duration): (v: real)
    ensures v == Value(d.base) * (2.0 - Half(d.dots))
  {
    AddDotsClosed(Value(d.base), Value(d.base), d.dots);
    AddDots(Value(d.base), Value(d.base), d.dots)
  }

  lemma MulPositive(x: real, y: real)
    requires x > 0.0 && y > 0.0
    ensures x * y > 0.0
  {
  }

  /** Dots lengthen a positive value, but never to twice its base. */
  lemma TotalValueBounds(d: Duration)
    requires Value(d.base) > 0.0
    ensures Value(d.base) <= TotalValue(d) < 2.0 * Value(d.base)
    ensures d.dots == 0 ==> TotalValue(d) == Value(d.base)
  {
    var b := Value(d.base);
    var h := Half(d.dots);
    assert TotalValue(d) == 2.0 * b - b * h;
    MulPositive(b, h);
    if h < 1.0 {
      MulPositive(b, 1.0 - h);
      assert b * (1.0 - h) == b - b * h;
    }
  }

  /** A dotted quarter lasts three eighths; a double-dotted half, seven eighths. */
  lemma DottedSamples()
    ensures TotalValue(Duration(Frac(1, 4), 1)) == 3.0 / 8.0
    ensures TotalValue(Duration(Frac(1, 2), 2)) == 7.0 / 8.0
  {
    assert Half(1) == 0.5;
    assert Half(2) == 0.25;
  }

  /** `Duration.__str__`: the table name, or `num/den`, followed by one `.` per dot. */
  function DurationToString(d: Duration): (r: string)
    ensures Count(r, '.') >= d.dots
  {
    var name := match ValueName(d.base)
      case Some(n) => n
      case None => IntToString(d.base.num) + "/" + IntToString(d.base.den);
    CountConcat(name, Repeat('.', d.dots), '.');
    CountRepeat('.', d.dots);
    name + Repeat('.', d.dots)
  }

  /** Printing a duration made from a name gives back the name and its dots. */
  lemma DurationNameRoundTrip(name: string, dots: nat)
    requires name in DurationNames
    ensures DurationToString(DurationFromName(name, dots).value) == name + Repeat('.', dots)
  {
    NameTablesInverse(name, DurationFromName(name, dots).value.base);
  }

  /** A base value outside the table is printed as an explicit fraction. */
  lemma DurationFractionFallback(d: Duration)
    requires ValueName(d.base).None?
    ensures '/' in DurationToString(d)
  {
    var n := IntToString(d.base.num) + "/" + IntToString(d.base.den);
    assert n[|IntToString(d.base.num)|] == '/';
    assert DurationToString(d)[|IntToString(d.base.num)|] == '/';
  }

  // =========================================================== tuplets, meter

  /** `Tuplet.ratio`, `Fraction(normal, actual)`: `None` is the `ZeroDivisionError`. */
  function Ratio(actual: int, normal: int): (r: Option<real>)
    ensures r.Some? <==> actual != 0
    ensures r.Some? ==> r.value * actual as real == normal as real
  {
    if actual == 0 then None else Some(normal as real / actual as real)
  }

  /** The ratio inside a tuplet, `ratio * Fraction(normal, actual)`; `None` is the
      `ZeroDivisionError` of a zero `actual` count. */
  function TupletScale(actual: int, normal: int, ratio: real): (r: Option<real>)
    ensures r.Some? <==> actual != 0
    ensures r.Some? ==> r.value * actual as real == normal as real * ratio
  {
    match Ratio(actual, normal)
    case None => None
    case Some(q) => Some(q * ratio)
  }

  datatype TimeSignature = TimeSignature(numerator: int, denominator: int)

  /** `TimeSignature.beats_per_measure`: the measure length in whole notes. */
  function BeatsPerMeasure(ts: TimeSignature): (r: Option<real>)
    ensures r.Some? <==> ts.denominator != 0
    ensures r.Some? ==> r.value * ts.denominator as real == ts.numerator as real
  {
    if ts.denominator == 0 then None
    else Some(ts.numerator as real / ts.denominator as real)
  }

  lemma MeterSamples()
    ensures BeatsPerMeasure(TimeSignature(4, 4)) == Some(1.0)
    ensures BeatsPerMeasure(TimeSignature(3, 4)) == Some(0.75)
    ensures BeatsPerMeasure(TimeSignature(6, 8)) == Some(0.75)
    ensures Ratio(3, 2) == Some(2.0 / 3.0)
  {
  }

  // ================================================================== dynamics

  /** The eleven markings Clef knows. */
  const KnownDynamics: set<string> := {"ppp", "pp", "p", "mp", "mf", "f", "ff", "fff", "fp", "sfz", "sf"}

  /** The markings from softest to loudest. */
  const DynamicLadder: seq<string> := ["ppp", "pp", "p", "mp", "mf", "f", "ff", "fff"]

  /** `Dynamic.velocity`: a MIDI velocity, 80 for an unknown marking. */
  function Velocity(marking: string): (v: int)
    ensures 16 <= v <= 127
    ensures marking !in KnownDynamics ==> v == 80
  {
    if marking == "ppp" then 16
    else if marking == "pp" then 33
    else if marking == "p" then 49
    else if marking == "mp" then 64
    else if marking == "mf" then 80
    else if marking == "f" then 96
    else if marking == "ff" then 112
    else if marking == "fff" then 127
    else if marking == "fp" then 96
    else if marking == "sfz" then 127
    else if marking == "sf" then 112
    else 80
  }

  /** Louder markings on the ladder get strictly higher velocities, from 16 to 127. */
  lemma VelocityMonotone(i: int, j: int)
    requires 0 <= i < j < |DynamicLadder|
    ensures Velocity(DynamicLadder[i]) < Velocity(DynamicLadder[j])
    ensures Velocity(DynamicLadder[0]) == 16 && Velocity(DynamicLadder[7]) == 127
  {
  }

  // ============================================================ marking enums

  datatype HairpinType = Crescendo | Decrescendo | Diminuendo

  /** The key `HairpinType.from_str` maps to each kind. */
  function HairpinKey(t: HairpinType): string
  {
    match t
    case Crescendo => "cresc"
    case Decrescendo => "decresc"
    case Diminuendo => "dim"
  }

  /** `HairpinType.from_str`, case-insensitive; `None` is the `KeyError`. */
  function HairpinFromStr(s: string): (r: Option<HairpinType>)
    ensures r.Some? <==> Lower(s) in {"cresc", "decresc", "dim"}
    ensures r.Some? ==> HairpinKey(r.value) == Lower(s)
  {
    var l := Lower(s);
    if l == "cresc" then Some(Crescendo)
    else if l == "decresc" then Some(Decrescendo)
    else if l == "dim" then Some(Diminuendo)
    else None
  }

  /** Every hairpin kind is read back from its key. */
  lemma HairpinRoundTrip(t: HairpinType)
    ensures HairpinFromStr(HairpinKey(t)) == Some(t)
  {
    var k := HairpinKey(t);
    assert Lower(k) == k;
  }

  /** `HairpinType.name.lower()`, the marking the compiler records. */
  function HairpinName(t: HairpinType): string
  {
    match t
    case Crescendo => "crescendo"
    case Decrescendo => "decrescendo"
    case Diminuendo => "diminuendo"
  }

  datatype PedalType = Down | Up | Change

  /** The key `PedalType.from_str` maps to each kind. */
  function PedalKey(t: PedalType): string
  {
    match t
    case Down => "ped"
    case Up => "ped_up"
    case Change => "ped_change"
  }

  /** `PedalType.from_str`, case-insensitive; `None` is the `KeyError`. */
  function PedalFromStr(s: string): (r: Option<PedalType>)
    ensures r.Some? <==> Lower(s) in {"ped", "ped_up", "ped_change"}
    ensures r.Some? ==> PedalKey(r.value) == Lower(s)
  {
    var l := Lower(s);
    if l == "ped" then Some(Down)
    else if l == "ped_up" then Some(Up)
    else if l == "ped_change" then Some(Change)
    else None
  }

  /** Every pedal kind is read back from its key. */
  lemma PedalRoundTrip(t: PedalType)
    ensures PedalFromStr(PedalKey(t)) == Some(t)
  {
    var k := PedalKey(t);
    assert Lower(k) == k;
  }

  datatype ArticulationType = Staccato | Staccatissimo | Legato | Accent | Tenuto | Marcato | Fermata

  /** `ArticulationType.name.lower()`: the flag name the compiler records. */
  function ArticulationName(t: ArticulationType): string
  {
    match t
    case Staccato => "staccato"
    case Staccatissimo => "staccatissimo"
    case Legato => "legato"
    case Accent => "accent"
    case Tenuto => "tenuto"
    case Marcato => "marcato"
    case Fermata => "fermata"
  }

  /** `ArticulationType.from_str`, case-insensitive; `None` is the `KeyError`. */
  function ArticulationFromStr(s: string): (r: Option<ArticulationType>)
    ensures r.Some? ==> ArticulationName(r.value) == Lower(s)
  {
    var l := Lower(s);
    if l == "staccato" then Some(Staccato)
    else if l == "staccatissimo" then Some(Staccatissimo)
    else if l == "legato" then Some(Legato)
    else if l == "accent" then Some(Accent)
    else if l == "tenuto" then Some(Tenuto)
    else if l == "marcato" then Some(Marcato)
    else if l == "fermata" then Some(Fermata)
    else None
  }

  /** Every articulation is read back from its own name. */
  lemma ArticulationRoundTrip(t: ArticulationType)
    ensures ArticulationFromStr(ArticulationName(t)) == Some(t)
  {
    var n := ArticulationName(t);
    assert Lower(n) == n;
  }

  datatype OrnamentType = Mordent | Turn | InvertedTurn | Shake | TrillType

  /** The key `OrnamentType.from_str` maps to each kind. */
  function OrnamentKey(t: OrnamentType): string
  {
    match t
    case Mordent => "mordent"
    case Turn => "turn"
    case InvertedTurn => "inverted_turn"
    case Shake => "shake"
    case TrillType => "trill"
  }

  /** `OrnamentType.from_str`, case-insensitive; `None` is the `KeyError`. */
  function OrnamentFromStr(s: string): (r: Option<OrnamentType>)
    ensures r.Some? <==> Lower(s) in {"mordent", "turn", "inverted_turn", "shake", "trill"}
    ensures r.Some? ==> OrnamentKey(r.value) == Lower(s)
  {
    var l := Lower(s);
    if l == "mordent" then Some(Mordent)
    else if l == "turn" then Some(Turn)
    else if l == "inverted_turn" then Some(InvertedTurn)
    else if l == "shake" then Some(Shake)
    else if l == "trill" then Some(TrillType)
    else None
  }

  /** Every ornament kind is read back from its key. */
  lemma OrnamentRoundTrip(t: OrnamentType)
    ensures OrnamentFromStr(OrnamentKey(t)) == Some(t)
  {
    var k := OrnamentKey(t);
    assert Lower(k) == k;
  }

  // ====================================================================== tree

  /** A plain ornament, or a `Trill` node with its optional auxiliary pitch. */
  datatype Ornament =
    | Ornament(kind: OrnamentType)
    | Trill(kind: OrnamentType, auxiliary: Option<Pitch>)

  datatype GraceNote = GraceNote(pitch: Pitch, slashed: bool)

  datatype Note = Note(pitch: Pitch, duration: Duration, articulations: seq<ArticulationType>,
                       ornaments: seq<Ornament>, tied: bool, graceNotes: seq<GraceNote>)

  datatype Chord = Chord(pitches: seq<Pitch>, duration: Duration, articulations: seq<ArticulationType>,
                         ornaments: seq<Ornament>, tied: bool, graceNotes: seq<GraceNote>)

  datatype TempoMark = TempoMark(bpm: int, beatUnit: Duration)

  datatype KeySignature = KeySignature(root: string, mode: string, accidental: Option<Accidental>)

  /** Everything that can stand in the contents of a staff, voice, measure, tuplet
      or slur. `Marked(n, item)` is the `("voice", n, item)` triple a measure holds
      for an item of an in-measure voice; `Other` is any value no stage interprets. */
  datatype Item =
    | NoteItem(note: Note)
    | ChordItem(chord: Chord)
    | RestItem(duration: Duration)
    | TupletItem(actual: int, normal: int, contents: seq<Item>)
    | SlurItem(contents: seq<Item>)
    | DynamicItem(marking: string)
    | HairpinItem(hairpin: HairpinType, length: real)
    | PedalItem(pedal: PedalType)
    | TempoItem(tempo: TempoMark)
    | TimeSigItem(sig: TimeSignature)
    | KeySigItem(key: KeySignature)
    | InstrumentItem(instrument: string)
    | MeasureItem(contents: seq<Item>, measureNo: Option<int>)
    | VoiceItem(number: int, contents: seq<Item>)
    | Marked(voice: int, inner: Item)
    | Other

  datatype Staff = Staff(name: string, contents: seq<Item>, instrument: Option<string>)

  datatype Score = Score(staves: seq<Staff>, tempo: Option<TempoMark>,
                         timeSignature: Option<TimeSignature>, keySignature: Option<KeySignature>)

  /** Python truthiness of an optional measure number: `None` and `0` are false. */
  function NumberOr(number: Option<int>, fallback: int): int
  {
    if number.Some? && number.value != 0 then number.value else fallback
  }
}

=== FILE: omr.dfy ===
/** The records the sheet-music recogniser fills in, and its pure helpers that turn
    a recogniser's values into Clef spellings: duration letters with dots, pitch
    names with `b` for flats, voice numbers and articulation names. */
module Omr {
  import opened Wrappers
  import opened Text
  import Nodes

  datatype RecognizedNote = RecognizedNote(pitch: string, duration: string, dots: int, tied: bool,
                                           articulations: seq<string>, voice: int, staff: int)

  datatype RecognizedRest = RecognizedRest(duration: string, dots: int, voice: int, staff: int)

  datatype RecognizedChord = RecognizedChord(pitches: seq<string>, duration: string, dots: int, tied: bool,
                                             articulations: seq<string>, voice: int, staff: int)

  /** One entry of a measure's untyped `contents` list. Anything that is not a note,
      rest or chord has no `voice` attribute and is written as nothing. */
  datatype Content =
    | NoteContent(note: RecognizedNote)
    | RestContent(rest: RecognizedRest)
    | ChordContent(chord: RecognizedChord)
    | OtherContent

  /** `hasattr(item, 'voice')`. */
  predicate HasVoice(c: Content) {
    !c.OtherContent?
  }

  function VoiceOf(c: Content): int
    requires HasVoice(c)
  {
    if c.NoteContent? then c.note.voice
    else if c.RestContent? then c.rest.voice
    else c.chord.voice
  }

  datatype RecognizedMeasure = RecognizedMeasure(number: int, contents: seq<Content>,
                                                 timeSignature: Option<(int, int)>, keySignature: Option<string>,
                                                 tempo: Option<int>, dynamics: seq<string>)

  datatype RecognizedStaff = RecognizedStaff(name: string, instrument: string,
                                             measures: seq<RecognizedMeasure>, clef: string)

  datatype RecognizedScore = RecognizedScore(title: Option<string>, composer: Option<string>, tempo: Option<int>,
                                             timeSignature: Option<(int, int)>, keySignature: Option<string>,
                                             staves: seq<RecognizedStaff>)

  // ================================================================ durations

  /** The recogniser's duration type names, and the Clef letter each one maps to. */
  const DurationTypes: seq<string> := ["whole", "half", "quarter", "eighth", "16th", "32nd", "64th", "breve"]
  const DurationLetters: seq<char> := ['w', 'h', 'q', 'e', 's', 't', 'x', 'd']

  /** `duration_map.get(duration_type, "q")`. */
  function DurationLetter(durationType: string): (c: char)
    ensures c in DurationLetters
    ensures forall k :: 0 <= k < |DurationTypes| && DurationTypes[k] == durationType ==> c == DurationLetters[k]
    ensures durationType !in DurationTypes ==> c == 'q'
  {
    if durationType == "whole" then 'w'
    else if durationType == "half" then 'h'
    else if durationType == "quarter" then 'q'
    else if durationType == "eighth" then 'e'
    else if durationType == "16th" then 's'
    else if durationType == "32nd" then 't'
    else if durationType == "64th" then 'x'
    else if durationType == "breve" then 'd'
    else 'q'
  }

  /** `_duration_to_clef`: the letter followed by one `.` per dot. A negative count
      repeats `.` no times, as `"." * dots` does. */
  function DurationToClef(durationType: string, dots: int): (r: string)
    ensures |r| >= 1 && r[0] == DurationLetter(durationType)
    ensures Count(r, '.') == if dots > 0 then dots else 0
  {
    var n: nat := if dots > 0 then dots else 0;
    CountRepeat('.', n);
    CountConcat([DurationLetter(durationType)], Repeat('.', n), '.');
    [DurationLetter(durationType)] + Repeat('.', n)
  }

  /** For every type but `breve`, the parser's duration table reads the letter back
      and prints exactly what was written: the dots survive the trip. */
  lemma DurationToClefReadable(durationType: string, dots: nat)
    requires durationType != "breve"
    ensures var r := DurationToClef(durationType, dots);
      && Nodes.DurationFromName(r[..1], dots).Success?
      && Nodes.DurationToString(Nodes.DurationFromName(r[..1], dots).value) == r
  {
    var r := DurationToClef(durationType, dots);
    var l := [DurationLetter(durationType)];
    assert r == l + Repeat('.', dots) && r[..1] == l;
    assert l in Nodes.DurationNames;
    Nodes.DurationNameRoundTrip(l, dots);
  }

  /** `breve` becomes `d`, a letter the parser's duration table does not hold. */
  lemma BreveUnreadable(dots: int)
    ensures DurationToClef("breve", dots)[..1] == "d"
    ensures !(DurationToClef("breve", dots)[..1] in Nodes.DurationNames)
  {
  }

  /** A duration type the table does not know is written as a quarter. */
  lemma UnknownTypeIsQuarter(durationType: string, dots: int)
    requires durationType !in DurationTypes
    ensures DurationToClef(durationType, dots) == DurationToClef("quarter", dots)
  {
  }

  /** What a recogniser's `duration.dots` attribute can hold. */
  datatype DotsAttr =
    | DotsList(length: nat)   // a list or tuple: one entry per dot
    | DotsInt(count: int)
    | DotsOther               // any other value
    | DotsMissing             // reading the attribute raised

  /** `_get_dots`. */
  function GetDots(d: DotsAttr): (r: int)
    ensures d.DotsList? ==> r == d.length
    ensures d.DotsInt? ==> r == d.count
    ensures d.DotsOther? || d.DotsMissing? ==> r == 0
  {
    match d
    case DotsList(n) => n
    case DotsInt(n) => n
    case _ => 0
  }

  /** The dots a recogniser reports are spelt out one `.` each; nothing but a
      positive count shows up in the written duration. */
  lemma DotsSpelt(durationType: string, d: DotsAttr)
    ensures Count(DurationToClef(durationType, GetDots(d)), '.') ==
      if d.DotsList? then d.length
      else if d.DotsInt? && d.count > 0 then d.count
      else 0
  {
  }

  // ================================================================== pitches

  /** `_pitch_to_clef`: the recogniser's name with every `-` (its flat sign) turned
      into `b`, followed by the octave; an octave of `None` prints as `None`. */
  function PitchToClef(name: string, octave: Option<int>): (r: string)
    ensures |r| > |name|
    ensures '-' !in r[..|name|]
    ensures forall i :: 0 <= i < |name| && name[i] != '-' ==> r[i] == name[i]
    ensures forall i :: 0 <= i < |name| && name[i] == '-' ==> r[i] == 'b'
  {
    ReplaceChar(name, '-', 'b') + (if octave.Some? then IntToString(octave.value) else "None")
  }

  /** How the recogniser spells an accidental after the note letter (it leaves a
      natural unspelt). */
  function RecognizerSpelling(a: Option<Nodes.Accidental>): string
  {
    if a == Some(Nodes.Sharp) then "#"
    else if a == Some(Nodes.DoubleSharp) then "##"
    else if a == Some(Nodes.Flat) then "-"
    else if a == Some(Nodes.DoubleFlat) then "--"
    else ""
  }

  /** The Clef pitch reader gets back the recogniser's note: letter, accidental and
      octave, for every spelling except a natural, which the recogniser omits. */
  lemma PitchToClefReadable(step: Nodes.Step, a: Option<Nodes.Accidental>, octave: int)
    requires a != Some(Nodes.Natural)
    ensures Nodes.ParsePitch(PitchToClef([Nodes.StepChar(step)] + RecognizerSpelling(a), Some(octave)))
         == Some(Nodes.Pitch(step, octave, a))
  {
    var sym := if a.Some? then Nodes.AccidentalSymbol(a.value) else "";
    PitchToClefSpelt(step, a, octave);
    ParsePitchOfStep(step, sym + IntToString(octave));
    Nodes.AfterNameRoundTrip(step, a, octave);
  }

  lemma PitchToClefSpelt(step: Nodes.Step, a: Option<Nodes.Accidental>, octave: int)
    requires a != Some(Nodes.Natural)
    ensures PitchToClef([Nodes.StepChar(step)] + RecognizerSpelling(a), Some(octave))
         == [Nodes.StepChar(step)] + ((if a.Some? then Nodes.AccidentalSymbol(a.value) else "") + IntToString(octave))
  {
    SpellingReplaced(step, a);
  }

  lemma ParsePitchOfStep(step: Nodes.Step, rest: string)
    ensures Nodes.ParsePitch([Nodes.StepChar(step)] + rest) == Nodes.ParseAfterName(step, rest)
  {
    var s := [Nodes.StepChar(step)] + rest;
    assert s[0] == Nodes.StepChar(step) && s[1..] == rest;
    Nodes.StepRoundTrip(step);
  }

  /** Turning `-` into `b` makes the recogniser's spelling the Clef symbol. */
  lemma SpellingReplaced(step: Nodes.Step, a: Option<Nodes.Accidental>)
    requires a != Some(Nodes.Natural)
    ensures ReplaceChar([Nodes.StepChar(step)] + RecognizerSpelling(a), '-', 'b')
         == [Nodes.StepChar(step)] + (if a.Some? then Nodes.AccidentalSymbol(a.value) else "")
  {
  }

  // =================================================================== voices

  /** What `element.voice` can hold. */
  datatype VoiceAttr =
    | NoVoiceAttr           // the element has no `voice` attribute
    | NoneVoice
    | IntVoice(value: int)
    | StrVoice(text: string)
    | OtherVoice            // a value `int()` rejects with a `TypeError`

  /** `_get_voice_number`: the voice when it is truthy and converts with `int()`,
      else voice 1. */
  function GetVoiceNumber(v: VoiceAttr): (r: int)
    ensures v.IntVoice? && v.value != 0 ==> r == v.value
    ensures v.StrVoice? && ParseInt(v.text).Some? ==> r == ParseInt(v.text).value
    ensures r != 1 ==> v.IntVoice? || (v.StrVoice? && ParseInt(v.text).Some?)
  {
    match v
    case IntVoice(i) => if i != 0 then i else 1
    case StrVoice(s) => if s != "" && ParseInt(s).Some? then ParseInt(s).value else 1
    case _ => 1
  }

  /** A voice given as its decimal text is read back exactly, `"0"` included, while
      the integer 0 is falsy and gives voice 1. */
  lemma VoiceNumberText(i: int)
    ensures GetVoiceNumber(StrVoice(IntToString(i))) == i
    ensures GetVoiceNumber(IntVoice(0)) == 1
  {
    ParseIntToString(i);
  }

  // ============================================================ articulations

  const KnownArticulations: set<string> := {"staccato", "accent", "tenuto", "marcato"}

  /** The Clef name for one articulation class name, tested in the order
      staccato, accent, tenuto, marcato. */
  function ArticulationWord(className: string): (r: Option<string>)
    ensures r.Some? ==> r.value in KnownArticulations
    ensures Contains(Lower(className), "staccato") ==> r == Some("staccato")
    ensures (!Contains(Lower(className), "staccato") && Contains(Lower(className), "accent")) ==>
      r == Some("accent")
    ensures (!Contains(Lower(className), "staccato") && !Contains(Lower(className), "accent")
             && Contains(Lower(className), "tenuto")) ==> r == Some("tenuto")
    ensures (!Contains(Lower(className), "staccato") && !Contains(Lower(className), "accent")
             && !Contains(Lower(className), "tenuto") && Contains(Lower(className), "marcato")) ==>
      r == Some("marcato")
    ensures r.None? <==>
      (!Contains(Lower(className), "staccato") && !Contains(Lower(className), "accent")
       && !Contains(Lower(className), "tenuto") && !Contains(Lower(className), "marcato"))
  {
    var n := Lower(className);
    if Contains(n, "staccato") then Some("staccato")
    else if Contains(n, "accent") then Some("accent")
    else if Contains(n, "tenuto") then Some("tenuto")
    else if Contains(n, "marcato") then Some("marcato")
    else None
  }

  /** `_get_articulations` over the class names of an element's articulations (an
      element without the attribute has none). */
  function GetArticulations(classNames: seq<string>): (r: seq<string>)
    ensures |r| <= |classNames|
    ensures forall i :: 0 <= i < |r| ==> r[i] in KnownArticulations
  {
    if classNames == [] then []
    else
      var w := ArticulationWord(classNames[0]);
      (if w.Some? then [w.value] else []) + GetArticulations(classNames[1..])
  }

  /** One entry per recognised class name, in the order of the input. */
  lemma {:induction false} GetArticulationsConcat(a: seq<string>, b: seq<string>)
    ensures GetArticulations(a + b) == GetArticulations(a) + GetArticulations(b)
  {
    if a == [] {
      assert a + b == b;
    } else {
      var ab := a + b;
      assert ab[0] == a[0] && ab[1..] == a[1..] + b;
      var w := ArticulationWord(a[0]);
      var h := if w.Some? then [w.value] else [];
      assert GetArticulations(ab) == h + GetArticulations(a[1..] + b);
      assert GetArticulations(a) == h + GetArticulations(a[1..]);
      GetArticulationsConcat(a[1..], b);
      assert h + (GetArticulations(a[1..]) + GetArticulations(b)) == (h + GetArticulations(a[1..])) + GetArticulations(b);
    }
  }

  /** The four names are the parser's own spellings. */
  lemma KnownArticulationsParse()
    ensures forall w :: w in KnownArticulations ==> Nodes.ArticulationFromStr(w).Some?
  {
    Nodes.ArticulationRoundTrip(Nodes.Staccato);
    Nodes.ArticulationRoundTrip(Nodes.Accent);
    Nodes.ArticulationRoundTrip(Nodes.Tenuto);
    Nodes.ArticulationRoundTrip(Nodes.Marcato);
  }

  /** Every name produced is one the parser's articulation lookup accepts. */
  lemma ArticulationsParse(classNames: seq<string>, i: nat)
    requires i < |GetArticulations(classNames)|
    ensures Nodes.ArticulationFromStr(GetArticulations(classNames)[i]).Some?
  {
    KnownArticulationsParse();
  }
}

=== FILE: playback.dfy ===
/** The playback back end's conversion of event times from whole notes to
    seconds (`FluidSynthBackend._convert_to_seconds` with its inner helpers
    `get_tempo_at` and `time_to_seconds`), followed by the list of timed
    note-on, note-off and other entries the player walks through.

    Times are exact fractions in the source and reals here. A tempo change is
    the pair `(start, bpm)` of a tempo event; a whole note at `bpm` beats per
    minute lasts `240 / bpm` seconds, and a tempo of zero raises
    `ZeroDivisionError`, which is `None` here. */
module Playback {
  import opened Wrappers
  import opened Nodes
  import opened Events
  import Sorting

  type Change = (real, int)

  // ========================================================= tempo changes

  /** Python's ordering of `(time, bpm)` tuples: by time, then by tempo. */
  predicate ChangeLe(a: Change, b: Change) {
    a.0 < b.0 || (a.0 == b.0 && a.1 <= b.1)
  }

  lemma ChangeLeIsPreorder()
    ensures Sorting.TotalPreorder(ChangeLe)
  {
  }

  /** The `(start_time, bpm)` of every tempo event, in event order. */
  function TempoEventsOf(events: seq<Event>): (r: seq<Change>)
    ensures |r| <= |events|
  {
    if events == [] then []
    else
      var e := events[0];
      (if e.body.TempoBody? then [(e.start, e.body.bpm)] else []) + TempoEventsOf(events[1..])
  }

  /** `c` is the change some tempo event makes. */
  predicate IsChangeOf(c: Change, events: seq<Event>) {
    exists e :: e in events && e.body.TempoBody? && c == (e.start, e.body.bpm)
  }

  /** The collected changes are exactly those the tempo events make. */
  lemma {:induction false} TempoEventsOfSpec(events: seq<Event>)
    ensures forall c :: c in TempoEventsOf(events) ==> IsChangeOf(c, events)
    ensures forall e :: e in events && e.body.TempoBody? ==> (e.start, e.body.bpm) in TempoEventsOf(events)
  {
    if events != [] {
      TempoEventsOfSpec(events[1..]);
      var e := events[0];
      var h: seq<Change> := if e.body.TempoBody? then [(e.start, e.body.bpm)] else [];
      assert TempoEventsOf(events) == h + TempoEventsOf(events[1..]);
      forall c | c in TempoEventsOf(events) ensures IsChangeOf(c, events) {
        if c in h {
          assert e in events;
        } else {
          var x :| x in events[1..] && x.body.TempoBody? && c == (x.start, x.body.bpm);
          assert x in events;
        }
      }
      forall x | x in events && x.body.TempoBody? ensures (x.start, x.body.bpm) in TempoEventsOf(events) {
        if x != e {
          assert x in events[1..] by {
            var i :| 0 <= i < |events| && events[i] == x;
            assert events[1..][i - 1] == x;
          }
        }
      }
    }
  }

  /** `tempo_changes` after `tempo_changes.sort()`. */
  function TempoChanges(events: seq<Event>): (r: seq<Change>)
  {
    Sorting.Sort(TempoEventsOf(events), ChangeLe)
  }

  /** Change times never decrease along the list. */
  predicate TimesSorted(cs: seq<Change>) {
    forall i, j :: 0 <= i < j < |cs| ==> cs[i].0 <= cs[j].0
  }

  /** No change sets the tempo to zero. */
  predicate NonZero(cs: seq<Change>) {
    forall i :: 0 <= i < |cs| ==> cs[i].1 != 0
  }

  /** Every change sets a positive tempo. */
  predicate Positive(cs: seq<Change>) {
    forall i :: 0 <= i < |cs| ==> cs[i].1 > 0
  }

  /** The sorted changes are the tempo events' changes, ordered by time (ties
      by tempo), and any tempo the events never set is not among them. */
  lemma TempoChangesSorted(events: seq<Event>)
    ensures multiset(TempoChanges(events)) == multiset(TempoEventsOf(events))
    ensures Sorting.SortedBy(TempoChanges(events), ChangeLe)
    ensures TimesSorted(TempoChanges(events))
  {
    ChangeLeIsPreorder();
    Sorting.SortSorted(TempoEventsOf(events), ChangeLe);
  }

  /** Every tempo event with a positive tempo gives positive changes. */
  lemma TempoChangesPositive(events: seq<Event>)
    requires forall e :: e in events && e.body.TempoBody? ==> e.body.bpm > 0
    ensures Positive(TempoChanges(events))
  {
    var cs := TempoChanges(events);
    TempoEventsOfSpec(events);
    forall i | 0 <= i < |cs| ensures cs[i].1 > 0 {
      assert cs[i] in multiset(TempoEventsOf(events));
      assert IsChangeOf(cs[i], events);
    }
  }

  // ============================================================ get_tempo_at

  /** `get_tempo_at(time)` from tempo `current` on: the tempo of the last change
      at or before `time`, `current` if there is none. */
  function TempoFrom(cs: seq<Change>, current: int, time: real): int
    decreases |cs|
  {
    if cs == [] then current
    else if cs[0].0 <= time then TempoFrom(cs[1..], cs[0].1, time)
    else current
  }

  /** The tempo set by the last change in the list that is due at or before
      `time`, or `initial` when none is: the meaning `get_tempo_at` has on a
      time-sorted list, read from the back. */
  function LastTempo(cs: seq<Change>, initial: int, time: real): (r: int)
    ensures (forall i :: 0 <= i < |cs| ==> cs[i].0 > time) ==> r == initial
    ensures forall j :: 0 <= j < |cs| && cs[j].0 <= time && NoneDueAfter(cs, j, time) ==> r == cs[j].1
    decreases |cs|
  {
    if cs == [] then initial
    else if cs[|cs| - 1].0 <= time then cs[|cs| - 1].1
    else
      var r := LastTempo(cs[..|cs| - 1], initial, time);
      assert forall i :: 0 <= i < |cs| - 1 ==> cs[..|cs| - 1][i] == cs[i];
      r
  }

  /** No change after position `j` is due by `time`. */
  predicate NoneDueAfter(cs: seq<Change>, j: int, time: real) {
    forall i :: 0 <= i < |cs| && j < i ==> cs[i].0 > time
  }

  /** `get_tempo_at(time)`: on a time-sorted list, the tempo of the last change
      at or before `time`, or the initial tempo if there is none. */
  function TempoAt(cs: seq<Change>, initial: int, time: real): (r: int)
    ensures r == initial || exists i :: 0 <= i < |cs| && r == cs[i].1
    ensures TimesSorted(cs) ==> r == LastTempo(cs, initial, time)
  {
    TempoAtValue(cs, initial, time);
    TempoFrom(cs, initial, time)
  }

  lemma {:induction false} TempoAtValue(cs: seq<Change>, current: int, time: real)
    ensures TempoFrom(cs, current, time) == current
         || exists i :: 0 <= i < |cs| && TempoFrom(cs, current, time) == cs[i].1
    ensures TimesSorted(cs) ==> TempoFrom(cs, current, time) == LastTempo(cs, current, time)
    decreases |cs|
  {
    if cs != [] && cs[0].0 <= time {
      TempoAtValue(cs[1..], cs[0].1, time);
      if TempoFrom(cs[1..], cs[0].1, time) != cs[0].1 {
        var i :| 0 <= i < |cs[1..]| && TempoFrom(cs[1..], cs[0].1, time) == cs[1..][i].1;
        assert cs[i + 1] == cs[1..][i];
      }
      LastTempoFront(cs, current, time);
    } else if cs != [] && TimesSorted(cs) {
      assert forall i :: 0 <= i < |cs| ==> cs[i].0 > time by {
        forall i | 0 <= i < |cs| ensures cs[i].0 > time {
          assert cs[0].0 <= cs[i].0;
        }
      }
    }
  }

  /** When the first change is due, reading from the back from `current` or from
      that change's tempo gives the same answer. */
  lemma {:induction false} LastTempoFront(cs: seq<Change>, current: int, time: real)
    requires cs != [] && cs[0].0 <= time
    ensures LastTempo(cs, current, time) == LastTempo(cs[1..], cs[0].1, time)
    decreases |cs|
  {
    if |cs| > 1 && cs[|cs| - 1].0 > time {
      var front := cs[..|cs| - 1];
      LastTempoFront(front, current, time);
      assert front[1..] == cs[1..][..|cs[1..]| - 1];
    }
  }

  // ========================================================= time_to_seconds

  /** `Fraction(240, bpm)`: the seconds a whole note lasts. */
  function PerWhole(bpm: int): real
    requires bpm != 0
  {
    240.0 / bpm as real
  }

  /** The loop of `time_to_seconds(t)` from the state `(prev_time, prev_tempo)`,
      with `cs` the changes still to visit: each change before `t` closes a
      segment at the tempo in force, and the remainder up to `t` is counted at
      the last tempo. Every path divides by `prev_tempo`. */
  function SecondsFrom(cs: seq<Change>, prevTime: real, prevTempo: int, t: real): (r: Option<real>)
    ensures prevTempo == 0 ==> r.None?
    ensures prevTempo != 0 && NonZero(cs) ==> r.Some?
    decreases |cs|
  {
    if prevTempo == 0 then None
    else if cs == [] || cs[0].0 >= t then Some((t - prevTime) * PerWhole(prevTempo))
    else
      assert NonZero(cs) ==> NonZero(cs[1..]) && cs[0].1 != 0;
      match SecondsFrom(cs[1..], cs[0].0, cs[0].1, t)
      case None => None
      case Some(rest) => Some((cs[0].0 - prevTime) * PerWhole(prevTempo) + rest)
  }

  /** `time_to_seconds(t)`. */
  function TimeToSeconds(cs: seq<Change>, initial: int, t: real): Option<real>
  {
    SecondsFrom(cs, 0.0, initial, t)
  }

  /** Before the first change, and with no changes at all, the time is counted
      at the initial tempo throughout. */
  lemma SecondsBeforeChanges(cs: seq<Change>, initial: int, t: real)
    requires initial != 0
    requires forall i :: 0 <= i < |cs| ==> cs[i].0 >= t
    ensures TimeToSeconds(cs, initial, t) == Some(t * 240.0 / initial as real)
  {
    assert (t - 0.0) * PerWhole(initial) == t * 240.0 / initial as real;
  }

  /** Time zero is zero seconds whatever the changes, as long as none is
      placed before the start. */
  lemma SecondsAtZero(cs: seq<Change>, initial: int)
    requires initial != 0
    requires forall i :: 0 <= i < |cs| ==> cs[i].0 >= 0.0
    ensures TimeToSeconds(cs, initial, 0.0) == Some(0.0)
  {
    SecondsBeforeChanges(cs, initial, 0.0);
  }

  /** The value `SecondsFrom` has when no tempo in play is zero. */
  function Span(cs: seq<Change>, prevTime: real, prevTempo: int, t: real): real
    requires prevTempo != 0 && NonZero(cs)
    decreases |cs|
  {
    if cs == [] || cs[0].0 >= t then (t - prevTime) * PerWhole(prevTempo)
    else
      assert NonZero(cs[1..]);
      (cs[0].0 - prevTime) * PerWhole(prevTempo) + Span(cs[1..], cs[0].0, cs[0].1, t)
  }

  lemma {:induction false} SpanAgrees(cs: seq<Change>, prevTime: real, prevTempo: int, t: real)
    requires prevTempo != 0 && NonZero(cs)
    ensures SecondsFrom(cs, prevTime, prevTempo, t) == Some(Span(cs, prevTime, prevTempo, t))
    decreases |cs|
  {
    if cs != [] && cs[0].0 < t {
      assert NonZero(cs[1..]);
      SpanAgrees(cs[1..], cs[0].0, cs[0].1, t);
    }
  }

  lemma TailFacts(cs: seq<Change>)
    requires cs != [] && TimesSorted(cs) && NonZero(cs)
    ensures TimesSorted(cs[1..]) && NonZero(cs[1..]) && cs[0].1 != 0
    ensures NotBefore(cs[1..], cs[0].0)
  {
    assert forall i :: 0 <= i < |cs[1..]| ==> cs[1..][i] == cs[i + 1];
  }

  /** Changes at or after `t` have no effect on `t` itself: in particular a
      change placed exactly at `t` only applies from `t` on. */
  lemma {:induction false} SpanIgnoresLater(cs: seq<Change>, k: nat, prevTime: real, prevTempo: int, t: real)
    requires TimesSorted(cs) && NonZero(cs) && prevTempo != 0 && k <= |cs|
    requires forall i :: k <= i < |cs| ==> cs[i].0 >= t
    ensures NonZero(cs[..k])
    ensures Span(cs, prevTime, prevTempo, t) == Span(cs[..k], prevTime, prevTempo, t)
    decreases |cs|
  {
    assert NonZero(cs[..k]);
    if cs != [] && k > 0 && cs[0].0 < t {
      var p := cs[..k];
      assert p[0] == cs[0] && p[1..] == cs[1..][..k - 1];
      TailFacts(cs);
      assert forall i :: k - 1 <= i < |cs[1..]| ==> cs[1..][i] == cs[i + 1];
      SpanIgnoresLater(cs[1..], k - 1, cs[0].0, cs[0].1, t);
    } else if cs != [] && k == 0 {
      assert cs[0].0 >= t;
    }
  }

  /** `time_to_seconds(t)` only depends on the changes placed before `t`. */
  lemma SecondsIgnoreLater(cs: seq<Change>, k: nat, initial: int, t: real)
    requires TimesSorted(cs) && NonZero(cs) && initial != 0 && k <= |cs|
    requires forall i :: k <= i < |cs| ==> cs[i].0 >= t
    ensures TimeToSeconds(cs, initial, t) == TimeToSeconds(cs[..k], initial, t)
  {
    SpanIgnoresLater(cs, k, 0.0, initial, t);
    SpanAgrees(cs, 0.0, initial, t);
    SpanAgrees(cs[..k], 0.0, initial, t);
  }

  lemma ScaleLe(a: real, b: real, k: real)
    requires a <= b && k >= 0.0
    ensures a * k <= b * k
  {
  }

  lemma Split(a: real, b: real, c: real, k: real)
    ensures (a - c) * k == (b - c) * k + (a - b) * k
  {
  }

  lemma PositiveRate(bpm: int)
    requires bpm > 0
    ensures PerWhole(bpm) > 0.0
  {
  }

  /** From a point no later than `t`, with positive tempos and changes that
      start there or later, no segment counts negatively. */
  lemma {:induction false} SpanNonNegative(cs: seq<Change>, prevTime: real, prevTempo: int, t: real)
    requires TimesSorted(cs) && Positive(cs) && prevTempo > 0 && prevTime <= t
    requires NotBefore(cs, prevTime)
    ensures NonZero(cs) && Span(cs, prevTime, prevTempo, t) >= 0.0
    decreases |cs|
  {
    assert NonZero(cs);
    PositiveRate(prevTempo);
    if cs == [] || cs[0].0 >= t {
      SpanStop(cs, prevTime, prevTempo, t);
      ScaleLe(0.0, t - prevTime, PerWhole(prevTempo));
    } else {
      TailFacts(cs);
      assert Positive(cs[1..]);
      SpanNonNegative(cs[1..], cs[0].0, cs[0].1, t);
      NonNegativeStep(cs, prevTime, prevTempo, t);
    }
  }

  /** The recursive case of `SpanNonNegative`, from the tail's bound. */
  lemma NonNegativeStep(cs: seq<Change>, prevTime: real, prevTempo: int, t: real)
    requires cs != [] && NonZero(cs) && prevTempo > 0 && cs[0].0 < t && prevTime <= cs[0].0
    requires NonZero(cs[1..]) && Span(cs[1..], cs[0].0, cs[0].1, t) >= 0.0
    ensures Span(cs, prevTime, prevTempo, t) >= 0.0
  {
    PositiveRate(prevTempo);
    ScaleLe(0.0, cs[0].0 - prevTime, PerWhole(prevTempo));
    SpanUnfold(cs, prevTime, prevTempo, t);
  }

  /** With positive tempos a later time is never fewer seconds. */
  lemma {:induction false} SpanMonotone(cs: seq<Change>, prevTime: real, prevTempo: int, t1: real, t2: real)
    requires TimesSorted(cs) && Positive(cs) && prevTempo > 0 && t1 <= t2
    ensures NonZero(cs) && Span(cs, prevTime, prevTempo, t1) <= Span(cs, prevTime, prevTempo, t2)
    decreases |cs|
  {
    assert NonZero(cs);
    PositiveRate(prevTempo);
    var k := PerWhole(prevTempo);
    if cs == [] || cs[0].0 >= t2 {
      SpanStop(cs, prevTime, prevTempo, t1);
      SpanStop(cs, prevTime, prevTempo, t2);
      ScaleLe(t1 - prevTime, t2 - prevTime, k);
    } else {
      TailFacts(cs);
      assert Positive(cs[1..]);
      SpanUnfold(cs, prevTime, prevTempo, t2);
      if cs[0].0 >= t1 {
        SpanStop(cs, prevTime, prevTempo, t1);
        SpanNonNegative(cs[1..], cs[0].0, cs[0].1, t2);
        ScaleLe(t1 - prevTime, cs[0].0 - prevTime, k);
      } else {
        SpanUnfold(cs, prevTime, prevTempo, t1);
        SpanMonotone(cs[1..], cs[0].0, cs[0].1, t1, t2);
      }
    }
  }

  /** `time_to_seconds` never decreases, for positive tempos. */
  lemma TimeToSecondsMonotone(cs: seq<Change>, initial: int, t1: real, t2: real)
    requires TimesSorted(cs) && Positive(cs) && initial > 0 && t1 <= t2
    ensures TimeToSeconds(cs, initial, t1).Some? && TimeToSeconds(cs, initial, t2).Some?
    ensures TimeToSeconds(cs, initial, t1).value <= TimeToSeconds(cs, initial, t2).value
  {
    SpanMonotone(cs, 0.0, initial, t1, t2);
    SpanAgrees(cs, 0.0, initial, t1);
    SpanAgrees(cs, 0.0, initial, t2);
  }

  lemma {:induction false} TempoNonZero(cs: seq<Change>, current: int, time: real)
    requires NonZero(cs) && current != 0
    ensures TempoFrom(cs, current, time) != 0
    decreases |cs|
  {
    if cs != [] && cs[0].0 <= time {
      assert NonZero(cs[1..]);
      TempoNonZero(cs[1..], cs[0].1, time);
    }
  }

  /** Nothing is counted from a change up to the change itself. */
  /** No change is placed before `c`. */
  predicate NotBefore(cs: seq<Change>, c: real) {
    forall i :: 0 <= i < |cs| ==> c <= cs[i].0
  }

  /** No change is placed strictly between `t1` and `t2`. */
  predicate NoChangeWithin(cs: seq<Change>, t1: real, t2: real) {
    forall i :: 0 <= i < |cs| ==> !(t1 < cs[i].0 < t2)
  }

  lemma SpanFromItself(cs: seq<Change>, c: real, prevTempo: int)
    requires NonZero(cs) && prevTempo != 0
    requires NotBefore(cs, c)
    ensures Span(cs, c, prevTempo, c) == 0.0
  {
  }

  /** From `t1` to `t2` the span grows by the length at the tempo in force at `t1`. */
  predicate SegmentHolds(cs: seq<Change>, prevTime: real, prevTempo: int, t1: real, t2: real)
    requires prevTempo != 0 && NonZero(cs)
  {
    TempoFrom(cs, prevTempo, t1) != 0 &&
    Span(cs, prevTime, prevTempo, t2)
      == Span(cs, prevTime, prevTempo, t1) + (t2 - t1) * PerWhole(TempoFrom(cs, prevTempo, t1))
  }

  /** Between two times with no change strictly inside, the seconds grow by the
      length at the tempo `get_tempo_at` reports for the earlier time. */
  lemma {:induction false} SpanSegment(cs: seq<Change>, prevTime: real, prevTempo: int, t1: real, t2: real)
    requires TimesSorted(cs) && NonZero(cs) && prevTempo != 0 && t1 <= t2
    requires NoChangeWithin(cs, t1, t2)
    ensures SegmentHolds(cs, prevTime, prevTempo, t1, t2)
    decreases |cs|, 1
  {
    if cs == [] || cs[0].0 >= t2 {
      SegmentEnd(cs, prevTime, prevTempo, t1, t2);
    } else {
      SegmentRec(cs, prevTime, prevTempo, t1, t2);
    }
  }

  /** `SpanSegment` when the first change comes before `t2`: the tail's
      equation, then one step. */
  lemma {:induction false} SegmentRec(cs: seq<Change>, prevTime: real, prevTempo: int, t1: real, t2: real)
    requires TimesSorted(cs) && NonZero(cs) && prevTempo != 0 && t1 <= t2
    requires NoChangeWithin(cs, t1, t2)
    requires cs != [] && cs[0].0 < t2
    ensures SegmentHolds(cs, prevTime, prevTempo, t1, t2)
    decreases |cs|, 0
  {
    TailFacts(cs);
    TailInside(cs, t1, t2);
    SpanSegment(cs[1..], cs[0].0, cs[0].1, t1, t2);
    if cs[0].0 >= t1 {
      assert cs[0].0 == t1;
      SpanFromItself(cs[1..], t1, cs[0].1);
    }
    SegmentStep(cs, prevTime, prevTempo, t1, t2);
  }

  lemma TailInside(cs: seq<Change>, t1: real, t2: real)
    requires cs != [] && NoChangeWithin(cs, t1, t2)
    ensures NoChangeWithin(cs[1..], t1, t2)
  {
    assert forall i :: 0 <= i < |cs[1..]| ==> cs[1..][i] == cs[i + 1];
  }

  /** The recursive case of `SpanSegment`, from the tail's equation. */
  lemma SegmentStep(cs: seq<Change>, prevTime: real, prevTempo: int, t1: real, t2: real)
    requires cs != [] && NonZero(cs) && prevTempo != 0 && cs[0].0 < t2 && cs[0].0 <= t1
    requires NonZero(cs[1..]) && SegmentHolds(cs[1..], cs[0].0, cs[0].1, t1, t2)
    requires cs[0].0 == t1 ==> Span(cs[1..], cs[0].0, cs[0].1, t1) == 0.0
    ensures SegmentHolds(cs, prevTime, prevTempo, t1, t2)
  {
    assert TempoFrom(cs, prevTempo, t1) == TempoFrom(cs[1..], cs[0].1, t1);
    SpanUnfold(cs, prevTime, prevTempo, t2);
    if cs[0].0 < t1 {
      SpanUnfold(cs, prevTime, prevTempo, t1);
    } else {
      SpanStop(cs, prevTime, prevTempo, t1);
    }
  }

  /** One step of `Span` past a change placed before `t`. */
  lemma SpanUnfold(cs: seq<Change>, prevTime: real, prevTempo: int, t: real)
    requires cs != [] && NonZero(cs) && prevTempo != 0 && cs[0].0 < t
    ensures NonZero(cs[1..])
    ensures Span(cs, prevTime, prevTempo, t)
         == (cs[0].0 - prevTime) * PerWhole(prevTempo) + Span(cs[1..], cs[0].0, cs[0].1, t)
  {
    assert NonZero(cs[1..]);
  }

  /** `Span` when the next change is not before `t`. */
  lemma SpanStop(cs: seq<Change>, prevTime: real, prevTempo: int, t: real)
    requires NonZero(cs) && prevTempo != 0 && (cs == [] || cs[0].0 >= t)
    ensures Span(cs, prevTime, prevTempo, t) == (t - prevTime) * PerWhole(prevTempo)
  {
  }

  /** The case of `SpanSegment` where `t2` is reached before the next change. */
  lemma SegmentEnd(cs: seq<Change>, prevTime: real, prevTempo: int, t1: real, t2: real)
    requires TimesSorted(cs) && NonZero(cs) && prevTempo != 0 && t1 <= t2
    requires cs == [] || cs[0].0 >= t2
    ensures SegmentHolds(cs, prevTime, prevTempo, t1, t2)
  {
    TempoNonZero(cs, prevTempo, t1);
    var k := PerWhole(prevTempo);
    Split(t2, t1, prevTime, k);
    if cs != [] && cs[0].0 <= t1 {
      assert t1 == t2;
    }
  }

  /** Between two times with no change strictly inside, `time_to_seconds`
      grows by the length at the tempo `get_tempo_at` reports for the earlier
      time (`TempoFrom(cs, initial, t1)` is `get_tempo_at(t1)`; the loop starts
      from `prevTime` 0 and `prevTempo` the initial tempo). */
  lemma SecondsSegment(cs: seq<Change>, prevTime: real, prevTempo: int, t1: real, t2: real)
    requires TimesSorted(cs) && NonZero(cs) && prevTempo != 0 && t1 <= t2
    requires NoChangeWithin(cs, t1, t2)
    ensures TempoFrom(cs, prevTempo, t1) != 0
    ensures SecondsFrom(cs, prevTime, prevTempo, t1).Some? && SecondsFrom(cs, prevTime, prevTempo, t2).Some?
    ensures SecondsFrom(cs, prevTime, prevTempo, t2).value
         == SecondsFrom(cs, prevTime, prevTempo, t1).value + (t2 - t1) * PerWhole(TempoFrom(cs, prevTempo, t1))
  {
    SpanSegment(cs, prevTime, prevTempo, t1, t2);
    SpanAgrees(cs, prevTime, prevTempo, t1);
    SpanAgrees(cs, prevTime, prevTempo, t2);
  }

  // ================================================================ entries

  /** What the player does with an entry. */
  datatype Action = NoteOn | NoteOff | OtherEvent

  /** `(seconds, (action, event))`. */
  datatype Timed = Timed(seconds: real, action: Action, event: Event)

  /** The entries one event contributes: a note gives its note-on at its start
      and its note-off at the end of its effective duration, anything else one
      entry at its start. */
  function EventEntries(cs: seq<Change>, initial: int, e: Event): (r: Option<seq<Timed>>)
    ensures r.Some? && e.body.NoteBody? ==>
      |r.value| == 2 && r.value[0].action == NoteOn && r.value[1].action == NoteOff
      && r.value[0].event == e == r.value[1].event
      && Some(r.value[0].seconds) == TimeToSeconds(cs, initial, e.start)
      && Some(r.value[1].seconds) == TimeToSeconds(cs, initial, e.start + EffectiveDuration(e.body))
    ensures r.Some? && !e.body.NoteBody? ==>
      |r.value| == 1 && r.value[0].action == OtherEvent && r.value[0].event == e
      && Some(r.value[0].seconds) == TimeToSeconds(cs, initial, e.start)
    ensures initial != 0 && NonZero(cs) ==> r.Some?
  {
    var on :- TimeToSeconds(cs, initial, e.start);
    if e.body.NoteBody? then
      var off :- TimeToSeconds(cs, initial, e.start + EffectiveDuration(e.body));
      Some([Timed(on, NoteOn, e), Timed(off, NoteOff, e)])
    else Some([Timed(on, OtherEvent, e)])
  }

  /** The loop over `graph.events`, stopping at the first division by zero. */
  function Entries(cs: seq<Change>, initial: int, events: seq<Event>): (r: Option<seq<Timed>>)
    ensures initial != 0 && NonZero(cs) ==> r.Some?
  {
    if events == [] then Some([])
    else
      var head :- EventEntries(cs, initial, events[0]);
      var rest :- Entries(cs, initial, events[1..]);
      Some(head + rest)
  }

  /** Entries of consecutive runs of events are consecutive runs of entries. */
  lemma {:induction false} EntriesConcat(cs: seq<Change>, initial: int, a: seq<Event>, b: seq<Event>)
    requires initial != 0 && NonZero(cs)
    ensures Entries(cs, initial, a + b).value == Entries(cs, initial, a).value + Entries(cs, initial, b).value
  {
    if a == [] {
      assert a + b == b;
    } else {
      var ab := a + b;
      assert ab[0] == a[0] && ab[1..] == a[1..] + b;
      EntriesConcat(cs, initial, a[1..], b);
      var h := EventEntries(cs, initial, a[0]).value;
      assert Entries(cs, initial, ab).value == h + Entries(cs, initial, a[1..] + b).value;
      assert Entries(cs, initial, a).value == h + Entries(cs, initial, a[1..]).value;
    }
  }

  /** A note's note-off never comes before its note-on when tempos are
      positive and the note has a non-negative length. */
  lemma NoteOffAfterOn(cs: seq<Change>, initial: int, e: Event)
    requires TimesSorted(cs) && Positive(cs) && initial > 0
    requires e.body.NoteBody? && e.body.duration >= 0.0
    ensures EventEntries(cs, initial, e).Some?
    ensures EventEntries(cs, initial, e).value[0].seconds <= EventEntries(cs, initial, e).value[1].seconds
  {
    assert NonZero(cs);
    TimeToSecondsMonotone(cs, initial, e.start, e.start + EffectiveDuration(e.body));
  }

  /** The sort key of `events_with_time.sort(key=lambda x: x[0])`. */
  predicate TimedLe(a: Timed, b: Timed) {
    a.seconds <= b.seconds
  }

  lemma TimedLeIsPreorder()
    ensures Sorting.TotalPreorder(TimedLe)
  {
  }

  /** `_convert_to_seconds(graph)`. */
  function ConvertToSeconds(events: seq<Event>, initial: int): Option<seq<Timed>>
  {
    var entries :- Entries(TempoChanges(events), initial, events);
    Some(Sorting.Sort(entries, TimedLe))
  }

  /** The result holds exactly the entries, in order of seconds, and entries at
      the same second keep the order in which the events produced them. */
  lemma ConvertToSecondsSorted(events: seq<Event>, initial: int, k: Timed)
    requires ConvertToSeconds(events, initial).Some?
    ensures var r := ConvertToSeconds(events, initial).value;
      var entries := Entries(TempoChanges(events), initial, events).value;
      multiset(r) == multiset(entries)
      && (forall i, j :: 0 <= i < j < |r| ==> r[i].seconds <= r[j].seconds)
      && Sorting.Equivalents(r, k, TimedLe) == Sorting.Equivalents(entries, k, TimedLe)
  {
    var entries := Entries(TempoChanges(events), initial, events).value;
    TimedLeIsPreorder();
    Sorting.SortSorted(entries, TimedLe);
    Sorting.SortStable(entries, k, TimedLe);
  }

  /** The conversion succeeds whenever the initial tempo and every tempo event
      are non-zero. */
  lemma ConvertToSecondsDefined(events: seq<Event>, initial: int)
    requires initial != 0
    requires forall e :: e in events && e.body.TempoBody? ==> e.body.bpm != 0
    ensures ConvertToSeconds(events, initial).Some?
  {
    var cs := TempoChanges(events);
    TempoEventsOfSpec(events);
    forall i | 0 <= i < |cs| ensures cs[i].1 != 0 {
      assert cs[i] in multiset(TempoEventsOf(events));
      assert IsChangeOf(cs[i], events);
    }
  }

  /** With a zero initial tempo and at least one event nothing can be timed. */
  lemma ZeroInitialTempoFails(events: seq<Event>)
    requires events != []
    ensures ConvertToSeconds(events, 0).None?
  {
  }
}

=== FILE: rational.dfy ===
/** Exact fractions in the normal form Python's `fractions.Fraction` keeps: a
    positive denominator and a numerator and denominator with no common factor.
    Timing arithmetic elsewhere uses Dafny's `real`; this type is needed where the
    numerator and denominator themselves are observable (printing a duration). */
module Rational {

  datatype Frac = Frac(num: int, den: int)

  function Abs(x: int): nat { if x < 0 then -x else x }

  /** Euclid's algorithm. */
  function Gcd(a: nat, b: nat): nat
    decreases b
  {
    if b == 0 then a else Gcd(b, a % b)
  }

  lemma DivModUnique(a: int, b: int, q: int, r: int)
    requires b > 0 && a == b * q + r && 0 <= r < b
    ensures a / b == q && a % b == r
  {
    var q', r' := a / b, a % b;
    assert b * (q' - q) == r - r';
    if q' > q {
      MulAtLeast(b, q' - q);
    } else if q' < q {
      MulAtLeast(b, q - q');
    }
  }

  lemma MulAtLeast(b: int, k: int)
    requires b > 0 && k >= 1
    ensures b * k >= b
  {
  }

  lemma ModScale(g: nat, x: nat, y: nat)
    requires g > 0 && y > 0
    ensures (g * x) % (g * y) == g * (x % y)
  {
    var q, r := x / y, x % y;
    assert x == y * q + r;
    assert g * x == (g * y) * q + g * r;
    assert g * r < g * y;
    DivModUnique(g * x, g * y, q, g * r);
  }

  lemma {:induction false} GcdScale(g: nat, x: nat, y: nat)
    requires g > 0
    ensures Gcd(g * x, g * y) == g * Gcd(x, y)
    decreases y
  {
    if y == 0 {
      assert g * y == 0;
    } else {
      ModScale(g, x, y);
      GcdScale(g, y, x % y);
    }
  }

  lemma DivExact(x: int, g: int)
    requires g > 0 && x % g == 0
    ensures x == g * (x / g)
  {
  }

  lemma Euclid(a: int, b: int)
    requires b > 0
    ensures a == b * (a / b) + a % b
  {
  }

  /** A common divisor of `b` and `a % b` divides `a`. */
  lemma DividesBack(a: nat, b: nat, g: nat)
    requires b > 0 && g > 0 && b % g == 0 && (a % b) % g == 0
    ensures a % g == 0
  {
    var q := a / b;
    var k, m := b / g, (a % b) / g;
    DivExact(b, g);
    DivExact(a % b, g);
    Euclid(a, b);
    calc {
      a;
      b * q + a % b;
      (g * k) * q + g * m;
      { assert (g * k) * q == g * (k * q); }
      g * (k * q + m);
    }
    DivModUnique(a, g, k * q + m, 0);
  }

  lemma {:induction false} GcdDivides(a: nat, b: nat)
    requires a > 0 || b > 0
    ensures Gcd(a, b) > 0 && a % Gcd(a, b) == 0 && b % Gcd(a, b) == 0
    decreases b
  {
    if b != 0 {
      GcdDivides(b, a % b);
      DividesBack(a, b, Gcd(b, a % b));
    }
  }

  /** Divides numerator and denominator by their greatest common divisor. */
  function Reduce(n: int, d: nat): Frac
    requires d > 0
  {
    var g := Gcd(Abs(n), d);
    GcdDivides(Abs(n), d);
    Frac(n / g, d / g)
  }

  lemma CastProduct(g: int, x: int)
    ensures (g * x) as real == g as real * x as real
  {
  }

  lemma RealCancel(g: real, x: real, y: real)
    requires g != 0.0 && y != 0.0
    ensures (g * x) / (g * y) == x / y
  {
  }

  lemma AbsMultiple(n: int, g: nat)
    requires g > 0 && Abs(n) % g == 0
    ensures n % g == 0 && n == g * (n / g) && Abs(n / g) * g == Abs(n)
  {
    var a := Abs(n) / g;
    assert Abs(n) == g * a;
    if n < 0 {
      DivModUnique(n, g, -a, 0);
    }
  }

  lemma MulCancelOne(g: nat, x: nat)
    requires g > 0 && g * x == g
    ensures x == 1
  {
    if x == 0 {
    } else if x > 1 {
      MulAtLeast(g, x - 1);
    }
  }

  lemma ReduceParts(n: int, d: nat) returns (g: nat, num: int, b: nat)
    requires d > 0
    ensures g > 0 && b > 0
    ensures n == g * num && d == g * b
    ensures Reduce(n, d) == Frac(num, b)
    ensures Gcd(Abs(num), b) == 1
  {
    g := Gcd(Abs(n), d);
    GcdDivides(Abs(n), d);
    AbsMultiple(n, g);
    AbsMultiple(d, g);
    num, b := n / g, d / g;
    GcdScale(g, Abs(num), b);
    assert g * Abs(num) == Abs(n);
    MulCancelOne(g, Gcd(Abs(num), b));
  }

  lemma ReduceCorrect(n: int, d: nat)
    requires d > 0
    ensures Reduce(n, d).den > 0
    ensures Gcd(Abs(Reduce(n, d).num), Reduce(n, d).den) == 1
    ensures Reduce(n, d).num as real / Reduce(n, d).den as real == n as real / d as real
  {
    var g, num, b := ReduceParts(n, d);
    CastProduct(g, num);
    CastProduct(g, b);
    RealCancel(g as real, num as real, b as real);
  }

  lemma SignNormal(n: int, d: int)
    requires d != 0
    ensures (if d < 0 then -n else n) as real / Abs(d) as real == n as real / d as real
  {
    if d < 0 {
      RealCancel(-1.0, n as real, d as real);
    }
  }

  /** `Fraction(n, d)` for a non-zero denominator. */
  function MakeFrac(n: int, d: int): (f: Fraction)
    requires d != 0
    ensures f.num as real / f.den as real == n as real / d as real
  {
    var n' := if d < 0 then -n else n;
    ReduceCorrect(n', Abs(d));
    SignNormal(n, d);
    Reduce(n', Abs(d))
  }

  /** The invariant Python's `Fraction` keeps. */
  predicate Normal(f: Frac) {
    f.den > 0 && Gcd(Abs(f.num), f.den) == 1
  }

  /** A `Fraction` value: a fraction in normal form. */
  type Fraction = f: Frac | Normal(f) witness Frac(0, 1)

  function Value(f: Fraction): real
  {
    f.num as real / f.den as real
  }

  lemma GcdOne(d: nat)
    requires d >= 1
    ensures Gcd(1, d) == 1
  {
    if d > 1 {
      assert 1 % d == 1;
      assert d % 1 == 0;
      assert Gcd(1, d) == Gcd(d, 1) == Gcd(1, 0);
    }
  }

  /** The fraction `1/d`. */
  function Unit(d: nat): (f: Fraction)
    requires d >= 1
    ensures f == Frac(1, d) && Value(f) == 1.0 / d as real
  {
    GcdOne(d);
    Frac(1, d)
  }

}

=== FILE: sorting.dfy ===
/** Python's `list.sort` / `sorted` with a key: a stable sort. It is modelled as an
    insertion sort under a total preorder `le` ("key of a <= key of b"), and the
    three facts every caller relies on are proved once here: the result is ordered,
    it is a permutation of the input, and elements with equal keys keep their
    original relative order. */
module Sorting {

  /** `le` compares keys: total, and transitive. */
  ghost predicate TotalPreorder<T(!new)>(le: (T, T) -> bool) {
    (forall a, b :: le(a, b) || le(b, a)) &&
    (forall a, b, c :: le(a, b) && le(b, c) ==> le(a, c))
  }

  predicate SortedBy<T>(s: seq<T>, le: (T, T) -> bool) {
    forall i, j :: 0 <= i < j < |s| ==> le(s[i], s[j])
  }

  /** The elements of `s` whose key equals the key of `k`, in order. */
  function Equivalents<T>(s: seq<T>, k: T, le: (T, T) -> bool): seq<T>
  {
    if s == [] then []
    else (if le(s[0], k) && le(k, s[0]) then [s[0]] else []) + Equivalents(s[1..], k, le)
  }

  /** Places `x` in front of the first element whose key is not smaller. */
  function Insert<T>(x: T, s: seq<T>, le: (T, T) -> bool): (r: seq<T>)
    ensures multiset(r) == multiset{x} + multiset(s)
    ensures |r| == |s| + 1
  {
    if s == [] then [x]
    else if le(x, s[0]) then [x] + s
    else
      assert s == [s[0]] + s[1..];
      [s[0]] + Insert(x, s[1..], le)
  }

  /** The stable sort of `s` by `le`. */
  function Sort<T>(s: seq<T>, le: (T, T) -> bool): (r: seq<T>)
    ensures multiset(r) == multiset(s)
    ensures |r| == |s|
  {
    if s == [] then []
    else
      assert s == [s[0]] + s[1..];
      Insert(s[0], Sort(s[1..], le), le)
  }

  lemma {:induction false} InsertSorted<T(!new)>(x: T, s: seq<T>, le: (T, T) -> bool)
    requires TotalPreorder(le)
    requires SortedBy(s, le)
    ensures SortedBy(Insert(x, s, le), le)
  {
    if s == [] {
    } else if le(x, s[0]) {
      var r := [x] + s;
      forall i, j | 0 <= i < j < |r| ensures le(r[i], r[j]) {
        if i == 0 && j > 1 {
          assert le(s[0], s[j - 1]);
        }
      }
    } else {
      var t := Insert(x, s[1..], le);
      assert SortedBy(s[1..], le) by {
        forall i, j | 0 <= i < j < |s[1..]| ensures le(s[1..][i], s[1..][j]) {
          assert s[1..][i] == s[i + 1] && s[1..][j] == s[j + 1];
        }
      }
      InsertSorted(x, s[1..], le);
      var r := [s[0]] + t;
      forall j | 0 <= j < |t| ensures le(s[0], t[j]) {
        assert t[j] in multiset(t);
        if t[j] != x {
          assert t[j] in multiset(s[1..]);
          var m :| 0 <= m < |s[1..]| && s[1..][m] == t[j];
          assert s[m + 1] == t[j];
        }
      }
      forall i, j | 0 <= i < j < |r| ensures le(r[i], r[j]) {
        if i > 0 {
          assert r[i] == t[i - 1] && r[j] == t[j - 1];
        } else {
          assert r[j] == t[j - 1];
        }
      }
    }
  }

  /** The result of `Sort` is ordered by `le`. */
  lemma {:induction false} SortSorted<T(!new)>(s: seq<T>, le: (T, T) -> bool)
    requires TotalPreorder(le)
    ensures SortedBy(Sort(s, le), le)
  {
    if s != [] {
      SortSorted(s[1..], le);
      InsertSorted(s[0], Sort(s[1..], le), le);
    }
  }

  lemma {:induction false} EquivalentsConcat<T>(a: seq<T>, b: seq<T>, k: T, le: (T, T) -> bool)
    ensures Equivalents(a + b, k, le) == Equivalents(a, k, le) + Equivalents(b, k, le)
  {
    if a == [] {
      assert a + b == b;
    } else {
      assert (a + b)[1..] == a[1..] + b;
      EquivalentsConcat(a[1..], b, k, le);
    }
  }

  lemma {:induction false} InsertEquivalents<T(!new)>(x: T, s: seq<T>, k: T, le: (T, T) -> bool)
    requires TotalPreorder(le)
    ensures Equivalents(Insert(x, s, le), k, le)
         == Equivalents([x], k, le) + Equivalents(s, k, le)
  {
    if s == [] {
      assert Insert(x, s, le) == [x] + s;
    } else if le(x, s[0]) {
      EquivalentsConcat([x], s, k, le);
    } else {
      InsertEquivalents(x, s[1..], k, le);
      EquivalentsConcat([s[0]], Insert(x, s[1..], le), k, le);
      EquivalentsConcat([s[0]], s[1..], k, le);
      assert [s[0]] + s[1..] == s;
      if le(s[0], k) && le(k, s[0]) {
        // s[0] is strictly below x, so x is not equivalent to k
        assert !(le(x, k) && le(k, x));
      }
    }
  }

  /** Stability: for every key, the elements carrying that key appear in `Sort`'s
      result in the same order as in the input. */
  lemma {:induction false} SortStable<T(!new)>(s: seq<T>, k: T, le: (T, T) -> bool)
    requires TotalPreorder(le)
    ensures Equivalents(Sort(s, le), k, le) == Equivalents(s, k, le)
  {
    if s != [] {
      SortStable(s[1..], k, le);
      InsertEquivalents(s[0], Sort(s[1..], le), k, le);
      EquivalentsConcat([s[0]], s[1..], k, le);
      assert [s[0]] + s[1..] == s;
    }
  }

  /** Sorting an already ordered sequence leaves it unchanged. */
  lemma {:induction false} SortOfSorted<T>(s: seq<T>, le: (T, T) -> bool)
    requires SortedBy(s, le)
    ensures Sort(s, le) == s
  {
    if s != [] {
      assert SortedBy(s[1..], le) by {
        forall i, j | 0 <= i < j < |s[1..]| ensures le(s[1..][i], s[1..][j]) {
          assert s[1..][i] == s[i + 1] && s[1..][j] == s[j + 1];
        }
      }
      SortOfSorted(s[1..], le);
      if |s| > 1 {
        assert le(s[0], s[1]);
      }
      assert [s[0]] + s[1..] == s;
    }
  }

  /** `[x for x in s if p(x)]`. */
  function Filter<T>(s: seq<T>, p: T -> bool): (r: seq<T>)
    ensures |r| <= |s|
    ensures forall i :: 0 <= i < |r| ==> r[i] in s && p(r[i])
    ensures forall i :: 0 <= i < |s| && p(s[i]) ==> s[i] in r
  {
    if s == [] then [] else (if p(s[0]) then [s[0]] else []) + Filter(s[1..], p)
  }

  /** Filtering distributes over concatenation, so it keeps the original order. */
  lemma {:induction false} FilterConcat<T>(a: seq<T>, b: seq<T>, p: T -> bool)
    ensures Filter(a + b, p) == Filter(a, p) + Filter(b, p)
  {
    if a == [] {
      assert a + b == b;
    } else {
      assert (a + b)[1..] == a[1..] + b;
      FilterConcat(a[1..], b, p);
    }
  }

  /** A filter every element passes keeps the whole sequence. */
  lemma {:induction false} FilterAll<T>(s: seq<T>, p: T -> bool)
    requires forall i :: 0 <= i < |s| ==> p(s[i])
    ensures Filter(s, p) == s
  {
    if s != [] {
      FilterAll(s[1..], p);
      assert [s[0]] + s[1..] == s;
    }
  }

  // ============================================================ sorted sets

  /** `lt` is a strict total order. */
  ghost predicate StrictTotalOrder<T(!new)>(lt: (T, T) -> bool) {
    (forall a :: !lt(a, a)) &&
    (forall a, b :: a == b || lt(a, b) || lt(b, a)) &&
    (forall a, b, c :: lt(a, b) && lt(b, c) ==> lt(a, c))
  }

  predicate StrictlySorted<T>(s: seq<T>, lt: (T, T) -> bool) {
    forall i, j :: 0 <= i < j < |s| ==> lt(s[i], s[j])
  }

  /** Adds `x` to a sorted list of distinct elements unless it is already there. */
  function InsertUnique<T(==,!new)>(x: T, s: seq<T>, lt: (T, T) -> bool): (r: seq<T>)
    ensures forall y :: y in r <==> y == x || y in s
  {
    if s == [] then [x]
    else if x == s[0] then s
    else if lt(x, s[0]) then [x] + s
    else
      var t := InsertUnique(x, s[1..], lt);
      assert s == [s[0]] + s[1..];
      [s[0]] + t
  }

  /** `sorted(set(s))`: the distinct elements of `s` in increasing order. */
  function SortUnique<T(==,!new)>(s: seq<T>, lt: (T, T) -> bool): (r: seq<T>)
    ensures forall y :: y in r <==> y in s
  {
    if s == [] then []
    else
      assert s == [s[0]] + s[1..];
      InsertUnique(s[0], SortUnique(s[1..], lt), lt)
  }

  lemma {:induction false} InsertUniqueSorted<T(!new)>(x: T, s: seq<T>, lt: (T, T) -> bool)
    requires StrictTotalOrder(lt)
    requires StrictlySorted(s, lt)
    ensures StrictlySorted(InsertUnique(x, s, lt), lt)
  {
    if s == [] {
    } else if x == s[0] {
    } else if lt(x, s[0]) {
      var r := [x] + s;
      forall i, j | 0 <= i < j < |r| ensures lt(r[i], r[j]) {
        if i == 0 && j > 1 {
          assert lt(s[0], s[j - 1]);
        }
      }
    } else {
      assert StrictlySorted(s[1..], lt) by {
        forall i, j | 0 <= i < j < |s[1..]| ensures lt(s[1..][i], s[1..][j]) {
          assert s[1..][i] == s[i + 1] && s[1..][j] == s[j + 1];
        }
      }
      InsertUniqueSorted(x, s[1..], lt);
      var t := InsertUnique(x, s[1..], lt);
      var r := [s[0]] + t;
      forall j | 0 <= j < |t| ensures lt(s[0], t[j]) {
        assert t[j] in t;
        if t[j] != x {
          assert t[j] in s[1..];
          var m :| 0 <= m < |s[1..]| && s[1..][m] == t[j];
          assert s[m + 1] == t[j];
        }
      }
      forall i, j | 0 <= i < j < |r| ensures lt(r[i], r[j]) {
        if i > 0 {
          assert r[i] == t[i - 1] && r[j] == t[j - 1];
        } else {
          assert r[j] == t[j - 1];
        }
      }
    }
  }

  /** The result of `SortUnique` is strictly increasing, so it has no repeats. */
  lemma {:induction false} SortUniqueSorted<T(!new)>(s: seq<T>, lt: (T, T) -> bool)
    requires StrictTotalOrder(lt)
    ensures StrictlySorted(SortUnique(s, lt), lt)
  {
    if s != [] {
      SortUniqueSorted(s[1..], lt);
      InsertUniqueSorted(s[0], SortUnique(s[1..], lt), lt);
    }
  }
}

=== FILE: text.dfy ===
/** String helpers over `seq<char>` standing in for the Python `str` methods the
    Clef code relies on: ASCII case mapping, `isalnum`/`isalpha`, `strip`,
    `replace`, `" ".join`/`split`, `splitlines` and `int()`/`str()` on integers.
    Only the ASCII range is classified; see the README for what that leaves out. */
module Text {
  import opened Wrappers

  predicate IsDigit(c: char) { '0' <= c <= '9' }
  predicate IsUpper(c: char) { 'A' <= c <= 'Z' }
  predicate IsLower(c: char) { 'a' <= c <= 'z' }
  predicate IsAlpha(c: char) { IsUpper(c) || IsLower(c) }
  predicate IsAlnum(c: char) { IsAlpha(c) || IsDigit(c) }

  /** The whitespace `str.strip()` removes, restricted to ASCII. */
  predicate IsSpace(c: char) {
    c == ' ' || c == '\t' || c == '\n' || c == '\r' || c == '\U{000B}' || c == '\U{000C}'
    || c == '\U{001C}' || c == '\U{001D}' || c == '\U{001E}' || c == '\U{001F}'
  }

  /** The line boundaries `str.splitlines()` recognises (`\r\n` is handled as one). */
  predicate IsLineBreak(c: char) {
    c == '\n' || c == '\r' || c == '\U{000B}' || c == '\U{000C}' || c == '\U{001C}'
    || c == '\U{001D}' || c == '\U{001E}' || c == '\U{0085}' || c == '\U{2028}' || c == '\U{2029}'
  }

  function LowerChar(c: char): (r: char)
    ensures IsUpper(c) ==> IsLower(r) && r as int == c as int + 32
    ensures !IsUpper(c) ==> r == c
  {
    if IsUpper(c) then (c as int + 32) as char else c
  }

  function UpperChar(c: char): (r: char)
    ensures IsLower(c) ==> IsUpper(r) && r as int == c as int - 32
    ensures !IsLower(c) ==> r == c
  {
    if IsLower(c) then (c as int - 32) as char else c
  }

  /** `s.lower()` on the ASCII range. */
  function Lower(s: string): (r: string)
    ensures |r| == |s|
    ensures forall i :: 0 <= i < |s| ==> r[i] == LowerChar(s[i])
    ensures forall i :: 0 <= i < |r| ==> !IsUpper(r[i])
  {
    seq(|s|, i requires 0 <= i < |s| => LowerChar(s[i]))
  }

  /** `s.upper()` on the ASCII range. */
  function Upper(s: string): (r: string)
    ensures |r| == |s|
    ensures forall i :: 0 <= i < |s| ==> r[i] == UpperChar(s[i])
    ensures forall i :: 0 <= i < |r| ==> !IsLower(r[i])
  {
    seq(|s|, i requires 0 <= i < |s| => UpperChar(s[i]))
  }

  lemma LowerNoUpper(s: string)
    requires forall c :: c in s ==> !IsUpper(c)
    ensures Lower(s) == s
  {
  }

  lemma LowerIdempotent(s: string)
    ensures Lower(Lower(s)) == Lower(s)
  {
  }

  /** `c * n` for a one-character string. */
  function Repeat(c: char, n: nat): (r: string)
    ensures |r| == n
    ensures forall i :: 0 <= i < n ==> r[i] == c
  {
    seq(n, _ => c)
  }

  /** The number of occurrences of `c` in `s`. */
  function Count(s: string, c: char): nat
  {
    if s == [] then 0 else (if s[0] == c then 1 else 0) + Count(s[1..], c)
  }

  lemma CountConcat(a: string, b: string, c: char)
    ensures Count(a + b, c) == Count(a, c) + Count(b, c)
  {
    if a == [] {
      assert a + b == b;
    } else {
      assert (a + b)[1..] == a[1..] + b;
      CountConcat(a[1..], b, c);
    }
  }

  lemma CountRepeat(c: char, n: nat)
    ensures Count(Repeat(c, n), c) == n
  {
    if n > 0 {
      assert Repeat(c, n)[1..] == Repeat(c, n - 1);
      CountRepeat(c, n - 1);
    }
  }

  /** `c in s` for a substring `c`. */
  predicate Contains(s: string, sub: string)
  {
    sub <= s || (s != [] && Contains(s[1..], sub))
  }

  /** `s.replace(a, b)` for single characters. */
  function ReplaceChar(s: string, a: char, b: char): (r: string)
    ensures |r| == |s|
    ensures forall i :: 0 <= i < |s| ==> r[i] == (if s[i] == a then b else s[i])
    ensures a != b ==> a !in r
    ensures forall c :: c in r ==> c == b || c in s
  {
    seq(|s|, i requires 0 <= i < |s| => if s[i] == a then b else s[i])
  }

  /** Replacing `a` by a character `b` the text does not hold can be undone. */
  lemma ReplaceCharUndo(s: string, a: char, b: char)
    requires b !in s
    ensures ReplaceChar(ReplaceChar(s, a, b), b, a) == s
  {
  }

  // ---------------------------------------------------------------- strip

  function TrimLeft(s: string): (r: string)
    ensures |r| <= |s| && r == s[|s| - |r|..]
    ensures r == [] || !IsSpace(r[0])
    ensures forall i :: 0 <= i < |s| - |r| ==> IsSpace(s[i])
  {
    if s != [] && IsSpace(s[0]) then
      var r := TrimLeft(s[1..]);
      assert s[1..][|s| - 1 - |r|..] == s[|s| - |r|..];
      assert forall i :: 1 <= i < |s| - |r| ==> s[i] == s[1..][i - 1];
      r
    else s
  }

  function TrimRight(s: string): (r: string)
    ensures |r| <= |s| && r == s[..|r|]
    ensures r == [] || !IsSpace(r[|r| - 1])
    ensures forall i :: |r| <= i < |s| ==> IsSpace(s[i])
  {
    if s != [] && IsSpace(s[|s| - 1]) then TrimRight(s[..|s| - 1]) else s
  }

  /** Every character of `s` is whitespace. */
  predicate AllSpace(s: string) {
    forall k :: 0 <= k < |s| ==> IsSpace(s[k])
  }

  /** `s.strip()`: the slice of `s` left once the whitespace at both ends is removed. */
  function Strip(s: string): (r: string)
    ensures exists i, j :: 0 <= i <= j <= |s| && r == s[i..j]
    ensures r == [] || (!IsSpace(r[0]) && !IsSpace(r[|r| - 1]))
  {
    var l := TrimLeft(s);
    var r := TrimRight(l);
    assert r == s[|s| - |l|..|s| - |l| + |r|];
    r
  }

  /** `s.strip()` removes whitespace and nothing else: `s` is the stripped
      text with only whitespace added before and after it. */
  lemma {:induction false} StripDecompose(s: string)
    ensures exists a, b :: AllSpace(a) && AllSpace(b) && s == a + Strip(s) + b
  {
    var l := TrimLeft(s);
    var a := LeadingPart(s);
    var b := TrailingPart(l);
    assert Strip(s) == TrimRight(l);
    JoinParts(s, a, l, Strip(s), b);
  }

  /** The whitespace `TrimLeft` removes. */
  lemma {:induction false} LeadingPart(s: string) returns (a: string)
    ensures AllSpace(a) && s == a + TrimLeft(s)
  {
    var l := TrimLeft(s);
    var i := |s| - |l|;
    a := s[..i];
    SplitAt(s, i, a, l);
    forall k | 0 <= k < |a|
      ensures IsSpace(a[k])
    {
      assert a[k] == s[k];
    }
  }

  /** The whitespace `TrimRight` removes. */
  lemma {:induction false} TrailingPart(s: string) returns (b: string)
    ensures AllSpace(b) && s == TrimRight(s) + b
  {
    var r := TrimRight(s);
    b := s[|r|..];
    SplitAt(s, |r|, r, b);
    forall k | 0 <= k < |b|
      ensures IsSpace(b[k])
    {
      assert b[k] == s[|r| + k];
    }
  }

  lemma {:induction false} SplitAt(s: string, i: int, x: string, y: string)
    requires 0 <= i <= |s| && x == s[..i] && y == s[i..]
    ensures s == x + y
  {
  }

  lemma {:induction false} JoinParts(s: string, a: string, l: string, r: string, b: string)
    requires s == a + l && l == r + b
    ensures s == a + r + b
  {
  }

  /** A text that neither starts nor ends with whitespace is what `Strip`
      returns for it with any whitespace around it, so the decomposition of
      `StripDecompose` is the only one. */
  lemma {:induction false} StripExact(a: string, t: string, b: string)
    requires AllSpace(a) && AllSpace(b)
    requires t == [] || (!IsSpace(t[0]) && !IsSpace(t[|t| - 1]))
    ensures Strip(a + t + b) == t
  {
    StripPadded(a, t, b);
    StripTrimmed(t);
  }

  lemma {:induction false} StripTrimmed(t: string)
    requires t == [] || (!IsSpace(t[0]) && !IsSpace(t[|t| - 1]))
    ensures Strip(t) == t
  {
    assert TrimLeft(t) == t;
    assert TrimRight(t) == t;
  }

  /** Leading whitespace is trimmed away whatever follows it. */
  lemma {:induction false} TrimLeftPadded(a: string, x: string)
    requires AllSpace(a)
    ensures TrimLeft(a + x) == TrimLeft(x)
    decreases |a|
  {
    if a != [] {
      assert (a + x)[0] == a[0] && (a + x)[1..] == a[1..] + x;
      TrimLeftPadded(a[1..], x);
    } else {
      assert a + x == x;
    }
  }

  /** Trailing whitespace is trimmed away whatever precedes it. */
  lemma {:induction false} TrimRightPadded(x: string, b: string)
    requires AllSpace(b)
    ensures TrimRight(x + b) == TrimRight(x)
    decreases |b|
  {
    if b != [] {
      assert (x + b)[|x + b| - 1] == b[|b| - 1];
      assert (x + b)[..|x + b| - 1] == x + b[..|b| - 1];
      TrimRightPadded(x, b[..|b| - 1]);
    } else {
      assert x + b == x;
    }
  }

  /** Once a text holds something other than whitespace, trimming its front
      does not reach what follows it. */
  lemma {:induction false} TrimLeftAppend(x: string, y: string)
    requires !AllSpace(x)
    ensures TrimLeft(x + y) == TrimLeft(x) + y
    decreases |x|
  {
    if IsSpace(x[0]) {
      assert (x + y)[1..] == x[1..] + y;
      assert !AllSpace(x[1..]) by {
        var k :| 0 <= k < |x| && !IsSpace(x[k]);
        assert x[1..][k - 1] == x[k];
      }
      TrimLeftAppend(x[1..], y);
    }
  }

  /** `s.strip()` ignores whitespace added at either end. */
  lemma {:induction false} StripPadded(a: string, s: string, b: string)
    requires AllSpace(a) && AllSpace(b)
    ensures Strip(a + s + b) == Strip(s)
  {
    var t := s + b;
    assert a + s + b == a + t;
    TrimLeftPadded(a, t);
    assert Strip(a + t) == TrimRight(TrimLeft(t));
    TrimBothPadded(s, b);
  }

  /** Trailing whitespace does not change what trimming both ends leaves. */
  lemma {:induction false} TrimBothPadded(s: string, b: string)
    requires AllSpace(b)
    ensures TrimRight(TrimLeft(s + b)) == TrimRight(TrimLeft(s))
  {
    if AllSpace(s) {
      AllSpaceTrimmed(s + b);
      AllSpaceTrimmed(s);
      AllSpaceConcat(s, b);
    } else {
      TrimLeftAppend(s, b);
      TrimRightPadded(TrimLeft(s), b);
    }
  }

  /** Nothing is left of a text made of whitespace only. */
  lemma {:induction false} AllSpaceTrimmed(s: string)
    requires AllSpace(s)
    ensures TrimLeft(s) == []
  {
    TrimLeftPadded(s, []);
    assert s + [] == s;
  }

  lemma {:induction false} AllSpaceConcat(a: string, b: string)
    requires AllSpace(a) && AllSpace(b)
    ensures AllSpace(a + b)
  {
    assert forall k :: 0 <= k < |a + b| ==> (a + b)[k] == if k < |a| then a[k] else b[k - |a|];
  }

  /** Lower-casing works character by character, so it distributes over `+`. */
  lemma {:induction false} LowerConcat(x: string, y: string)
    ensures Lower(x + y) == Lower(x) + Lower(y)
  {
    assert forall k :: 0 <= k < |x + y| ==> (x + y)[k] == if k < |x| then x[k] else y[k - |x|];
  }

  /** Whitespace is not upper-case, so lower-casing leaves it alone. */
  lemma {:induction false} LowerOfSpace(a: string)
    requires AllSpace(a)
    ensures Lower(a) == a
  {
    assert forall k :: 0 <= k < |a| ==> !IsUpper(a[k]);
  }

  /** The lookup key `s.lower().strip()` ignores whitespace added at either end. */
  lemma {:induction false} PaddedKey(a: string, s: string, b: string)
    requires AllSpace(a) && AllSpace(b)
    ensures Strip(Lower(a + s + b)) == Strip(Lower(s))
  {
    LowerConcat(a + s, b);
    LowerConcat(a, s);
    LowerOfSpace(a);
    LowerOfSpace(b);
    StripPadded(a, Lower(s), b);
  }

  /** Stripping twice strips nothing more. */
  lemma StripIdempotent(s: string)
    ensures Strip(Strip(s)) == Strip(s)
  {
    var r := Strip(s);
    assert TrimLeft(r) == r;
    assert TrimRight(r) == r;
  }

  lemma StripNoSpaces(s: string)
    requires forall i :: 0 <= i < |s| ==> !IsSpace(s[i])
    ensures Strip(s) == s
  {
  }

  // ------------------------------------------------------------ join, split

  /** `sep.join(parts)`. */
  function Join(parts: seq<string>, sep: string): string
  {
    if |parts| == 0 then ""
    else if |parts| == 1 then parts[0]
    else parts[0] + sep + Join(parts[1..], sep)
  }

  function IndexOf(s: string, c: char): (i: nat)
    requires c in s
    ensures i < |s| && s[i] == c && c !in s[..i]
  {
    if s[0] == c then 0 else 1 + IndexOf(s[1..], c)
  }

  /** `s.split(c)` for a single-character separator. */
  function Split(s: string, c: char): (r: seq<string>)
    ensures |r| >= 1
    decreases |s|
  {
    if c !in s then [s]
    else
      var i := IndexOf(s, c);
      [s[..i]] + Split(s[i + 1..], c)
  }

  /** The first `c` of `a + [c] + b`, when `a` has none, is the one after `a`. */
  lemma {:induction false} IndexOfAfter(a: string, c: char, b: string)
    requires c !in a
    ensures c in a + [c] + b && IndexOf(a + [c] + b, c) == |a|
  {
    var s := a + [c] + b;
    assert s[|a|] == c;
    if a != [] {
      assert s[1..] == a[1..] + [c] + b;
      IndexOfAfter(a[1..], c, b);
    }
  }

  /** Splitting a join recovers the parts when no part holds the separator. */
  lemma {:induction false} SplitJoin(parts: seq<string>, c: char)
    requires |parts| >= 1
    requires forall k :: 0 <= k < |parts| ==> c !in parts[k]
    ensures Split(Join(parts, [c]), c) == parts
  {
    if |parts| > 1 {
      var rest := Join(parts[1..], [c]);
      var s := parts[0] + [c] + rest;
      assert Join(parts, [c]) == s;
      IndexOfAfter(parts[0], c, rest);
      assert s[..|parts[0]|] == parts[0];
      assert s[|parts[0]| + 1..] == rest;
      assert Split(s, c) == [parts[0]] + Split(rest, c);
      SplitJoin(parts[1..], c);
      assert parts == [parts[0]] + parts[1..];
    }
  }

  // -------------------------------------------------------------- splitlines

  predicate HasLineBreak(s: string) {
    exists i :: 0 <= i < |s| && IsLineBreak(s[i])
  }

  function FirstLineBreak(s: string): (i: nat)
    requires HasLineBreak(s)
    ensures i < |s| && IsLineBreak(s[i])
    ensures forall k :: 0 <= k < i ==> !IsLineBreak(s[k])
  {
    if IsLineBreak(s[0]) then 0
    else
      assert HasLineBreak(s[1..]) by {
        var k :| 0 <= k < |s| && IsLineBreak(s[k]);
        assert s[1..][k - 1] == s[k];
      }
      1 + FirstLineBreak(s[1..])
  }

  /** `s.splitlines()`: a trailing line break does not open an empty last line. */
  function SplitLines(s: string): seq<string>
    decreases |s|
  {
    if s == [] then []
    else if !HasLineBreak(s) then [s]
    else [s[..FirstLineBreak(s)]] + SplitLines(s[NextLineStart(s)..])
  }

  /** Where the text after the first line break starts: `\r\n` counts as one
      break. */
  function NextLineStart(s: string): (next: nat)
    requires HasLineBreak(s)
    ensures FirstLineBreak(s) < next <= |s|
  {
    var i := FirstLineBreak(s);
    if s[i] == '\r' && i + 1 < |s| && s[i + 1] == '\n' then i + 2 else i + 1
  }

  /** The text made of `lines`, each followed by a newline. */
  function Terminated(lines: seq<string>): string
  {
    if lines == [] then "" else lines[0] + "\n" + Terminated(lines[1..])
  }

  predicate NoLineBreaks(lines: seq<string>) {
    forall k, i :: 0 <= k < |lines| && 0 <= i < |lines[k]| ==> !IsLineBreak(lines[k][i])
  }

  /** The first line break of `l + "\n" + rest`, when `l` has none, is the one
      after `l`. */
  lemma FirstBreakAfter(l: string, rest: string)
    requires forall i :: 0 <= i < |l| ==> !IsLineBreak(l[i])
    ensures HasLineBreak(l + "\n" + rest) && FirstLineBreak(l + "\n" + rest) == |l|
  {
    var s := l + "\n" + rest;
    assert s[|l|] == '\n';
    assert forall k :: 0 <= k < |l| ==> s[k] == l[k];
  }

  lemma NoLineBreaksTail(lines: seq<string>)
    requires lines != [] && NoLineBreaks(lines)
    ensures NoLineBreaks(lines[1..])
    ensures forall i :: 0 <= i < |lines[0]| ==> !IsLineBreak(lines[0][i])
  {
    forall k, i | 0 <= k < |lines[1..]| && 0 <= i < |lines[1..][k]|
      ensures !IsLineBreak(lines[1..][k][i])
    {
      assert lines[1..][k] == lines[k + 1];
    }
  }

  /** `splitlines` inverts writing each line followed by `\n`. */
  lemma {:induction false} SplitLinesTerminated(lines: seq<string>)
    requires NoLineBreaks(lines)
    ensures SplitLines(Terminated(lines)) == lines
  {
    if lines != [] {
      var l := lines[0];
      var rest := Terminated(lines[1..]);
      var s := l + "\n" + rest;
      assert Terminated(lines) == s;
      NoLineBreaksTail(lines);
      FirstBreakAfter(l, rest);
      assert s[|l|] == '\n';
      assert s[..|l|] == l;
      assert s[|l| + 1..] == rest;
      assert SplitLines(s) == [l] + SplitLines(rest);
      SplitLinesTerminated(lines[1..]);
      assert lines == [l] + lines[1..];
    }
  }

  /** No line `splitlines` returns holds a line break. */
  lemma {:induction false} SplitLinesNoBreaks(s: string)
    ensures NoLineBreaks(SplitLines(s))
    decreases |s|
  {
    if s != [] && HasLineBreak(s) {
      var i := FirstLineBreak(s);
      var next := NextLineStart(s);
      SplitLinesNoBreaks(s[next..]);
      var t := SplitLines(s[next..]);
      var r := SplitLines(s);
      assert r == [s[..i]] + t;
      forall k, j | 0 <= k < |r| && 0 <= j < |r[k]| ensures !IsLineBreak(r[k][j]) {
        if k > 0 {
          assert r[k] == t[k - 1];
        }
      }
    }
  }

  lemma FirstBreakAtMost(s: string, j: nat)
    requires j < |s| && IsLineBreak(s[j])
    ensures HasLineBreak(s) && FirstLineBreak(s) <= j
  {
  }

  /** Whatever precedes it, a non-empty piece of text without line breaks that
      follows a newline is the last line `splitlines` returns. */
  lemma {:induction false} SplitLinesLast(a: string, b: string)
    requires b != [] && !HasLineBreak(b)
    ensures EndsWith(SplitLines(a + "\n" + b), b)
    decreases |a|
  {
    var s := a + "\n" + b;
    AfterFirstBreak(a, b);
    var next := NextLineStart(s);
    var t := s[next..];
    if next == |a| + 1 {
      SplitLinesSingle(b);
    } else {
      SplitLinesLast(a[next..], b);
    }
    SplitLinesStep(s);
    LastOfCons(s[..FirstLineBreak(s)], SplitLines(t), b);
  }

  /** `l` is non-empty and its last element is `x`. */
  predicate EndsWith<T(==)>(l: seq<T>, x: T) {
    l != [] && l[|l| - 1] == x
  }

  lemma SplitLinesStep(s: string)
    requires HasLineBreak(s)
    ensures SplitLines(s) == [s[..FirstLineBreak(s)]] + SplitLines(s[NextLineStart(s)..])
  {
  }

  lemma SplitLinesSingle(b: string)
    requires b != [] && !HasLineBreak(b)
    ensures SplitLines(b) == [b]
  {
  }

  /** What follows the first line break of `a + "\n" + b`: `b` itself, or a
      suffix of `a` followed by `"\n" + b`. */
  lemma AfterFirstBreak(a: string, b: string)
    ensures HasLineBreak(a + "\n" + b)
    ensures var s := a + "\n" + b;
      var next := NextLineStart(s);
      next <= |a| + 1
      && (next == |a| + 1 ==> s[next..] == b)
      && (next <= |a| ==> s[next..] == a[next..] + "\n" + b)
  {
    var s := a + "\n" + b;
    FirstBreakAtMost(s, |a|);
    assert s[|a|] == '\n';
  }

  lemma LastOfCons<T>(x: T, l: seq<T>, y: T)
    requires EndsWith(l, y)
    ensures EndsWith([x] + l, y)
  {
  }

  // ------------------------------------------------------------ integers

  function DigitChar(d: nat): (c: char)
    requires d < 10
    ensures IsDigit(c) && c as int - '0' as int == d
  {
    ('0' as int + d) as char
  }

  function DigitValue(c: char): (d: nat)
    requires IsDigit(c)
    ensures d < 10
  {
    c as int - '0' as int
  }

  predicate AllDigits(s: string) {
    forall i :: 0 <= i < |s| ==> IsDigit(s[i])
  }

  /** `str(n)` for a natural number. */
  function NatToString(n: nat): (r: string)
    ensures |r| >= 1 && AllDigits(r)
  {
    if n < 10 then [DigitChar(n)] else NatToString(n / 10) + [DigitChar(n % 10)]
  }

  /** The value of a non-empty string of decimal digits. */
  function ParseDigits(s: string): nat
    requires |s| >= 1 && AllDigits(s)
  {
    if |s| == 1 then DigitValue(s[0])
    else ParseDigits(s[..|s| - 1]) * 10 + DigitValue(s[|s| - 1])
  }

  lemma {:induction false} ParseNatToString(n: nat)
    ensures ParseDigits(NatToString(n)) == n
  {
    if n >= 10 {
      var a := NatToString(n / 10);
      var s := a + [DigitChar(n % 10)];
      assert s[..|s| - 1] == a;
      ParseNatToString(n / 10);
    }
  }

  /** `str(i)` for an integer. */
  function IntToString(i: int): (r: string)
    ensures |r| >= 1
    ensures i < 0 <==> r[0] == '-'
  {
    if i < 0 then "-" + NatToString(-i) else NatToString(i)
  }

  /** `int(s)` for a decimal literal: surrounding whitespace and one sign are allowed;
      anything else is the `ValueError` case, reported as `None`. */
  function ParseInt(s: string): (r: Option<int>)
  {
    ParseStripped(Strip(s))
  }

  /** `int(t)` for text with no surrounding whitespace. */
  function ParseStripped(t: string): (r: Option<int>)
  {
    if |t| >= 2 && (t[0] == '-' || t[0] == '+') && AllDigits(t[1..]) then
      var v: int := ParseDigits(t[1..]);
      Some(if t[0] == '-' then -v else v)
    else if |t| >= 1 && AllDigits(t) then Some(ParseDigits(t))
    else None
  }

  lemma ParseIntToString(i: int)
    ensures ParseInt(IntToString(i)) == Some(i)
  {
    var s := IntToString(i);
    IntStringStripped(i);
    ParseOfStripped(s);
    ParseStrippedIntString(i);
  }

  lemma ParseStrippedIntString(i: int)
    ensures ParseStripped(IntToString(i)) == Some(i)
  {
    if i < 0 {
      ParseNegative(i);
    } else {
      ParseNonNegative(i);
    }
  }

  lemma ParseOfStripped(s: string)
    requires Strip(s) == s
    ensures ParseInt(s) == ParseStripped(s)
  {
  }

  /** `int()` ignores whitespace around the number. */
  lemma {:induction false} ParsePadded(a: string, s: string, b: string)
    requires AllSpace(a) && AllSpace(b)
    ensures ParseInt(a + s + b) == ParseInt(s)
  {
    StripPadded(a, s, b);
  }

  lemma ParseSigned(t: string, v: nat)
    requires |t| >= 2 && t[0] == '-' && AllDigits(t[1..]) && ParseDigits(t[1..]) == v
    ensures ParseStripped(t) == Some(-(v as int))
  {
  }

  lemma ParseUnsigned(t: string, v: nat)
    requires |t| >= 1 && t[0] != '-' && t[0] != '+' && AllDigits(t) && ParseDigits(t) == v
    ensures ParseStripped(t) == Some(v as int)
  {
  }

  lemma IntStringStripped(i: int)
    ensures Strip(IntToString(i)) == IntToString(i)
  {
    var s := IntToString(i);
    assert forall k :: 0 <= k < |s| ==> !IsSpace(s[k]);
    StripNoSpaces(s);
  }

  lemma ParseNegative(i: int)
    requires i < 0
    ensures ParseStripped(IntToString(i)) == Some(i)
  {
    var s := IntToString(i);
    var d := NatToString(-i);
    assert s == "-" + d;
    assert s[1..] == d;
    ParseNatToString(-i);
    ParseSigned(s, -i);
  }

  lemma ParseNonNegative(i: int)
    requires i >= 0
    ensures ParseStripped(IntToString(i)) == Some(i)
  {
    ParseNatToString(i);
    var s := IntToString(i);
    assert IsDigit(s[0]);
    ParseUnsigned(s, i);
  }

  // ================================================================ ordering

  /** Python's `<` on `str`: code point by code point, a proper prefix first. */
  predicate StrLess(a: string, b: string)
    decreases |a|
  {
    if a == [] then b != []
    else if b == [] then false
    else if a[0] != b[0] then a[0] < b[0]
    else StrLess(a[1..], b[1..])
  }

  lemma {:induction false} StrLessIrreflexive(a: string)
    ensures !StrLess(a, a)
    decreases |a|
  {
    if a != [] {
      StrLessIrreflexive(a[1..]);
    }
  }

  lemma {:induction false} StrLessTotal(a: string, b: string)
    ensures a == b || StrLess(a, b) || StrLess(b, a)
    decreases |a|
  {
    if a != [] && b != [] && a[0] == b[0] {
      StrLessTotal(a[1..], b[1..]);
      if a[1..] == b[1..] {
        assert a == [a[0]] + a[1..] && b == [b[0]] + b[1..];
      }
    }
  }

  lemma {:induction false} StrLessTransitive(a: string, b: string, c: string)
    requires StrLess(a, b) && StrLess(b, c)
    ensures StrLess(a, c)
    decreases |a|
  {
    if a != [] && a[0] == b[0] && b[0] == c[0] {
      StrLessTransitive(a[1..], b[1..], c[1..]);
    }
  }

  // =============================================================== sequences

  lemma Associative<T>(a: seq<T>, b: seq<T>, c: seq<T>)
    ensures (a + b) + c == a + (b + c)
  {
  }
}

=== FILE: transformer.dfy ===
/** The parse-tree transformer: the node builders that turn the children of a
    grammar rule into AST nodes, the `FRACTION` and `PITCH_NAME` terminals, and the
    two helpers that dress up a parse error (`_get_context`, `_format_message`).

    Each builder receives its children as a sequence of `Arg`s and scans them once,
    left to right, exactly as the Python `for arg in args` loops do. Its contract
    states the result in terms of `Select`, the sub-sequence of children of one
    kind: "the last integer", "every grace note, in order", "the sum of the dots". */
module Transformer {
  import opened Wrappers
  import opened Text
  import opened Rational
  import opened Nodes
  import Measures
  import Analyzer

  /** A child of a grammar rule, as the transformer hands it to the next builder.
      `IntArg` is an `INTEGER` or `OCTAVE` token, or the `1` each dot becomes;
      `StrArg` is an identifier, a mode, an instrument name or the `"tie"` marker;
      `VoiceGroup(n, cs)` is the `("voice_in_measure", n, cs)` tuple of an
      in-measure voice; `ItemArg` is any other finished node. */
  datatype Arg =
    | IntArg(value: int)
    | StrArg(text: string)
    | AccidentalArg(accidental: Accidental)
    | PitchArg(pitch: Pitch)
    | DurationArg(duration: Duration)
    | GraceArg(grace: GraceNote)
    | NoteArg(note: Note)
    | ChordArg(chord: Chord)
    | ArticulationArg(articulation: ArticulationType)
    | OrnamentArg(ornament: Ornament)
    | VoiceGroup(number: int, contents: seq<Arg>)
    | TempoArg(tempo: TempoMark)
    | TimeArg(sig: TimeSignature)
    | KeyArg(key: KeySignature)
    | StaffArg(staff: Staff)
    | ItemArg(item: Item)

  /** The exceptions a builder or terminal can raise. */
  datatype BuildError =
    | ParseError(message: string)   // `ClefParseError`
    | ZeroDivision                  // `ZeroDivisionError` of a zero denominator
    | UnknownName(name: string)     // `KeyError` of a `from_str` lookup
    | BadInteger(text: string)      // `ValueError` of `int()`
    | MissingPart                   // `IndexError` of a fraction without `/`

  // ================================================================ selection

  /** The payloads `pick` finds among the children, in order. */
  function Select<T>(args: seq<Arg>, pick: Arg -> Option<T>): seq<T>
  {
    if args == [] then []
    else (if pick(args[0]).Some? then [pick(args[0]).value] else []) + Select(args[1..], pick)
  }

  /** What a variable that starts as `init` holds after a loop assigns it every
      element of `s` in turn. */
  function LastOr<T>(s: seq<T>, init: T): T
  {
    if s == [] then init else s[|s| - 1]
  }

  /** The same for an optional variable that starts as `current`. */
  function Overwrite<T>(current: Option<T>, s: seq<T>): Option<T>
  {
    if s == [] then current else Some(s[|s| - 1])
  }

  function Sum(s: seq<int>): int
  {
    if s == [] then 0 else s[0] + Sum(s[1..])
  }

  lemma LastOrThen<T>(h: seq<T>, t: seq<T>, init: T)
    ensures LastOr(h + t, init) == LastOr(t, LastOr(h, init))
  {
    if t == [] {
      assert h + t == h;
    }
  }

  lemma OverwriteThen<T>(h: seq<T>, t: seq<T>, current: Option<T>)
    ensures Overwrite(current, h + t) == Overwrite(Overwrite(current, h), t)
  {
    if t == [] {
      assert h + t == h;
    }
  }

  lemma SumThen(h: seq<int>, t: seq<int>)
    requires |h| <= 1
    ensures Sum(h + t) == Sum(h) + Sum(t)
  {
    if h != [] {
      assert (h + t)[0] == h[0] && (h + t)[1..] == t;
      assert Sum(h) == h[0] + Sum(h[1..]) && h[1..] == [];
    } else {
      assert h + t == t;
    }
  }

  /** `Select` takes the first child, then the rest. */
  /** A field that first gains `h` and then `t` has gained `h + t`. */
  lemma AppendThen<T>(init: seq<T>, h: seq<T>, t: seq<T>, mid: seq<T>, last: seq<T>)
    requires mid == init + h && last == mid + t
    ensures last == init + (h + t)
  {
  }

  lemma SelectCons<T>(args: seq<Arg>, pick: Arg -> Option<T>)
    requires args != []
    ensures Select([args[0]], pick) == if pick(args[0]).Some? then [pick(args[0]).value] else []
    ensures Select(args, pick) == Select([args[0]], pick) + Select(args[1..], pick)
  {
    assert [args[0]][1..] == [];
  }

  function PickInt(a: Arg): Option<int> { if a.IntArg? then Some(a.value) else None }
  function PickStr(a: Arg): Option<string> { if a.StrArg? then Some(a.text) else None }
  function PickAccidental(a: Arg): Option<Accidental> { if a.AccidentalArg? then Some(a.accidental) else None }
  function PickPitch(a: Arg): Option<Pitch> { if a.PitchArg? then Some(a.pitch) else None }
  function PickDuration(a: Arg): Option<Duration> { if a.DurationArg? then Some(a.duration) else None }
  function PickGrace(a: Arg): Option<GraceNote> { if a.GraceArg? then Some(a.grace) else None }
  function PickArticulation(a: Arg): Option<ArticulationType> { if a.ArticulationArg? then Some(a.articulation) else None }
  function PickOrnament(a: Arg): Option<Ornament> { if a.OrnamentArg? then Some(a.ornament) else None }
  function PickTempo(a: Arg): Option<TempoMark> { if a.TempoArg? then Some(a.tempo) else None }
  function PickTime(a: Arg): Option<TimeSignature> { if a.TimeArg? then Some(a.sig) else None }
  function PickKey(a: Arg): Option<KeySignature> { if a.KeyArg? then Some(a.key) else None }
  function PickStaff(a: Arg): Option<Staff> { if a.StaffArg? then Some(a.staff) else None }

  /** A note or a chord, the node `note_or_chord` decorates. */
  function PickTarget(a: Arg): Option<Item>
  {
    if a.NoteArg? then Some(NoteItem(a.note)) else if a.ChordArg? then Some(ChordItem(a.chord)) else None
  }

  /** The child as an entry of a node's contents; a value no stage interprets
      (a stray integer or string, a bare pitch) becomes `Other`. */
  function AsItem(a: Arg): Item
  {
    if a.ItemArg? then a.item
    else if a.NoteArg? then NoteItem(a.note)
    else if a.ChordArg? then ChordItem(a.chord)
    else if a.TempoArg? then TempoItem(a.tempo)
    else if a.TimeArg? then TimeSigItem(a.sig)
    else if a.KeyArg? then KeySigItem(a.key)
    else Other
  }

  /** Every child except strings, as a content entry (what `staff` keeps). */
  function PickContent(a: Arg): Option<Item> { if a.StrArg? then None else Some(AsItem(a)) }

  function Items(cs: seq<Arg>): (r: seq<Item>)
    ensures |r| == |cs| && forall k :: 0 <= k < |cs| ==> r[k] == AsItem(cs[k])
  {
    seq(|cs|, k requires 0 <= k < |cs| => AsItem(cs[k]))
  }

  // ================================================================ terminals

  /** `PITCH_NAME`: the token upper-cased. `None` is a name no note has (the
      `KeyError` the pitch would raise once its MIDI number is asked for). */
  function PitchNameToken(tok: string): (r: Option<Step>)
    ensures r.Some? ==> [StepChar(r.value)] == Upper(tok)
  {
    if |tok| == 1 then StepFromChar(tok[0]) else None
  }

  /** A note name is read the same in either case. */
  lemma PitchNameCase(s: Step)
    ensures PitchNameToken([StepChar(s)]) == Some(s)
    ensures PitchNameToken([LowerChar(StepChar(s))]) == Some(s)
  {
    StepRoundTrip(s);
  }

  /** `FRACTION`: `int(parts[0]) / int(parts[1])` of the token split at `/`. */
  function FractionToken(tok: string): (r: Result<Fraction, BuildError>)
    ensures r.Success? ==> '/' in tok
    ensures r.Success? ==>
      var parts := Split(tok, '/');
      && |parts| >= 2 && ParseInt(parts[0]).Some? && ParseInt(parts[1]).Some? && ParseInt(parts[1]).value != 0
      && Value(r.value) == ParseInt(parts[0]).value as real / ParseInt(parts[1]).value as real
  {
    var parts := Split(tok, '/');
    if |parts| < 2 then Failure(MissingPart)
    else if ParseInt(parts[0]).None? then Failure(BadInteger(parts[0]))
    else if ParseInt(parts[1]).None? then Failure(BadInteger(parts[1]))
    else if ParseInt(parts[1]).value == 0 then Failure(ZeroDivision)
    else Success(MakeFrac(ParseInt(parts[0]).value, ParseInt(parts[1]).value))
  }

  function SignedDigits(i: int): (r: string)
    ensures r == IntToString(i)
    ensures forall k :: 0 <= k < |r| ==> IsDigit(r[k]) || r[k] == '-'
  {
    if i < 0 then
      var d := NatToString(-i);
      assert forall k :: 1 <= k < |"-" + d| ==> ("-" + d)[k] == d[k - 1];
      "-" + d
    else NatToString(i)
  }

  /** Reading `n/d` written out gives the fraction n/d, and a zero denominator
      is the division by zero. */
  lemma FractionRoundTrip(n: int, d: int)
    ensures d != 0 ==> FractionToken(IntToString(n) + "/" + IntToString(d)) == Success(MakeFrac(n, d))
    ensures d == 0 ==> FractionToken(IntToString(n) + "/" + IntToString(d)) == Failure(ZeroDivision)
  {
    var a := SignedDigits(n);
    var b := SignedDigits(d);
    assert '/' !in a && '/' !in b;
    assert Join([a, b], "/") == a + "/" + b by {
      assert [a, b][1..] == [b];
    }
    SplitJoin([a, b], '/');
    ParseIntToString(n);
    ParseIntToString(d);
  }

  // =================================================================== pitch

  /** One turn of the `pitch` loop. */
  function PitchStep(octave: int, accidental: Option<Accidental>, a: Arg): (r: (int, Option<Accidental>))
    ensures r.0 == LastOr(Select([a], PickInt), octave)
    ensures r.1 == Overwrite(accidental, Select([a], PickAccidental))
  {
    SelectCons([a], PickInt);
    SelectCons([a], PickAccidental);
    if a.AccidentalArg? then (octave, Some(a.accidental))
    else if a.IntArg? then (a.value, accidental)
    else (octave, accidental)
  }

  function ScanPitch(octave: int, accidental: Option<Accidental>, args: seq<Arg>): (int, Option<Accidental>)
    decreases |args|
  {
    if args == [] then (octave, accidental)
    else
      var next := PitchStep(octave, accidental, args[0]);
      ScanPitch(next.0, next.1, args[1..])
  }

  lemma {:induction false} ScanPitchOctave(octave: int, accidental: Option<Accidental>, args: seq<Arg>)
    ensures ScanPitch(octave, accidental, args).0 == LastOr(Select(args, PickInt), octave)
    decreases |args|
  {
    if args != [] {
      ScanPitchOctave(PitchStep(octave, accidental, args[0]).0, PitchStep(octave, accidental, args[0]).1, args[1..]);
      SelectCons(args, PickInt);
      LastOrThen(Select([args[0]], PickInt), Select(args[1..], PickInt), octave);
    }
  }

  lemma {:induction false} ScanPitchAccidental(octave: int, accidental: Option<Accidental>, args: seq<Arg>)
    ensures ScanPitch(octave, accidental, args).1 == Overwrite(accidental, Select(args, PickAccidental))
    decreases |args|
  {
    if args != [] {
      ScanPitchAccidental(PitchStep(octave, accidental, args[0]).0, PitchStep(octave, accidental, args[0]).1, args[1..]);
      SelectCons(args, PickAccidental);
      OverwriteThen(Select([args[0]], PickAccidental), Select(args[1..], PickAccidental), accidental);
    }
  }


  /** `pitch`: the octave is the last integer child, 4 when there is none; the
      accidental is the last accidental child, none when there is none. */
  function PitchBuilder(name: Step, args: seq<Arg>): (p: Pitch)
    ensures p.name == name
    ensures p.octave == LastOr(Select(args, PickInt), 4)
    ensures p.accidental == Overwrite(None, Select(args, PickAccidental))
  {
    ScanPitchOctave(4, None, args);
    ScanPitchAccidental(4, None, args);
    var (octave, accidental) := ScanPitch(4, None, args);
    Pitch(name, octave, accidental)
  }

  /** A bare note name is the natural-less note of octave 4. */
  lemma PitchDefaults(name: Step, args: seq<Arg>)
    requires forall k :: 0 <= k < |args| ==> !args[k].IntArg? && !args[k].AccidentalArg?
    ensures PitchBuilder(name, args) == Pitch(name, 4, None)
  {
    SelectNone(args, PickInt);
    SelectNone(args, PickAccidental);
  }

  lemma {:induction false} SelectNone<T>(args: seq<Arg>, pick: Arg -> Option<T>)
    requires forall k :: 0 <= k < |args| ==> pick(args[k]).None?
    ensures Select(args, pick) == []
  {
    if args != [] {
      assert forall k :: 0 <= k < |args[1..]| ==> args[1..][k] == args[k + 1];
      SelectNone(args[1..], pick);
    }
  }

  // =========================================================== notes, chords

  /** The loop state of `note`. */
  datatype NoteParts = NoteParts(graces: seq<GraceNote>, pitch: Option<Pitch>, duration: Option<Duration>, dots: int)

  /** One turn of the `note` loop. */
  function NoteStep(s: NoteParts, a: Arg): (r: NoteParts)
    ensures r.graces == s.graces + Select([a], PickGrace)
    ensures r.pitch == Overwrite(s.pitch, Select([a], PickPitch))
    ensures r.duration == Overwrite(s.duration, Select([a], PickDuration))
    ensures r.dots == s.dots + Sum(Select([a], PickInt))
  {
    SelectCons([a], PickGrace);
    SelectCons([a], PickPitch);
    SelectCons([a], PickDuration);
    SelectCons([a], PickInt);
    if a.GraceArg? then s.(graces := s.graces + [a.grace])
    else if a.PitchArg? then s.(pitch := Some(a.pitch))
    else if a.DurationArg? then s.(duration := Some(a.duration))
    else if a.IntArg? then s.(dots := s.dots + a.value)
    else s
  }

  function ScanNote(s: NoteParts, args: seq<Arg>): NoteParts
    decreases |args|
  {
    if args == [] then s else ScanNote(NoteStep(s, args[0]), args[1..])
  }

  lemma {:induction false} ScanNoteGraces(s: NoteParts, args: seq<Arg>)
    ensures ScanNote(s, args).graces == s.graces + Select(args, PickGrace)
    decreases |args|
  {
    if args != [] {
      var t := NoteStep(s, args[0]);
      ScanNoteGraces(t, args[1..]);
      SelectCons(args, PickGrace);
      AppendThen(s.graces, Select([args[0]], PickGrace), Select(args[1..], PickGrace), t.graces, ScanNote(t, args[1..]).graces);
      assert ScanNote(s, args).graces == ScanNote(t, args[1..]).graces;
    }
  }

  lemma {:induction false} ScanNotePitch(s: NoteParts, args: seq<Arg>)
    ensures ScanNote(s, args).pitch == Overwrite(s.pitch, Select(args, PickPitch))
    decreases |args|
  {
    if args != [] {
      ScanNotePitch(NoteStep(s, args[0]), args[1..]);
      SelectCons(args, PickPitch);
      OverwriteThen(Select([args[0]], PickPitch), Select(args[1..], PickPitch), s.pitch);
    }
  }

  lemma {:induction false} ScanNoteDuration(s: NoteParts, args: seq<Arg>)
    ensures ScanNote(s, args).duration == Overwrite(s.duration, Select(args, PickDuration))
    decreases |args|
  {
    if args != [] {
      ScanNoteDuration(NoteStep(s, args[0]), args[1..]);
      SelectCons(args, PickDuration);
      OverwriteThen(Select([args[0]], PickDuration), Select(args[1..], PickDuration), s.duration);
    }
  }

  lemma {:induction false} ScanNoteDots(s: NoteParts, args: seq<Arg>)
    ensures ScanNote(s, args).dots == s.dots + Sum(Select(args, PickInt))
    decreases |args|
  {
    if args != [] {
      ScanNoteDots(NoteStep(s, args[0]), args[1..]);
      SelectCons(args, PickInt);
      SumThen(Select([args[0]], PickInt), Select(args[1..], PickInt));
    }
  }


  /** `Duration(base_value=duration.base_value, dots=dots)` when there are dots. */
  function Dotted(d: Duration, dots: int): Duration
  {
    if dots > 0 then Duration(d.base, dots) else d
  }

  /** `note`: the last pitch and the last duration, the dots summed onto that
      duration's base value, and every grace note in order; no articulation,
      ornament or tie yet. Without a pitch or a duration it is a parse error. */
  function NoteBuilder(args: seq<Arg>): (r: Result<Note, BuildError>)
    ensures r.Success? <==> Select(args, PickPitch) != [] && Select(args, PickDuration) != []
    ensures r.Failure? ==> r.error == ParseError("Note requires pitch and duration")
    ensures r.Success? ==>
      var ps := Select(args, PickPitch);
      var ds := Select(args, PickDuration);
      var dots := Sum(Select(args, PickInt));
      && r.value.pitch == ps[|ps| - 1]
      && r.value.duration.base == ds[|ds| - 1].base
      && r.value.duration.dots == (if dots > 0 then dots else ds[|ds| - 1].dots)
      && r.value.graceNotes == Select(args, PickGrace)
      && r.value.articulations == [] && r.value.ornaments == [] && !r.value.tied
  {
    var s0 := NoteParts([], None, None, 0);
    ScanNoteGraces(s0, args);
    ScanNotePitch(s0, args);
    ScanNoteDuration(s0, args);
    ScanNoteDots(s0, args);
    var s := ScanNote(s0, args);
    if s.pitch.None? || s.duration.None? then Failure(ParseError("Note requires pitch and duration"))
    else Success(Note(s.pitch.value, Dotted(s.duration.value, s.dots), [], [], false, s.graces))
  }

  /** The loop state of `chord`. */
  datatype ChordParts = ChordParts(pitches: seq<Pitch>, duration: Option<Duration>, dots: int)

  /** One turn of the `chord` loop. */
  function ChordStep(s: ChordParts, a: Arg): (r: ChordParts)
    ensures r.pitches == s.pitches + Select([a], PickPitch)
    ensures r.duration == Overwrite(s.duration, Select([a], PickDuration))
    ensures r.dots == s.dots + Sum(Select([a], PickInt))
  {
    SelectCons([a], PickPitch);
    SelectCons([a], PickDuration);
    SelectCons([a], PickInt);
    if a.PitchArg? then s.(pitches := s.pitches + [a.pitch])
    else if a.DurationArg? then s.(duration := Some(a.duration))
    else if a.IntArg? then s.(dots := s.dots + a.value)
    else s
  }

  function ScanChord(s: ChordParts, args: seq<Arg>): ChordParts
    decreases |args|
  {
    if args == [] then s else ScanChord(ChordStep(s, args[0]), args[1..])
  }

  lemma {:induction false} ScanChordPitches(s: ChordParts, args: seq<Arg>)
    ensures ScanChord(s, args).pitches == s.pitches + Select(args, PickPitch)
    decreases |args|
  {
    if args != [] {
      var t := ChordStep(s, args[0]);
      ScanChordPitches(t, args[1..]);
      SelectCons(args, PickPitch);
      AppendThen(s.pitches, Select([args[0]], PickPitch), Select(args[1..], PickPitch), t.pitches, ScanChord(t, args[1..]).pitches);
      assert ScanChord(s, args).pitches == ScanChord(t, args[1..]).pitches;
    }
  }

  lemma {:induction false} ScanChordDuration(s: ChordParts, args: seq<Arg>)
    ensures ScanChord(s, args).duration == Overwrite(s.duration, Select(args, PickDuration))
    decreases |args|
  {
    if args != [] {
      ScanChordDuration(ChordStep(s, args[0]), args[1..]);
      SelectCons(args, PickDuration);
      OverwriteThen(Select([args[0]], PickDuration), Select(args[1..], PickDuration), s.duration);
    }
  }

  lemma {:induction false} ScanChordDots(s: ChordParts, args: seq<Arg>)
    ensures ScanChord(s, args).dots == s.dots + Sum(Select(args, PickInt))
    decreases |args|
  {
    if args != [] {
      ScanChordDots(ChordStep(s, args[0]), args[1..]);
      SelectCons(args, PickInt);
      SumThen(Select([args[0]], PickInt), Select(args[1..], PickInt));
    }
  }


  /** `chord`: every pitch in order, the last duration with the dots summed onto
      its base value; grace notes are not taken. Without a pitch or a duration it
      is a parse error. */
  function ChordBuilder(args: seq<Arg>): (r: Result<Chord, BuildError>)
    ensures r.Success? <==> Select(args, PickPitch) != [] && Select(args, PickDuration) != []
    ensures r.Failure? ==> r.error == ParseError("Chord requires at least one pitch and a duration")
    ensures r.Success? ==>
      var ds := Select(args, PickDuration);
      var dots := Sum(Select(args, PickInt));
      && r.value.pitches == Select(args, PickPitch)
      && r.value.duration.base == ds[|ds| - 1].base
      && r.value.duration.dots == (if dots > 0 then dots else ds[|ds| - 1].dots)
      && r.value.graceNotes == [] && r.value.articulations == [] && r.value.ornaments == [] && !r.value.tied
  {
    var s0 := ChordParts([], None, 0);
    ScanChordPitches(s0, args);
    ScanChordDuration(s0, args);
    ScanChordDots(s0, args);
    var s := ScanChord(s0, args);
    if s.pitches == [] || s.duration.None? then Failure(ParseError("Chord requires at least one pitch and a duration"))
    else Success(Chord(s.pitches, Dotted(s.duration.value, s.dots), [], [], false, []))
  }

  lemma {:induction false} SelectConcat<T>(a: seq<Arg>, b: seq<Arg>, pick: Arg -> Option<T>)
    ensures Select(a + b, pick) == Select(a, pick) + Select(b, pick)
  {
    if a == [] {
      assert a + b == b;
    } else {
      var ab := a + b;
      assert ab[0] == a[0] && ab[1..] == a[1..] + b;
      SelectCons(ab, pick);
      SelectCons(a, pick);
      SelectConcat(a[1..], b, pick);
      Associative(Select([a[0]], pick), Select(a[1..], pick), Select(b, pick));
    }
  }

  /** Every dot token is the integer 1, so a note's dots count its dot tokens. */
  lemma NoteDotTokens(pitch: Pitch, d: Duration, dots: seq<Arg>)
    requires dots != [] && forall k :: 0 <= k < |dots| ==> dots[k] == IntArg(1)
    ensures NoteBuilder([PitchArg(pitch), DurationArg(d)] + dots).Success?
    ensures NoteBuilder([PitchArg(pitch), DurationArg(d)] + dots).value.duration == Duration(d.base, |dots|)
  {
    var head := [PitchArg(pitch), DurationArg(d)];
    assert head[1..] == [DurationArg(d)];
    SelectCons(head, PickPitch);
    SelectCons(head, PickDuration);
    SelectCons(head[1..], PickPitch);
    SelectCons(head[1..], PickDuration);
    SelectConcat(head, dots, PickPitch);
    SelectConcat(head, dots, PickDuration);
    SelectConcat(head, dots, PickInt);
    SelectNone(dots, PickPitch);
    SelectNone(dots, PickDuration);
    SelectNone(head, PickInt);
    OnesSum(dots);
    var args := head + dots;
    assert Select(args, PickDuration) == [d];
    assert Select(args, PickPitch) == [pitch];
    assert Select(args, PickInt) == [] + Select(dots, PickInt) == Select(dots, PickInt);
  }

  lemma {:induction false} OnesSum(dots: seq<Arg>)
    requires forall k :: 0 <= k < |dots| ==> dots[k] == IntArg(1)
    ensures Sum(Select(dots, PickInt)) == |dots|
  {
    if dots != [] {
      assert forall k :: 0 <= k < |dots[1..]| ==> dots[1..][k] == dots[k + 1];
      OnesSum(dots[1..]);
      SumThen([1], Select(dots[1..], PickInt));
    }
  }

  /** The loop state of `note_or_chord`. */
  datatype Decorations = Decorations(target: Option<Item>, articulations: seq<ArticulationType>,
                                     ornaments: seq<Ornament>, tied: bool)

  /** One turn of the `note_or_chord` loop. */
  function DecorationStep(s: Decorations, a: Arg): (r: Decorations)
    ensures r.target == Overwrite(s.target, Select([a], PickTarget))
    ensures r.articulations == s.articulations + Select([a], PickArticulation)
    ensures r.ornaments == s.ornaments + Select([a], PickOrnament)
    ensures r.tied <==> s.tied || a == StrArg("tie")
  {
    SelectCons([a], PickTarget);
    SelectCons([a], PickArticulation);
    SelectCons([a], PickOrnament);
    if a.NoteArg? || a.ChordArg? then s.(target := PickTarget(a))
    else if a.ArticulationArg? then s.(articulations := s.articulations + [a.articulation])
    else if a.OrnamentArg? then s.(ornaments := s.ornaments + [a.ornament])
    else if a == StrArg("tie") then s.(tied := true)
    else s
  }

  function ScanDecorations(s: Decorations, args: seq<Arg>): Decorations
    decreases |args|
  {
    if args == [] then s else ScanDecorations(DecorationStep(s, args[0]), args[1..])
  }

  lemma {:induction false} ScanTarget(s: Decorations, args: seq<Arg>)
    ensures ScanDecorations(s, args).target == Overwrite(s.target, Select(args, PickTarget))
    decreases |args|
  {
    if args != [] {
      ScanTarget(DecorationStep(s, args[0]), args[1..]);
      SelectCons(args, PickTarget);
      OverwriteThen(Select([args[0]], PickTarget), Select(args[1..], PickTarget), s.target);
    }
  }

  lemma {:induction false} ScanArticulations(s: Decorations, args: seq<Arg>)
    ensures ScanDecorations(s, args).articulations == s.articulations + Select(args, PickArticulation)
    decreases |args|
  {
    if args != [] {
      var t := DecorationStep(s, args[0]);
      ScanArticulations(t, args[1..]);
      SelectCons(args, PickArticulation);
      AppendThen(s.articulations, Select([args[0]], PickArticulation), Select(args[1..], PickArticulation), t.articulations, ScanDecorations(t, args[1..]).articulations);
      assert ScanDecorations(s, args).articulations == ScanDecorations(t, args[1..]).articulations;
    }
  }

  lemma {:induction false} ScanOrnaments(s: Decorations, args: seq<Arg>)
    ensures ScanDecorations(s, args).ornaments == s.ornaments + Select(args, PickOrnament)
    decreases |args|
  {
    if args != [] {
      var t := DecorationStep(s, args[0]);
      ScanOrnaments(t, args[1..]);
      SelectCons(args, PickOrnament);
      AppendThen(s.ornaments, Select([args[0]], PickOrnament), Select(args[1..], PickOrnament), t.ornaments, ScanDecorations(t, args[1..]).ornaments);
      assert ScanDecorations(s, args).ornaments == ScanDecorations(t, args[1..]).ornaments;
    }
  }

  lemma {:induction false} ScanTied(s: Decorations, args: seq<Arg>)
    ensures ScanDecorations(s, args).tied <==> s.tied || StrArg("tie") in args
    decreases |args|
  {
    if args != [] {
      ScanTied(DecorationStep(s, args[0]), args[1..]);
      assert args == [args[0]] + args[1..];
    }
  }


  /** A note or chord with its articulations, ornaments and tie replaced; its pitch(es),
      duration and grace notes stay as they were. */
  function Decorate(t: Item, articulations: seq<ArticulationType>, ornaments: seq<Ornament>, tied: bool): Item {
    if t.NoteItem? then
      NoteItem(t.note.(articulations := articulations, ornaments := ornaments, tied := tied))
    else if t.ChordItem? then
      ChordItem(t.chord.(articulations := articulations, ornaments := ornaments, tied := tied))
    else t
  }

  /** What scanning the children of `note_or_chord` collects, field by field. */
  lemma DecorationsOfArgs(args: seq<Arg>)
    ensures var s := ScanDecorations(Decorations(None, [], [], false), args);
      var ts := Select(args, PickTarget);
      && (s.target.Some? <==> ts != [])
      && (s.target.Some? ==> s.target.value == ts[|ts| - 1] && (s.target.value.NoteItem? || s.target.value.ChordItem?))
      && s.articulations == Select(args, PickArticulation)
      && s.ornaments == Select(args, PickOrnament)
      && (s.tied <==> StrArg("tie") in args)
  {
    var s0 := Decorations(None, [], [], false);
    ScanTarget(s0, args);
    ScanArticulations(s0, args);
    ScanOrnaments(s0, args);
    ScanTied(s0, args);
    var ts := Select(args, PickTarget);
    if ts != [] {
      SelectPicked(args, PickTarget, |ts| - 1);
    }
  }

  /** `note_or_chord`: the last note or chord, keeping its pitch(es), duration and
      grace notes, with all articulations and ornaments in source order and tied
      exactly when a `tie` marker is among the children. */
  function NoteOrChord(args: seq<Arg>): (r: Result<Item, BuildError>)
    ensures r.Success? <==> Select(args, PickTarget) != []
    ensures r.Failure? ==> r.error == ParseError("Expected note or chord")
    ensures r.Success? ==>
      var ts := Select(args, PickTarget);
      var t := ts[|ts| - 1];
      && (t.NoteItem? || t.ChordItem?)
      && r.value == Decorate(t, Select(args, PickArticulation), Select(args, PickOrnament), StrArg("tie") in args)
  {
    var s := ScanDecorations(Decorations(None, [], [], false), args);
    DecorationsOfArgs(args);
    if s.target.None? then Failure(ParseError("Expected note or chord"))
    else
      Success(Decorate(s.target.value, s.articulations, s.ornaments, s.tied))
  }

  lemma {:induction false} SelectPicked<T>(args: seq<Arg>, pick: Arg -> Option<T>, k: nat)
    requires k < |Select(args, pick)|
    ensures exists i :: 0 <= i < |args| && pick(args[i]) == Some(Select(args, pick)[k])
  {
    var h := if pick(args[0]).Some? then [pick(args[0]).value] else [];
    var t := Select(args[1..], pick);
    assert Select(args, pick) == h + t;
    if k < |h| {
      assert pick(args[0]) == Some(Select(args, pick)[k]);
    } else {
      SelectPicked(args[1..], pick, k - |h|);
      var i :| 0 <= i < |args[1..]| && pick(args[1..][i]) == Some(t[k - |h|]);
      assert pick(args[i + 1]) == Some(Select(args, pick)[k]);
    }
  }

  // ===================================================================== rest

  /** The number of dot children equal to 1. */
  function Ones(dots: seq<int>): (n: nat)
    ensures n == multiset(dots)[1]
  {
    if dots == [] then 0
    else
      assert dots == [dots[0]] + dots[1..];
      (if dots[0] == 1 then 1 else 0) + Ones(dots[1..])
  }

  /** `rest`: the dots are counted onto the duration's base value; without dots
      the duration is kept as it is. */
  function RestBuilder(d: Duration, dots: seq<int>): (r: Item)
    ensures r.RestItem? && r.duration.base == d.base
    ensures r.duration.dots == if 1 in dots then multiset(dots)[1] else d.dots
  {
    RestItem(Dotted(d, Ones(dots)))
  }

  // ================================================================ markings

  /** The denominator `hairpin` divides by: its first extra child when that is
      an integer, else 1. */
  function HairpinDenominator(args: seq<Arg>): int
  {
    if args != [] && args[0].IntArg? then args[0].value else 1
  }

  /** `hairpin`: `Fraction(beats, den)` beats long, `den` defaulting to 1. The
      fraction is built before the type is looked up, so a zero denominator is
      reported even for an unknown type. */
  function HairpinBuilder(kind: string, beats: int, args: seq<Arg>): (r: Result<Item, BuildError>)
    ensures r.Success? <==> HairpinDenominator(args) != 0 && HairpinFromStr(kind).Some?
    ensures HairpinDenominator(args) == 0 ==> r == Failure(ZeroDivision)
    ensures r.Success? ==>
      && r.value.HairpinItem? && Some(r.value.hairpin) == HairpinFromStr(kind)
      && r.value.length * HairpinDenominator(args) as real == beats as real
  {
    var den := if args != [] && args[0].IntArg? then args[0].value else 1;
    if den == 0 then Failure(ZeroDivision)
    else
      var length := beats as real / den as real;
      match HairpinFromStr(kind)
      case None => Failure(UnknownName(kind))
      case Some(h) => Success(HairpinItem(h, length))
  }

  /** One turn of the `key_signature` loop. */
  function KeyStep(accidental: Option<Accidental>, mode: string, a: Arg): (r: (Option<Accidental>, string))
    ensures r.0 == Overwrite(accidental, Select([a], PickAccidental))
    ensures r.1 == LastOr(Select([a], PickStr), mode)
  {
    SelectCons([a], PickAccidental);
    SelectCons([a], PickStr);
    if a.AccidentalArg? then (Some(a.accidental), mode)
    else if a.StrArg? then (accidental, a.text)
    else (accidental, mode)
  }

  function ScanKey(accidental: Option<Accidental>, mode: string, args: seq<Arg>): (Option<Accidental>, string)
    decreases |args|
  {
    if args == [] then (accidental, mode)
    else
      var next := KeyStep(accidental, mode, args[0]);
      ScanKey(next.0, next.1, args[1..])
  }

  lemma {:induction false} ScanKeyAccidental(accidental: Option<Accidental>, mode: string, args: seq<Arg>)
    ensures ScanKey(accidental, mode, args).0 == Overwrite(accidental, Select(args, PickAccidental))
    decreases |args|
  {
    if args != [] {
      ScanKeyAccidental(KeyStep(accidental, mode, args[0]).0, KeyStep(accidental, mode, args[0]).1, args[1..]);
      SelectCons(args, PickAccidental);
      OverwriteThen(Select([args[0]], PickAccidental), Select(args[1..], PickAccidental), accidental);
    }
  }

  lemma {:induction false} ScanKeyMode(accidental: Option<Accidental>, mode: string, args: seq<Arg>)
    ensures ScanKey(accidental, mode, args).1 == LastOr(Select(args, PickStr), mode)
    decreases |args|
  {
    if args != [] {
      ScanKeyMode(KeyStep(accidental, mode, args[0]).0, KeyStep(accidental, mode, args[0]).1, args[1..]);
      SelectCons(args, PickStr);
      LastOrThen(Select([args[0]], PickStr), Select(args[1..], PickStr), mode);
    }
  }


  /** `key_signature`: the first child is the root; after it the last accidental
      and the last mode win, and the mode is "major" when none is given. */
  function KeyBuilder(root: string, args: seq<Arg>): (k: KeySignature)
    ensures k.root == root
    ensures k.accidental == Overwrite(None, Select(args, PickAccidental))
    ensures k.mode == LastOr(Select(args, PickStr), "major")
  {
    ScanKeyAccidental(None, "major", args);
    ScanKeyMode(None, "major", args);
    var (accidental, mode) := ScanKey(None, "major", args);
    KeySignature(root, mode, accidental)
  }

  // ================================================================= measure

  /** An in-measure voice's items, each marked with the voice number. */
  function Mark(n: int, cs: seq<Arg>): (r: seq<Item>)
    ensures |r| == |cs| && forall k :: 0 <= k < |cs| ==> r[k] == Marked(n, AsItem(cs[k]))
  {
    seq(|cs|, k requires 0 <= k < |cs| => Marked(n, AsItem(cs[k])))
  }

  /** What one child of a measure adds to its contents: a voice group its marked
      items, anything else itself. */
  function Contributed(a: Arg): seq<Item>
  {
    if a.VoiceGroup? then Mark(a.number, a.contents) else [AsItem(a)]
  }

  /** The contents the children of a measure contribute, voice groups flattened. */
  function Expand(args: seq<Arg>): seq<Item>
  {
    if args == [] then [] else Contributed(args[0]) + Expand(args[1..])
  }

  lemma ExpandCons(a: Arg, rest: seq<Arg>)
    ensures Expand([a] + rest) == Contributed(a) + Expand(rest)
  {
    assert ([a] + rest)[0] == a && ([a] + rest)[1..] == rest;
  }

  lemma {:induction false} ExpandConcat(a: seq<Arg>, b: seq<Arg>)
    ensures Expand(a + b) == Expand(a) + Expand(b)
  {
    if a == [] {
      assert a + b == b;
    } else {
      assert (a + b)[0] == a[0] && (a + b)[1..] == a[1..] + b;
      ExpandConcat(a[1..], b);
    }
  }

  /** The children without their first integer. */
  function DropFirstInt(args: seq<Arg>): (r: seq<Arg>)
  {
    if args == [] then []
    else if args[0].IntArg? then args[1..]
    else [args[0]] + DropFirstInt(args[1..])
  }

  function First<T>(s: seq<T>): Option<T>
  {
    if s == [] then None else Some(s[0])
  }

  /** One child of a measure: the first integer sets the number, anything else is
      contributed to the contents. */
  function MeasureStep(number: Option<int>, contents: seq<Item>, a: Arg): (Option<int>, seq<Item>)
  {
    if a.IntArg? && number.None? then (Some(a.value), contents) else (number, contents + Contributed(a))
  }

  function ScanMeasure(number: Option<int>, contents: seq<Item>, args: seq<Arg>): (Option<int>, seq<Item>)
    decreases |args|
  {
    if args == [] then (number, contents)
    else
      var (n, cs) := MeasureStep(number, contents, args[0]);
      ScanMeasure(n, cs, args[1..])
  }

  lemma {:induction false} ScanMeasureNumber(number: Option<int>, contents: seq<Item>, args: seq<Arg>)
    ensures ScanMeasure(number, contents, args).0 == if number.Some? then number else First(Select(args, PickInt))
    decreases |args|
  {
    if args != [] {
      var (n, cs) := MeasureStep(number, contents, args[0]);
      ScanMeasureNumber(n, cs, args[1..]);
      SelectCons(args, PickInt);
    }
  }

  lemma {:induction false} ScanMeasureContents(number: Option<int>, contents: seq<Item>, args: seq<Arg>)
    ensures ScanMeasure(number, contents, args).1 == contents + Expand(if number.Some? then args else DropFirstInt(args))
    decreases |args|
  {
    if args != [] {
      var a := args[0];
      var (n, cs) := MeasureStep(number, contents, a);
      ScanMeasureContents(n, cs, args[1..]);
      assert ScanMeasure(number, contents, args).1 == ScanMeasure(n, cs, args[1..]).1;
      if !(a.IntArg? && number.None?) {
        var rest := if number.Some? then args[1..] else DropFirstInt(args[1..]);
        assert (if number.Some? then args else DropFirstInt(args)) == [a] + rest by {
          assert args == [a] + args[1..];
        }
        ExpandCons(a, rest);
        AppendThen(contents, Contributed(a), Expand(rest), cs, ScanMeasure(n, cs, args[1..]).1);
      }
    }
  }

  /** `measure`: the first integer child is the measure number; every other child
      is kept in order, and each in-measure voice is flattened into one
      `Marked(n, item)` entry per item. */
  function MeasureBuilder(args: seq<Arg>): (r: Item)
    ensures r.MeasureItem?
    ensures r.measureNo == First(Select(args, PickInt))
    ensures r.contents == Expand(DropFirstInt(args))
  {
    ScanMeasureNumber(None, [], args);
    ScanMeasureContents(None, [], args);
    var (number, contents) := ScanMeasure(None, [], args);
    assert [] + Expand(DropFirstInt(args)) == Expand(DropFirstInt(args));
    MeasureItem(contents, number)
  }

  /** The items of every voice group numbered `n`, in order. */
  function GroupItems(args: seq<Arg>, n: int): seq<Item>
  {
    if args == [] then []
    else
      (if args[0].VoiceGroup? && args[0].number == n then Items(args[0].contents) else [])
      + GroupItems(args[1..], n)
  }

  /** No child is already a marked entry, so only voice groups produce marks. */
  predicate Unmarked(args: seq<Arg>)
  {
    forall k :: 0 <= k < |args| ==> !AsItem(args[k]).Marked?
  }

  lemma {:induction false} VoiceItemsConcat(a: seq<Item>, b: seq<Item>, n: int)
    ensures Analyzer.VoiceItems(a + b, n) == Analyzer.VoiceItems(a, n) + Analyzer.VoiceItems(b, n)
  {
    if a == [] {
      assert a + b == b;
    } else {
      assert (a + b)[0] == a[0] && (a + b)[1..] == a[1..] + b;
      VoiceItemsConcat(a[1..], b, n);
    }
  }

  lemma {:induction false} VoiceItemsMark(m: int, cs: seq<Arg>, n: int)
    ensures Analyzer.VoiceItems(Mark(m, cs), n) == if m == n then Items(cs) else []
  {
    if cs != [] {
      VoiceItemsMark(m, cs[1..], n);
      assert Mark(m, cs)[1..] == Mark(m, cs[1..]);
      assert Items(cs) == [AsItem(cs[0])] + Items(cs[1..]);
    }
  }

  lemma {:induction false} VoiceItemsExpand(args: seq<Arg>, n: int)
    requires Unmarked(args)
    ensures Analyzer.VoiceItems(Expand(args), n) == GroupItems(args, n)
  {
    if args != [] {
      var h := Contributed(args[0]);
      assert Unmarked(args[1..]) by {
        forall k | 0 <= k < |args[1..]| ensures !AsItem(args[1..][k]).Marked? {
          assert args[1..][k] == args[k + 1];
        }
      }
      VoiceItemsExpand(args[1..], n);
      VoiceItemsConcat(h, Expand(args[1..]), n);
      if args[0].VoiceGroup? {
        VoiceItemsMark(args[0].number, args[0].contents, n);
      } else {
        assert Analyzer.VoiceItems(h, n) == [];
      }
    }
  }

  lemma {:induction false} DropFirstIntGroups(args: seq<Arg>, n: int)
    ensures GroupItems(DropFirstInt(args), n) == GroupItems(args, n)
    ensures Unmarked(args) ==> Unmarked(DropFirstInt(args))
  {
    if args != [] && !args[0].IntArg? {
      DropFirstIntGroups(args[1..], n);
      var t := DropFirstInt(args[1..]);
      assert ([args[0]] + t)[1..] == t;
      if Unmarked(args) {
        assert Unmarked(args[1..]) by {
          forall k | 0 <= k < |args[1..]| ensures !AsItem(args[1..][k]).Marked? {
            assert args[1..][k] == args[k + 1];
          }
        }
        forall k | 0 <= k < |[args[0]] + t| ensures !AsItem(([args[0]] + t)[k]).Marked? {
          if k > 0 {
            assert ([args[0]] + t)[k] == t[k - 1];
          }
        }
      }
    } else if args != [] && Unmarked(args) {
      forall k | 0 <= k < |args[1..]| ensures !AsItem(args[1..][k]).Marked? {
        assert args[1..][k] == args[k + 1];
      }
    }
  }

  /** What the analyzer and the compiler read back from a built measure as
      voice `n` is exactly the items written in the voice groups numbered `n`,
      in source order. */
  lemma MeasureVoices(args: seq<Arg>, n: int)
    requires Unmarked(args)
    ensures Analyzer.VoiceItems(MeasureBuilder(args).contents, n) == GroupItems(args, n)
  {
    DropFirstIntGroups(args, n);
    VoiceItemsExpand(DropFirstInt(args), n);
  }

  /** A measure without in-measure voices has no voice blocks to regroup. */
  lemma {:induction false} PlainMeasureUnmarked(args: seq<Arg>)
    requires Unmarked(args)
    requires forall k :: 0 <= k < |args| ==> !args[k].VoiceGroup?
    ensures Measures.MarkedVoices(Expand(args)) == []
  {
    if args != [] {
      assert Unmarked(args[1..]) by {
        forall k | 0 <= k < |args[1..]| ensures !AsItem(args[1..][k]).Marked? {
          assert args[1..][k] == args[k + 1];
        }
      }
      assert forall k :: 0 <= k < |args[1..]| ==> args[1..][k] == args[k + 1];
      PlainMeasureUnmarked(args[1..]);
      var e := Expand(args);
      assert e == [AsItem(args[0])] + Expand(args[1..]);
      assert e[1..] == Expand(args[1..]);
    }
  }

  // =================================================================== staff

  /** One turn of the `staff` loop. */
  function StaffStep(instrument: Option<string>, contents: seq<Item>, a: Arg): (r: (Option<string>, seq<Item>))
    ensures r.0 == Overwrite(instrument, Select([a], PickStr))
    ensures r.1 == contents + Select([a], PickContent)
  {
    SelectCons([a], PickStr);
    SelectCons([a], PickContent);
    if a.StrArg? then (Some(a.text), contents) else (instrument, contents + [AsItem(a)])
  }

  function ScanStaff(instrument: Option<string>, contents: seq<Item>, args: seq<Arg>): (Option<string>, seq<Item>)
    decreases |args|
  {
    if args == [] then (instrument, contents)
    else
      var next := StaffStep(instrument, contents, args[0]);
      ScanStaff(next.0, next.1, args[1..])
  }

  lemma {:induction false} ScanStaffInstrument(instrument: Option<string>, contents: seq<Item>, args: seq<Arg>)
    ensures ScanStaff(instrument, contents, args).0 == Overwrite(instrument, Select(args, PickStr))
    decreases |args|
  {
    if args != [] {
      ScanStaffInstrument(StaffStep(instrument, contents, args[0]).0, StaffStep(instrument, contents, args[0]).1, args[1..]);
      SelectCons(args, PickStr);
      OverwriteThen(Select([args[0]], PickStr), Select(args[1..], PickStr), instrument);
    }
  }

  lemma {:induction false} ScanStaffContents(instrument: Option<string>, contents: seq<Item>, args: seq<Arg>)
    ensures ScanStaff(instrument, contents, args).1 == contents + Select(args, PickContent)
    decreases |args|
  {
    if args != [] {
      var t := StaffStep(instrument, contents, args[0]);
      ScanStaffContents(t.0, t.1, args[1..]);
      SelectCons(args, PickContent);
      assert ScanStaff(instrument, contents, args) == ScanStaff(t.0, t.1, args[1..]);
      assert contents + Select([args[0]], PickContent) + Select(args[1..], PickContent) == contents + Select(args, PickContent);
    }
  }


  /** `staff`: the last string child names the instrument; every other child is
      content, in order. */
  function StaffBuilder(name: string, args: seq<Arg>): (s: Staff)
    ensures s.name == name
    ensures s.instrument == Overwrite(None, Select(args, PickStr))
    ensures s.contents == Select(args, PickContent)
  {
    ScanStaffInstrument(None, [], args);
    ScanStaffContents(None, [], args);
    var (instrument, contents) := ScanStaff(None, [], args);
    Staff(name, contents, instrument)
  }

  // =================================================================== score

  /** One turn of the `score` loop. */
  function ScoreStep(s: Score, a: Arg): (r: Score)
    ensures r.staves == s.staves + Select([a], PickStaff)
    ensures r.tempo == Overwrite(s.tempo, Select([a], PickTempo))
    ensures r.timeSignature == Overwrite(s.timeSignature, Select([a], PickTime))
    ensures r.keySignature == Overwrite(s.keySignature, Select([a], PickKey))
  {
    SelectCons([a], PickStaff);
    SelectCons([a], PickTempo);
    SelectCons([a], PickTime);
    SelectCons([a], PickKey);
    if a.TempoArg? then s.(tempo := Some(a.tempo))
    else if a.TimeArg? then s.(timeSignature := Some(a.sig))
    else if a.KeyArg? then s.(keySignature := Some(a.key))
    else if a.StaffArg? then s.(staves := s.staves + [a.staff])
    else s
  }

  function ScanScore(s: Score, args: seq<Arg>): Score
    decreases |args|
  {
    if args == [] then s else ScanScore(ScoreStep(s, args[0]), args[1..])
  }

  lemma {:induction false} ScanStaves(s: Score, args: seq<Arg>)
    ensures ScanScore(s, args).staves == s.staves + Select(args, PickStaff)
    decreases |args|
  {
    if args != [] {
      var t := ScoreStep(s, args[0]);
      ScanStaves(t, args[1..]);
      SelectCons(args, PickStaff);
      AppendThen(s.staves, Select([args[0]], PickStaff), Select(args[1..], PickStaff), t.staves, ScanScore(t, args[1..]).staves);
      assert ScanScore(s, args).staves == ScanScore(t, args[1..]).staves;
    }
  }

  lemma {:induction false} ScanTempo(s: Score, args: seq<Arg>)
    ensures ScanScore(s, args).tempo == Overwrite(s.tempo, Select(args, PickTempo))
    decreases |args|
  {
    if args != [] {
      ScanTempo(ScoreStep(s, args[0]), args[1..]);
      SelectCons(args, PickTempo);
      OverwriteThen(Select([args[0]], PickTempo), Select(args[1..], PickTempo), s.tempo);
    }
  }

  lemma {:induction false} ScanTime(s: Score, args: seq<Arg>)
    ensures ScanScore(s, args).timeSignature == Overwrite(s.timeSignature, Select(args, PickTime))
    decreases |args|
  {
    if args != [] {
      ScanTime(ScoreStep(s, args[0]), args[1..]);
      SelectCons(args, PickTime);
      OverwriteThen(Select([args[0]], PickTime), Select(args[1..], PickTime), s.timeSignature);
    }
  }

  lemma {:induction false} ScanKeySignature(s: Score, args: seq<Arg>)
    ensures ScanScore(s, args).keySignature == Overwrite(s.keySignature, Select(args, PickKey))
    decreases |args|
  {
    if args != [] {
      ScanKeySignature(ScoreStep(s, args[0]), args[1..]);
      SelectCons(args, PickKey);
      OverwriteThen(Select([args[0]], PickKey), Select(args[1..], PickKey), s.keySignature);
    }
  }


  /** `score`: the last tempo, time signature and key signature win, and every
      staff is kept in order. */
  function ScoreBuilder(args: seq<Arg>): (r: Score)
    ensures r.staves == Select(args, PickStaff)
    ensures r.tempo == Overwrite(None, Select(args, PickTempo))
    ensures r.timeSignature == Overwrite(None, Select(args, PickTime))
    ensures r.keySignature == Overwrite(None, Select(args, PickKey))
  {
    var s0 := Score([], None, None, None);
    ScanStaves(s0, args);
    ScanTempo(s0, args);
    ScanTime(s0, args);
    ScanKeySignature(s0, args);
    ScanScore(s0, args)
  }

  // ========================================================== error messages

  /** `_get_context`: line `line` (counted from 1) of the source, or "" when
      there is no such line. */
  function GetContext(source: string, line: int): (r: string)
    ensures forall i :: 0 <= i < |r| ==> !IsLineBreak(r[i])
    ensures r != "" ==> 0 < line <= |SplitLines(source)|
  {
    var lines := SplitLines(source);
    SplitLinesNoBreaks(source);
    if 0 < line <= |lines| then lines[line - 1] else ""
  }

  /** For text written line by line, the context of line `k` is that line. */
  lemma ContextOfLines(lines: seq<string>, line: int)
    requires NoLineBreaks(lines)
    ensures 0 < line <= |lines| ==> GetContext(Terminated(lines), line) == lines[line - 1]
    ensures !(0 < line <= |lines|) ==> GetContext(Terminated(lines), line) == ""
  {
    SplitLinesTerminated(lines);
  }

  /** `" at line L"`, followed by `", column C"` only when the line is known. */
  function Location(line: Option<int>, column: Option<int>): string
  {
    if line.None? then ""
    else " at line " + IntToString(line.value) + (if column.None? then "" else ", column " + IntToString(column.value))
  }

  /** A context is shown only when it is a non-empty string. */
  predicate Shown(context: Option<string>) { context.Some? && context.value != "" }

  /** `ClefParseError._format_message`. The message comes first; the location adds
      no line of its own, and a shown context adds exactly one line break before it. */
  function FormatMessage(message: string, line: Option<int>, column: Option<int>, context: Option<string>): (r: string)
    ensures message <= r
    ensures Count(r, '\n') == Count(message, '\n') + (if Shown(context) then 1 + Count(context.value, '\n') else 0)
    ensures line.None? && !Shown(context) ==> r == message
    ensures line.Some? ==> message + " at line " + IntToString(line.value) <= r
    ensures line.Some? && column.Some? ==>
      message + " at line " + IntToString(line.value) + ", column " + IntToString(column.value) <= r
  {
    var loc := Location(line, column);
    LocationNoBreak(line, column);
    CountConcat(message, loc, '\n');
    FormatPrefix(message, line, column);
    if Shown(context) then
      CountConcat(message + loc, "\n", '\n');
      CountConcat(message + loc + "\n", context.value, '\n');
      FormatPrefixExtends(message, line, column, "\n", context.value);
      message + loc + "\n" + context.value
    else message + loc
  }

  /** The location text starts with the line, then the column. */
  lemma {:induction false} FormatPrefix(message: string, line: Option<int>, column: Option<int>)
    ensures line.Some? ==> message + " at line " + IntToString(line.value) <= message + Location(line, column)
    ensures line.Some? && column.Some? ==>
      message + " at line " + IntToString(line.value) + ", column " + IntToString(column.value)
        <= message + Location(line, column)
  {
    if line.Some? {
      var n := IntToString(line.value);
      var col := if column.None? then "" else ", column " + IntToString(column.value);
      assert Location(line, column) == " at line " + n + col;
      PrefixOfJoin(message, " at line ", n, col);
      if column.Some? {
        PrefixOfJoin2(message, " at line ", n, ", column ", IntToString(column.value));
      }
    }
  }

  /** What follows the location does not disturb it. */
  lemma {:induction false} FormatPrefixExtends(message: string, line: Option<int>, column: Option<int>, t: string, u: string)
    requires line.Some? ==> message + " at line " + IntToString(line.value) <= message + Location(line, column)
    requires line.Some? && column.Some? ==>
      message + " at line " + IntToString(line.value) + ", column " + IntToString(column.value)
        <= message + Location(line, column)
    ensures line.Some? ==> message + " at line " + IntToString(line.value) <= message + Location(line, column) + t + u
    ensures line.Some? && column.Some? ==>
      message + " at line " + IntToString(line.value) + ", column " + IntToString(column.value)
        <= message + Location(line, column) + t + u
  {
    if line.Some? {
      var y := message + Location(line, column);
      PrefixExtend(message + " at line " + IntToString(line.value), y, t, u);
      if column.Some? {
        PrefixExtend(message + " at line " + IntToString(line.value) + ", column " + IntToString(column.value), y, t, u);
      }
    }
  }

  lemma {:induction false} PrefixExtend(x: string, y: string, t: string, u: string)
    requires x <= y
    ensures x <= y + t + u
  {
    assert (y + t + u)[..|y|] == y;
  }

  lemma {:induction false} PrefixOfJoin(m: string, a: string, n: string, c: string)
    ensures m + a + n <= m + (a + n + c)
  {
    assert m + (a + n + c) == (m + a + n) + c;
    assert ((m + a + n) + c)[..|m + a + n|] == m + a + n;
  }

  lemma {:induction false} PrefixOfJoin2(m: string, a: string, n: string, b: string, k: string)
    ensures m + a + n + b + k <= m + (a + n + (b + k))
  {
    assert m + (a + n + (b + k)) == m + a + n + b + k;
  }

  lemma {:induction false} CountAbsent(s: string, c: char)
    requires c !in s
    ensures Count(s, c) == 0
  {
    if s != [] {
      assert s[1..] <= s[1..] && forall k :: 0 <= k < |s[1..]| ==> s[1..][k] == s[k + 1];
      CountAbsent(s[1..], c);
    }
  }

  lemma LocationNoBreak(line: Option<int>, column: Option<int>)
    ensures Count(Location(line, column), '\n') == 0
  {
    if line.Some? {
      var a := SignedDigits(line.value);
      var tail := if column.None? then "" else ", column " + SignedDigits(column.value);
      assert '\n' !in " at line " + a + tail;
      CountAbsent(" at line " + a + tail, '\n');
    }
  }

  /** A one-line context is the last line of the formatted message, so the
      offending source line is printed on its own line at the end. */
  lemma {:induction false} ContextLastLine(message: string, line: Option<int>, column: Option<int>, context: string)
    requires context != "" && !HasLineBreak(context)
    ensures var ls := SplitLines(FormatMessage(message, line, column, Some(context)));
      ls != [] && ls[|ls| - 1] == context
  {
    assert FormatMessage(message, line, column, Some(context)) == message + Location(line, column) + "\n" + context;
    SplitLinesLast(message + Location(line, column), context);
  }
}

=== FILE: wrappers.dfy ===
/** Failure-compatible wrappers: an optional value and a value-or-error result.
    Both can be used with `:-` to propagate the failure case. */
module Wrappers {

  datatype Option<+T> = None | Some(value: T) {

    predicate IsFailure() {
      None?
    }

    function PropagateFailure<U>(): Option<U>
      requires None?
    {
      None
    }

    function Extract(): T
      requires Some?
    {
      value
    }

    function GetOr(default: T): T {
      match this
      case Some(v) => v
      case None => default
    }

    function ToResult<E>(error: E): Result<T, E> {
      match this
      case Some(v) => Success(v)
      case None => Failure(error)
    }
  }

  datatype Result<+T, +E> = Success(value: T) | Failure(error: E) {

    predicate IsFailure() {
      Failure?
    }

    function PropagateFailure<U>(): Result<U, E>
      requires Failure?
    {
      Failure(error)
    }

    function Extract(): T
      requires Success?
    {
      value
    }
  }
}
